=== FILE: README.md ===
# maplewood core model

A Dafny model of the scripting and story-state core of the maplewood 2D
game engine, together with the deterministic world rules that feed it. Every
operation is a pure function over immutable values, and each one carries
contracts and lemmas that state what the engine promises.

## What is modelled

- **Script scheduling**
  - `Scheduler` models `ScriptManager` of src/script/script.rs:
    - the FIFO start queue, drained at the top of every frame;
    - start gating by the `---@start_condition` story-variable condition and the `---@exclusive`-by-name rule;
    - the slot map of running instances;
    - the `Time`/`Message` wait protocol;
    - the retain pass that drops instances that can no longer be resumed.
  - `ScriptText` models the text side:
    - `---@` annotation parsing;
    - named-script slicing;
    - `--#` sub-scripts;
    - `{key}` substitution into start conditions.
  - `LegacyScript` models the older instance update of src/script.rs, with abort conditions and `StoryVar` waits.
  - `Prototype` models the unfinished manager of src/script_new.rs.
- **The Lua VM is not modelled.** `Vm` declares only a thread's status. Compiling a script and resuming a thread are oracle parameters: each resume returns the thread's new status, the host state its callbacks left, and the wait a blocking callback installed.
- **Time** is an integer clock passed in as a parameter.
- **Native callbacks**
  - `Callbacks` models src/script/callbacks.rs.
  - `LegacyCallbacks` models the older src/script/callback.rs and the `cb_*` functions of src/script.rs.
  - Both work over `StoryVars`, the story-variable store of src/misc.rs, and `Game`, the host state a script step can change.
  - The store has three write rules, and the model keeps all three:
    - `StoryVars::set` only overwrites;
    - the older callbacks insert;
    - `load_story_vars` (`Data`) inserts the ten initial keys.
- **The original command interpreter** of src/main.rs (`Commands`): messages, branches, local and global copies, `CloseGame`, and message substitution. A run is bounded by fuel.
- **Entity stores**
  - `SlotMap` is an explicit model of the generational slot map. It has slots, versions and a LIFO free list, because both query order and resume order are slot order.
  - `Ecs` models src/ecs/ecs.rs and src/ecs/query.rs:
    - one component map per component type;
    - the query forms `EntityId`, `&C`, `&mut C`, `Option`, `With`, `Without` and tuples;
    - name lookup;
    - the deferred mutation queue and its flush.
  - `NamedEcs` models the older name-keyed stores of src/ecs.rs and src/new_ecs.rs.
- **Components** (`Components`): the animation playback transitions shared by `AnimationComp` (src/components.rs) and the older `AnimationComponent` (src/ecs/components.rs), plus the component defaults and type names.
- **World rules**
  - `Geometry`: vectors, rectangles, collision boxes and unit conversions of src/math.rs, src/misc.rs and src/world.rs.
  - `Grid`: tile grids, map construction and collision lookup of src/map.rs, src/tilemap.rs and src/world.rs, and the walking of src/entity.rs.
  - `Systems`: the per-frame rules of src/update.rs, namely trigger queueing, the end of walking, the animation state machines, frame selection and the camera guard.
- **Loaders**
  - `Json` models JSON values; `Text` models the Rust string functions the code relies on.
  - `EntityFile` models the entity-file loader and saver of src/loader/loader.rs.
  - `LdtkEntities` models the LDtk entity loader of src/loader/ldtk_entities.rs.
  - `LegacyLoaders` models the two older LDtk loaders, src/loader.rs and src/ecs/loader.rs.
- **Game data and console**
  - `Data` models the initial story variables and script classes of src/data.rs.
  - `Console` models the input-history cursor and scrollback of src/dev_ui/console.rs.

### Modelling conventions

- Rust panics are kept as results: `Err` with the panic text, or `Panicked`/`Aborted` outcomes. Errors the code returns are kept the same way.
- `f64` is `real`.
- Integer casts are written out:
  - `as i32` from a float saturates (`Geometry.SatI32`);
  - `as i32` and `as u32` from integers wrap (`Grid.WrapI32`, `Grid.WrapU32`);
  - `i32` addition and subtraction that overflow panic as they do in a debug build, with Rust's overflow message (`Grid.CheckedI32`, the `Add` command in `Commands.StepCommand`).
- Hash-map iteration order is part of the state, as an explicit sequence.
- Strings are sequences of characters and indices are character positions. Every slice boundary the code finds by a search is a character boundary either way. The one byte offset it computes by arithmetic, the end index of `read_script_from_file`, carries its character-boundary panic explicitly (`ScriptText.SliceAsWritten`).

### Behaviour worth knowing

- Reading a missing story variable is an error for the script that asks (src/script/callbacks.rs:260-262, src/misc.rs:167-172).
- `StoryVars::set` writes only keys that already exist (src/misc.rs:174-179).
- A `Time` wait holds an absolute deadline, taken from the clock when the script calls `wait` and compared with the clock when each instance is visited (src/script/callbacks.rs:228, src/script/script.rs:142). The model compares it with one clock reading for the whole update pass.
- An area trigger queues its script on every frame in which the player overlaps it (src/update.rs:60-77).
- A script error is logged and ends only that script in src/script/script.rs (lines 171-178); src/script.rs panics on it (lines 492-497).

## Model

| member | source | states |
|---|---|---|
| Scheduler.New | src/script/script.rs:40-42 | a new manager has no instances and an empty start queue |
| Scheduler.QueueScript | src/script/script.rs:46-48 | queueing appends the source at the back of the start queue and creates no instance |
| Scheduler.ConditionAllows | src/script/script.rs:78-88 | a script with no start condition may start; one with a condition may start only when it evaluates to true, so a false or failing condition blocks it |
| Scheduler.StartScript | src/script/script.rs:74-127 | if the condition blocks, an exclusive script's name is already running, or the source does not compile, nothing changes; otherwise exactly one new slot appears, holding the compiled thread, the source, the `@script` name and no wait, and every existing instance is kept |
| Scheduler.StartAll | src/script/script.rs:59-61 | draining the queue keeps every instance that existed before, and every instance it adds waits on nothing |
| Scheduler.StartAllConcat | src/script/script.rs:59-61 | draining two batches is draining the first and then the second, so sources start in FIFO order |
| Scheduler.QueuedLastStartsLast | src/script/script.rs:46-61 | a newly queued source starts after everything queued before it |
| Scheduler.ExclusiveStartsOnce | src/script/script.rs:90-102 | starting a named exclusive script a second time changes nothing |
| Scheduler.UnnamedExclusiveStarts | src/script/script.rs:92-95 | an exclusive script with no name still starts when its condition allows and it compiles: the instance count grows by one |
| Scheduler.MissingConditionVarBlocksStart | src/script/script.rs:226-233 | a start condition naming a story variable the store lacks never starts the script, whatever the evaluator would say |
| Scheduler.ClearWait | src/script/script.rs:141-145 | the wait clears exactly when there is none, its deadline lies strictly before now, or it waits for a message and no window is open; otherwise it is kept unchanged |
| Scheduler.Step | src/script/script.rs:131-179 | an instance whose wait remains is left as it was with the host untouched; otherwise it is resumed once and takes the thread and wait the resume leaves, and the resume's error stays in the thread status |
| Scheduler.TimeBlockedSleeps | src/script/script.rs:142-148 | a deadline that has not passed keeps the instance asleep whatever the host state |
| Scheduler.StepAll | src/script/script.rs:63-69 | stepping the instances keeps the set of slots, leaves slots it does not visit alone and leaves sleeping instances unchanged |
| Scheduler.StepAllConcat | src/script/script.rs:63-69 | visiting two runs of slots is visiting the first, then the second with the instances and host the first left |
| Scheduler.StepAllStepsEachOnce | src/script/script.rs:63-69 | with slots visited in order, the live instance at position j is stepped exactly once, with the host the earlier slots left, and the host it leaves goes on to the next slot |
| Scheduler.StepAtFreshKey | src/script/script.rs:63-69 | the first slot of a run that does not come back later keeps the value its own step gave it |
| Scheduler.Update | src/script/script.rs:50-72 | after `update` the start queue is empty; an instance is kept exactly when it exists after starting and stepping and its thread is still Resumable, and the host is the one the stepping left; an instance that was Resumable and still time-blocked is kept unchanged |
| Scheduler.UpdateStartsThenSteps | src/script/script.rs:50-72 | the whole queue is started before any resume: the instance in the j-th live slot after the starts is stepped once with the host the earlier slots left, and kept exactly when its thread is still Resumable |
| Scheduler.StartedResumedSameFrame | src/script/script.rs:59-69 | an instance started by this `update` waits on nothing, so it is resumed in the same frame, and it is kept exactly when that resume leaves it Resumable |
| ScriptText.LeadingAnnotations | src/script/script.rs:209 | the header is the longest prefix of the lines that all start with `---`: every line in it does, and the first line after it does not |
| ScriptText.ApplyAllMatchesReference | src/script/script.rs:210-221 | folding the header line by line gives the last `@script` argument as the name, the last `@start_condition` argument as the condition, and exclusivity once any `@exclusive` line appears, with or without an argument; every other line has no effect |
| ScriptText.HasAnnotationSnoc | src/script/script.rs:211-217 | an annotation occurs in a header extended by one line exactly when it occurs in the header or names that line |
| ScriptText.ApplyAnnotationFields | src/script/script.rs:211-220 | one annotation line sets the name only for `@script` with an argument, the condition only for `@start_condition` with an argument, and exclusivity for any `@exclusive` |
| ScriptText.ApplyAllSnoc | src/script/script.rs:210-221 | the fold over a header extended by one line applies that line last |
| ScriptText.ExtractMetadataSpec | src/script/script.rs:206-224 | `extract_metadata` reads only the leading `---` lines and yields the last `@script` name, the last `@start_condition` and whether any `@exclusive` occurs |
| ScriptText.ExtractMetadata | src/script/script.rs:206-222 | the metadata is read from the leading `---` lines only: the last `@script` argument names the script, the last `@start_condition` argument is its condition, and it is exclusive once any `@exclusive` line appears |
| ScriptText.HeaderStart | src/script/script.rs:185-189 | the start is an occurrence of the CRLF header line (preferred anywhere in the file) or of the LF one; it is absent exactly when neither occurs |
| ScriptText.HeaderFits | src/script/script.rs:185-190 | a found header begins with `---@script` and lies strictly inside the file |
| ScriptText.NextHeader | src/script/script.rs:190-192 | the next `---@script` strictly after the start, or the end of the file, with no header in between |
| ScriptText.HeaderTagNoSelfOverlap | src/script/script.rs:190-191 | two occurrences of `---@script` are at least its length apart |
| ScriptText.EndAsWritten | src/script/script.rs:190-193 | the end index as written: one before the next header when there is one, the file's end otherwise |
| ScriptText.ReadScriptAsWritten | src/script/script.rs:182-197 | the as-written reading fails when the header is absent; otherwise it is the as-written slice from the header |
| ScriptText.SliceAsWritten | src/script/script.rs:190-194 | the as-written slice panics exactly when the character before the next header takes more than one byte; otherwise it is the file from the header up to one before the next header (or the end), with only blank text trimmed from the end |
| ScriptText.ReadScriptOffByOne | src/script/script.rs:190-193 | when another header follows and the character before it is not whitespace, the as-written reading drops that character and differs from the intended one |
| ScriptText.ReadScriptSplitsChar | src/script/script.rs:190-194 | when the character before the next header takes more than one byte, the as-written reading panics while the intended one succeeds |
| ScriptText.ReadScript | src/script/script.rs:182-197 | fails exactly when the header is absent; otherwise the text starts with the header tag, holds no other header, is the file's text from the header on, ends in a non-blank character, and only blank text lies between its end and the next header |
| ScriptText.TrimmedTailIsBlank | src/script/script.rs:194 | the trimmed slice is the file's text from the start, and what the trim removes is blank |
| ScriptText.ScriptSliceFacts | src/script/script.rs:194 | the trimmed slice from one header to the next starts with the tag, contains no other header and is a slice of the file |
| ScriptText.SliceHasNoOtherHeader | src/script/script.rs:190-194 | any prefix of the text between two headers holds no header but the first |
| ScriptText.SubScript | src/script.rs:503-507 | a sub-script that is found contains no `--#` |
| ScriptText.SubScriptSlice | src/script.rs:503-507 | a found sub-script is the text right after the first occurrence of `--# label`, up to the next `--#` |
| ScriptText.SubScriptFound | src/script.rs:503-507 | a sub-script is found exactly when its label occurs and a later `--#` closes it; otherwise the source panics |
| ScriptText.FirstFailure | src/misc.rs:22-27 | the first match whose replacement fails, with every earlier replacement succeeding; none when all succeed |
| ScriptText.ReplaceFrom | src/misc.rs:15-30 | `try_replace_all` fails exactly when some replacement fails, and then with the first failing replacement's error |
| ScriptText.Gaps | src/misc.rs:22-28 | the stretches of text the matches leave, one more than there are matches, each running from the previous match's end (or the start) to the next match's start (or the end) |
| ScriptText.Replacements | src/misc.rs:24 | one replacement text per match, each the callback's result on that match's text |
| ScriptText.ReplaceFromWeaves | src/misc.rs:15-30 | when no replacement fails, the result is the text the matches leave, kept in order, with each match replaced by its callback's text |
| ScriptText.GapsShift | src/misc.rs:22-25 | past the first match, the remaining stretches are those the later matches leave from its end |
| ScriptText.ReplacementsShift | src/misc.rs:24 | past the first match, the remaining replacements are those of the later matches |
| ScriptText.ReplaceWithSelfIsIdentity | src/misc.rs:15-30 | text outside the matches is kept verbatim and in order: replacing every match by its own text, or having no matches, gives back the input |
| ScriptText.TryReplaceAll | src/misc.rs:15-30 | fails exactly when some replacement fails, with the error of the first failing match; otherwise the text the matches leave, in order, woven with each match's replacement |
| ScriptText.NextBrace | src/script/script.rs:228 | the first brace after a position, with none in between; none when no brace follows |
| ScriptText.PlaceholderMeaning | src/script/script.rs:228 | a placeholder is an opening brace and a closing brace with no brace between them |
| ScriptText.BraceMatchAt | src/script/script.rs:228 | a match of `\{([^{}]*)\}` found at a position ends just after a closing brace and covers a placeholder |
| ScriptText.BraceSpans | src/script/script.rs:228-233 | the matches are ordered, non-overlapping, within the text, and each is a placeholder match at its start |
| ScriptText.BraceSpansComplete | src/script/script.rs:228-233 | every placeholder is among the matches |
| ScriptText.NoBracesNoSpans | src/script/script.rs:228 | text without braces has no matches |
| ScriptText.LookupKey | src/script/script.rs:231-232 | a match's replacement succeeds exactly when the text between its braces is a story variable, and is then that variable's value in decimal; otherwise the error names the key |
| ScriptText.LookupOfMatch | src/script/script.rs:231-232 | the lookup of the match `[i, j]` fails exactly when the text strictly between its ends is not a key |
| ScriptText.FailedLookupIsMissingKey | src/script/script.rs:230-233 | a failing lookup sits on a placeholder whose key the store lacks |
| ScriptText.SubstitutionErrorMeansMissingKey | src/script/script.rs:230-233 | substitution fails only on a placeholder whose key is missing |
| ScriptText.SubstituteStoryVars | src/script/script.rs:227-233 | text without braces is returned unchanged; substitution succeeds exactly when no placeholder lookup fails, and then every placeholder is replaced by its variable's decimal value with the text around kept in order; a failure names a key the store lacks |
| ScriptText.MissingKeyMeansSubstitutionError | src/script/script.rs:230-233 | a placeholder whose key is missing makes the substitution fail |
| ScriptText.SubstituteOnePlaceholder | src/script/script.rs:226-233 | an expression with one `{key}` placeholder whose key is stored becomes the expression with the value in decimal in place of the placeholder |
| ScriptText.OnlyPlaceholder | src/script/script.rs:228 | the braces around a brace-free key in brace-free text are the pattern's only match |
| ScriptText.SecondAfterFirst | src/misc.rs:21-26 | matches reported in order do not overlap |
| ScriptText.SubstitutionFailsIffMissingKey | src/script/script.rs:226-233 | substitution fails exactly when some `{key}` names a missing story variable, and an expression without braces passes through unchanged |
| ScriptText.EvaluateCondition | src/script/script.rs:226-238 | a failed substitution is an error; otherwise the result is the evaluator's verdict on the substituted text |
| LegacyScript.NewInstance | src/script.rs:182-189 | a new instance carries its class, is not finished and has no wait |
| LegacyScript.ReadVar | src/script.rs:211 | reading a story variable succeeds exactly when it exists, with its value; a missing one panics |
| LegacyScript.Holds | src/script.rs:209-215 | a condition is decided exactly when its variable exists, and holds exactly when the variable equals the value |
| LegacyScript.Blocks | src/script.rs:217-227 | no wait never blocks; `Time(until)` blocks while `until > now`; `Message` blocks while a window is open; `StoryVar(k, v)` panics on a missing `k` and otherwise blocks while the value differs from `v` |
| LegacyScript.Step | src/script.rs:193-498 | an abort condition that holds finishes the instance without resuming it and leaves the host alone; otherwise a wait that still blocks leaves instance and host alone; otherwise the coroutine is resumed once, the step panics exactly when it errors, and else the instance takes the thread and wait the resume leaves and is finished exactly when the thread returned; a missing story variable in either check panics |
| LegacyScript.AbortWins | src/script.rs:209-215 | an abort condition that holds finishes the instance without resuming it and leaves the host unchanged |
| LegacyScript.BlockedIsSkipped | src/script.rs:217-227 | a wait that still blocks leaves instance and host unchanged |
| LegacyScript.ResumedInstance | src/script.rs:229-498 | once the wait has cleared, the step panics exactly when the coroutine errors; otherwise the instance carries the wait the resume installed and is finished exactly when its thread is no longer resumable |
| LegacyScript.StoryVarWaitReleases | src/script.rs:221-223 | a story-variable wait on an existing variable blocks exactly while the variable differs from the awaited value |
| LegacyScript.Qualifies | src/script.rs:516-522 | a class qualifies when its trigger matches and its start condition is absent or holds; a condition on a missing variable panics |
| LegacyScript.FilterScripts | src/script.rs:509-525 | the filter completes exactly when no class's verdict panics |
| LegacyScript.FilterScriptsKeeps | src/script.rs:509-525 | a completed filter keeps exactly the classes that qualify |
| LegacyScript.FilterScriptsConcat | src/script.rs:509-525 | the filter keeps input order: filtering a concatenation concatenates the two filtered parts |
| LegacyScript.KeepIfAppend | src/script.rs:514-524 | deciding one class commutes with appending the later results |
| LegacyScript.FilterOne | src/script.rs:509-525 | a single class is kept exactly when it qualifies |
| Prototype.HeaderName | src/script_new.rs:53-62 | the name loop panics exactly when some header line has no space after `---`; otherwise `@script` lines set the name |
| Prototype.HeaderNameAgrees | src/script_new.rs:55-62 | when it does not panic, the prototype reads the same name as `extract_metadata` of the current runtime |
| Prototype.StartScript | src/script_new.rs:51-75 | panics exactly when the name loop does; a compile error is dropped and changes nothing; otherwise exactly one new slot holds the thread, the `@script` name and no wait |
| Prototype.ClearWaitAsWritten | src/script_new.rs:85-89 | the wait check as written: a `Time` wait clears while its deadline is still in the future, a `Message` wait once no window is open, and a kept wait is unchanged |
| Prototype.TimeWaitReversed | src/script_new.rs:86 | with the check as written, a script sleeping until a future time resumes at once, and once the deadline has passed it never resumes again |
| Prototype.TimeWaitCorrected | src/script/script.rs:142 | the corrected check keeps the script asleep until the deadline has strictly passed and then releases it |
| Prototype.ChecksCompared | src/script_new.rs:85-89 | message waits are handled alike by both checks; for time waits away from the deadline the two checks give opposite verdicts |
| Prototype.CurrentAgreesWithLegacy | src/script.rs:218-220 | the current runtime and the first runtime agree on message waits and on time waits, except exactly at the deadline, where the first runtime already resumes |
| Prototype.Visit | src/script_new.rs:85-106 | one turn of the loop touches only its own slot; it raises exactly when the instance is live, its wait clears and the resume errors; an instance still waiting keeps the message box as it was, a resumed one takes the thread, wait and message box the resume leaves |
| Prototype.StepAll | src/script_new.rs:84-107 | the loop keeps the set of slots and leaves slots it does not visit alone; when the first visit raises, the loop ends with exactly that visit's result |
| Prototype.StepAllConcat | src/script_new.rs:84-107 | visiting two runs of slots is visiting the first and, unless a resume in it raised, then the second from where the first left off |
| Prototype.StepAllPrefix | src/script_new.rs:84-107 | the loop reaches position j with what the earlier slots left, unless a resume among them raised |
| Prototype.StepAllStopsAtRaise | src/script_new.rs:103-106 | once the resume at position j has raised, the loop ends there: the message box is the one that resume left and every later slot is as it was before the loop |
| Prototype.StepAllEndsAtRaise | src/script_new.rs:103-106 | after a raise the keys that follow change nothing: the whole loop equals the loop up to the raise |
| Prototype.UpdateWith | src/script_new.rs:77-114 | the loop's error is only logged; an instance is kept exactly when it exists after the loop and its thread is still Resumable, and the message box is the one the loop left |
| Prototype.UpdateAsWritten | src/script_new.rs:77-114 | `update` as written keeps exactly the instances the loop with the reversed check leaves Resumable |
| Prototype.Update | src/script_new.rs:77-114 | `update` with the corrected deadline check keeps exactly the instances the loop leaves Resumable |
| Callbacks.GetStoryVar | src/script/callbacks.rs:260-262 | succeeds exactly when the key is in the store, with its stored value; a missing key gives the error "no story var `key`" |
| Callbacks.SetThenGetStoryVar | src/script/callbacks.rs:264-267 | a value written with `set_story_var` can be read back only if the key already existed; for a new key the read still fails |
| Callbacks.ParseDirection | src/script/callbacks.rs:389-395 | exactly "up", "down", "left" and "right" are directions, and the parsed direction is named by the input string |
| Callbacks.DirectionNameRoundTrip | src/script/callbacks.rs:389-395 | every direction's script name parses back to that direction |
| Callbacks.StartWalking | src/script/callbacks.rs:397-409 | for an entity that walks, storing a walk writes the new `Walking`, turns `Facing` only when the entity has one, and touches no other component or entity |
| Callbacks.FindWalker | src/script/callbacks.rs:385-387 | the walker is the entity the `(&Position, Option<&mut Facing>, &mut Walking)` name lookup finds, with that entity's position and walking state; it is found whenever the lookup succeeds |
| Callbacks.Walk | src/script/callbacks.rs:381-412 | an unknown entity gives "invalid entity", a bad direction gives an error, and both leave the store as it was; otherwise the destination lies exactly `distance` ahead of the position along the direction and on its line, the speed and direction are set, and only `Walking`/`Facing` of that entity change |
| Callbacks.WalkTo | src/script/callbacks.rs:415-441 | same error cases as `walk`; on success the moving coordinate of the destination is the argument and the other coordinate is the entity's current one |
| Callbacks.IsEntityWalking | src/script/callbacks.rs:443-448 | errors for a name without a `Walking` entity; otherwise true exactly when that entity's walking state has a destination |
| Callbacks.WalkThenIsWalking | src/script/callbacks.rs:381-448 | after a successful `walk`, `is_entity_walking` on the same name answers true (when both lookups find the same entity) |
| Callbacks.WithAnimation | src/script/callbacks.rs:499-501 | writing an entity's animation component changes that component only |
| Callbacks.PlayObjectAnimation | src/script/callbacks.rs:450-457 | unknown entity is an error; otherwise only the animation changes, to Playing from elapsed 0 with the given repeat and the same clip |
| Callbacks.StopObjectAnimation | src/script/callbacks.rs:459-465 | unknown entity is an error; otherwise only the animation changes, to Stopped and not forced, same clip |
| Callbacks.DualTransition | src/script/callbacks.rs:475-479 | only 1 and 2 are accepted, and each names one of the two transition states |
| Callbacks.FindDual | src/script/callbacks.rs:471-473 | the entity found by name holding both an animation and a two-state animation set, with those two components |
| Callbacks.SwitchDualStateAnimation | src/script/callbacks.rs:467-485 | unknown entity or a state other than 1/2 is an error with no change; 1 enters SecondToFirst, 2 enters FirstToSecond, the animation restarts non-repeating, and only those two components change |
| Callbacks.SetDualState | src/script/callbacks.rs:481-482 | entering a transition state changes only the entity's animation and two-state set, restarting the animation once |
| Callbacks.WithDualState | src/script/callbacks.rs:481 | writing the two-state set changes that component only |
| Callbacks.FindNamedAnimated | src/script/callbacks.rs:491-493 | the entity found by name holding an animation and named clips, with those components |
| Callbacks.PlayNamedAnimation | src/script/callbacks.rs:487-504 | unknown entity is an error; otherwise succeeds exactly when the clip name is known, and then the animation plays that clip, forced, from elapsed 0 with the given repeat, touching nothing else |
| Callbacks.EmitEntitySfx | src/script/callbacks.rs:563-573 | unknown emitter is an error; otherwise only the emitter changes, to the given sound and repeat flag |
| Callbacks.StopEntitySfx | src/script/callbacks.rs:575-582 | unknown emitter is an error; otherwise only the emitter changes, to no sound and not repeating |
| Callbacks.LockPlayerInput | src/script/callbacks.rs:347-360 | always locks player movement, never fails, leaves story variables, message window and running flag alone, and halts the player |
| Callbacks.HaltPlayer | src/script/callbacks.rs:355-357 | with no walking player nothing changes; otherwise only the player's walking speed becomes 0 |
| Callbacks.HaltFound | src/script/callbacks.rs:355-357 | halting a found walker zeroes its speed and touches nothing else; no walker, no change |
| Callbacks.Halt | src/script/callbacks.rs:356 | zeroing a walker's speed changes only its `Walking` |
| Callbacks.ScriptMessage | src/script/callbacks.rs:626-634 | the script binding opens the message window with the text and changes nothing else in the host; the wait it installs holds on every frame while that window is open and clears on any frame with no window |
| Callbacks.ConsoleMessage | src/script/callbacks.rs:242-247 | the console binding opens the same window but installs no wait |
| LegacyCallbacks.GetStoryVar | src/script/callback.rs:17-20 | returns the stored value exactly when the key exists, otherwise raises the runtime's missing-variable error (`NoStoryVar` here, `InvalidStoryVar` in `cb_get_storyvar`); never panics |
| LegacyCallbacks.SetStoryVar | src/script/callback.rs:22-28 | always returns; the key is present afterwards with the new value (created if it was absent) and every other key keeps its value |
| LegacyCallbacks.OlderSetCreatesNewerDoesNot | src/script.rs:537-543 | on a key not yet in the store, the older setter makes it readable while the current `set_story_var` leaves the read failing |
| LegacyCallbacks.WalkWith | src/script/callback.rs:116-147 | a missing entity raises the not-found error, a bad direction gives the caller's bad-direction outcome, and only with both present does the walk return: facing and direction set, speed set, destination exactly `distance` ahead on the line of motion, position unchanged |
| LegacyCallbacks.WalkToWith | src/script/callback.rs:149-175 | same outcomes as the walk; on success the destination's moving coordinate is the argument and its other coordinate the current one |
| LegacyCallbacks.Walk | src/script/callback.rs:116-147 | unknown entity raises `NoEntity`; an unknown direction raises a `Generic` error; never panics |
| LegacyCallbacks.WalkTo | src/script/callback.rs:149-175 | unknown entity raises `NoEntity`; an unknown direction is also reported as `NoEntity`; never panics |
| LegacyCallbacks.BadDirectionErrorsDiffer | src/script/callback.rs:129-162 | for a present entity and a bad direction, `walk` raises a `Generic` error and `walk_to` a `NoEntity` error |
| LegacyCallbacks.CbWalk | src/script.rs:579-608 | unknown entity raises `InvalidEntity`; it panics exactly when the entity is present and the direction is unknown |
| LegacyCallbacks.CbWalkTo | src/script.rs:610-636 | unknown entity raises `InvalidEntity`; it panics exactly when the entity is present and the direction is unknown |
| LegacyCallbacks.IsEntityWalking | src/script.rs:780-785 | raises the not-found error exactly when there is no entity; otherwise true exactly when a destination is set |
| LegacyCallbacks.WalkedEntityIsWalking | src/script/callback.rs:177-180 | after any successful walk or walk-to, the entity reports itself walking |
| LegacyCallbacks.PlayObjectAnimation | src/script/callback.rs:183-192 | unknown entity raises `NoEntity`; otherwise playing with the given repeat, elapsed time kept |
| LegacyCallbacks.StopObjectAnimation | src/script/callback.rs:194-203 | unknown entity raises `NoEntity`; otherwise neither playing nor repeating, elapsed time kept |
| LegacyCallbacks.StopAfterPlay | src/script/callback.rs:183-203 | stop after play equals stop alone, and play after stop equals play alone |
| LegacyCallbacks.LockPlayerInput | src/script/callback.rs:98-114 | always locks; the player's walking, if present, keeps everything but a zero speed; a player without one is left alone |
| LegacyCallbacks.CbLockPlayerInput | src/script.rs:552-566 | locks and zeroes the speed, and panics exactly when the player has no `Walking` |
| LegacyCallbacks.ShowMessage | src/script/callback.rs:272-294 | opens the same window as `cb_message`/`cb_selection` (text, selection flag, calling script); the wait it installs holds while a window is open and clears once none is |
| LegacyCallbacks.CbShowMessage | src/script.rs:787-812 | opens a window with the text, the selection flag and the calling script; the wait it installs blocks the script exactly while a window is open |
| LegacyCallbacks.MessageAndSelectionDiffer | src/script.rs:787-812 | a message and a selection differ only in the selection flag, and the wait they install blocks while the window is open and releases once it is closed |
| Commands.NewScript | src/main.rs:162-170 | a new script runs the given commands from command 0 with no locals, neither waiting nor finished |
| Commands.InitialGlobals | src/main.rs:62-66 | the game starts with exactly one global, the pot counter, at 0 |
| Commands.SplitAtFirst | src/main.rs:187-188 | `split_once` at a character splits at its first occurrence |
| Commands.SubstituteAsWritten | src/main.rs:186-193 | the placeholder loop as written returns text without `{`, and returns text that has none unchanged |
| Commands.PlaceholderReplaced | src/main.rs:187-192 | the first `{key}` is replaced by the decimal value of the local `key`; a missing local panics |
| Commands.UnclosedBraceHangs | src/main.rs:187-193 | a `{` with no `}` after it makes the loop as written spin forever, while the corrected loop shows the text as it is |
| Commands.Substitute | src/main.rs:186-193 | the corrected loop always returns, and returns text without `{` unchanged |
| Commands.SubstituteAgrees | src/main.rs:186-193 | whenever the loop as written returns, the corrected loop returns the same |
| Commands.Read | src/main.rs:190 | `get(..).unwrap()` succeeds exactly for a present key, with its value, and otherwise panics |
| Commands.ReadKey | src/main.rs:212-251 | exactly the commands other than `Message`, `IsPlayerAtCellPos`, `CloseGame`, `SetGlobal` and `Set` read a variable with `unwrap` before acting |
| Commands.StepCommand | src/main.rs:181-256 | past the last command the script finishes; only a `Message` sets waiting; commands never change; reading a missing variable panics, and only that, a `Message` placeholder or an overflowing `Add` can panic |
| Commands.ComparisonsBranch | src/main.rs:238-251 | `IfEqual` jumps to the true branch exactly when the local equals the value, and `IfNotEqual` jumps like `IfEqual` with its branches swapped; neither writes anything |
| Commands.WritesOneEntry | src/main.rs:200-237 | each non-message command writes at most one entry of one map, the value the command names, and moves to its `next` |
| Commands.CloseGameFinishes | src/main.rs:208-211 | `CloseGame` clears `running` and jumps to `usize::MAX`, so the next pass finishes the script |
| Commands.Run | src/main.rs:173-257 | running stops only when the script waits or has finished; a script already stopped is left as it is |
| Commands.RunFuelMonotone | src/main.rs:181 | more passes never change a run that has already stopped |
| Commands.Interact | src/main.rs:320-327 | Space on an interactable cell starts a new script with its commands, replacing any current one; elsewhere nothing changes |
| Commands.Advance | src/main.rs:330-335 | Return hides the message window and clears waiting on the current script, if any |
| Commands.ReturnResumesAfterMessage | src/main.rs:184-199 | a message stops the script with the window shown; after Return the script goes on at the message's `next` with its locals unchanged |
| Commands.Tick | src/main.rs:76-85 | a script left after a frame is waiting and not finished; a finished script is dropped |
| Commands.PotFirstMessage | src/main.rs:120 | the first-visit text of the pot has no placeholder and shows as written |
| Commands.PotTimesMessage | src/main.rs:121 | the other text shows the counter in decimal |
| Commands.PotText | src/main.rs:119-121 | the pot's message is the first-visit text at 0 and the visit count otherwise |
| Commands.PotRunsToMessage | src/main.rs:118-121 | on the first frame the pot copies its counter into a local and stops at the message |
| Commands.PotMessageStep | src/main.rs:119-121 | the pot's message command shows the text for the counter and waits |
| Commands.PotRunsToEnd | src/main.rs:122-123 | after Return, for any `i32` counter, the local is incremented, written back to the counter, and the script runs off its end; at the largest `i32` the increment panics with the overflow message |
| Commands.PotCountsVisits | src/main.rs:115-125 | one full interaction with the pot adds exactly one to its counter and leaves the other globals alone |
| StoryVars.Get | src/misc.rs:167-172 | reading a story variable gives its value exactly when the key exists, and nothing for an unknown key |
| StoryVars.Set | src/misc.rs:174-179 | setting overwrites an existing key, leaves other keys alone, and never creates a key |
| StoryVars.Insert | src/script/callback.rs:22-28 | the older write creates or overwrites the key and leaves other keys alone |
| StoryVars.SetAndInsertAgreeOnExistingKeys | src/misc.rs:174-179 | a write is read back by `Set` only for an existing key and by `Insert` always, and the two writes coincide exactly on existing keys |
| StoryVars.WritesAreLocal | src/misc.rs:167-179 | a write to one story variable never changes what another reads |
| Geometry.SatI32 | src/math.rs:201-210 | a float-to-`i32` cast keeps in-range values and saturates at the `i32` bounds |
| Geometry.ToCellPos | src/world.rs:19-23 | the cell is always an `i32` cell; away from the bounds it is the unit square that holds the position, and beyond them the cast saturates onto the boundary cell |
| Geometry.CellCenter | src/world.rs:26-30 | the centre is half a unit from the corner on each axis and, for an `i32` cell, lies in that cell |
| Geometry.CellCorner | src/math.rs:213-217 | the corner lies in the cell and lands on pixel `CellSize` times the cell index, saturated to `i32` |
| Geometry.ToPixels | src/math.rs:201-206 | the pixel is the cell of the position scaled by `CellSize`, so away from the bounds the scaled position lies in it |
| Geometry.VectorInverses | src/math.rs:52-106 | vector subtraction undoes addition, and division by a nonzero scalar undoes scaling |
| Geometry.StepIsAhead | src/script/callbacks.rs:389-412 | a walk step of a distance in a direction lands exactly that far ahead and on the line, and no other point does |
| Geometry.RectFromCenter | src/math.rs:139-146 | a rectangle built from a centre is centred there and has the given width and height |
| Geometry.BoxAround | src/misc.rs:41-48 | a collision box built around a position is centred there and has the given size |
| Geometry.IntersectsIffCommonPoint | src/misc.rs:50-59 | overlap is symmetric, and two boxes of positive size overlap exactly when some point lies strictly inside both |
| Geometry.ContainsOwnCenter | src/misc.rs:57-59 | a box contains its own centre exactly when it has positive width and height |
| Geometry.ResolveAgainstVelocity | src/misc.rs:61-87 | resolving keeps the box's size and leaves it in place when it does not overlap or does not move |
| Geometry.ResolveAgainstVelocitySeparates | src/misc.rs:61-87 | an overlapping moving box always ends up clear of the other box, pushed against its velocity on each axis it moves along |
| Geometry.ResolveAgainstPrevious | src/world.rs:57-83 | resolving against the previous position keeps the size and leaves a non-overlapping box in place |
| Geometry.ResolveAgainstPreviousSeparates | src/world.rs:57-83 | a box that was clear of the other on some side before the move ends up clear of it, and one that already overlapped on both axes is not moved |
| Geometry.CellRoundTrip | src/world.rs:19-30 | a cell's corner and centre map back to that cell, a position maps to a cell exactly when it lies inside it away from the `i32` bounds, and positions beyond the bounds land on the boundary cells |
| Geometry.FloorIsCell | src/math.rs:208-210 | flooring to `i32` yields a cell exactly when the value lies within that cell, away from the saturation bounds |
| Components.Start | src/components.rs:81-85 | starting plays from elapsed 0 with the given repeat and keeps the clip and the forced flag |
| Components.Pause | src/components.rs:88-90 | pausing changes the playback state to Paused and nothing else |
| Components.Resume | src/components.rs:93-95 | resuming changes the playback state to Playing and nothing else |
| Components.Stop | src/components.rs:97-100 | stopping sets Stopped and clears `forced`, keeping clip, elapsed time and repeat |
| Components.PauseResumeRoundTrip | src/ecs/components.rs:60-79 | pausing then resuming a playing animation gives it back unchanged, and starting ignores whether it was paused, resumed or stopped before |
| Components.TagName | src/ecs/ecs.rs:15-17 | every component type's name is one of the sixteen serialized component names |
| Components.TagNamed | src/loader/loader.rs:107-123 | a name denotes a component type exactly when it is one of the sixteen names, and that type's name is the given one |
| Components.TagNameRoundTrip | src/loader/loader.rs:107-123 | names and component types correspond one to one |
| Components.LastSegment | src/ecs/ecs.rs:15-17 | the last `::`-separated segment of a type path is a suffix of it containing no `::`, and a path without `::` is its own last segment |
| Components.LastSegmentOfQualified | src/ecs/ecs.rs:15-17 | a qualified type path `prefix::Name` yields `Name` whatever the module prefix |
| Components.GetSource | src/components.rs:228-240 | an inline source is returned unchanged; a file source fails when the file is absent, is returned whole without a script name, and is sliced by the named-script reader with one |
| Ecs.CmGet | src/ecs/ecs.rs:41 | a component map yields a value for a key exactly when it holds an entry for that key's slot stored under that key's version |
| Ecs.CmInsert | src/ecs/ecs.rs:121-126 | inserting stores the component for the key unless a newer key of the same slot already owns the entry, and leaves every other slot alone |
| Ecs.CmRemove | src/ecs/ecs.rs:134 | removing leaves no entry for the key, leaves other slots alone, and is a no-op when the key held nothing |
| Ecs.New | src/ecs/ecs.rs:53-60 | a new store has no live entity, no queued mutation, and satisfies the store invariants |
| Ecs.AddEntity | src/ecs/ecs.rs:109-111 | the new id was not live before, is live after, holds no component yet, and no other id changes liveness |
| Ecs.RemoveEntity | src/ecs/ecs.rs:113-115 | the id stops being live, every other id keeps its liveness, and the entity's components stay stored |
| Ecs.AddComponent | src/ecs/ecs.rs:117-128 | the component becomes the entity's component of its type (creating that type's map on first use) and every other type and slot is unchanged |
| Ecs.AddComponentIssued | src/ecs/ecs.rs:117-128 | for a live entity the added component is always stored, and stored entries never run ahead of their slot's version |
| Ecs.RemoveComponent | src/ecs/ecs.rs:130-135 | afterwards the entity holds no component of that type, nothing else changes, and nothing happens for a type never added |
| Ecs.QueryForms | src/ecs/query.rs:12-155 | the filter and borrow of each query form: ids always pass, `&C`, `&mut C` and `With<C>` pass when the component is held, `Without<C>` when it is not, `Option<Q>` always passes and is `Some` when `Q` passes, and a tuple passes when all its parts do |
| Ecs.FilterKeys | src/ecs/ecs.rs:62-67 | the kept ids are exactly those passing the filter, in their original order |
| Ecs.Filtered | src/ecs/ecs.rs:62-67 | the filter lists exactly the live ids passing the query, in increasing slot order |
| Ecs.RunQuery | src/ecs/ecs.rs:69-74 | `query` yields one borrow per filtered id, in the same order |
| Ecs.DropKey | src/ecs/ecs.rs:80-84 | dropping an id keeps exactly the other ids, in order |
| Ecs.QueryExceptIds | src/ecs/ecs.rs:76-85 | `query_except` visits exactly the live passing ids other than the excluded one |
| Ecs.QueryExcept | src/ecs/ecs.rs:76-85 | `query_except` yields one borrow per such id, in order |
| Ecs.QueryOneWithId | src/ecs/ecs.rs:89-96 | a single-id query gives a result exactly when the id passes the filter, without checking that the id is still live |
| Ecs.FirstNamed | src/ecs/ecs.rs:102-107 | the position found is the first one whose entity carries the name and passes the query; none is found only when no position matches |
| Ecs.FindByName | src/ecs/ecs.rs:102-107 | a name lookup settles on the live matching entity with the lowest slot index, and fails only when no live entity matches |
| Ecs.QueryOneWithName | src/ecs/ecs.rs:102-107 | `query_one_with_name` gives a result exactly when a match exists, and it is the borrow of that first match |
| Ecs.RemovedEntityLeavesQueries | src/ecs/ecs.rs:113-115 | a removed entity drops out of every query, while a lookup by its old id still sees its components |
| Ecs.FilterDependsOnComponents | src/ecs/query.rs:12-155 | a query's filter reads only the component maps, never the entity slot map |
| Ecs.FilterDependsOnHeldTypes | src/ecs/query.rs:12-155 | a query's filter depends only on which component types the entity holds |
| Ecs.SameShapeSameLookups | src/ecs/ecs.rs:102-107 | stores with the same live ids, held component types and names resolve every name lookup alike, so rewriting a non-name component never redirects a lookup |
| Ecs.AddEntityDeferred | src/ecs/ecs.rs:140-148 | reserving a deferred id leaves the store untouched, queues one creation, and the deferred id maps to no real id yet |
| Ecs.RemoveEntityDeferred | src/ecs/ecs.rs:151-155 | a deferred removal only queues the removal |
| Ecs.AddComponentDeferred | src/ecs/ecs.rs:158-179 | a deferred add, to a real or a deferred id, only queues the add |
| Ecs.RemoveComponentDeferred | src/ecs/ecs.rs:182-189 | a deferred component removal only queues it |
| Ecs.Apply | src/ecs/ecs.rs:140-189 | a queued creation adds one fresh live entity, the one a direct add would give, and binds the deferred id to it, leaving other deferred ids alone; a queued removal or a component add or removal on a real id acts exactly as the direct call; a component for a deferred id acts on the entity bound to it and is dropped when none is bound; the deferred ids and the queue are kept |
| Ecs.ApplyAll | src/ecs/ecs.rs:191-194 | running the queue keeps the store well formed and keeps the queue and the set of deferred ids |
| Ecs.ApplyAllConcat | src/ecs/ecs.rs:191-194 | running two runs of mutations is running the first, then the second on what the first left |
| Ecs.ApplyAllSnoc | src/ecs/ecs.rs:191-194 | the last queued mutation runs last, on what the rest of the queue left |
| Ecs.FlushDeferredMutations | src/ecs/ecs.rs:191-196 | flushing leaves an empty queue and no deferred id, and keeps the store well formed |
| Ecs.FlushRunsQueueInOrder | src/ecs/ecs.rs:191-196 | the flush runs the queue in the order it was filled: its entities and components are those of running the last mutation on what the rest of the queue left |
| Ecs.DeferredComponentLandsOnNewEntity | src/ecs/ecs.rs:140-196 | a component queued for a deferred id lands, at the flush, on the entity the queued creation makes: the id a direct add would have returned, live and holding the component |
| Ecs.DeferredRemovalsMatchDirect | src/ecs/ecs.rs:151-196 | queued removals on a real id, once flushed, act as the direct removals |
| SlotMap.Empty | src/ecs/ecs.rs:55-58 | a fresh slot map is well formed and has no key |
| SlotMap.Get | src/ecs/ecs.rs:171 | a lookup succeeds exactly for a key whose slot is occupied at that key's version |
| SlotMap.Keys | src/ecs/ecs.rs:66 | iteration lists exactly the live keys, by increasing slot index |
| SlotMap.Insert | src/ecs/ecs.rs:109-111 | inserting returns a key that was not live, now maps to the value, has a version newer than any earlier key of its slot (or opens a new slot), and leaves every other key alone |
| SlotMap.Remove | src/ecs/ecs.rs:113-115 | removing makes the key dead, leaves every other key alone, and is a no-op on a dead key |
| SlotMap.Set | src/ecs/ecs.rs:144 | writing through a live key replaces its value and changes neither other keys nor the key set |
| SlotMap.RetainKeys | src/script/script.rs:71 | visiting keys in order and removing the failing ones leaves exactly the unvisited values and the visited values that pass |
| SlotMap.Retain | src/script/script.rs:71 | `retain` keeps a key's value exactly when the key was live and its value passes the predicate |
| SlotMap.Values | src/script/script.rs:98 | the values are listed in key iteration order, one per live key |
| SlotMap.Clear | src/ecs/ecs.rs:195 | after `clear` no key is live |
| SlotMap.KeysAddOne | src/ecs/ecs.rs:109-111 | one more live key means one more stored value |
| SlotMap.LiveSet | src/ecs/ecs.rs:45 | the live keys form a set whose size is the number of stored values |
| Grid.WrapI32 | src/map.rs:30-31 | an `as i32` cast from a wider integer stays in `i32` range and keeps values already in range |
| Grid.WrapU32 | src/map.rs:44 | an `as u32` cast keeps the low 32 bits, so values already in range are unchanged |
| Grid.CheckedI32 | src/map.rs:42-43 | `i32` arithmetic gives its value exactly when it stays in range, and the overflow panic otherwise |
| Grid.RowMajor | src/world.rs:97-104 | a row and column inside the grid name a storage position inside it from which both can be read back |
| Grid.GetCellAt | src/world.rs:97-104 | a cell lookup succeeds only for a column and row inside the grid, and for every such cell when the dimensions fit in `i32` |
| Grid.GetCellReadsOwnCell | src/tilemap.rs:30-37 | an in-bounds lookup reads that row and column of the grid, and different cells read different storage |
| Grid.CellsOf | src/map.rs:30-31 | a level's pixel size divided by the cell size gives the number of whole cells it spans |
| Grid.Slot | src/map.rs:42-44 | a tile's slot, when it has one, lies inside the layer, and the tile carries both pixel coordinates |
| Grid.SlotOfCell | src/map.rs:42-43 | a tile whose pixel position lies in column `x`, row `y` lands in slot `y * width + x` |
| Grid.Place | src/map.rs:41-45 | placing a layer's tiles succeeds exactly when every tile has a slot, and each slot then holds the id of the last tile landing there, or its previous content |
| Grid.AutoTilesWin | src/map.rs:41 | auto-layer tiles, written after the grid tiles, win every slot they reach; other slots show the last grid tile |
| Grid.BuildLayer | src/map.rs:39-53 | a built layer keeps the layer's name and tileset path, has one slot per cell holding the last tile there, and turns pixel offsets into cells |
| Grid.JoinAssociative | src/map.rs:33-54 | chaining layer results is associative |
| Grid.BuildLayers | src/map.rs:33-54 | the layer loop builds at most one layer per input and builds nothing from layers that draw nothing |
| Grid.LayerStepJoin | src/map.rs:34-53 | one turn of the layer loop commutes with appending what later turns build |
| Grid.BuildOneLayer | src/map.rs:34-53 | a single layer yields nothing when it draws nothing, and otherwise its built layer or its panic |
| Grid.BuildLayersReversed | src/map.rs:34 | layers come out in reverse order, and the first panic met in that order is the one raised |
| Grid.BuildLayersSnoc | src/map.rs:34 | the loop's first turn handles the last layer |
| Grid.FindLayer | src/map.rs:56-62 | the layer found is the first one with the name, and none is found only when no layer has it |
| Grid.ShapeCodesRoundTrip | src/map.rs:65-70 | exactly the values 1, 2 and 3 stand for collision shapes, and each shape's value reads back as that shape |
| Grid.CollisionShapes | src/map.rs:56-71 | the collision grid has one entry per integer-grid value, a shape exactly where the value is 1, 2 or 3 |
| Grid.NewMap | src/map.rs:29-74 | building a map succeeds exactly when the level lists its layers, every kept layer builds and a `Collision` layer exists; the map then has the level's size in cells, the built layers and that layer's collision grid |
| Grid.ShapeBox | src/map.rs:79-97 | a shape's box spans the cell's width and lies within the cell, full height for a full box, the lower half or the upper half otherwise |
| Grid.HalvesSplitTheCell | src/map.rs:86-97 | the two half boxes of a cell touch without overlapping and together span the full box |
| Grid.CollisionBoxAsWritten | src/map.rs:76-101 | the lookup as written reads the entry at `y * width + x` with no column check, and panics only on `i32` overflow |
| Grid.CollisionBox | src/map.rs:76-101 | with the bounds check of the cell lookup, only a cell of the map with a shape has a box, and it is that shape's box |
| Grid.CollisionBoxAgreesInside | src/map.rs:76-101 | inside the map the lookup as written and the checked lookup agree |
| Grid.ColumnOverflowReadsNextRow | src/map.rs:77 | the cell just past the right edge of a row reads the first cell of the next row, though it is not on the map |
| Grid.NextRowCounterexample | src/map.rs:77 | on a map one cell wide whose lower cell is solid, the cell right of the map gets a full box |
| Grid.StandingCell | src/entity.rs:135-137 | the standing cell is the cell containing the position |
| Grid.FacingCell | src/entity.rs:139-148 | the facing cell is always an `i32` cell; away from the bounds it is the next cell in the facing direction when the entity stands within 0.6 of that edge, and its own cell otherwise |
| Grid.Neighbourhood | src/entity.rs:84-95 | the nine cells around a position, exactly those at most one step away on each axis |
| Grid.NineCells | src/entity.rs:84-95 | building the list panics exactly when one of x - 1, y - 1, x + 1, y + 1 leaves the `i32` range, with the subtract message when x - 1 or y - 1 is the first to do so; otherwise the cells checked are exactly the nine cells around the new position |
| Grid.WalkAndResolve | src/entity.rs:62-133 | the walk panics exactly when listing the nine cells around the tentative position does, with the same message |
| Grid.ResolveCells | src/entity.rs:96-104 | resolving against the cells keeps the box's size and does nothing when no cell is blocked |
| Grid.ResolveBodies | src/entity.rs:106-130 | resolving against the entities keeps the box's size and does nothing when no other entity is solid and placed |
| Grid.Stoppers | src/entity.rs:108-114 | the entities that stop the walker are exactly the other placed, solid ones |
| Grid.OnlyStoppersCount | src/entity.rs:108-130 | entities that do not stop the walker play no part in the resolution |
| Grid.FreeWalk | src/entity.rs:62-133 | with nothing in the way and no overflow, a walker moves exactly its speed along its direction |
| Grid.WalkIgnoresNonStoppers | src/entity.rs:62-133 | the walker itself, unplaced and non-solid entities can be dropped without changing where the walker ends up |
| Systems.Player | src/update.rs:61-63 | the player found is the first live entity named `player` with a position and a collision, and its box is centred on its position with its hitbox size |
| Systems.AreaSources | src/update.rs:68-76 | the queued sources are exactly the readable sources of the area triggers on the player's map whose boxes overlap the player's; unreadable ones are skipped |
| Systems.AreaSourcesOne | src/update.rs:68-76 | one overlapping area trigger whose source reads queues that source exactly once; any other entity queues nothing |
| Systems.AreaSourcesConcat | src/update.rs:68-76 | the sources of two runs of entities are those of the first run followed by those of the second, so sources queue in visiting order and none is merged or dropped |
| Systems.AreaTriggerQueue | src/update.rs:60-77 | with no player nothing is queued; otherwise the queue holds a source exactly when a live overlapping area trigger on the player's map has it, and it is the per-trigger sources of the matching entities taken in key order, so it repeats on every frame of overlap |
| Systems.CollisionSources | src/update.rs:205-220 | the queued sources are exactly the readable sources of the solid triggering entities on the player's map whose boxes overlap the player's |
| Systems.CollisionSourcesOne | src/update.rs:205-220 | one solid overlapping entity with a collision trigger whose source reads queues that source exactly once; any other entity queues nothing |
| Systems.CollisionSourcesConcat | src/update.rs:205-220 | the sources of two runs of entities are those of the first run followed by those of the second |
| Systems.CollisionTriggerQueue | src/update.rs:192-221 | only a solid player triggers, and only through solid entities other than itself, on its map, whose boxes overlap its own; the queue is the per-trigger sources of those entities taken in key order |
| Systems.FrameScripts | src/update.rs:28-41 | a frame's script work keeps the scheduler valid and leaves only resumable instances |
| Systems.CollisionScriptsWaitForNextFrame | src/update.rs:28-41 | at the end of a frame the start queue holds exactly the collision-triggered sources, which start in the next frame |
| Systems.VelocityFromWalking | src/update.rs:175-184 | the velocity moves a position exactly `speed` ahead along the walking direction and not aside |
| Systems.PassedMeansStrictlyAhead | src/update.rs:292-297 | passing the destination means lying strictly beyond it in the walking direction |
| Systems.EndWalking | src/update.rs:289-305 | a walker that has passed its destination is put on it, stopped and loses the destination; otherwise nothing changes |
| Systems.EndWalkingIdempotent | src/update.rs:289-305 | ending a walk twice is the same as ending it once |
| Systems.WalkEndsAtDestination | src/update.rs:289-305 | a walker moving along its line stops exactly at the destination once it has overshot it, and keeps walking before |
| Systems.StopPlayerForMessage | src/update.rs:311-324 | while a message is open the player's own movement stops, but a scripted walk with a destination goes on |
| Systems.ResolveAll | src/update.rs:255-259 | resolving against several boxes in turn keeps the box's size and does nothing when it overlaps none or does not move |
| Systems.ResolveWithEntities | src/update.rs:265-287 | a non-solid or unmoving entity stays where it is, and an entity never changes map |
| Systems.SolidBoxesOn | src/update.rs:276-283 | the boxes resolved against are exactly those of the solid entities on the same map |
| Systems.CharacterAnimation | src/update.rs:83-107 | a forced animation is left alone; otherwise the clip follows the facing, a moving character starts its walk cycle only if stopped, and a still one stops |
| Systems.CharacterAnimationIdempotent | src/update.rs:83-107 | running the character rule twice is the same as running it once |
| Systems.DualStateAnimation | src/update.rs:109-140 | a finished transition moves on to the state it leads to and restarts the loop; the clip then follows the state; other states are left as they are |
| Systems.DualStateAnimationIdempotent | src/update.rs:109-140 | running the dual-state rule twice is the same as running it once |
| Systems.TransitionSettles | src/update.rs:121-124 | a first-to-second transition that has stopped playing settles in the second state showing its clip |
| Systems.FMod | src/update.rs:160 | the float remainder of a non-negative dividend lies between zero and the divisor's magnitude and differs from the dividend by a whole multiple of that magnitude |
| Systems.FModUnique | src/update.rs:160 | the remainder is the only value from zero up to (not including) the divisor's magnitude m that differs from the dividend by a whole multiple of m: whenever x = k·m + y with such a y, the remainder is y |
| Systems.FrameOfRemainder | src/update.rs:160 | for a remainder within the clip's duration, the frame number floor(rem / spf) lies inside the clip and its frame's time slot [n·spf, (n+1)·spf) contains the remainder |
| Systems.FloorToUsize | src/update.rs:160 | a float cast to `usize` truncates in-range values and gives 0 below 1 |
| Systems.FrameIndex | src/update.rs:153-162 | the frame shown is always inside the clip, and the last one once finished or stopped; otherwise it is the frame whose time slot [n·spf, (n+1)·spf) holds the elapsed time modulo the clip's duration (frame 0 when the seconds per frame are not positive, where the float division saturates) |
| Systems.PlayAnimation | src/update.rs:142-169 | an empty clip is skipped; otherwise a playing animation advances by the frame time, the sprite becomes exactly the frame `FrameIndex` picks for the advanced time, and the animation is stopped exactly when it is finished (non-repeating and past its clip), its state being kept otherwise |
| Systems.Advance | src/update.rs:149-151 | only the elapsed time changes, by exactly the frame time when the animation plays and not at all otherwise |
| Systems.AdvanceTwice | src/update.rs:149-151 | two frames advance an animation as one frame of their total length |
| Systems.FinishedShowsLastFrame | src/update.rs:155-167 | a non-repeating animation whose time, advanced when playing, is past its clip shows its last frame and ends stopped, whatever its state was |
| Systems.Clamp | src/update.rs:374-381 | clamping succeeds exactly when the bounds are ordered, lands within them and keeps a value already inside |
| Systems.ClampCamera | src/update.rs:363-383 | the camera is clamped only when the map is at least as large as its view, and then its view lies within the map; a view already inside is not moved |
| Systems.FindTarget | src/update.rs:344-351 | the target found is the first entity carrying the name, and none only when no entity carries it |
| Systems.UpdateCamera | src/update.rs:335-384 | the camera takes its target's position, map included, when the target exists, then is clamped to its map when asked and the map is known, and is otherwise left where it followed to |
| Console.NewWindow | src/dev_ui/console.rs:139-147 | a new console window is closed, with empty scrollback, input and history, and is not browsing |
| Console.Push | src/dev_ui/console.rs:149-154 | pushing to an empty scrollback gives the text itself; otherwise the old scrollback, one line break, then the text |
| Console.PushAllAppends | src/dev_ui/console.rs:149-154 | once the scrollback holds something, each pushed text adds one line break followed by the text |
| Console.NoLeadingLineBreak | src/dev_ui/console.rs:149-154 | from an empty scrollback, texts are separated by line breaks rather than preceded by one |
| Console.Browsed | src/dev_ui/console.rs:40-43 | the browsed text exists exactly when the cursor points at a history entry, and is that entry |
| Console.Scroll | src/dev_ui/console.rs:70-98 | Up moves to an older entry while there is one and starts browsing at the newest; Down moves to a newer one and stops browsing past the newest; any other key stops browsing and copies the browsed text into the input |
| Console.ScrollKeepsCursorInRange | src/dev_ui/console.rs:71-98 | scrolling never moves the cursor off the history |
| Console.UpThenDownReturns | src/dev_ui/console.rs:71-90 | Up then Down returns to the same entry when there was an older one to move to |
| Console.Without | src/dev_ui/console.rs:114 | dropping a text from the history keeps exactly the other entries |
| Console.WithoutConcat | src/dev_ui/console.rs:114 | `retain` works piecewise: what survives of a joined history is what survives of each part, in order, so the kept entries keep their order |
| Console.WithoutOne | src/dev_ui/console.rs:114 | a single entry survives exactly when it differs from the dropped text |
| Console.WithoutKeepsNoDuplicates | src/dev_ui/console.rs:114 | dropping a text keeps a duplicate-free history duplicate-free |
| Console.WithoutDropsOne | src/dev_ui/console.rs:114 | dropping a text that occurs once shortens the history by one |
| Console.WithoutAbsent | src/dev_ui/console.rs:114 | dropping an absent text changes nothing |
| Console.Submit | src/dev_ui/console.rs:104-119 | Enter echoes the input to the scrollback after `> `, queues it as a command, and clears the input; the new history is the input followed by the old history without it, in its old order |
| Console.SubmitKeepsHistoryDistinct | src/dev_ui/console.rs:113-115 | the history never holds the same text twice |
| Console.KeyPress | src/dev_ui/console.rs:66-121 | a key other than Enter only scrolls; Enter submits the browsed text when browsing and the typed input otherwise, and stops browsing |
| Console.EnterWhileBrowsingSubmitsEntry | src/dev_ui/console.rs:91-119 | Enter while browsing submits the browsed entry, which moves to the front of a history of the same length |
| Console.KeyPresses | src/dev_ui/console.rs:64-123 | a frame's key events queue at most one command each, and none without an Enter, which also leaves the history alone |
| Console.Show | src/dev_ui/console.rs:19-137 | a closed window does nothing; an open one never changes whether it is open, and without focus handles no key |
| Data.InsertAll | src/data.rs:190-207 | inserting pairs in order keeps unnamed keys, adds every named one, and with distinct keys each ends up with its value |
| Data.LoadStoryVars | src/data.rs:190-207 | loading the story variables adds the ten initial variables with their values and keeps every other variable |
| Data.InitialKeysDistinct | src/data.rs:191-202 | the ten initial variable names are distinct |
| Data.StagesStartAtOne | src/data.rs:191-202 | the three `::stage` variables start at 1 and every other initial variable at 0 |
| Data.LoadedValue | src/data.rs:190-207 | each initial variable holds its initial value after loading |
| Data.ApplyWrite | src/data.rs:97 | a class record's start write, when it has one, leaves its value under its variable and every other variable as it was; without one the store is unchanged |
| Data.Qualifies | src/script.rs:516-522 | the runtime's own qualification check for the automatic trigger: only an automatic class can qualify, one without a start condition always does, and one with a condition exactly when it holds |
| Data.StartScriptRunsOnce | src/data.rs:81-100 | the start script qualifies on a fresh game and never again once its own start write is made |
| Data.BakeryPanicWaitsForStageFour | src/data.rs:170-187 | the bakery panic does not qualify on a fresh game, does once the stage reaches 4, and no longer after its own start write |
| Data.BakeryPanicAtStage | src/data.rs:179-184 | the bakery panic qualifies exactly when the bakery stage is 4 |
| EntityFile.LoadComponent | src/loader/loader.rs:91-134 | a field is accepted exactly when it is `EntityId` or one of the sixteen component names with data that deserializes; `EntityId` changes nothing, an unknown name is the invalid-name error, and an accepted component is added to the entity |
| EntityFile.LoadComponents | src/loader/loader.rs:77-79 | an element's fields load in order and without error exactly when every field is accepted; only the entity's own slot changes |
| EntityFile.LoadComponentsAppend | src/loader/loader.rs:77-79 | loading stops at the first failing field: loading `a + b` is loading `a` and, when that succeeded, `b` on top of it |
| EntityFile.ResolveId | src/loader/loader.rs:66-75 | an element loads into its own `EntityId`, else into the first live entity already carrying its `Name`, else into a new entity, and no component changes on the way |
| EntityFile.LoadElements | src/loader/loader.rs:57-80 | the elements load in order, no live entity is lost, and the load finishes without error exactly when every element loads |
| EntityFile.AllLoadCons | src/loader/loader.rs:57-80 | all elements load exactly when the first one does and all the rest do |
| EntityFile.LoadEntities | src/loader/loader.rs:53-88 | a file that is not an array fails with `not an array`; otherwise it loads without error exactly when every element loads |
| EntityFile.LoadElementsAppend | src/loader/loader.rs:57-80 | elements load one after the other and a failing element ends the load |
| EntityFile.NamedElementIsFoundAgain | src/loader/loader.rs:66-79 | a new entity that loads a name no live entity had is the one a later lookup by that name finds |
| EntityFile.FreshNameCreatesEntity | src/loader/loader.rs:66-75 | an element without an id whose name no live entity carries gets a new entity |
| EntityFile.LoadedNameIsOnlyOne | src/loader/loader.rs:66-79 | once the new entity has loaded its name, it is the only live entity with that name |
| EntityFile.OnlyOneNamed | src/ecs/ecs.rs:102-107 | when exactly one live entity carries a name, the lookup by that name finds it |
| EntityFile.LoadNameSticks | src/loader/loader.rs:77-79 | in an error-free load of an object with distinct keys, the entity ends up with the component of its `Name` field |
| EntityFile.NameFieldFirst | src/loader/loader.rs:77-79 | the same when the name is the first field |
| EntityFile.LoadComponentIssued | src/loader/loader.rs:107-123 | an accepted field keeps every stored component behind its slot's version |
| EntityFile.LoadKeepsName | src/loader/loader.rs:109-124 | fields other than `Name` leave the `Name` component alone |
| EntityFile.SaveOrderComplete | src/loader/loader.rs:150-165 | saving visits every component type |
| EntityFile.SaveOrderDistinct | src/loader/loader.rs:150-165 | saving visits each component type once |
| EntityFile.TagNameInjective | src/loader/loader.rs:167-176 | different component types are saved under different names |
| EntityFile.SaveTags | src/loader/loader.rs:167-176 | exactly the visited types whose component is held and serializes are saved, each with its serialized value |
| EntityFile.SaveTagsDistinct | src/loader/loader.rs:150-176 | types visited once each are saved once each |
| EntityFile.Named | src/loader/loader.rs:174 | each saved value is keyed by its type's name |
| EntityFile.SaveComponents | src/loader/loader.rs:147-179 | the saved object has distinct keys, and under each type's name holds exactly that type's serialized component, if any |
| EntityFile.SaveEntities | src/loader/loader.rs:136-143 | one element is saved per live entity |
| EntityFile.SaveEntitiesCoversLive | src/loader/loader.rs:136-143 | every live entity is saved |
| EntityFile.SaveEntitiesOnlyLive | src/loader/loader.rs:136-143 | only live entities are saved |
| EntityFile.SaveKeys | src/loader/loader.rs:138-140 | the saved elements follow the ids in order |
| EntityFile.WriteBackSame | src/ecs/ecs.rs:117-128 | writing back the component an entity already holds changes nothing |
| EntityFile.SaveThenLoadChangesNothing | src/loader/loader.rs:77-179 | saving an entity's components and loading them back into it changes nothing and raises no error, when every serialized component deserializes to itself |
| EntityFile.LoadSavedPairs | src/loader/loader.rs:77-179 | loading any list of saved pairs back into their entity changes nothing |
| LdtkEntities.FirstField | src/loader/ldtk_entities.rs:364-368 | the field found is the first one carrying the identifier: no earlier field carries it, and None means no field does |
| LdtkEntities.FieldValue | src/loader/ldtk_entities.rs:364-370 | the value read is the first matching field's value (null included); a field with no match reads as nothing |
| LdtkEntities.ReadField | src/loader/ldtk_entities.rs:360-374 | `Ok(None)` exactly when the field is absent or null; an error naming the field exactly when a present value does not deserialize; otherwise the deserialized value |
| LdtkEntities.ReadJsonField | src/loader/ldtk_entities.rs:377-389 | the field must be a string whose text parses and deserializes; a non-string field is the field error, unparsable text a JSON error, absence stays `Ok(None)` |
| LdtkEntities.Required | src/loader/ldtk_entities.rs:392-409 | a missing field becomes the error "missing required field" naming it; a read error passes through; otherwise the value itself |
| LdtkEntities.PositionOf | src/loader/ldtk_entities.rs:337-358 | on a world with a `_world_map` level the position is on the world's map, offset by the level's world place; otherwise on the level's map; a short pixel array panics |
| LdtkEntities.PositionInCells | src/loader/ldtk_entities.rs:344-356 | the position times sixteen is the pixel position (plus the level offset on a world map) |
| LdtkEntities.ScriptSourceOf | src/loader/ldtk_entities.rs:114-126 | `external_source` "f::l" names sub-script l of `data/f.lua`, a name without `::` is an error; otherwise the `source` text, empty when absent |
| LdtkEntities.ExternalSourceRoundTrip | src/loader/ldtk_entities.rs:116-123 | composing "f::l" and loading it gives back file f and label l whenever f holds no `::` and does not end in `:` |
| LdtkEntities.CutAtFirstSeparator | src/loader/ldtk_entities.rs:117-119 | `split_once("::")` on "f::l" cuts at the end of f under the same condition |
| LdtkEntities.AsTrigger | src/loader/ldtk_entities.rs:14-23 | the snake-case names of the three old triggers decode to them, and only those strings do |
| LdtkEntities.Hitbox | src/loader/ldtk_entities.rs:133-141 | the hitbox is the entity's pixel size divided by sixteen |
| LdtkEntities.TriggerComponent | src/loader/ldtk_entities.rs:128-145 | interaction gives an interaction trigger, soft collision an area trigger, both over the hitbox with the script source; no trigger or hard collision panics (`todo!`) |
| LdtkEntities.StripFrame | src/loader/ldtk_entities.rs:187-199 | the frame is column col of a one-row sheet, w by h, anchored at the middle; the `u32` offset multiplication panics exactly when it overflows |
| LdtkEntities.StripFrames | src/loader/ldtk_entities.rs:187-200 | one frame per column index, in order; succeeds exactly when every frame does |
| LdtkEntities.CharacterClip | src/loader/ldtk_entities.rs:306-316 | one 16 by 32 frame per (col, row) cell, in order, at a fifth of a second per frame |
| LdtkEntities.CharacterCyclesAlternate | src/loader/ldtk_entities.rs:318-327 | every walk cycle is four frames alternating a stepping frame on row 2 with one standing frame on row 0 |
| LdtkEntities.LoadComponentsLogged | src/loader/ldtk_entities.rs:166-171 | a failing component is logged and skipped; no log exactly when every component is accepted; other entities and the entity list are untouched |
| LdtkEntities.LoggedAgreesWhenAllAccepted | src/loader/ldtk_entities.rs:166-171 | when every component loads, logging instead of stopping leaves the same store as the stopping loader |
| LdtkEntities.LoggedCountsRejections | src/loader/ldtk_entities.rs:166-171 | exactly one log line per rejected component |
| LdtkEntities.Put | src/loader/ldtk_entities.rs:174-175 | adding a component changes only the new entity and leaves it holding the component |
| LdtkEntities.PutKeeps | src/loader/ldtk_entities.rs:174-175 | adding a component leaves the entity's components of other types alone |
| LdtkEntities.KindOf | src/loader/ldtk_entities.rs:36-53 | each of the five identifiers selects its loader, and no other identifier selects any |
| LdtkEntities.Prelude | src/loader/ldtk_entities.rs:67-90 | position, name and the `json_components` object first; only the new entity changes; it panics exactly when the pixel array is short; generic and script entities never log |
| LdtkEntities.ScriptBody | src/loader/ldtk_entities.rs:112-147 | a script entity ends with its trigger component holding the script source; it panics exactly when source and trigger read but the trigger is not implemented |
| LdtkEntities.AnimFields | src/loader/ldtk_entities.rs:179-182 | spritesheet, frames, seconds per frame and repeating are all required, read in that order |
| LdtkEntities.SimpleAnimBody | src/loader/ldtk_entities.rs:173-206 | an optional `visible`, then the strip animation; a bad `visible` is the error; a panic exactly when a frame overflows; on success the entity holds that animation |
| LdtkEntities.SimpleAnimTail | src/loader/ldtk_entities.rs:178-205 | a missing field is the error, an overflowing frame panics, otherwise the animation component is added |
| LdtkEntities.SimpleAnimation | src/loader/ldtk_entities.rs:187-203 | the animation over the strip frames, or the overflow panic |
| LdtkEntities.VisibleIfSet | src/loader/ldtk_entities.rs:174-176 | the sprite is added only to the new entity |
| LdtkEntities.StripAnimation | src/loader/ldtk_entities.rs:187-203 | the clip holds the frames and time per frame; it is started on repeat when `repeating` is set and otherwise stopped |
| LdtkEntities.DualFields | src/loader/ldtk_entities.rs:236-241 | the four required clips are read, in order |
| LdtkEntities.DualClips | src/loader/ldtk_entities.rs:246-257 | four strip clips, each at the shared time per frame; succeeds exactly when every strip does |
| LdtkEntities.DualStateBody | src/loader/ldtk_entities.rs:232-273 | `visible` is required; it panics exactly when `visible` and the fields read but a strip overflows; on success the entity holds the four clips in the first state, the animation started on repeat and the sprite of the read visibility, and only the new entity changed |
| LdtkEntities.DualStateWith | src/loader/ldtk_entities.rs:232-273 | the same, given the visibility and field reads: a visibility error is the load error, and the sprite is added before the clips |
| LdtkEntities.SpriteThenTail | src/loader/ldtk_entities.rs:232-273 | the sprite added first is still held after the clips, and the whole build touches only the new entity |
| LdtkEntities.DualStateTail | src/loader/ldtk_entities.rs:236-272 | a field error is the load error, an overflowing strip panics, otherwise the clips and the started animation are added and the sprite is kept |
| LdtkEntities.DualComponentsHeld | src/loader/ldtk_entities.rs:259-272 | after the two dual-state components are added the entity holds both and keeps its sprite |
| LdtkEntities.DualComponents | src/loader/ldtk_entities.rs:259-272 | the dual-state clips in the first state and an animation started on repeat, of distinct types |
| LdtkEntities.CharacterBody | src/loader/ldtk_entities.rs:300-334 | a character never panics after the prelude; it fails exactly when the spritesheet is missing or malformed; the collision box is always added, and on success the entity holds the walk cycles from the sheet, a stopped animation, the default sprite, facing down and standing still |
| LdtkEntities.CharacterTail | src/loader/ldtk_entities.rs:302-333 | a spritesheet error is the load error and nothing more is added; otherwise the five character components are held and the collision box is kept |
| LdtkEntities.CollisionThenTail | src/loader/ldtk_entities.rs:300-333 | the collision box added first is still held after the rest, and the whole build touches only the new entity |
| LdtkEntities.CharacterComponentsHeld | src/loader/ldtk_entities.rs:318-332 | after the five character components are added the entity holds each and keeps its collision box |
| LdtkEntities.CharacterComponents | src/loader/ldtk_entities.rs:318-332 | walk cycles, a stopped animation, the default sprite, facing down and standing still, of distinct types |
| LdtkEntities.PutAll | src/loader/ldtk_entities.rs:318-332 | adding components one after another changes only the new entity |
| LdtkEntities.PutAllHolds | src/loader/ldtk_entities.rs:318-332 | after several adds the entity holds the last component of each type |
| LdtkEntities.PutAllKeeps | src/loader/ldtk_entities.rs:318-332 | adds of other types leave a component alone |
| LdtkEntities.PutAllHoldsEach | src/loader/ldtk_entities.rs:318-332 | with distinct types every added component is held |
| LdtkEntities.Body | src/loader/ldtk_entities.rs:36-53 | after the prelude only the new entity changes, and only script and animation kinds can panic |
| LdtkEntities.LoadEntity | src/loader/ldtk_entities.rs:35-57 | an unknown identifier leaves the store as it was; a known one adds exactly one entity and changes only it; a short pixel array aside, panics come only from script and animation kinds |
| LdtkEntities.LoadEntityKeepsOthers | src/loader/ldtk_entities.rs:35-57 | every entity live before the load keeps every component |
| LdtkEntities.LoadOne | src/loader/ldtk_entities.rs:35-57 | an entity's error is logged and the loop goes on; a panic aborts; an aborted load stays aborted; logs only grow |
| LdtkEntities.Record | src/loader/ldtk_entities.rs:54-57 | an error adds one line after the entity's own logs; a panic aborts; an ignored entity changes nothing |
| LdtkEntities.LoadList | src/loader/ldtk_entities.rs:28-58 | the entity instances in order; once aborted nothing more happens |
| LdtkEntities.LoadListAppend | src/loader/ldtk_entities.rs:28-58 | loading a joined list is loading its halves one after the other |
| LdtkEntities.KnownOnly | src/loader/ldtk_entities.rs:36-53 | keeps only instances whose identifier names a kind |
| LdtkEntities.UnknownEntitiesIgnored | src/loader/ldtk_entities.rs:52 | instances of unknown kinds make no difference to store or log |
| LdtkEntities.UnknownOnlyChangesNothing | src/loader/ldtk_entities.rs:52 | a run of only unknown kinds changes nothing |
| LdtkEntities.Flatten | src/loader/ldtk_entities.rs:28-33 | every entity of every layer appears, and nothing else |
| LdtkEntities.LoadLevel | src/loader/ldtk_entities.rs:28-33 | levels saved separately panic with "levels not saved separately"; otherwise the flattened layers load |
| LdtkEntities.LoadLevels | src/loader/ldtk_entities.rs:27 | the levels in order; an abort ends the load |
| LdtkEntities.LoadWorlds | src/loader/ldtk_entities.rs:26 | the worlds in order; an abort ends the load |
| LdtkEntities.LoadProject | src/loader/ldtk_entities.rs:25-61 | every level of every world; a finished load leaves a well-formed store |
| LegacyLoaders.FieldOf | src/loader.rs:352-374 | the old readers see the first field with the identifier and read it as absent whenever the current reader would fail or find nothing |
| LegacyLoaders.AsI32Cast | src/loader.rs:377-388 | a number read as `i64` and cast with `as i32` is always in the `i32` range, and a whole number already in range is kept |
| LegacyLoaders.FieldJson | src/loader.rs:336-350 | a string field whose text parses and decodes; any failure on the way, a non-string field included, reads as absent |
| LegacyLoaders.AsI32List | src/loader.rs:172 | a `Vec<i32>` decodes from an array of whole numbers in the `i32` range, one per item, in order |
| LegacyLoaders.TriggerNamed | src/loader.rs:91-95 | "interaction" and "soft_collision" are the only trigger names; any other text is no trigger |
| LegacyLoaders.TriggerNamesAgree | src/loader.rs:91-95 | the two old names mean what they mean to the current loader, and its third name is no trigger here |
| LegacyLoaders.SourceOf | src/loader.rs:80-89 | `external_source` is cut at the first `::` and the sub-script read from `assets/<file>.lua`; without it the `source` text; a name without the separator or a missing text panics |
| LegacyLoaders.ClassOf | src/loader.rs:97-112 | the script class carries the source, the trigger and the four condition and write fields as read; it exists exactly when the source does |
| LegacyLoaders.NamePart | src/loader.rs:75-77 | a name component exactly when the `name` field is a string |
| LegacyLoaders.SimpleScriptParts | src/loader.rs:50-135 | position first, then the script class; a non-solid collision box exactly for a soft-collision trigger and an interaction box exactly for an interaction trigger, both the entity's size |
| LegacyLoaders.ScriptAssembly | src/loader.rs:102-134 | the script entity's components in the order added, with the trigger-dependent boxes |
| LegacyLoaders.LegacyFrame | src/loader.rs:183-187 | the `i32` multiplication `col * w` panics exactly when it overflows, and the rectangle sits at that offset on row 0 |
| LegacyLoaders.LegacyFrameAgrees | src/loader.rs:183-187 | for sizes and columns the current loader also accepts, the old frame is the same rectangle with the same anchor |
| LegacyLoaders.LegacyFrames | src/loader.rs:181-188 | one frame per column, in order; succeeds exactly when every frame does |
| LegacyLoaders.Unwrap | src/loader.rs:167-174 | a missing required field panics with the unwrap message; a present one is its value |
| LegacyLoaders.AnimFields | src/loader.rs:167-174 | visible, spritesheet, frames, seconds per frame and repeating are all required, read in that order |
| LegacyLoaders.SimpleAnimParts | src/loader.rs:137-197 | position first, then a sprite of the required visibility and the strip animation, started on repeat when `repeating` is set |
| LegacyLoaders.AnimAssembly | src/loader.rs:159-196 | the simple animation's components from its position, name and fields |
| LegacyLoaders.DualFields | src/loader.rs:233-238 | spritesheet, the four state strips and seconds per frame are all required |
| LegacyLoaders.DualParts | src/loader.rs:199-269 | succeeds exactly when the pixel array is long enough, `visible` and every field are present and every strip cuts; position first, then the names, a sprite of the required visibility, exactly the four clips cut from the fields, and a default animation started on repeat |
| LegacyLoaders.DualAssembly | src/loader.rs:221-268 | succeeds exactly when position, visibility and fields read and the clips cut; the first failure, position first, is the panic; the parts are position, names, sprite, those clips and the started animation |
| LegacyLoaders.DualClips | src/loader.rs:243-264 | the four clips cut from the strip in field order; succeeds exactly when every strip does |
| LegacyLoaders.CharacterParts | src/loader.rs:272-334 | position, then a solid 14 by 6 pixel collision box; the spritesheet is required; the walk cycles and standing components are those of the current loader |
| LegacyLoaders.CharacterTail | src/loader.rs:305-333 | the five character components drawn from the required spritesheet |
| LegacyLoaders.CharacterAssembly | src/loader.rs:294-333 | position and collision first, the five character components last |
| LegacyLoaders.AsParts | src/loader.rs:319-333 | one added component per component, in order |
| LegacyLoaders.LoaderParts | src/loader.rs:29-44 | the four old kinds are loaded and every other identifier, `generic` included, is ignored |
| LegacyLoaders.ScriptEntityParts | src/ecs/loader.rs:35-108 | position on the map looked up by name (the world's, offset, for `overworld`), a non-solid collision box, name, and the script class with the external source cut at the first `:` |
| LegacyLoaders.EcsLoaderParts | src/ecs/loader.rs:23-29 | only `script` instances are loaded |
| LegacyLoaders.ColonCutKeepsColon | src/ecs/loader.rs:76 | cutting "f::l" at the first `:` leaves ":l" as the label, where the `::` cut gives "l" |
| LegacyLoaders.PartsOfAll | src/loader.rs:22-45 | the entities of a run of instances, in order, at most one per instance; the first panic ends the load |
| LegacyLoaders.Join | src/loader.rs:20-47 | joined runs: the first panic wins, otherwise the entities of both in order |
| LegacyLoaders.PartsOfAllAppend | src/loader.rs:22-45 | two runs of instances load like their concatenation |
| LegacyLoaders.Known | src/loader.rs:29-44 | keeps only the instances the loader does something with |
| LegacyLoaders.IgnoredInstancesDropOut | src/loader.rs:29-44 | ignored instances make no difference; without a panic there is one entity per instance not ignored |
| LegacyLoaders.LevelParts | src/loader.rs:22-27 | a level whose layers are not in the project file panics on `unwrap`; otherwise the instances of all its layers load in order |
| LegacyLoaders.OnlyScriptsLoaded | src/ecs/loader.rs:12-33 | of a level, only the `script` instances become entities, one each |
| LegacyLoaders.FieldString | src/loader.rs:352-362 | a value exactly when the first field with the identifier holds a JSON string, and then that string |
| LegacyLoaders.FieldBool | src/loader.rs:364-374 | a value exactly when the first field with the identifier holds a JSON boolean, and then that boolean |
| LegacyLoaders.FieldI32 | src/loader.rs:377-388 | a value only when the first field with the identifier holds a JSON number, always in the `i32` range; a whole number already in range is read as itself |
| LegacyLoaders.FieldF64 | src/loader.rs:390-400 | a value exactly when the first field with the identifier holds a JSON number, and then that number |
| LegacyLoaders.TriggerField | src/loader.rs:91-95 | the trigger is `Interaction` exactly when the `trigger` field is the string "interaction", `SoftCollision` exactly when it is "soft_collision", and absent otherwise |
| LegacyLoaders.LevelsParts | src/loader.rs:21-46 | the levels of a world load in order: the load succeeds exactly when every level does, and a failing load fails as some level does with every earlier level succeeding |
| LegacyLoaders.LevelsPartsAppend | src/loader.rs:21-46 | two runs of levels load like their concatenation, the first panic winning |
| LegacyLoaders.LevelsPartsOne | src/loader.rs:21-46 | a single level loads as itself |
| LegacyLoaders.WorldsParts | src/loader.rs:20-47 | the worlds of a project load in order, succeeding exactly when every world does |
| LegacyLoaders.WorldsPanicIsFirst | src/loader.rs:20-47 | a failing project load fails as its first failing world does, every earlier world succeeding |
| LegacyLoaders.LoadProject | src/loader.rs:19-48 | loading a project succeeds exactly when every level of every world loads, each by the rules of the four old entity kinds |
| LegacyLoaders.LoadScriptProject | src/ecs/loader.rs:12-33 | loading a project succeeds exactly when every level of every world loads, each keeping only `script` instances |
| NamedEcs.AddComponent | src/new_ecs.rs:25-28 | the entity holds the new component under its type, every other type is unchanged, and components stay stored under their own type |
| NamedEcs.RemoveComponent | src/new_ecs.rs:30-33 | the type is gone, every other type is unchanged |
| NamedEcs.RemoveUndoesAdd | src/ecs.rs:24-31 | removing a type undoes adding a component of it, and restores the entity exactly when it did not hold one |
| NamedEcs.AddTwiceKeepsSecond | src/ecs.rs:24-26 | adding twice under one type keeps only the second |
| NamedEcs.Borrow | src/new_ecs.rs:152-154 | the components of the queried types in query order; the unwrap panic exactly when the entity lacks one |
| NamedEcs.Filter | src/new_ecs.rs:95-118 | only entities holding every queried type pass, in iteration order |
| NamedEcs.FilterEntities | src/new_ecs.rs:41-45 | every entity listed is stored and passes the filter |
| NamedEcs.FilterMembers | src/ecs.rs:156-190 | an entity is listed exactly when it is iterated and holds every queried type |
| NamedEcs.FilterDistinct | src/ecs.rs:156-190 | no entity is listed twice |
| NamedEcs.FilterEntitiesExactly | src/ecs.rs:40-45 | a store's filter lists exactly the entities passing the query, each once |
| NamedEcs.FilterConcat | src/ecs.rs:167-196 | a tuple query filters like its first part followed by its second |
| NamedEcs.EmptyQueryKeepsAll | src/ecs.rs:198 | the empty tuple passes every entity |
| NamedEcs.Query | src/ecs.rs:49-56 | one result per entity that passes, in the same order, each the borrow of that entity; the filter guarantees the borrow does not find a component missing |
| NamedEcs.QueryOne | src/ecs.rs:61-66 | nothing for an unknown name; otherwise the entity's components, a panic exactly when one is missing |
| NamedEcs.QueryOneAgreesWithQuery | src/ecs.rs:49-66 | `query_one` on a passing entity gives what `query` gives for it |
| Json.IndexOf | src/loader/loader.rs:66-72 | the first position holding the key; no earlier one does, and none at all when the result is absent |
| Json.Lookup | src/loader/loader.rs:66-72 | a value is found exactly when some field has the key, and the pair is in the object |
| Json.LookupDistinct | src/loader/loader.rs:66-72 | with distinct keys, the value under a key is the one stored with it |
| Json.AsU32List | src/loader/ldtk_entities.rs:180 | an array of whole numbers in the `u32` range decodes, item by item, in order; anything decoded came from such an array |
| Text.FindFrom | src/script/script.rs:190-192 | the first occurrence at or after the start position; none before it, and nothing when there is none at all |
| Text.Find | src/script/script.rs:186-188 | the first occurrence of the pattern; absent exactly when the text does not contain it |
| Text.SplitOnce | src/loader/ldtk_entities.rs:117-119 | the text is the head, the pattern and the tail, cut at the first occurrence; absent exactly when the pattern does not occur |
| Text.SplitOnceHeadClear | src/loader/ldtk_entities.rs:117-119 | the head before the cut holds no occurrence of the pattern |
| Text.SplitFirstSpace | src/script/script.rs:211-213 | the text up to the first space and, when there is a space, the rest after it; the head holds no space |
| Text.TrimEnd | src/script/script.rs:194 | a prefix of the text not ending in whitespace, with only whitespace cut off |
| Text.Lines | src/script/script.rs:209 | no line holds a line break, and there are no lines exactly when the text is empty |
| Text.LineEndAfter | src/script/script.rs:209 | the first line ending of a text is the one right after its first stretch without one |
| Text.LinesCons | src/script/script.rs:209 | a line without a final carriage return, a line break and the rest split into that line followed by the rest's lines |
| Text.LinesSingle | src/script/script.rs:209 | a non-empty text without a line break or final carriage return is a single line |
| Text.LinesJoinBack | src/script/script.rs:209 | a text without carriage returns or a final line ending is its lines joined with line breaks |
| Text.LinesOfJoin | src/script/script.rs:209 | lines without line breaks or carriage returns, the last non-empty, joined with line breaks split back into the same lines |
| Text.NatToString | src/script/script.rs:232 | a non-empty string of decimal digits |
| Text.IntToString | src/script/script.rs:232 | a minus sign for a negative number, then the digits of its magnitude |
| Text.NatToStringRoundTrip | src/script/script.rs:232 | reading the rendered digits back gives the number |

## Left out

- The Lua VM: compiling and resuming a thread are oracle parameters, and the prelude, `wrap_yielding` and the Lua-side coroutine machinery are not modelled.
- The evaluation of start-condition expressions (`evalexpr`). Only the `{key}` substitution is modelled; the boolean outcome is a parameter.
- The wall clock (`Instant::now()`), which is an integer parameter.
- Scheduler.StepAll: the source reads `Instant::now()` afresh for each instance (src/script/script.rs:142, reached from src/script/script.rs:63-69); the model passes one reading, `now`, for the whole pass, so a deadline that falls between two instances' readings is seen the same way by both.
- Scheduler.Update: uses the one reading of `Scheduler.StepAll` for the whole update pass.
- Prototype.StepAll: the source reads `Instant::now()` afresh for each instance (src/script_new.rs:86); the model passes one reading for the whole loop.
- Prototype.UpdateWith: uses the one reading of `Prototype.StepAll` for the whole loop.
- Prototype.UpdateAsWritten: uses the one reading of `Prototype.StepAll` for the whole loop.
- Prototype.Update: uses the one reading of `Prototype.StepAll` for the whole loop.
- File-system reads. The file system is a map from path to contents, or an oracle, so `read_script_from_file` and `ScriptSource::get_source` only slice a given text.
- `load_story_vars_from_file`, `dump_entities_to_file` and the asset loaders for tilesets, spritesheets, sounds and music: all I/O.
- Rendering, the GPU back end, SDL canvas calls and the camera transform beyond the clamping guard: all graphics.
- Audio. `play_sfx`, `play_music`, `stop_music` and `update_sfx_emitting_entities` are mixer side effects. `emit_entity_sfx` and `stop_entity_sfx` are modelled only for the component fields they set.
- src/input.rs, the SDL event pump. Its rules call the callbacks modelled here.
- The dev UI windows and the Lua REPL of src/script/console.rs. These are egui and Lua plumbing; only the console's history cursor and scrollback are modelled.
- The logger of src/misc.rs, which uses a global mutex and stdout. Log lines appear in the model only as entries of a log sequence.
- Sine-offset and overlay animations (`end_sine_offset_animations`, `set_map_overlay_color`, `anim_quiver`, `anim_jump`): they are time- and sine-based effects.
- These callbacks only move a value into a component, or are graphics or I/O, and are not modelled:
  - `get/set_entity_map_pos`, `get/set_entity_world_pos`, `remove_entity_position`;
  - `set/remove_forced_sprite`, `set_entity_visible`, `set_entity_solid`;
  - `set/remove_camera_target`, `set_camera_clamp`;
  - `add_component` and `remove_component` by name, `dump_entities_to_file`;
  - the `bind_*` registration functions.
- The type-erasure machinery (`AnyMap`, `RefCell`): components are a map keyed by a component tag. Borrow-conflict panics cannot arise in the model and are not modelled.
- Hash-map iteration order is not fixed: it is an explicit sequence, and the lemmas hold for every order.
- The generated LDtk schema of src/ldtk_json.rs is reduced to the fields the loaders read. src/loader/ldtk_project.rs is not part of this model; the same fields are used for the current loader's project type.
- `get_script_from_file`, called by `ScriptSource::get_source`, is not part of this model. `Components.GetSource` uses the named-script reader of src/script/script.rs in its place, in its corrected form `ScriptText.ReadScript`; the reader as written (src/script/script.rs:190-194) is `ScriptText.ReadScriptAsWritten`, listed under Findings.
- `World::get_map_id_by_name` is an oracle parameter of `LegacyLoaders.ScriptEntityParts`.
- Data.ApplyWrite: the code that applies a class's `set_on_start` is not part of this model; the field is only filled in (src/data.rs:97, src/data.rs:184) and read by the loaders (src/loader.rs:99-100, src/ecs/loader.rs:93-94). The write is modelled as a plain insert into the store, the way `cb_set_storyvar` writes a variable (src/script.rs:537-543), so the run-once reading of the two data classes rests on that choice.
- LegacyLoaders.SimpleAnimParts: the old loaders add a `SpriteComponent` built from `visible` (src/loader.rs:168, src/loader.rs:230, src/loader.rs:331); that type is not part of this model, and the current sprite component (`Components.DefaultSpriteComp`, with `visible` set from the field) stands in for it.
- LegacyLoaders.DualParts: uses the same stand-in for the old `SpriteComponent`.
- LegacyLoaders.CharacterParts: its default `SpriteComponent` is the current default sprite component, visible and with nothing to draw.
- serde: error texts are not modelled (a load error keeps only the field or key it concerns), and a JSON object's iteration order is the order of its field sequence.
- JSON numbers are exact reals, so `1` and `1.0` are not told apart.
- The `i64` overflow of `px + world_x` in the position computation is not modelled: integers are unbounded there.
- SDL's `Rect` clamping of oversized widths and heights is not modelled. Rectangles keep the values passed in after the explicit `u32`/`i32` casts.
- The tile resolution inside `resolve_collisions_with_tiles`: `collision_aabbs_for_cell` is folded into the list of blocked boxes resolved one after another (`Grid.ResolveCells`).
- Commands.Run: bounded by a fuel parameter, and gives nothing once the fuel runs out. A command program that never waits or finishes is therefore not followed to the end.
- `Vm.Finished` and the `Game` host are data only: they carry no contract of their own.

## Findings

| source | as written | input that shows it | evidently intended | confidence | as-written member | corrected member |
|---|---|---|---|---|---|---|
| src/script_new.rs:86 | a `Time(until)` wait is cleared when `until > now` | a wait until 10 checked at 5 is cleared at once, and checked at 10 or later it is never cleared (`Prototype.TimeWaitReversed`) | clear the wait once the deadline has passed (`until < now`), as src/script/script.rs:142 does (`Prototype.TimeWaitCorrected`) | not executed | Prototype.ClearWaitAsWritten | Scheduler.ClearWait |
| src/script/script.rs:190-194 | the end of the slice is found in the text after `start_index + 1` but offset by `start_index` only, so it stops one byte before the next `---@script` | the file "---@script a\nxy---@script b" read for `a` gives "---@script a\nx", losing the `y` (`ScriptText.ReadScriptOffByOne`); a line break before the next header hides the error, because the trim removes it anyway; in "---@script a\né---@script b" the end falls inside the two-byte `é` and the slice panics (`ScriptText.ReadScriptSplitsChar`) | the script runs up to the next header | not executed | ScriptText.ReadScriptAsWritten | ScriptText.ReadScript |
| src/main.rs:187-193 | the substitution loop splits at the first `{` again on every pass and changes nothing when no `}` follows, so it never stops | the message "a{b" (`Commands.UnclosedBraceHangs`) | leave the text as it is when no closing brace follows, and substitute every closed placeholder (`Commands.SubstituteAgrees`) | not executed | Commands.SubstituteAsWritten | Commands.Substitute |
| src/map.rs:77 | the collision lookup checks only the flat index against the vector's length, not the column against the width | a map one cell wide and two high whose lower cell is solid: cell (1, 0), off the map, gets a full box (`Grid.NextRowCounterexample`, `Grid.ColumnOverflowReadsNextRow`) | cells outside the map's columns have no collision, and inside the map both readings agree (`Grid.CollisionBoxAgreesInside`) | not executed | Grid.CollisionBoxAsWritten | Grid.CollisionBox |

=== FILE: callbacks.dfy ===
/** The host functions scripts call (src/script/callbacks.rs): each looks an
    entity up by name with `query_one_with_name`, fails with an error message
    when no entity matches, and otherwise rewrites the matched components.
    A failing callback raises a Lua error that aborts the script; every
    callback below checks all its arguments before it writes anything, so on
    `Err` the store is left as it was. */
module Callbacks {
  import opened Wrappers
  import opened Geometry
  import opened SlotMap
  import opened Components
  import opened Ecs
  import opened Game
  import StoryVars
  import Scheduler

  /** `PLAYER_ENTITY_NAME`. */
  const PlayerEntityName: string := "player"

  function InvalidEntity(entity: string): string {
    "invalid entity `" + entity + "`"
  }

  // ---------------------------------------------------------------------
  // Story variables
  // ---------------------------------------------------------------------

  /** `get_story_var`: the value, or an error naming the missing key. */
  function GetStoryVar(vars: StoryVars.Vars, key: string): (r: Result<int, string>)
    ensures r.Ok? <==> key in vars
    ensures r.Ok? ==> r.value == vars[key]
    ensures r.Err? ==> r.error == "no story var `" + key + "`"
  {
    match StoryVars.Get(vars, key)
    case Some(v) => Ok(v)
    case None => Err("no story var `" + key + "`")
  }

  /** `set_story_var` writes through `StoryVars::set` and never fails, so a
      key a script sets is only readable back if it already existed. */
  lemma SetThenGetStoryVar(vars: StoryVars.Vars, key: string, val: int)
    ensures GetStoryVar(StoryVars.Set(vars, key, val), key) ==
      (if key in vars then Ok(val) else Err("no story var `" + key + "`"))
  {
  }

  // ---------------------------------------------------------------------
  // Walking
  // ---------------------------------------------------------------------

  /** The direction names scripts use. */
  function DirectionName(d: Direction): string {
    match d
    case Up => "up"
    case Down => "down"
    case Left => "left"
    case Right => "right"
  }

  /** The direction a script names, if it is one of the four. */
  function ParseDirection(s: string): (r: Option<Direction>)
    ensures r.Some? <==> s == "up" || s == "down" || s == "left" || s == "right"
    ensures r.Some? ==> DirectionName(r.value) == s
  {
    match s
    case "up" => Some(Up)
    case "down" => Some(Down)
    case "left" => Some(Left)
    case "right" => Some(Right)
    case _ => None
  }

  lemma DirectionNameRoundTrip(d: Direction)
    ensures ParseDirection(DirectionName(d)) == Some(d)
  {
  }

  /** `(&Position, Option<&mut Facing>, &mut Walking)`. */
  const WalkQuery: Query := QTuple([QRef(PositionTag), QOption(QMut(FacingTag)), QMut(WalkingTag)])

  /** What every successful walk leaves: the new `Walking` in place, the
      `Facing` (only if there was one) turned to it, and nothing else
      touched. */
  ghost predicate WalkedTo(e: Ecs, r: Ecs, id: Key, w: Walking) {
    WalkingOf(r, id) == Some(w)
    && (Has(e, FacingTag, id) ==> FacingOf(r, id) == Some(w.direction))
    && SameShape(e, r)
    && OnlyTouches(e, r, id, {WalkingTag, FacingTag})
  }

  /** Store a new `Walking` for `id` and turn its `Facing`, when it has one,
      to the walking direction; for an entity that walks, nothing else is
      touched. */
  function StartWalking(e: Ecs, id: Key, w: Walking): (r: Ecs)
    ensures Has(e, WalkingTag, id) ==> WalkedTo(e, r, id, w)
  {
    var e1 := AddComponent(e, id, CWalking(w));
    if Has(e, FacingTag, id) then
      WalkTurningFacing(e, id, w);
      AddComponent(e1, id, CFacing(w.direction))
    else
      WalkKeepingFacing(e, id, w);
      e1
  }

  /** The walk of an entity without a facing only rewrites its `Walking`. */
  lemma WalkKeepingFacing(e: Ecs, id: Key, w: Walking)
    ensures Has(e, WalkingTag, id) && !Has(e, FacingTag, id) ==>
      WalkedTo(e, AddComponent(e, id, CWalking(w)), id, w)
  {
    if Has(e, WalkingTag, id) && !Has(e, FacingTag, id) {
      var e1 := AddComponent(e, id, CWalking(w));
      RewriteTouches(e, id, CWalking(w));
      RewriteKeepsShape(e, id, CWalking(w));
      TouchesMore(e, e1, id, {WalkingTag}, {WalkingTag, FacingTag});
    }
  }

  /** The walk of an entity that has a facing turns it. */
  lemma WalkTurningFacing(e: Ecs, id: Key, w: Walking)
    ensures Has(e, WalkingTag, id) && Has(e, FacingTag, id) ==>
      WalkedTo(e, AddComponent(AddComponent(e, id, CWalking(w)), id, CFacing(w.direction)), id, w)
  {
    if Has(e, WalkingTag, id) && Has(e, FacingTag, id) {
      var e1 := AddComponent(e, id, CWalking(w));
      RewriteTouches(e, id, CWalking(w));
      RewriteKeepsShape(e, id, CWalking(w));
      assert Has(e1, FacingTag, id) by {
        assert GetComponent(e1, FacingTag, id) == GetComponent(e, FacingTag, id);
      }
      var e2 := AddComponent(e1, id, CFacing(w.direction));
      RewriteTouches(e1, id, CFacing(w.direction));
      RewriteKeepsShape(e1, id, CFacing(w.direction));
      assert GetComponent(e2, WalkingTag, id) == GetComponent(e1, WalkingTag, id);
      TouchesTwo(e, e1, e2, id, WalkingTag, FacingTag);
      ShapeTransitive(e, e1, e2);
    }
  }

  /** The entity `walk` and `walk_to` act on, with its position and its
      walking state. */
  function FindWalker(e: Ecs, entity: string): (r: Option<(Key, WorldPos, Walking)>)
    ensures FindByName(e, WalkQuery, entity).None? ==> r.None?
    ensures TagsMatch(e) && FindByName(e, WalkQuery, entity).Some? ==> r.Some?
    ensures r.Some? ==>
      FindByName(e, WalkQuery, entity) == Some(r.value.0) && Has(e, WalkingTag, r.value.0)
      && PositionOf(e, r.value.0) == Some(r.value.1) && WalkingOf(e, r.value.0) == Some(r.value.2)
  {
    match FindByName(e, WalkQuery, entity)
    case None => None
    case Some(id) =>
      assert Filter(QRef(PositionTag), id, e) && Filter(QMut(WalkingTag), id, e) by {
        assert WalkQuery.items[0] == QRef(PositionTag) && WalkQuery.items[2] == QMut(WalkingTag);
      }
      PositionHeld(e, id);
      WalkingHeld(e, id);
      match (PositionOf(e, id), WalkingOf(e, id))
      case (Some(pos), Some(w)) => Some((id, pos, w))
      case _ => None
  }

  /** `walk`: head `distance` map units in the named direction from the
      entity's current position, at `speed`. */
  function Walk(e: Ecs, entity: string, direction: string, distance: real, speed: real): (r: Result<Ecs, string>)
    ensures FindWalker(e, entity).None? ==> r == Err(InvalidEntity(entity))
    ensures ParseDirection(direction).None? ==> r.Err?
    ensures FindWalker(e, entity).Some? && ParseDirection(direction).Some? ==> r.Ok?
    ensures r.Ok? ==>
      var (id, pos, _) := FindWalker(e, entity).value;
      var d := ParseDirection(direction).value;
      WalkingOf(r.value, id).Some? &&
      var w := WalkingOf(r.value, id).value;
      WalkedTo(e, r.value, id, w) && w.direction == d && w.speed == speed && w.destination.Some?
      && Ahead(d, pos.mapPos, w.destination.value) == distance && Aside(d, pos.mapPos, w.destination.value) == 0.0
  {
    match FindWalker(e, entity)
    case None => Err(InvalidEntity(entity))
    case Some((id, pos, w)) =>
      match ParseDirection(direction)
      case None => Err("invalid direction `" + direction + "`")
      case Some(d) =>
        var w' := w.(direction := d, speed := speed, destination := Some(Add(pos.mapPos, Step(d, distance))));
        StepIsAhead(d, pos.mapPos, pos.mapPos, distance);
        Ok(StartWalking(e, id, w'))
  }

  /** The coordinate a walk in direction `d` moves along. */
  function AxisCoord(d: Direction, p: Vec2): real {
    if d == Up || d == Down then p.y else p.x
  }

  /** `walk_to`: head along the named direction until the moving coordinate
      reaches `destination`; the other coordinate stays where it is. */
  function WalkTo(e: Ecs, entity: string, direction: string, destination: real, speed: real): (r: Result<Ecs, string>)
    ensures FindWalker(e, entity).None? ==> r == Err(InvalidEntity(entity))
    ensures ParseDirection(direction).None? ==> r.Err?
    ensures FindWalker(e, entity).Some? && ParseDirection(direction).Some? ==> r.Ok?
    ensures r.Ok? ==>
      var (id, pos, _) := FindWalker(e, entity).value;
      var d := ParseDirection(direction).value;
      WalkingOf(r.value, id).Some? &&
      var w := WalkingOf(r.value, id).value;
      WalkedTo(e, r.value, id, w) && w.direction == d && w.speed == speed && w.destination.Some?
      && AxisCoord(d, w.destination.value) == destination && Aside(d, pos.mapPos, w.destination.value) == 0.0
  {
    match FindWalker(e, entity)
    case None => Err(InvalidEntity(entity))
    case Some((id, pos, w)) =>
      match ParseDirection(direction)
      case None => Err("invalid direction `" + direction + "`")
      case Some(d) =>
        var dest := if d == Up || d == Down then Vec2(pos.mapPos.x, destination) else Vec2(destination, pos.mapPos.y);
        var w' := w.(direction := d, speed := speed, destination := Some(dest));
        Ok(StartWalking(e, id, w'))
  }

  /** `is_entity_walking`: whether the entity still has a destination. */
  function IsEntityWalking(e: Ecs, entity: string): (r: Result<bool, string>)
    ensures FindByName(e, QRef(WalkingTag), entity).None? ==> r == Err(InvalidEntity(entity))
    ensures TagsMatch(e) && FindByName(e, QRef(WalkingTag), entity).Some? ==> r.Ok?
    ensures r.Ok? ==>
      var id := FindByName(e, QRef(WalkingTag), entity).value;
      WalkingOf(e, id).Some? && (r.value <==> WalkingOf(e, id).value.destination.Some?)
  {
    match FindByName(e, QRef(WalkingTag), entity)
    case None => Err(InvalidEntity(entity))
    case Some(id) =>
      WalkingHeld(e, id);
      match WalkingOf(e, id)
      case Some(w) => Ok(w.destination.Some?)
      case None => Err(InvalidEntity(entity))
  }

  /** After a successful `walk`, the same entity reports that it is walking,
      provided the `&Walking` lookup by that name finds the entity the walk
      moved (as it does when names are unique). */
  lemma WalkThenIsWalking(e: Ecs, entity: string, direction: string, distance: real, speed: real)
    requires Walk(e, entity, direction, distance, speed).Ok?
    requires FindByName(e, QRef(WalkingTag), entity) == FindByName(e, WalkQuery, entity)
    ensures IsEntityWalking(Walk(e, entity, direction, distance, speed).value, entity) == Ok(true)
  {
    var r := Walk(e, entity, direction, distance, speed).value;
    var id := FindWalker(e, entity).value.0;
    assert WalkedTo(e, r, id, WalkingOf(r, id).value);
    SameShapeSameLookups(e, r, QRef(WalkingTag), entity);
  }

  // ---------------------------------------------------------------------
  // Animations
  // ---------------------------------------------------------------------

  /** Replace the animation component of an entity found by name. */
  function WithAnimation(e: Ecs, id: Key, a: AnimationComp): (r: Ecs)
    ensures Has(e, AnimationCompTag, id) ==> OnlyTouches(e, r, id, {AnimationCompTag}) && AnimationOf(r, id) == Some(a)
  {
    assert Has(e, AnimationCompTag, id) ==> OnlyTouches(e, AddComponent(e, id, CAnimationComp(a)), id, {AnimationCompTag}) by {
      if Has(e, AnimationCompTag, id) {
        RewriteTouches(e, id, CAnimationComp(a));
      }
    }
    AddComponent(e, id, CAnimationComp(a))
  }

  /** `play_object_animation`: restart the entity's animation. */
  function PlayObjectAnimation(e: Ecs, entity: string, repeat: bool): (r: Result<Ecs, string>)
    ensures FindByName(e, QMut(AnimationCompTag), entity).None? ==> r == Err(InvalidEntity(entity))
    ensures TagsMatch(e) && FindByName(e, QMut(AnimationCompTag), entity).Some? ==> r.Ok?
    ensures r.Ok? ==>
      var id := FindByName(e, QMut(AnimationCompTag), entity).value;
      AnimationOf(e, id).Some? && OnlyTouches(e, r.value, id, {AnimationCompTag})
      && var a := AnimationOf(r.value, id);
      a.Some? && a.value.state == Playing && a.value.repeat == repeat && a.value.elapsed == 0.0
      && a.value.clip == AnimationOf(e, id).value.clip
  {
    match FindByName(e, QMut(AnimationCompTag), entity)
    case None => Err(InvalidEntity(entity))
    case Some(id) =>
      AnimationHeld(e, id);
      match AnimationOf(e, id)
      case Some(a) =>
        RewriteTouches(e, id, CAnimationComp(Start(a, repeat)));
        Ok(WithAnimation(e, id, Start(a, repeat)))
      case None => Err(InvalidEntity(entity))
  }

  /** `stop_object_animation`. */
  function StopObjectAnimation(e: Ecs, entity: string): (r: Result<Ecs, string>)
    ensures FindByName(e, QMut(AnimationCompTag), entity).None? ==> r == Err(InvalidEntity(entity))
    ensures TagsMatch(e) && FindByName(e, QMut(AnimationCompTag), entity).Some? ==> r.Ok?
    ensures r.Ok? ==>
      var id := FindByName(e, QMut(AnimationCompTag), entity).value;
      AnimationOf(e, id).Some? && OnlyTouches(e, r.value, id, {AnimationCompTag})
      && var a := AnimationOf(r.value, id);
      a.Some? && a.value.state == Stopped && !a.value.forced
      && a.value.clip == AnimationOf(e, id).value.clip
  {
    match FindByName(e, QMut(AnimationCompTag), entity)
    case None => Err(InvalidEntity(entity))
    case Some(id) =>
      AnimationHeld(e, id);
      match AnimationOf(e, id)
      case Some(a) =>
        RewriteTouches(e, id, CAnimationComp(Stop(a)));
        Ok(WithAnimation(e, id, Stop(a)))
      case None => Err(InvalidEntity(entity))
  }

  /** `(&mut AnimationComp, &mut DualStateAnims)`. */
  const DualQuery: Query := QTuple([QMut(AnimationCompTag), QMut(DualStateAnimsTag)])

  /** The transition a script requests with `1` (back to the first state)
      or `2` (over to the second). */
  function DualTransition(state: int): (r: Option<DualStateAnimationState>)
    ensures r.Some? <==> state == 1 || state == 2
    ensures r.Some? ==> r.value.FirstToSecond? || r.value.SecondToFirst?
  {
    if state == 1 then Some(SecondToFirst)
    else if state == 2 then Some(FirstToSecond)
    else None
  }

  /** The entity `switch_dual_state_animation` acts on, with its animation
      and its two-state animation set. */
  function FindDual(e: Ecs, entity: string): (r: Option<(Key, AnimationComp, DualStateAnims)>)
    ensures FindByName(e, DualQuery, entity).None? ==> r.None?
    ensures TagsMatch(e) && FindByName(e, DualQuery, entity).Some? ==> r.Some?
    ensures r.Some? ==>
      FindByName(e, DualQuery, entity) == Some(r.value.0)
      && Has(e, AnimationCompTag, r.value.0) && Has(e, DualStateAnimsTag, r.value.0)
      && AnimationOf(e, r.value.0) == Some(r.value.1) && DualStateAnimsOf(e, r.value.0) == Some(r.value.2)
  {
    match FindByName(e, DualQuery, entity)
    case None => None
    case Some(id) =>
      assert Filter(QMut(AnimationCompTag), id, e) && Filter(QMut(DualStateAnimsTag), id, e) by {
        assert DualQuery.items[0] == QMut(AnimationCompTag) && DualQuery.items[1] == QMut(DualStateAnimsTag);
      }
      AnimationHeld(e, id);
      DualStateAnimsHeld(e, id);
      match (AnimationOf(e, id), DualStateAnimsOf(e, id))
      case (Some(a), Some(d)) => Some((id, a, d))
      case _ => None
  }

  /** `switch_dual_state_animation`: enter the requested transition and play
      it once from the start. */
  function SwitchDualStateAnimation(e: Ecs, entity: string, state: int): (r: Result<Ecs, string>)
    ensures FindDual(e, entity).None? ==> r == Err(InvalidEntity(entity))
    ensures state != 1 && state != 2 ==> r.Err?
    ensures FindDual(e, entity).Some? && (state == 1 || state == 2) ==> r.Ok?
    ensures r.Ok? ==>
      var (id, a, d) := FindDual(e, entity).value;
      OnlyTouches(e, r.value, id, {AnimationCompTag, DualStateAnimsTag})
      && DualStateAnimsOf(r.value, id) == Some(d.(dualState := if state == 1 then SecondToFirst else FirstToSecond))
      && AnimationOf(r.value, id) == Some(Start(a, false))
  {
    match FindDual(e, entity)
    case None => Err(InvalidEntity(entity))
    case Some((id, a, d)) =>
      match DualTransition(state)
      case None => Err("state must be 1 or 2")
      case Some(s) => Ok(SetDualState(e, id, a, d, s))
  }

  /** Enter a state of an entity's two-state animation set and restart its
      animation once. */
  function SetDualState(e: Ecs, id: Key, a: AnimationComp, d: DualStateAnims, s: DualStateAnimationState): (r: Ecs)
    requires Has(e, AnimationCompTag, id) && Has(e, DualStateAnimsTag, id)
    ensures OnlyTouches(e, r, id, {AnimationCompTag, DualStateAnimsTag})
    ensures DualStateAnimsOf(r, id) == Some(d.(dualState := s)) && AnimationOf(r, id) == Some(Start(a, false))
  {
    var e1 := WithDualState(e, id, d.(dualState := s));
    assert Has(e1, AnimationCompTag, id) by {
      assert GetComponent(e1, AnimationCompTag, id) == GetComponent(e, AnimationCompTag, id);
    }
    var e2 := WithAnimation(e1, id, Start(a, false));
    assert DualStateAnimsOf(e2, id) == DualStateAnimsOf(e1, id) by {
      assert GetComponent(e2, DualStateAnimsTag, id) == GetComponent(e1, DualStateAnimsTag, id);
    }
    TouchesTwo(e, e1, e2, id, DualStateAnimsTag, AnimationCompTag);
    assert {DualStateAnimsTag, AnimationCompTag} == {AnimationCompTag, DualStateAnimsTag};
    e2
  }

  /** Replace the two-state animation set of an entity that holds one. */
  function WithDualState(e: Ecs, id: Key, d: DualStateAnims): (r: Ecs)
    requires Has(e, DualStateAnimsTag, id)
    ensures OnlyTouches(e, r, id, {DualStateAnimsTag}) && DualStateAnimsOf(r, id) == Some(d)
  {
    RewriteTouches(e, id, CDualStateAnims(d));
    AddComponent(e, id, CDualStateAnims(d))
  }

  /** `(&mut AnimationComp, &NamedAnims)`. */
  const NamedQuery: Query := QTuple([QMut(AnimationCompTag), QRef(NamedAnimsTag)])

  /** The entity `play_named_animation` acts on, with its animation and its
      named clips. */
  function FindNamedAnimated(e: Ecs, entity: string): (r: Option<(Key, AnimationComp, NamedAnims)>)
    ensures FindByName(e, NamedQuery, entity).None? ==> r.None?
    ensures TagsMatch(e) && FindByName(e, NamedQuery, entity).Some? ==> r.Some?
    ensures r.Some? ==>
      FindByName(e, NamedQuery, entity) == Some(r.value.0) && Has(e, AnimationCompTag, r.value.0)
      && AnimationOf(e, r.value.0) == Some(r.value.1) && NamedAnimsOf(e, r.value.0) == Some(r.value.2)
  {
    match FindByName(e, NamedQuery, entity)
    case None => None
    case Some(id) =>
      assert Filter(QMut(AnimationCompTag), id, e) && Filter(QRef(NamedAnimsTag), id, e) by {
        assert NamedQuery.items[0] == QMut(AnimationCompTag) && NamedQuery.items[1] == QRef(NamedAnimsTag);
      }
      AnimationHeld(e, id);
      NamedAnimsHeld(e, id);
      match (AnimationOf(e, id), NamedAnimsOf(e, id))
      case (Some(a), Some(n)) => Some((id, a, n))
      case _ => None
  }

  /** `play_named_animation`: play one of the entity's named clips, forced so
      that the per-frame character animation leaves it alone. */
  function PlayNamedAnimation(e: Ecs, entity: string, animation: string, repeat: bool): (r: Result<Ecs, string>)
    ensures FindNamedAnimated(e, entity).None? ==> r == Err(InvalidEntity(entity))
    ensures FindNamedAnimated(e, entity).Some? ==>
      (r.Ok? <==> animation in FindNamedAnimated(e, entity).value.2.clips)
    ensures r.Ok? ==>
      var (id, a, n) := FindNamedAnimated(e, entity).value;
      animation in n.clips && OnlyTouches(e, r.value, id, {AnimationCompTag})
      && var a' := AnimationOf(r.value, id);
      a'.Some? && a'.value.clip == n.clips[animation] && a'.value.forced
      && a'.value.state == Playing && a'.value.repeat == repeat && a'.value.elapsed == 0.0
  {
    match FindNamedAnimated(e, entity)
    case None => Err(InvalidEntity(entity))
    case Some((id, a, n)) =>
      if animation in n.clips then
        Ok(WithAnimation(e, id, Start(a.(clip := n.clips[animation], forced := true), repeat)))
      else Err("no animation `" + animation + "` on entity `" + entity + "`")
  }

  // ---------------------------------------------------------------------
  // Sound emitters
  // ---------------------------------------------------------------------

  /** `emit_entity_sfx`: the entity's emitter plays `sfx`. */
  function EmitEntitySfx(e: Ecs, entity: string, sfx: string, repeat: bool): (r: Result<Ecs, string>)
    ensures FindByName(e, QMut(SfxEmitterTag), entity).None? ==> r == Err(InvalidEntity(entity))
    ensures TagsMatch(e) && FindByName(e, QMut(SfxEmitterTag), entity).Some? ==> r.Ok?
    ensures r.Ok? ==>
      var id := FindByName(e, QMut(SfxEmitterTag), entity).value;
      OnlyTouches(e, r.value, id, {SfxEmitterTag}) && SfxEmitterOf(r.value, id) == Some(SfxEmitter(Some(sfx), repeat))
  {
    match FindByName(e, QMut(SfxEmitterTag), entity)
    case None => Err(InvalidEntity(entity))
    case Some(id) =>
      SfxEmitterHeld(e, id);
      match SfxEmitterOf(e, id)
      case Some(s) =>
        RewriteTouches(e, id, CSfxEmitter(s.(sfxName := Some(sfx), repeat := repeat)));
        Ok(AddComponent(e, id, CSfxEmitter(s.(sfxName := Some(sfx), repeat := repeat))))
      case None => Err(InvalidEntity(entity))
  }

  /** `stop_entity_sfx`: the emitter falls silent and stops repeating. */
  function StopEntitySfx(e: Ecs, entity: string): (r: Result<Ecs, string>)
    ensures FindByName(e, QMut(SfxEmitterTag), entity).None? ==> r == Err(InvalidEntity(entity))
    ensures TagsMatch(e) && FindByName(e, QMut(SfxEmitterTag), entity).Some? ==> r.Ok?
    ensures r.Ok? ==>
      var id := FindByName(e, QMut(SfxEmitterTag), entity).value;
      OnlyTouches(e, r.value, id, {SfxEmitterTag}) && SfxEmitterOf(r.value, id) == Some(SfxEmitter(None, false))
  {
    match FindByName(e, QMut(SfxEmitterTag), entity)
    case None => Err(InvalidEntity(entity))
    case Some(id) =>
      SfxEmitterHeld(e, id);
      match SfxEmitterOf(e, id)
      case Some(s) =>
        RewriteTouches(e, id, CSfxEmitter(s.(sfxName := None, repeat := false)));
        Ok(AddComponent(e, id, CSfxEmitter(s.(sfxName := None, repeat := false))))
      case None => Err(InvalidEntity(entity))
  }

  // ---------------------------------------------------------------------
  // Player and message box
  // ---------------------------------------------------------------------

  /** `lock_player_input`: lock player movement and halt the player entity if
      it has a `Walking`; nothing else changes and it never fails. */
  function LockPlayerInput(h: Host): (r: Host)
    ensures r.playerMovementLocked
    ensures r.storyVars == h.storyVars && r.messageWindow == h.messageWindow && r.running == h.running
    ensures r.ecs == HaltPlayer(h.ecs)
  {
    h.(playerMovementLocked := true, ecs := HaltPlayer(h.ecs))
  }

  /** The player stops where it stands: its walking speed drops to zero and
      nothing else changes; without a walking player nothing changes. */
  function HaltPlayer(e: Ecs): (r: Ecs)
    ensures FindByName(e, QMut(WalkingTag), PlayerEntityName).None? ==> r == e
    ensures TagsMatch(e) && FindByName(e, QMut(WalkingTag), PlayerEntityName).Some? ==>
      var id := FindByName(e, QMut(WalkingTag), PlayerEntityName).value;
      OnlyTouches(e, r, id, {WalkingTag})
      && WalkingOf(e, id).Some? && WalkingOf(r, id) == Some(WalkingOf(e, id).value.(speed := 0.0))
  {
    var found := FindByName(e, QMut(WalkingTag), PlayerEntityName);
    FoundHasWalking(e, found);
    HaltFound(e, found)
  }

  lemma FoundHasWalking(e: Ecs, found: Option<Key>)
    requires found == FindByName(e, QMut(WalkingTag), PlayerEntityName)
    ensures found.Some? ==> Has(e, WalkingTag, found.value)
  {
  }

  /** Halting the entity the lookup found, if any. */
  function HaltFound(e: Ecs, found: Option<Key>): (r: Ecs)
    requires found.Some? ==> Has(e, WalkingTag, found.value)
    ensures found.None? ==> r == e
    ensures TagsMatch(e) && found.Some? ==>
      OnlyTouches(e, r, found.value, {WalkingTag})
      && WalkingOf(e, found.value).Some? && WalkingOf(r, found.value) == Some(WalkingOf(e, found.value).value.(speed := 0.0))
  {
    match found
    case None => e
    case Some(id) =>
      WalkingHeld(e, id);
      match WalkingOf(e, id)
      case Some(w) => Halt(e, id, w)
      case None => e
  }

  /** Set an entity's walking speed to zero. */
  function Halt(e: Ecs, id: Key, w: Walking): (r: Ecs)
    requires Has(e, WalkingTag, id)
    ensures OnlyTouches(e, r, id, {WalkingTag}) && WalkingOf(r, id) == Some(w.(speed := 0.0))
  {
    RewriteTouches(e, id, CWalking(w.(speed := 0.0)));
    AddComponent(e, id, CWalking(w.(speed := 0.0)))
  }

  /** `message` as bound for scripts: show the text, leaving the rest of the
      host alone, and make the calling script wait: the wait holds on every
      frame while the box is open and clears on the first frame it is
      closed. */
  function ScriptMessage(h: Host, text: string): (r: (Host, Option<WaitCondition>))
    ensures r.0.messageWindow == Some(MessageWindow(text))
    ensures r.0 == h.(messageWindow := r.0.messageWindow)
    ensures r.1.Some? && forall now :: Scheduler.ClearWait(r.1, r.0.messageWindow, now) == r.1
    ensures forall now :: Scheduler.ClearWait(r.1, None, now) == None
  {
    (h.(messageWindow := Some(MessageWindow(text))), Some(Message))
  }

  /** `message` as bound for the console: the same box, but the wait is
      written to a temporary and dropped, so nothing waits. */
  function ConsoleMessage(h: Host, text: string): (r: Host)
    ensures r == ScriptMessage(h, text).0
  {
    h.(messageWindow := Some(MessageWindow(text)))
  }
}

=== FILE: commands.dfy ===
/** The original command interpreter of src/main.rs: an interactable cell
    holds a list of commands, and a running `Script` walks through them with
    a program counter, its own local variables and the game's global
    variables. It runs until it waits on a message box or runs off the end of
    its commands. Reading a variable that is not there panics. */
module Commands {
  import opened Wrappers
  import opened Text
  import opened Geometry

  /** `usize::MAX`, the jump target of `CloseGame`. */
  const UsizeMax: nat := 0xFFFF_FFFF_FFFF_FFFF

  /** The global counter of the pot interactable. */
  const PotKey: string := "test.pot.times_seen"

  /** `Command`; every jump target is a command index. */
  datatype Command =
    | Message(text: string, next: nat)
    | IsPlayerAtCellPos(cell: CellPos, key: string, next: nat)
    | CloseGame
    | SetGlobal(key: string, value: int, next: nat)
    | SetGlobalFromLocal(globalKey: string, localKey: string, next: nat)
    | GetGlobal(globalKey: string, localKey: string, next: nat)
    | Set(key: string, value: int, next: nat)
    | Add(key: string, value: int, next: nat)
    | IfEqual(key: string, value: int, onTrue: nat, onFalse: nat)
    | IfNotEqual(key: string, value: int, onTrue: nat, onFalse: nat)

  /** One execution of a command list (`Script`). */
  datatype Script = Script(commands: seq<Command>, pc: nat, locals: map<string, int>, waiting: bool, finished: bool)

  /** What the interpreter reads and writes outside the script: the cell
      the player stands on, the message box, the game's `running` flag and
      the global variables. */
  datatype World = World(playerCell: CellPos, showWindow: bool, message: string, running: bool, globals: map<string, int>)

  /** A step either completes, panics, or never returns. */
  datatype Outcome<T> = Done(value: T) | Panicked(reason: string) | Hangs

  /** `Script::new`. */
  function NewScript(commands: seq<Command>): (r: Script)
    ensures r.commands == commands && r.pc == 0 && r.locals == map[]
    ensures !r.waiting && !r.finished
  {
    Script(commands, 0, map[], false, false)
  }

  /** The globals the game starts with: every global a script reads must
      be present, and the pot counter is the only one. */
  function InitialGlobals(): (r: map<string, int>)
    ensures r.Keys == {PotKey} && r[PotKey] == 0
  {
    map[PotKey := 0]
  }

  // ---------------------------------------------------------------------
  // Message text
  // ---------------------------------------------------------------------

  /** A character is absent exactly when the one-character string does
      not occur. */
  lemma CharAbsent(s: string, c: char)
    ensures c !in s <==> !Contains(s, [c])
  {
    if c !in s {
      forall i: nat | i <= |s|
        ensures !OccursAt(s, [c], i)
      {
        if i + 1 <= |s| {
          assert s[i..i + 1] == [s[i]];
        }
      }
    } else {
      var i :| 0 <= i < |s| && s[i] == c;
      assert OccursAt(s, [c], i);
    }
  }

  /** Splitting at a character that `a` does not contain splits right
      after `a`. */
  lemma SplitAtFirst(a: string, c: char, rest: string)
    requires c !in a
    ensures SplitOnce(a + [c] + rest, [c]) == Some((a, rest))
  {
    var s := a + [c] + rest;
    assert OccursAt(s, [c], |a|);
    var r := SplitOnce(s, [c]);
    var i := |r.value.0|;
    assert s[i..i + 1] == [c];
    assert s[i] == c;
    assert forall j :: 0 <= j < |a| ==> s[j] == a[j] && a[j] != c;
    assert i == |a|;
    assert r.value.0 == s[..i] == a;
    assert r.value.1 == s[i + 1..] == rest;
  }

  /** The placeholder loop of the `Message` command as written. Each pass
      splits the text at its first `{` and, if a `}` follows, replaces the
      placeholder with the local's value. When no `}` follows, the pass
      changes nothing and the loop condition stays true, so the game never
      returns; that is `Hangs`. */
  function SubstituteAsWritten(temp: string, locals: map<string, int>): (r: Outcome<string>)
    decreases multiset(temp)['{']
    ensures '{' !in temp ==> r == Done(temp)
    ensures r.Done? ==> '{' !in r.value
  {
    CharAbsent(temp, '{');
    match SplitOnce(temp, "{")
    case None =>
      CharAbsent(temp, '{');
      Done(temp)
    case Some((before, rest)) =>
      match SplitOnce(rest, "}")
      case None => Hangs
      case Some((key, after)) =>
        if key !in locals then Panicked("unwrap on a missing local")
        else
          var v := IntToString(locals[key]);
          IntToStringHasNoBraces(locals[key]);
          assert multiset(before + v + after)['{'] < multiset(temp)['{'] by {
            assert temp == before + "{" + (key + "}" + after);
            assert multiset(v)['{'] == 0;
          }
          SubstituteAsWritten(before + v + after, locals)
  }

  /** The loop with the evidently intended exit: a `{` that no `}` follows
      is left in the text and the substitution stops. */
  function Substitute(temp: string, locals: map<string, int>): (r: Outcome<string>)
    decreases multiset(temp)['{']
    ensures !r.Hangs?
    ensures '{' !in temp ==> r == Done(temp)
  {
    CharAbsent(temp, '{');
    match SplitOnce(temp, "{")
    case None => Done(temp)
    case Some((before, rest)) =>
      match SplitOnce(rest, "}")
      case None => Done(temp)
      case Some((key, after)) =>
        if key !in locals then Panicked("unwrap on a missing local")
        else
          var v := IntToString(locals[key]);
          IntToStringHasNoBraces(locals[key]);
          assert multiset(before + v + after)['{'] < multiset(temp)['{'] by {
            assert temp == before + "{" + (key + "}" + after);
            assert multiset(v)['{'] == 0;
          }
          Substitute(before + v + after, locals)
  }

  /** Whenever the loop as written returns, the corrected loop returns the
      same; they differ only where the loop as written never returns. */
  lemma {:induction false} SubstituteAgrees(temp: string, locals: map<string, int>)
    ensures SubstituteAsWritten(temp, locals).Hangs? || SubstituteAsWritten(temp, locals) == Substitute(temp, locals)
    decreases multiset(temp)['{']
  {
    match SplitOnce(temp, "{")
    case None =>
    case Some((before, rest)) =>
      match SplitOnce(rest, "}")
      case None =>
      case Some((key, after)) =>
        if key in locals {
          var v := IntToString(locals[key]);
          IntToStringHasNoBraces(locals[key]);
          assert multiset(before + v + after)['{'] < multiset(temp)['{'] by {
            assert temp == before + "{" + (key + "}" + after);
            assert multiset(v)['{'] == 0;
          }
          SubstituteAgrees(before + v + after, locals);
        }
  }

  /** A placeholder `{key}` (the first `{` of the text) is replaced by the
      decimal value of the local `key`, and a missing local panics. */
  lemma PlaceholderReplaced(a: string, key: string, b: string, locals: map<string, int>)
    requires '{' !in a && '}' !in key
    ensures var t := a + "{" + key + "}" + b;
      SubstituteAsWritten(t, locals) ==
        if key in locals then SubstituteAsWritten(a + IntToString(locals[key]) + b, locals)
        else Panicked("unwrap on a missing local")
    ensures var t := a + "{" + key + "}" + b;
      Substitute(t, locals) ==
        if key in locals then Substitute(a + IntToString(locals[key]) + b, locals)
        else Panicked("unwrap on a missing local")
  {
    var t := a + "{" + key + "}" + b;
    assert t == a + ['{'] + (key + "}" + b);
    SplitAtFirst(a, '{', key + "}" + b);
    assert key + "}" + b == key + ['}'] + b;
    SplitAtFirst(key, '}', b);
  }

  /** A `{` with no `}` after it: the loop as written never returns, while
      the corrected loop shows the text as it is. */
  lemma UnclosedBraceHangs(a: string, b: string, locals: map<string, int>)
    requires '{' !in a && '}' !in b
    ensures SubstituteAsWritten(a + "{" + b, locals) == Hangs
    ensures Substitute(a + "{" + b, locals) == Done(a + "{" + b)
  {
    var t := a + "{" + b;
    assert t == a + ['{'] + b;
    SplitAtFirst(a, '{', b);
    CharAbsent(b, '}');
  }

  // ---------------------------------------------------------------------
  // Executing commands
  // ---------------------------------------------------------------------

  /** `HashMap::get(..).unwrap()`. */
  function Read(vars: map<string, int>, key: string): (r: Outcome<int>)
    ensures r.Done? <==> key in vars
    ensures r.Done? ==> r.value == vars[key]
    ensures !r.Hangs?
  {
    if key in vars then Done(vars[key]) else Panicked("unwrap on a missing variable")
  }

  /** The variable a command reads (with `unwrap`) before it can act, and
      whether it reads it from the locals rather than the globals. */
  function ReadKey(c: Command): (r: Option<(string, bool)>)
    ensures r.None? <==> c.Message? || c.IsPlayerAtCellPos? || c.CloseGame? || c.SetGlobal? || c.Set?
  {
    match c
    case SetGlobalFromLocal(_, localKey, _) => Some((localKey, true))
    case GetGlobal(globalKey, _, _) => Some((globalKey, false))
    case Add(key, _, _) => Some((key, true))
    case IfEqual(key, _, _, _) => Some((key, true))
    case IfNotEqual(key, _, _, _) => Some((key, true))
    case _ => None
  }

  /** Whether the variable a command reads is missing. */
  predicate ReadsMissing(c: Command, s: Script, w: World) {
    match ReadKey(c)
    case None => false
    case Some((key, local)) => if local then key !in s.locals else key !in w.globals
  }

  /** The jump of a comparison command. */
  function Branch(holds: bool, onTrue: nat, onFalse: nat): nat {
    if holds then onTrue else onFalse
  }

  /** One pass of the loop of `update_script_execution`: run the command
      at the program counter, or finish when there is none. `i32` addition
      that overflows panics. */
  function StepCommand(s: Script, w: World): (r: Outcome<(Script, World)>)
    ensures s.pc >= |s.commands| ==> r == Done((s.(finished := true), w))
    ensures r.Done? ==> r.value.0.commands == s.commands
    ensures r.Done? ==> (r.value.0.finished <==> s.finished || s.pc >= |s.commands|)
    ensures r.Done? ==> (r.value.0.waiting <==> s.waiting || (s.pc < |s.commands| && s.commands[s.pc].Message?))
    ensures r.Hangs? ==> s.pc < |s.commands| && s.commands[s.pc].Message?
    ensures s.pc < |s.commands| && ReadsMissing(s.commands[s.pc], s, w) ==> r.Panicked?
    ensures r.Panicked? ==>
      (s.pc < |s.commands|
       && (ReadsMissing(s.commands[s.pc], s, w) || s.commands[s.pc].Message? || s.commands[s.pc].Add?))
  {
    if s.pc >= |s.commands| then Done((s.(finished := true), w))
    else match s.commands[s.pc]
      case Message(text, next) =>
        (match SubstituteAsWritten(text, s.locals)
         case Done(m) => Done((s.(waiting := true, pc := next), w.(showWindow := true, message := m)))
         case Panicked(why) => Panicked(why)
         case Hangs => Hangs)
      case IsPlayerAtCellPos(cell, key, next) =>
        Done((s.(locals := s.locals[key := if w.playerCell == cell then 1 else 0], pc := next), w))
      case CloseGame =>
        Done((s.(pc := UsizeMax), w.(running := false)))
      case SetGlobal(key, value, next) =>
        Done((s.(pc := next), w.(globals := w.globals[key := value])))
      case SetGlobalFromLocal(globalKey, localKey, next) =>
        (match Read(s.locals, localKey)
         case Done(v) => Done((s.(pc := next), w.(globals := w.globals[globalKey := v])))
         case Panicked(why) => Panicked(why))
      case GetGlobal(globalKey, localKey, next) =>
        (match Read(w.globals, globalKey)
         case Done(v) => Done((s.(locals := s.locals[localKey := v], pc := next), w))
         case Panicked(why) => Panicked(why))
      case Set(key, value, next) =>
        Done((s.(locals := s.locals[key := value], pc := next), w))
      case Add(key, value, next) =>
        (match Read(s.locals, key)
         case Done(v) =>
           if !InI32(v + value) then Panicked("attempt to add with overflow")
           else Done((s.(locals := s.locals[key := v + value], pc := next), w))
         case Panicked(why) => Panicked(why))
      case IfEqual(key, value, onTrue, onFalse) =>
        (match Read(s.locals, key)
         case Done(v) => Done((s.(pc := Branch(value == v, onTrue, onFalse)), w))
         case Panicked(why) => Panicked(why))
      case IfNotEqual(key, value, onTrue, onFalse) =>
        match Read(s.locals, key)
        case Done(v) => Done((s.(pc := Branch(value != v, onTrue, onFalse)), w))
        case Panicked(why) => Panicked(why)
  }

  /** The script has stopped for this frame. */
  predicate Stopped(s: Script) {
    s.waiting || s.finished
  }

  /** `update_script_execution`: step until the script waits or finishes.
      The loop need not end (a jump back to itself spins forever), so the
      model runs at most `fuel` passes and gives `None` past that. */
  function Run(s: Script, w: World, fuel: nat): (r: Option<Outcome<(Script, World)>>)
    decreases fuel
    ensures Stopped(s) ==> r == Some(Done((s, w)))
    ensures r.Some? && r.value.Done? ==> Stopped(r.value.value.0) && r.value.value.0.commands == s.commands
  {
    if Stopped(s) then Some(Done((s, w)))
    else if fuel == 0 then None
    else match StepCommand(s, w)
      case Done((s', w')) => Run(s', w', fuel - 1)
      case Panicked(why) => Some(Panicked(why))
      case Hangs => Some(Hangs)
  }

  /** More fuel never changes a run that already ended. */
  lemma {:induction false} RunFuelMonotone(s: Script, w: World, fuel: nat, more: nat)
    requires Run(s, w, fuel).Some?
    requires fuel <= more
    ensures Run(s, w, more) == Run(s, w, fuel)
    decreases fuel
  {
    if !Stopped(s) {
      match StepCommand(s, w)
      case Done((s', w')) => RunFuelMonotone(s', w', fuel - 1, more - 1);
      case Panicked(_) =>
      case Hangs =>
    }
  }

  // ---------------------------------------------------------------------
  // Properties of single commands
  // ---------------------------------------------------------------------

  /** `CloseGame` stops the game and jumps past every command, so the next
      pass finishes the script. */
  lemma CloseGameFinishes(s: Script, w: World)
    requires !Stopped(s) && s.pc < |s.commands| && s.commands[s.pc] == CloseGame
    requires |s.commands| <= UsizeMax
    ensures var r := StepCommand(s, w);
      r.Done? && !r.value.1.running && !r.value.0.finished
      && StepCommand(r.value.0, r.value.1) == Done((r.value.0.(finished := true), r.value.1))
  {
  }

  /** The comparisons jump to the true branch exactly when the comparison
      holds; `IfNotEqual` is `IfEqual` with its branches swapped. */
  lemma ComparisonsBranch(s: Script, w: World, key: string, value: int, onTrue: nat, onFalse: nat)
    requires key in s.locals
    requires s.pc < |s.commands|
    ensures s.commands[s.pc] == IfEqual(key, value, onTrue, onFalse) ==>
      StepCommand(s, w).Done? && StepCommand(s, w).value.1 == w
      && (StepCommand(s, w).value.0.pc == onTrue <==> value == s.locals[key] || onTrue == onFalse)
      && StepCommand(s, w).value.0.locals == s.locals
    ensures s.commands[s.pc] == IfNotEqual(key, value, onTrue, onFalse) ==>
      var swapped := s.(commands := s.commands[s.pc := IfEqual(key, value, onFalse, onTrue)]);
      StepCommand(s, w).Done? && StepCommand(swapped, w).Done?
      && StepCommand(s, w).value.0.pc == StepCommand(swapped, w).value.0.pc
      && StepCommand(s, w).value.0.locals == s.locals
  {
  }

  /** The variables a command writes: at most one entry of one map changes,
      and the written value is the one the command names. */
  lemma WritesOneEntry(s: Script, w: World)
    requires s.pc < |s.commands| && !s.commands[s.pc].Message?
    requires StepCommand(s, w).Done?
    ensures var (s', w') := StepCommand(s, w).value;
      match s.commands[s.pc]
      case IsPlayerAtCellPos(cell, key, next) =>
        w' == w && s'.pc == next && s'.locals.Keys == s.locals.Keys + {key}
        && (s'.locals[key] == 1 <==> w.playerCell == cell) && (s'.locals[key] == 0 <==> w.playerCell != cell)
        && forall k :: k in s.locals && k != key ==> s'.locals[k] == s.locals[k]
      case SetGlobal(key, value, next) =>
        s' == s.(pc := next) && w'.globals.Keys == w.globals.Keys + {key} && w'.globals[key] == value
        && forall k :: k in w.globals && k != key ==> w'.globals[k] == w.globals[k]
      case SetGlobalFromLocal(globalKey, localKey, next) =>
        s' == s.(pc := next) && w'.globals.Keys == w.globals.Keys + {globalKey}
        && w'.globals[globalKey] == s.locals[localKey]
        && forall k :: k in w.globals && k != globalKey ==> w'.globals[k] == w.globals[k]
      case GetGlobal(globalKey, localKey, next) =>
        w' == w && s'.pc == next && s'.locals.Keys == s.locals.Keys + {localKey}
        && s'.locals[localKey] == w.globals[globalKey]
        && forall k :: k in s.locals && k != localKey ==> s'.locals[k] == s.locals[k]
      case Set(key, value, next) =>
        w' == w && s'.pc == next && s'.locals.Keys == s.locals.Keys + {key} && s'.locals[key] == value
        && forall k :: k in s.locals && k != key ==> s'.locals[k] == s.locals[k]
      case Add(key, value, next) =>
        w' == w && s'.pc == next && s'.locals.Keys == s.locals.Keys
        && s'.locals[key] == s.locals[key] + value
        && forall k :: k in s.locals && k != key ==> s'.locals[k] == s.locals[k]
      case _ => s'.locals == s.locals && w'.globals == w.globals
  {
  }

  // ---------------------------------------------------------------------
  // The game loop around the interpreter
  // ---------------------------------------------------------------------

  /** Space on an interactable cell starts its commands, replacing any
      script that was running. */
  function Interact(interactables: map<CellPos, seq<Command>>, facing: CellPos, current: Option<Script>): (r: Option<Script>)
    ensures facing !in interactables ==> r == current
    ensures facing in interactables ==> r == Some(NewScript(interactables[facing]))
  {
    if facing in interactables then Some(NewScript(interactables[facing])) else current
  }

  /** Return hides the message box and lets the script go on. */
  function Advance(current: Option<Script>, w: World): (r: (Option<Script>, World))
    ensures !r.1.showWindow && r.1 == w.(showWindow := false)
    ensures r.0.Some? <==> current.Some?
    ensures r.0.Some? ==> r.0.value == current.value.(waiting := false)
  {
    (if current.Some? then Some(current.value.(waiting := false)) else None, w.(showWindow := false))
  }

  /** The script part of one frame: run the current script, and drop it
      once it has finished. */
  function Tick(current: Option<Script>, w: World, fuel: nat): (r: Option<Outcome<(Option<Script>, World)>>)
    ensures current.None? ==> r == Some(Done((None, w)))
    ensures r.Some? && r.value.Done? && r.value.value.0.Some? ==> r.value.value.0.value.waiting && !r.value.value.0.value.finished
    ensures current.Some? ==> (r.Some? <==> Run(current.value, w, fuel).Some?)
  {
    match current
    case None => Some(Done((None, w)))
    case Some(s) =>
      match Run(s, w, fuel)
      case None => None
      case Some(Panicked(why)) => Some(Panicked(why))
      case Some(Hangs) => Some(Hangs)
      case Some(Done((s', w'))) => Some(Done((if s'.finished then None else Some(s'), w')))
  }

  /** A message stops the script with the box shown; Return hides the box
      and the script goes on, on a later frame, at the command the message
      named, with its locals as they were. */
  lemma ReturnResumesAfterMessage(s: Script, w: World)
    requires !Stopped(s) && s.pc < |s.commands| && s.commands[s.pc].Message?
    requires StepCommand(s, w).Done?
    ensures var (s1, w1) := StepCommand(s, w).value;
      Stopped(s1) && w1.showWindow
      && var (c, w2) := Advance(Some(s1), w1);
      c == Some(s1.(waiting := false)) && !w2.showWindow && !Stopped(c.value)
      && c.value.pc == s.commands[s.pc].next && c.value.locals == s.locals
  {
  }

  // ---------------------------------------------------------------------
  // The pot
  // ---------------------------------------------------------------------

  const PotFirstText: string := "This is the first time you've seen the pot."
  const PotTimesText: string := "You've seen the pot {times_seen} times."

  /** The commands of the pot interactable at cell (4, 4). */
  const Pot: seq<Command> := [
    GetGlobal(PotKey, "times_seen", 1),
    IfEqual("times_seen", 0, 2, 3),
    Message(PotFirstText, 4),
    Message(PotTimesText, 4),
    Add("times_seen", 1, 5),
    SetGlobalFromLocal(PotKey, "times_seen", 6)
  ]

  /** The first-visit text has no placeholder. */
  lemma PotFirstMessage(locals: map<string, int>)
    ensures SubstituteAsWritten(PotFirstText, locals) == Done(PotFirstText)
  {
    assert '{' !in PotFirstText;
  }

  /** The other text shows the count of earlier visits in decimal. */
  lemma PotTimesMessage(n: int)
    ensures SubstituteAsWritten(PotTimesText, map["times_seen" := n])
      == Done("You've seen the pot " + IntToString(n) + " times.")
  {
    var a := "You've seen the pot ";
    var b := " times.";
    var key := "times_seen";
    assert PotTimesText == a + "{" + key + "}" + b;
    assert '{' !in a && '}' !in key && '{' !in b;
    PlaceholderReplaced(a, key, b, map[key := n]);
    var v := IntToString(n);
    IntToStringHasNoBraces(n);
    assert '{' !in a + v + b by {
      assert forall c :: c in a + v + b ==> c in a || c in v || c in b;
    }
  }

  /** The message the pot shows when its counter is `n`. */
  function PotText(n: int): (r: string)
    ensures n == 0 ==> r == PotFirstText
    ensures n != 0 ==> r == "You've seen the pot " + IntToString(n) + " times."
  {
    if n == 0 then PotFirstText else "You've seen the pot " + IntToString(n) + " times."
  }

  /** First frame: the pot reads its counter into a local and stops at the
      message, which is shown. */
  lemma {:induction false} PotRunsToMessage(w: World, n: int)
    requires PotKey in w.globals && w.globals[PotKey] == n
    ensures Run(NewScript(Pot), w, 4) == Some(Done((
      NewScript(Pot).(locals := map["times_seen" := n], pc := 4, waiting := true),
      w.(showWindow := true, message := PotText(n)))))
  {
    var locals := map["times_seen" := n];
    var s0 := NewScript(Pot);
    var s1 := s0.(locals := locals, pc := 1);
    assert s0.commands[0] == GetGlobal(PotKey, "times_seen", 1);
    assert StepCommand(s0, w) == Done((s1, w));
    var s2 := s1.(pc := if n == 0 then 2 else 3);
    assert s1.commands[1] == IfEqual("times_seen", 0, 2, 3);
    assert StepCommand(s1, w) == Done((s2, w));
    var s3 := s2.(waiting := true, pc := 4);
    var w3 := w.(showWindow := true, message := PotText(n));
    PotMessageStep(s2, w, n);
    assert Run(s3, w3, 1) == Some(Done((s3, w3)));
    assert Run(s2, w, 2) == Some(Done((s3, w3)));
    assert Run(s1, w, 3) == Some(Done((s3, w3)));
  }

  /** The pot's message command, read from its text constants. */
  lemma PotMessageStep(s: Script, w: World, n: int)
    requires s == NewScript(Pot).(locals := map["times_seen" := n], pc := if n == 0 then 2 else 3)
    ensures StepCommand(s, w) == Done((s.(waiting := true, pc := 4), w.(showWindow := true, message := PotText(n))))
  {
    var m := if n == 0 then PotFirstText else PotTimesText;
    assert s.commands[s.pc] == Message(m, 4);
    PotFirstMessage(s.locals);
    PotTimesMessage(n);
    assert SubstituteAsWritten(m, s.locals) == Done(PotText(n));
  }

  /** Frame after Return: the local is incremented, copied back to the
      counter, and the script runs off its end; a counter already at the
      largest `i32` makes the increment panic. */
  lemma {:induction false} PotRunsToEnd(w: World, n: int)
    requires InI32(n)
    ensures var s := NewScript(Pot).(locals := map["times_seen" := n], pc := 4);
      n < I32Max ==> Run(s, w, 3) == Some(Done((
        s.(locals := map["times_seen" := n + 1], pc := 6, finished := true),
        w.(globals := w.globals[PotKey := n + 1]))))
    ensures var s := NewScript(Pot).(locals := map["times_seen" := n], pc := 4);
      n == I32Max ==> Run(s, w, 3) == Some(Panicked("attempt to add with overflow"))
  {
    var s4 := NewScript(Pot).(locals := map["times_seen" := n], pc := 4);
    assert s4.commands[4] == Add("times_seen", 1, 5);
    if n == I32Max {
      assert StepCommand(s4, w) == Panicked("attempt to add with overflow");
    } else {
      var s5 := s4.(locals := map["times_seen" := n + 1], pc := 5);
      assert s4.locals["times_seen" := n + 1] == map["times_seen" := n + 1];
      assert StepCommand(s4, w) == Done((s5, w));
      assert s5.commands[5] == SetGlobalFromLocal(PotKey, "times_seen", 6);
      var s6 := s5.(pc := 6);
      var w6 := w.(globals := w.globals[PotKey := n + 1]);
      assert StepCommand(s5, w) == Done((s6, w6));
      assert StepCommand(s6, w6) == Done((s6.(finished := true), w6));
      assert Run(s6, w6, 1) == Some(Done((s6.(finished := true), w6)));
      assert Run(s5, w, 2) == Some(Done((s6.(finished := true), w6)));
    }
  }

  /** Interacting with the pot once, from the first frame to the frame
      after Return, adds exactly one to its global counter and leaves the
      other globals alone. The message on the way is the first-visit text
      when the counter was 0, and the count otherwise. */
  lemma PotCountsVisits(w: World, n: int)
    requires PotKey in w.globals && w.globals[PotKey] == n && InI32(n) && n < I32Max
    ensures var t1 := Tick(Some(NewScript(Pot)), w, 4);
      t1.Some? && t1.value.Done? && t1.value.value.0.Some?
      && var (c, w1) := t1.value.value;
      w1 == w.(showWindow := true, message := PotText(n))
      && var (c', w1') := Advance(c, w1);
      Tick(c', w1', 3) == Some(Done((None, w1'.(globals := w.globals[PotKey := n + 1]))))
  {
    PotRunsToMessage(w, n);
    PotRunsToEnd(w.(showWindow := false, message := PotText(n)), n);
  }
}

=== FILE: components.dfy ===
// The component records of the engine (src/components.rs and the older
// src/ecs/components.rs), the animation playback controls, script sources and
// the name under which each component is stored and serialized.

module Components {
  import opened Wrappers
  import opened Text
  import opened Geometry
  import ScriptText

  datatype Sprite = Sprite(spritesheet: string, rectX: nat, rectY: nat, rectW: nat, rectH: nat, anchorX: int, anchorY: int)

  datatype AnimationClip = AnimationClip(frames: seq<Sprite>, secondsPerFrame: real)

  const EmptyClip: AnimationClip := AnimationClip([], 0.0)

  datatype PlaybackState = Playing | Paused | Stopped

  /** `PlaybackState::default()`. */
  const DefaultPlaybackState: PlaybackState := Stopped

  /** An animation being played: `elapsed` is the time in seconds since it
      started and is not reduced modulo the clip length. */
  datatype AnimationComp = AnimationComp(clip: AnimationClip, elapsed: real, state: PlaybackState, repeat: bool, forced: bool)

  const DefaultAnimationComp: AnimationComp := AnimationComp(EmptyClip, 0.0, DefaultPlaybackState, false, false)

  /** `start(repeat)`: play from the beginning. */
  function Start(a: AnimationComp, repeat: bool): (r: AnimationComp)
    ensures r.state == Playing && r.repeat == repeat && r.elapsed == 0.0
    ensures r.clip == a.clip && r.forced == a.forced
  {
    a.(state := Playing, repeat := repeat, elapsed := 0.0)
  }

  /** `pause()`: only the playback state changes. */
  function Pause(a: AnimationComp): (r: AnimationComp)
    ensures r.state == Paused && r == a.(state := r.state)
  {
    a.(state := Paused)
  }

  /** `resume()`: only the playback state changes. */
  function Resume(a: AnimationComp): (r: AnimationComp)
    ensures r.state == Playing && r == a.(state := r.state)
  {
    a.(state := Playing)
  }

  /** `stop()`: stopped, and no longer forced. */
  function Stop(a: AnimationComp): (r: AnimationComp)
    ensures r.state == Stopped && !r.forced
    ensures r.clip == a.clip && r.elapsed == a.elapsed && r.repeat == a.repeat
  {
    a.(state := Stopped, forced := false)
  }

  /** Pausing and then resuming a playing animation gives it back unchanged,
      and starting ignores whatever state the animation was in. */
  lemma PauseResumeRoundTrip(a: AnimationComp, repeat: bool)
    ensures a.state == Playing ==> Resume(Pause(a)) == a
    ensures Start(Stop(a), repeat).state == Playing
    ensures Start(Pause(a), repeat) == Start(a, repeat)
    ensures Start(Resume(a), repeat) == Start(a, repeat)
  {
  }

  datatype CharacterAnims = CharacterAnims(up: AnimationClip, down: AnimationClip, left: AnimationClip, right: AnimationClip)

  /** The clip of a character facing `d`. */
  function ClipFacing(anims: CharacterAnims, d: Direction): AnimationClip {
    match d
    case Up => anims.up
    case Down => anims.down
    case Left => anims.left
    case Right => anims.right
  }

  datatype DualStateAnimationState = First | FirstToSecond | Second | SecondToFirst

  datatype DualStateAnims = DualStateAnims(
    dualState: DualStateAnimationState,
    first: AnimationClip,
    firstToSecond: AnimationClip,
    second: AnimationClip,
    secondToFirst: AnimationClip)

  /** The clip belonging to the current dual state. */
  function ClipOfState(d: DualStateAnims): AnimationClip {
    match d.dualState
    case First => d.first
    case FirstToSecond => d.firstToSecond
    case Second => d.second
    case SecondToFirst => d.secondToFirst
  }

  datatype NamedAnims = NamedAnims(clips: map<string, AnimationClip>)

  /** A position: the name of the map (`map` in the source) and the position on it, in map units. */
  datatype WorldPos = WorldPos(mapName: string, mapPos: Vec2)

  datatype Walking = Walking(speed: real, direction: Direction, destination: Option<Vec2>)

  const DefaultWalking: Walking := Walking(0.0, DefaultDirection, None)

  datatype Camera = Camera(targetEntity: Option<string>, size: Vec2, clampToMap: bool)

  datatype Collision = Collision(hitbox: Vec2, solid: bool)

  /** The mixer channel of the emitter is playback state and is left out. */
  datatype SfxEmitter = SfxEmitter(sfxName: Option<string>, repeat: bool)

  datatype SpriteComp = SpriteComp(sprite: Option<Sprite>, forcedSprite: Option<Sprite>, visible: bool)

  /** `SpriteComp::default()`: nothing to draw, but visible. */
  const DefaultSpriteComp: SpriteComp := SpriteComp(None, None, true)

  /** Where a script's text comes from. */
  datatype ScriptSource =
    | File(filepath: string, nameInFile: Option<string>)
    | String(text: string)

  datatype InteractionTrigger = InteractionTrigger(scriptSource: ScriptSource, hitbox: Vec2)

  datatype CollisionTrigger = CollisionTrigger(scriptSource: ScriptSource)

  datatype AreaTrigger = AreaTrigger(scriptSource: ScriptSource, hitbox: Vec2)

  /** One component of any of the stored types. */
  datatype Component =
    | CName(name: string)
    | CPosition(position: WorldPos)
    | CVelocity(velocity: Vec2)
    | CCollision(collision: Collision)
    | CSfxEmitter(sfxEmitter: SfxEmitter)
    | CSpriteComp(spriteComp: SpriteComp)
    | CFacing(facing: Direction)
    | CWalking(walking: Walking)
    | CCamera(camera: Camera)
    | CAnimationComp(animation: AnimationComp)
    | CCharacterAnims(characterAnims: CharacterAnims)
    | CDualStateAnims(dualStateAnims: DualStateAnims)
    | CNamedAnims(namedAnims: NamedAnims)
    | CInteractionTrigger(interactionTrigger: InteractionTrigger)
    | CCollisionTrigger(collisionTrigger: CollisionTrigger)
    | CAreaTrigger(areaTrigger: AreaTrigger)

  /** The component types. */
  datatype Tag =
    | NameTag | PositionTag | VelocityTag | CollisionTag | SfxEmitterTag | SpriteCompTag
    | FacingTag | WalkingTag | CameraTag | AnimationCompTag | CharacterAnimsTag
    | DualStateAnimsTag | NamedAnimsTag | InteractionTriggerTag | CollisionTriggerTag
    | AreaTriggerTag

  /** The sixteen serializable component names, in the order the entity
      loader lists them. */
  const ComponentNames: seq<string> := [
    "Name", "Position", "Velocity", "Collision", "SfxEmitter", "SpriteComp",
    "Facing", "Walking", "Camera", "AnimationComp", "CharacterAnims",
    "DualStateAnims", "NamedAnims", "InteractionTrigger", "CollisionTrigger",
    "AreaTrigger"]

  /** `Component::name` of each type: its unqualified type name. */
  function TagName(t: Tag): (n: string)
    ensures n in ComponentNames
  {
    match t
    case NameTag => "Name"
    case PositionTag => "Position"
    case VelocityTag => "Velocity"
    case CollisionTag => "Collision"
    case SfxEmitterTag => "SfxEmitter"
    case SpriteCompTag => "SpriteComp"
    case FacingTag => "Facing"
    case WalkingTag => "Walking"
    case CameraTag => "Camera"
    case AnimationCompTag => "AnimationComp"
    case CharacterAnimsTag => "CharacterAnims"
    case DualStateAnimsTag => "DualStateAnims"
    case NamedAnimsTag => "NamedAnims"
    case InteractionTriggerTag => "InteractionTrigger"
    case CollisionTriggerTag => "CollisionTrigger"
    case AreaTriggerTag => "AreaTrigger"
  }

  /** The type a serialized component name denotes, if any. */
  function TagNamed(name: string): (r: Option<Tag>)
    ensures r.Some? <==> name in ComponentNames
    ensures r.Some? ==> TagName(r.value) == name
  {
    match name
    case "Name" => Some(NameTag)
    case "Position" => Some(PositionTag)
    case "Velocity" => Some(VelocityTag)
    case "Collision" => Some(CollisionTag)
    case "SfxEmitter" => Some(SfxEmitterTag)
    case "SpriteComp" => Some(SpriteCompTag)
    case "Facing" => Some(FacingTag)
    case "Walking" => Some(WalkingTag)
    case "Camera" => Some(CameraTag)
    case "AnimationComp" => Some(AnimationCompTag)
    case "CharacterAnims" => Some(CharacterAnimsTag)
    case "DualStateAnims" => Some(DualStateAnimsTag)
    case "NamedAnims" => Some(NamedAnimsTag)
    case "InteractionTrigger" => Some(InteractionTriggerTag)
    case "CollisionTrigger" => Some(CollisionTriggerTag)
    case "AreaTrigger" => Some(AreaTriggerTag)
    case _ => None
  }

  /** Names and types correspond one to one. */
  lemma TagNameRoundTrip(t: Tag)
    ensures TagNamed(TagName(t)) == Some(t)
  {
  }

  /** The type of a component value. */
  function TagOf(c: Component): Tag {
    match c
    case CName(_) => NameTag
    case CPosition(_) => PositionTag
    case CVelocity(_) => VelocityTag
    case CCollision(_) => CollisionTag
    case CSfxEmitter(_) => SfxEmitterTag
    case CSpriteComp(_) => SpriteCompTag
    case CFacing(_) => FacingTag
    case CWalking(_) => WalkingTag
    case CCamera(_) => CameraTag
    case CAnimationComp(_) => AnimationCompTag
    case CCharacterAnims(_) => CharacterAnimsTag
    case CDualStateAnims(_) => DualStateAnimsTag
    case CNamedAnims(_) => NamedAnimsTag
    case CInteractionTrigger(_) => InteractionTriggerTag
    case CCollisionTrigger(_) => CollisionTriggerTag
    case CAreaTrigger(_) => AreaTriggerTag
  }

  /** `Component::name`: the last `::`-separated segment of a type path,
      splitting from the left as `str::split` does. */
  function LastSegment(path: string): (r: string)
    decreases |path|
    ensures !Contains(r, "::")
    ensures |r| <= |path| && r == path[|path| - |r|..]
    ensures !Contains(path, "::") ==> r == path
  {
    match SplitOnce(path, "::")
    case None => path
    case Some((_, rest)) => LastSegment(rest)
  }

  /** A qualified type path ends in the type's own name, whatever the
      module path in front of it. */
  lemma {:induction false} LastSegmentOfQualified(prefix: string, name: string)
    requires !Contains(name, "::") && (name == [] || name[0] != ':')
    requires prefix == [] || prefix[|prefix| - 1] != ':'
    ensures LastSegment(prefix + "::" + name) == name
    decreases |prefix|
  {
    var s := prefix + "::" + name;
    assert OccursAt(s, "::", |prefix|);
    var split := SplitOnce(s, "::");
    var (a, rest) := split.value;
    assert |a| <= |prefix|;
    if |a| == |prefix| {
      assert rest == name;
    } else {
      assert |a| != |prefix| - 1;
      assert |a| + 2 <= |prefix|;
      var p' := prefix[|a| + 2..];
      assert rest == s[|a| + 2..] by {
        assert s == a + "::" + rest;
      }
      assert s[|a| + 2..] == p' + "::" + name;
      LastSegmentOfQualified(p', name);
    }
  }

  /** `ScriptSource::get_source`, with the file system given as a map from
      path to contents: an inline source is returned as is, a file with a
      script name is sliced by the named-script reader, and a file without
      one is returned whole. */
  function GetSource(src: ScriptSource, files: map<string, string>): (r: Result<string, string>)
    ensures src.String? ==> r == Ok(src.text)
    ensures src.File? && src.filepath !in files ==> r.Err?
    ensures src.File? && src.filepath in files && src.nameInFile.None? ==> r == Ok(files[src.filepath])
    ensures src.File? && src.filepath in files && src.nameInFile.Some? ==>
      r == ScriptText.ReadScript(files[src.filepath], src.nameInFile.value)
  {
    match src
    case String(text) => Ok(text)
    case File(path, nameInFile) =>
      if path !in files then Err("couldn't read file `" + path + "`")
      else match nameInFile
        case Some(name) => ScriptText.ReadScript(files[path], name)
        case None => Ok(files[path])
  }
}

=== FILE: console.dfy ===
/** The developer console window (src/dev_ui/console.rs): a scrollback of
    output lines, an input line, and an input history browsed with the arrow
    keys. The egui widgets are not modelled; each frame is its events in
    order, read against the browsed entry as it stood when the frame began. */
module Console {
  import opened Wrappers

  datatype Key = ArrowUp | ArrowDown | Enter | OtherKey

  /** `ConsoleWindow`: history entry 0 is the most recent. */
  datatype Window = Window(open: bool, scrollback: string, input: string, history: seq<string>, cursor: Option<nat>)

  /** `ConsoleWindow::new`: closed, empty, not browsing. */
  function NewWindow(): (w: Window)
    ensures !w.open && w.scrollback == [] && w.input == [] && w.history == [] && w.cursor.None?
  {
    Window(false, "", "", [], None)
  }

  // ---------------------------------------------------------------------
  // Scrollback
  // ---------------------------------------------------------------------

  /** `push_to_scrollback`: a line break goes before the new text unless
      the scrollback is still empty. */
  function Push(scrollback: string, s: string): (r: string)
    ensures scrollback == [] ==> r == s
    ensures scrollback != [] ==> (|r| == |scrollback| + 1 + |s| && r[..|scrollback|] == scrollback
                                 && r[|scrollback|] == '\n' && r[|scrollback| + 1..] == s)
  {
    if scrollback == [] then s else scrollback + "\n" + s
  }

  /** Several texts pushed one after the other. */
  function PushAll(scrollback: string, ss: seq<string>): string
    decreases |ss|
  {
    if ss == [] then scrollback else PushAll(Push(scrollback, ss[0]), ss[1..])
  }

  /** Every text with a line break in front of it, joined. */
  function Appended(ss: seq<string>): string
    decreases |ss|
  {
    if ss == [] then "" else "\n" + ss[0] + Appended(ss[1..])
  }

  /** Once the scrollback holds something, each pushed text is one more
      line break followed by the text. */
  lemma {:induction false} PushAllAppends(scrollback: string, ss: seq<string>)
    requires scrollback != []
    ensures PushAll(scrollback, ss) == scrollback + Appended(ss)
    decreases |ss|
  {
    if ss == [] {
      assert scrollback + "" == scrollback;
    } else {
      var next := Push(scrollback, ss[0]);
      assert next == scrollback + "\n" + ss[0];
      PushAllAppends(next, ss[1..]);
      assert scrollback + "\n" + ss[0] + Appended(ss[1..]) == scrollback + ("\n" + ss[0] + Appended(ss[1..]));
    }
  }

  /** Starting from an empty scrollback the texts are separated, not
      preceded, by line breaks, provided the first one is not empty. */
  lemma NoLeadingLineBreak(ss: seq<string>)
    requires ss != [] && ss[0] != []
    ensures PushAll("", ss) == ss[0] + Appended(ss[1..])
  {
    PushAllAppends(ss[0], ss[1..]);
  }

  // ---------------------------------------------------------------------
  // History browsing
  // ---------------------------------------------------------------------

  /** The history entry under the cursor, if the cursor points at one. */
  function Browsed(w: Window): (r: Option<string>)
    ensures r.Some? <==> w.cursor.Some? && w.cursor.value < |w.history|
    ensures r.Some? ==> r.value in w.history
  {
    if w.cursor.Some? && w.cursor.value < |w.history| then Some(w.history[w.cursor.value]) else None
  }

  /** The cursor points at an entry, or sits at 0 on an empty history. */
  predicate CursorInRange(w: Window) {
    w.cursor.None? || w.cursor.value < |w.history| || w.cursor.value == 0
  }

  /** The history-scrolling half of a key press: Up moves to an older
      entry while there is one, Down to a newer one and off the newest;
      any other key ends browsing, copying the browsed text, as the frame
      began with it, into the input. */
  function Scroll(w: Window, k: Key, shown: Option<string>): (r: Window)
    ensures r.history == w.history && r.scrollback == w.scrollback && r.open == w.open
    ensures k == ArrowUp ==> (r.input == w.input && r.cursor ==
      (if w.cursor.None? then Some(0) else if w.cursor.value + 1 < |w.history| then Some(w.cursor.value + 1) else w.cursor))
    ensures k == ArrowDown ==> (r.input == w.input && r.cursor ==
      (if w.cursor.Some? && w.cursor.value > 0 then Some(w.cursor.value - 1) else None))
    ensures k == Enter || k == OtherKey ==> r.cursor.None? && r.input == shown.GetOr(w.input)
  {
    match k
    case ArrowUp =>
      w.(cursor := match w.cursor
                   case Some(i) => if i + 1 < |w.history| then Some(i + 1) else Some(i)
                   case None => Some(0))
    case ArrowDown =>
      w.(cursor := match w.cursor
                   case Some(i) => if i > 0 then Some(i - 1) else None
                   case None => None)
    case _ =>
      w.(input := if shown.Some? then shown.value else w.input, cursor := None)
  }

  /** Scrolling keeps the cursor on an entry (or at 0 on an empty history). */
  lemma ScrollKeepsCursorInRange(w: Window, k: Key, shown: Option<string>)
    requires CursorInRange(w)
    ensures CursorInRange(Scroll(w, k, shown))
  {
  }

  /** Up and then Down comes back to the same entry when there was an
      older one to move to. */
  lemma UpThenDownReturns(w: Window, shown: Option<string>)
    requires w.cursor.Some? && w.cursor.value + 1 < |w.history|
    ensures Scroll(Scroll(w, ArrowUp, shown), ArrowDown, shown) == w
  {
  }

  // ---------------------------------------------------------------------
  // Submitting
  // ---------------------------------------------------------------------

  /** The history without any copy of `s`, otherwise in order. */
  function Without(h: seq<string>, s: string): (r: seq<string>)
    ensures forall x :: x in r <==> x in h && x != s
    ensures |r| <= |h|
    decreases |h|
  {
    if h == [] then [] else (if h[0] == s then [] else [h[0]]) + Without(h[1..], s)
  }

  /** Dropping copies of `s` works piecewise: what survives of a joined
      history is what survives of its first part followed by what survives of
      its second, so the surviving entries keep their order. */
  lemma {:induction false} WithoutConcat(a: seq<string>, b: seq<string>, s: string)
    ensures Without(a + b, s) == Without(a, s) + Without(b, s)
    decreases |a|
  {
    if a == [] {
      assert a + b == b;
    } else {
      assert (a + b)[0] == a[0];
      assert (a + b)[1..] == a[1..] + b;
      WithoutConcat(a[1..], b, s);
    }
  }

  /** A single entry survives exactly when it differs from `s`. */
  lemma WithoutOne(x: string, s: string)
    ensures Without([x], s) == (if x == s then [] else [x])
  {
    assert [x][1..] == [];
  }

  predicate NoDuplicates(h: seq<string>) {
    forall i, j :: 0 <= i < j < |h| ==> h[i] != h[j]
  }

  lemma {:induction false} WithoutKeepsNoDuplicates(h: seq<string>, s: string)
    requires NoDuplicates(h)
    ensures NoDuplicates(Without(h, s))
    decreases |h|
  {
    if h != [] {
      WithoutKeepsNoDuplicates(h[1..], s);
      var rest := Without(h[1..], s);
      assert h[0] !in h[1..] by {
        forall j | 0 <= j < |h[1..]| ensures h[1..][j] != h[0] {
          assert h[1..][j] == h[j + 1];
        }
      }
      if h[0] != s {
        var r := [h[0]] + rest;
        forall i, j | 0 <= i < j < |r| ensures r[i] != r[j] {
          if i == 0 {
            assert r[j] == rest[j - 1] && rest[j - 1] in rest;
          } else {
            assert r[i] == rest[i - 1] && r[j] == rest[j - 1];
          }
        }
      } else {
        assert Without(h, s) == [] + rest;
        assert [] + rest == rest;
      }
    }
  }

  /** The submit half of a key press, for Enter: echo the input to the
      scrollback, queue it for the command executor, move it to the front of
      the history, and clear it. */
  function Submit(w: Window): (r: (Window, string))
    ensures r.1 == w.input
    ensures r.0.input == [] && r.0.cursor == w.cursor && r.0.open == w.open
    ensures r.0.scrollback == Push(w.scrollback, "> " + w.input)
    ensures |r.0.history| >= 1 && r.0.history[0] == w.input
    ensures forall x :: x in r.0.history <==> x in w.history || x == w.input
    ensures r.0.history == [w.input] + Without(w.history, w.input)
  {
    (w.(scrollback := Push(w.scrollback, "> " + w.input),
        history := [w.input] + Without(w.history, w.input),
        input := ""),
     w.input)
  }

  /** The history never holds the same text twice. */
  lemma SubmitKeepsHistoryDistinct(w: Window)
    requires NoDuplicates(w.history)
    ensures NoDuplicates(Submit(w).0.history)
  {
    var rest := Without(w.history, w.input);
    WithoutKeepsNoDuplicates(w.history, w.input);
    var h := [w.input] + rest;
    forall i, j | 0 <= i < j < |h| ensures h[i] != h[j] {
      if i == 0 {
        assert h[j] == rest[j - 1] && rest[j - 1] in rest;
      } else {
        assert h[i] == rest[i - 1] && h[j] == rest[j - 1];
      }
    }
  }

  /** One key press: scrolling, then the submit step when it is Enter;
      the result carries the command queued, if any. */
  function KeyPress(w: Window, k: Key, shown: Option<string>): (r: (Window, Option<string>))
    ensures r.0.open == w.open
    ensures k != Enter ==> r == (Scroll(w, k, shown), None)
    ensures k == Enter ==> r.1 == Some(shown.GetOr(w.input)) && r.0.cursor.None? && r.0.input == []
  {
    var scrolled := Scroll(w, k, shown);
    if k == Enter then
      var (w', queued) := Submit(scrolled);
      (w', Some(queued))
    else (scrolled, None)
  }

  /** Enter pressed while browsing submits the browsed entry, which becomes
      the newest history entry. */
  lemma EnterWhileBrowsingSubmitsEntry(w: Window)
    requires NoDuplicates(w.history) && Browsed(w).Some?
    ensures KeyPress(w, Enter, Browsed(w)).1 == Browsed(w)
    ensures KeyPress(w, Enter, Browsed(w)).0.history[0] == Browsed(w).value
    ensures |KeyPress(w, Enter, Browsed(w)).0.history| == |w.history|
  {
    var s := Browsed(w).value;
    var h := Without(w.history, s);
    WithoutDropsOne(w.history, s);
  }

  /** Removing a text that occurs exactly once shortens the history by one. */
  lemma {:induction false} WithoutDropsOne(h: seq<string>, s: string)
    requires s in h && NoDuplicates(h)
    ensures |Without(h, s)| == |h| - 1
    decreases |h|
  {
    if h[0] == s {
      assert s !in h[1..] by {
        forall j | 0 <= j < |h[1..]| ensures h[1..][j] != s {
          assert h[1..][j] == h[j + 1];
        }
      }
      WithoutAbsent(h[1..], s);
    } else {
      assert s in h[1..];
      assert NoDuplicates(h[1..]) by {
        forall i, j | 0 <= i < j < |h[1..]| ensures h[1..][i] != h[1..][j] {
          assert h[1..][i] == h[i + 1] && h[1..][j] == h[j + 1];
        }
      }
      WithoutDropsOne(h[1..], s);
    }
  }

  lemma {:induction false} WithoutAbsent(h: seq<string>, s: string)
    requires s !in h
    ensures Without(h, s) == h
    decreases |h|
  {
    if h != [] {
      assert s !in h[1..];
      WithoutAbsent(h[1..], s);
      assert [h[0]] + h[1..] == h;
    }
  }

  /** The key events of one frame, in order, all read against the entry
      that was browsed when the frame began; the commands queued come out
      in order. */
  function KeyPresses(w: Window, ks: seq<Key>, shown: Option<string>): (r: (Window, seq<string>))
    ensures |r.1| <= |ks| && r.0.open == w.open
    ensures Enter !in ks ==> r.1 == [] && r.0.history == w.history
    decreases |ks|
  {
    if ks == [] then (w, [])
    else
      var (w', q) := KeyPress(w, ks[0], shown);
      var (w'', qs) := KeyPresses(w', ks[1..], shown);
      (w'', (if q.Some? then [q.value] else []) + qs)
  }

  /** `show`: nothing at all while the window is closed; otherwise the
      executor's output and then the new log lines go to the scrollback,
      and the key events are handled when the input line has focus. */
  function Show(w: Window, outputs: seq<string>, logs: seq<string>, focused: bool, ks: seq<Key>): (r: (Window, seq<string>))
    ensures !w.open ==> r == (w, [])
    ensures r.0.open == w.open
    ensures !focused ==> r.0.history == w.history && r.0.cursor == w.cursor && r.0.input == w.input && r.1 == []
  {
    if !w.open then (w, [])
    else
      var w1 := w.(scrollback := PushAll(PushAll(w.scrollback, outputs), logs));
      if focused then KeyPresses(w1, ks, Browsed(w1)) else (w1, [])
  }
}

=== FILE: data.dfy ===
/** The game data written in code (src/data.rs): the initial story
    variables, and the two automatic script classes. Each class names a
    story variable to write when it starts (`set_on_start`) and a start
    condition on that same variable, so that, once the write is applied,
    each runs once. The code that applies `set_on_start` is not part of
    this model; the write is modelled as a plain insert into the store.
    The script text of those classes is read from a file and is represented
    by the label of its sub-script. */
module Data {
  import opened Wrappers
  import opened Text
  import StoryVars
  import LegacyScript

  /** A script class record as data.rs writes it: the sub-script label, the
      trigger, the start and abort conditions, and the story variables to
      set when an instance starts or finishes. */
  datatype ClassData = ClassData(
    subScript: string,
    trigger: Option<LegacyScript.Trigger>,
    startCondition: Option<LegacyScript.Condition>,
    abortCondition: Option<LegacyScript.Condition>,
    setOnStart: Option<(string, int)>,
    setOnFinish: Option<(string, int)>)

  /** The start script: automatic, gated on `start_script::started` being 0,
      which its start sets to 1. */
  const StartScriptClass: ClassData := ClassData(
    "start", Some(LegacyScript.Auto),
    Some(LegacyScript.Condition("start_script::started", 0)), None,
    Some(("start_script::started", 1)), None)

  /** The bakery girl's panic script: automatic, gated on
      `bakery_girl::stage` being 4, which its start moves on to 5. */
  const BakeryPanicClass: ClassData := ClassData(
    "bakery_girl::panic", Some(LegacyScript.Auto),
    Some(LegacyScript.Condition("bakery_girl::stage", 4)), None,
    Some(("bakery_girl::stage", 5)), None)

  /** The initial story variables, in the order `load_story_vars` writes them. */
  const InitialPairs: seq<(string, int)> := [
    ("main::plushy_found", 0),
    ("main::pen_found", 0),
    ("start_script::started", 0),
    ("bathroom::door::have_key", 0),
    ("bathroom::door::open", 0),
    ("bathroom::flooded", 0),
    ("bathroom::exit::running", 0),
    ("school_kid::stage", 1),
    ("janitor::stage", 1),
    ("bakery_girl::stage", 1)]

  /** Whether a key was written by any of the pairs. */
  predicate Written(pairs: seq<(string, int)>, k: string) {
    exists i :: 0 <= i < |pairs| && pairs[i].0 == k
  }

  predicate DistinctKeys(pairs: seq<(string, int)>) {
    forall i, j :: 0 <= i < j < |pairs| ==> pairs[i].0 != pairs[j].0
  }

  /** `HashMap::insert` of every pair in order: a later pair wins over an
      earlier one with the same key, and keys no pair names are kept. */
  function InsertAll(vars: StoryVars.Vars, pairs: seq<(string, int)>): (r: StoryVars.Vars)
    ensures forall k :: k in r <==> k in vars || Written(pairs, k)
    ensures forall k :: k in vars && !Written(pairs, k) ==> r[k] == vars[k]
    ensures forall i :: 0 <= i < |pairs| ==> pairs[i].0 in r
    ensures DistinctKeys(pairs) ==> forall i :: 0 <= i < |pairs| ==> r[pairs[i].0] == pairs[i].1
    decreases |pairs|
  {
    if pairs == [] then vars
    else
      var rest := pairs[1..];
      var r := InsertAll(StoryVars.Insert(vars, pairs[0].0, pairs[0].1), rest);
      assert forall j :: 0 <= j < |rest| ==> rest[j] == pairs[j + 1];
      assert forall k :: Written(pairs, k) <==> k == pairs[0].0 || Written(rest, k) by {
        forall k | Written(pairs, k) ensures k == pairs[0].0 || Written(rest, k) {
          var i :| 0 <= i < |pairs| && pairs[i].0 == k;
          if i > 0 {
            assert rest[i - 1].0 == k;
          }
        }
      }
      assert DistinctKeys(pairs) ==> DistinctKeys(rest) && !Written(rest, pairs[0].0);
      r
  }

  /** `load_story_vars`: insert the ten initial variables. */
  function LoadStoryVars(vars: StoryVars.Vars): (r: StoryVars.Vars)
    ensures forall k :: k in r <==> k in vars || Written(InitialPairs, k)
    ensures forall k :: k in vars && !Written(InitialPairs, k) ==> r[k] == vars[k]
    ensures forall i :: 0 <= i < |InitialPairs| ==> InitialPairs[i].0 in r && r[InitialPairs[i].0] == InitialPairs[i].1
  {
    InitialKeysDistinct();
    InsertAll(vars, InitialPairs)
  }

  lemma InitialKeysDistinct()
    ensures DistinctKeys(InitialPairs)
  {
  }

  predicate EndsWith(s: string, suffix: string) {
    |suffix| <= |s| && s[|s| - |suffix|..] == suffix
  }

  /** Ten variables are set: the three `::stage` variables start at 1 and
      every other one at 0. */
  lemma StagesStartAtOne()
    ensures |InitialPairs| == 10
    ensures forall i :: 0 <= i < |InitialPairs| ==>
      InitialPairs[i].1 == (if EndsWith(InitialPairs[i].0, "::stage") then 1 else 0)
  {
  }

  // ---------------------------------------------------------------------
  // The automatic scripts
  // ---------------------------------------------------------------------

  /** The story-variable write a class record asks for, as an insert: the
      variable holds the value afterwards and every other variable is
      unchanged. */
  function ApplyWrite(w: Option<(string, int)>, vars: StoryVars.Vars): (r: StoryVars.Vars)
    ensures w.None? ==> r == vars
    ensures w.Some? ==> w.value.0 in r && r[w.value.0] == w.value.1
    ensures w.Some? ==> r.Keys == vars.Keys + {w.value.0}
    ensures w.Some? ==> forall k :: k in vars && k != w.value.0 ==> r[k] == vars[k]
  {
    match w
    case None => vars
    case Some((k, v)) => StoryVars.Insert(vars, k, v)
  }

  /** Whether an automatic class qualifies to start: the condition check of
      `filter_scripts_by_trigger_and_condition`, which is the runtime's own
      check for the automatic trigger. A class with no trigger never
      qualifies. */
  function Qualifies(c: ClassData, vars: StoryVars.Vars): (r: LegacyScript.Outcome<bool>)
    ensures c.trigger != Some(LegacyScript.Auto) ==> r == LegacyScript.Done(false)
    ensures c.trigger == Some(LegacyScript.Auto) && c.startCondition.None? ==> r == LegacyScript.Done(true)
    ensures c.trigger == Some(LegacyScript.Auto) && c.startCondition.Some? ==>
      r == LegacyScript.Holds(c.startCondition.value, vars)
  {
    match c.trigger
    case None => LegacyScript.Done(false)
    case Some(t) =>
      var s := LegacyScript.ScriptClass(c.subScript, t, c.startCondition, c.abortCondition, None);
      LegacyScript.Qualifies(s, LegacyScript.Auto, vars)
  }

  /** The start script qualifies on a fresh game and never again once its
      own start write has been made. */
  lemma StartScriptRunsOnce(vars: StoryVars.Vars, later: StoryVars.Vars)
    ensures Qualifies(StartScriptClass, LoadStoryVars(vars)) == LegacyScript.Done(true)
    ensures Qualifies(StartScriptClass, ApplyWrite(StartScriptClass.setOnStart, later)) == LegacyScript.Done(false)
  {
    LoadedValue(vars, 2);
  }

  /** The value `load_story_vars` leaves in one of its variables. */
  lemma LoadedValue(vars: StoryVars.Vars, i: nat)
    requires i < |InitialPairs|
    ensures InitialPairs[i].0 in LoadStoryVars(vars) && LoadStoryVars(vars)[InitialPairs[i].0] == InitialPairs[i].1
  {
  }

  /** The bakery panic does not qualify on a fresh game, does once the stage
      reaches 4, and no longer once its own start write has been made. */
  lemma BakeryPanicWaitsForStageFour(vars: StoryVars.Vars, later: StoryVars.Vars)
    ensures Qualifies(BakeryPanicClass, LoadStoryVars(vars)) == LegacyScript.Done(false)
    ensures Qualifies(BakeryPanicClass, StoryVars.Insert(later, "bakery_girl::stage", 4)) == LegacyScript.Done(true)
    ensures Qualifies(BakeryPanicClass, ApplyWrite(BakeryPanicClass.setOnStart, later)) == LegacyScript.Done(false)
  {
    LoadedValue(vars, 9);
    BakeryPanicAtStage(LoadStoryVars(vars));
    BakeryPanicAtStage(StoryVars.Insert(later, "bakery_girl::stage", 4));
    BakeryPanicAtStage(ApplyWrite(BakeryPanicClass.setOnStart, later));
  }

  /** The bakery panic qualifies exactly at stage 4. */
  lemma BakeryPanicAtStage(vars: StoryVars.Vars)
    requires "bakery_girl::stage" in vars
    ensures Qualifies(BakeryPanicClass, vars) == LegacyScript.Done(vars["bakery_girl::stage"] == 4)
  {
  }
}

=== FILE: ecs.dfy ===
/** The entity-component store of src/ecs/ecs.rs and its query algebra from
    src/ecs/query.rs. Entity ids are keys of a slot map; each component type
    has its own secondary map from entity index to (key version, component);
    queries visit the live ids in slot order and keep those that pass the
    query's filter. Mutations can also be queued and applied later, in order,
    by `FlushDeferredMutations`. */
module Ecs {
  import opened Wrappers
  import opened SlotMap
  import opened Components
  import opened Geometry

  // ---------------------------------------------------------------------
  // Secondary maps
  // ---------------------------------------------------------------------

  /** A component stored for the entity key of version `version`. */
  datatype Entry = Entry(version: nat, value: Component)

  /** `SecondaryMap<EntityId, C>`: entries by slot index. */
  type ComponentMap = map<nat, Entry>

  /** `contains_key`: an entry for the key's slot, stored under the key's version. */
  predicate HasKey(cm: ComponentMap, k: Key) {
    k.index in cm && cm[k.index].version == k.version
  }

  function CmGet(cm: ComponentMap, k: Key): (r: Option<Component>)
    ensures r.Some? <==> HasKey(cm, k)
  {
    if HasKey(cm, k) then Some(cm[k.index].value) else None
  }

  /** The stored entry belongs to a newer key of the same slot. */
  predicate StoredNewer(cm: ComponentMap, k: Key) {
    k.index in cm && cm[k.index].version > k.version
  }

  /** `SecondaryMap::insert`: replace the entry of the same key, overwrite one
      left by an older key, and ignore the call when the stored entry belongs
      to a newer key. */
  function CmInsert(cm: ComponentMap, k: Key, c: Component): (r: ComponentMap)
    ensures StoredNewer(cm, k) ==> r == cm
    ensures !StoredNewer(cm, k) ==> CmGet(r, k) == Some(c)
    ensures forall k': Key :: k'.index != k.index ==> CmGet(r, k') == CmGet(cm, k')
    ensures r.Keys == cm.Keys + {k.index} || r == cm
  {
    if StoredNewer(cm, k) then cm else cm[k.index := Entry(k.version, c)]
  }

  /** `SecondaryMap::remove`: drop the entry only if it belongs to this key. */
  function CmRemove(cm: ComponentMap, k: Key): (r: ComponentMap)
    ensures !HasKey(r, k)
    ensures forall k': Key :: k'.index != k.index ==> CmGet(r, k') == CmGet(cm, k')
    ensures !HasKey(cm, k) ==> r == cm
    ensures r.Keys <= cm.Keys
  {
    if HasKey(cm, k) then cm - {k.index} else cm
  }

  // ---------------------------------------------------------------------
  // The store
  // ---------------------------------------------------------------------

  /** Where a deferred component goes: a live id, or the id a deferred
      `AddEntityDeferred` will create. */
  datatype Target = Real(id: Key) | Deferred(defId: Key)

  /** A queued mutation. */
  datatype Mutation =
    | AddEntityLater(defId: Key)
    | RemoveEntityLater(id: Key)
    | AddComponentLater(target: Target, component: Component)
    | RemoveComponentLater(id: Key, tag: Tag)

  /** The store: live ids, one component map per type ever added, the queue of
      deferred mutations, and the slot map from deferred ids to the real ids
      they received (`None` for the null key until the entity is created). */
  datatype Ecs = Ecs(
    entityIds: SlotMap<()>,
    componentMaps: map<Tag, ComponentMap>,
    deferred: seq<Mutation>,
    deferredIds: SlotMap<Option<Key>>)

  /** `Ecs::new`. */
  function New(): (e: Ecs)
    ensures WellFormed(e) && ComponentsIssued(e) && TagsMatch(e)
    ensures e.deferred == [] && Keys(e.entityIds) == []
  {
    Ecs(Empty(), map[], [], Empty())
  }

  /** Both slot maps are well formed. */
  ghost predicate WellFormed(e: Ecs) {
    Valid(e.entityIds) && Valid(e.deferredIds)
  }

  /** Every stored component was stored under a key the entity slot map had
      handed out, so no stored entry runs ahead of its slot. */
  ghost predicate ComponentsIssued(e: Ecs) {
    forall t, i :: t in e.componentMaps && i in e.componentMaps[t] ==>
      Issued(e.entityIds, Key(i, e.componentMaps[t][i].version))
  }

  /** Each component map holds only components of its own type (the source's
      maps are typed, so this holds by construction there). */
  ghost predicate TagsMatch(e: Ecs) {
    forall t, i :: t in e.componentMaps && i in e.componentMaps[t] ==> TagOf(e.componentMaps[t][i].value) == t
  }

  /** `query_one_with_id::<&C>` for the type named `tag`. */
  function GetComponent(e: Ecs, tag: Tag, id: Key): Option<Component> {
    if tag in e.componentMaps then CmGet(e.componentMaps[tag], id) else None
  }

  predicate Has(e: Ecs, tag: Tag, id: Key) {
    GetComponent(e, tag, id).Some?
  }

  predicate IsLive(e: Ecs, id: Key) {
    Contains(e.entityIds, id)
  }

  /** `r` differs from `e` at most in the components of the given types held
      in the slot of `id`. */
  ghost predicate OnlyTouches(e: Ecs, r: Ecs, id: Key, tags: set<Tag>) {
    r.entityIds == e.entityIds && r.deferred == e.deferred && r.deferredIds == e.deferredIds
    && forall t, k: Key :: (t !in tags || k.index != id.index) ==> GetComponent(r, t, k) == GetComponent(e, t, k)
  }

  // Typed reads of one component, as `query_one_with_id::<&C>` returns them.

  function NameOf(e: Ecs, id: Key): Option<string> {
    match GetComponent(e, NameTag, id) case Some(CName(n)) => Some(n) case _ => None
  }

  function PositionOf(e: Ecs, id: Key): Option<WorldPos> {
    match GetComponent(e, PositionTag, id) case Some(CPosition(p)) => Some(p) case _ => None
  }

  function CollisionOf(e: Ecs, id: Key): Option<Collision> {
    match GetComponent(e, CollisionTag, id) case Some(CCollision(c)) => Some(c) case _ => None
  }

  function FacingOf(e: Ecs, id: Key): Option<Direction> {
    match GetComponent(e, FacingTag, id) case Some(CFacing(d)) => Some(d) case _ => None
  }

  function WalkingOf(e: Ecs, id: Key): Option<Walking> {
    match GetComponent(e, WalkingTag, id) case Some(CWalking(w)) => Some(w) case _ => None
  }

  function AnimationOf(e: Ecs, id: Key): Option<AnimationComp> {
    match GetComponent(e, AnimationCompTag, id) case Some(CAnimationComp(a)) => Some(a) case _ => None
  }

  function DualStateAnimsOf(e: Ecs, id: Key): Option<DualStateAnims> {
    match GetComponent(e, DualStateAnimsTag, id) case Some(CDualStateAnims(d)) => Some(d) case _ => None
  }

  function NamedAnimsOf(e: Ecs, id: Key): Option<NamedAnims> {
    match GetComponent(e, NamedAnimsTag, id) case Some(CNamedAnims(n)) => Some(n) case _ => None
  }

  function SfxEmitterOf(e: Ecs, id: Key): Option<SfxEmitter> {
    match GetComponent(e, SfxEmitterTag, id) case Some(CSfxEmitter(s)) => Some(s) case _ => None
  }

  /** With typed maps, a held component is of the type it is held under. */
  lemma HeldIsTyped(e: Ecs, t: Tag, id: Key)
    ensures TagsMatch(e) && Has(e, t, id) ==> TagOf(GetComponent(e, t, id).value) == t
  {
    if TagsMatch(e) && Has(e, t, id) {
      assert t in e.componentMaps && id.index in e.componentMaps[t];
    }
  }

  // With typed maps, each typed read succeeds exactly for a held component.

  lemma NameHeld(e: Ecs, id: Key)
    ensures NameOf(e, id).Some? ==> Has(e, NameTag, id)
    ensures TagsMatch(e) && Has(e, NameTag, id) ==> NameOf(e, id).Some?
  {
    HeldIsTyped(e, NameTag, id);
  }

  lemma PositionHeld(e: Ecs, id: Key)
    ensures PositionOf(e, id).Some? ==> Has(e, PositionTag, id)
    ensures TagsMatch(e) && Has(e, PositionTag, id) ==> PositionOf(e, id).Some?
  {
    HeldIsTyped(e, PositionTag, id);
  }

  lemma CollisionHeld(e: Ecs, id: Key)
    ensures CollisionOf(e, id).Some? ==> Has(e, CollisionTag, id)
    ensures TagsMatch(e) && Has(e, CollisionTag, id) ==> CollisionOf(e, id).Some?
  {
    HeldIsTyped(e, CollisionTag, id);
  }

  lemma FacingHeld(e: Ecs, id: Key)
    ensures FacingOf(e, id).Some? ==> Has(e, FacingTag, id)
    ensures TagsMatch(e) && Has(e, FacingTag, id) ==> FacingOf(e, id).Some?
  {
    HeldIsTyped(e, FacingTag, id);
  }

  lemma WalkingHeld(e: Ecs, id: Key)
    ensures WalkingOf(e, id).Some? ==> Has(e, WalkingTag, id)
    ensures TagsMatch(e) && Has(e, WalkingTag, id) ==> WalkingOf(e, id).Some?
  {
    HeldIsTyped(e, WalkingTag, id);
  }

  lemma AnimationHeld(e: Ecs, id: Key)
    ensures AnimationOf(e, id).Some? ==> Has(e, AnimationCompTag, id)
    ensures TagsMatch(e) && Has(e, AnimationCompTag, id) ==> AnimationOf(e, id).Some?
  {
    HeldIsTyped(e, AnimationCompTag, id);
  }

  lemma DualStateAnimsHeld(e: Ecs, id: Key)
    ensures DualStateAnimsOf(e, id).Some? ==> Has(e, DualStateAnimsTag, id)
    ensures TagsMatch(e) && Has(e, DualStateAnimsTag, id) ==> DualStateAnimsOf(e, id).Some?
  {
    HeldIsTyped(e, DualStateAnimsTag, id);
  }

  lemma NamedAnimsHeld(e: Ecs, id: Key)
    ensures NamedAnimsOf(e, id).Some? ==> Has(e, NamedAnimsTag, id)
    ensures TagsMatch(e) && Has(e, NamedAnimsTag, id) ==> NamedAnimsOf(e, id).Some?
  {
    HeldIsTyped(e, NamedAnimsTag, id);
  }

  lemma SfxEmitterHeld(e: Ecs, id: Key)
    ensures SfxEmitterOf(e, id).Some? ==> Has(e, SfxEmitterTag, id)
    ensures TagsMatch(e) && Has(e, SfxEmitterTag, id) ==> SfxEmitterOf(e, id).Some?
  {
    HeldIsTyped(e, SfxEmitterTag, id);
  }

  /** `add_entity`: a fresh live id that holds no component yet. */
  function AddEntity(e: Ecs): (r: (Ecs, Key))
    requires WellFormed(e)
    ensures WellFormed(r.0) && IsLive(r.0, r.1) && !IsLive(e, r.1)
    ensures forall k :: k != r.1 ==> (IsLive(r.0, k) <==> IsLive(e, k))
    ensures r.0.componentMaps == e.componentMaps && r.0.deferred == e.deferred && r.0.deferredIds == e.deferredIds
    ensures ComponentsIssued(e) ==> ComponentsIssued(r.0) && forall t :: !Has(r.0, t, r.1)
  {
    var (ids, id) := Insert(e.entityIds, ());
    var r := e.(entityIds := ids);
    assert ComponentsIssued(e) ==> ComponentsIssued(r) && forall t :: !Has(r, t, id) by {
      if ComponentsIssued(e) {
        forall t, i | t in e.componentMaps && i in e.componentMaps[t]
          ensures Issued(ids, Key(i, e.componentMaps[t][i].version))
        {
          assert Issued(e.entityIds, Key(i, e.componentMaps[t][i].version));
        }
        forall t ensures !Has(r, t, id) {
          if t in e.componentMaps && id.index in e.componentMaps[t] {
            assert Issued(e.entityIds, Key(id.index, e.componentMaps[t][id.index].version));
          }
        }
      }
    }
    (r, id)
  }

  /** `remove_entity`: the id stops being live; its components stay stored. */
  function RemoveEntity(e: Ecs, id: Key): (r: Ecs)
    requires WellFormed(e)
    ensures WellFormed(r) && !IsLive(r, id)
    ensures forall k :: k != id ==> (IsLive(r, k) <==> IsLive(e, k))
    ensures r.componentMaps == e.componentMaps && r.deferred == e.deferred && r.deferredIds == e.deferredIds
    ensures ComponentsIssued(e) ==> ComponentsIssued(r)
  {
    var ids := Remove(e.entityIds, id);
    var r := e.(entityIds := ids);
    assert ComponentsIssued(e) ==> ComponentsIssued(r) by {
      if ComponentsIssued(e) {
        forall t, i | t in e.componentMaps && i in e.componentMaps[t]
          ensures Issued(ids, Key(i, e.componentMaps[t][i].version))
        {
          assert Issued(e.entityIds, Key(i, e.componentMaps[t][i].version));
        }
      }
    }
    r
  }

  /** `add_component`: store `c` as the entity's single component of its type,
      creating the type's map on first use. */
  function AddComponent(e: Ecs, id: Key, c: Component): (r: Ecs)
    ensures r.entityIds == e.entityIds && r.deferred == e.deferred && r.deferredIds == e.deferredIds
    ensures TagOf(c) in r.componentMaps
    ensures !(TagOf(c) in e.componentMaps && StoredNewer(e.componentMaps[TagOf(c)], id)) ==>
      GetComponent(r, TagOf(c), id) == Some(c)
    ensures forall t, k: Key :: (t != TagOf(c) || k.index != id.index) ==> GetComponent(r, t, k) == GetComponent(e, t, k)
    ensures TagsMatch(e) ==> TagsMatch(r)
  {
    var t := TagOf(c);
    var cm := if t in e.componentMaps then e.componentMaps[t] else map[];
    e.(componentMaps := e.componentMaps[t := CmInsert(cm, id, c)])
  }

  /** Rewriting a component the entity already holds changes that one value
      and nothing else. */
  lemma RewriteTouches(e: Ecs, id: Key, c: Component)
    requires Has(e, TagOf(c), id)
    ensures OnlyTouches(e, AddComponent(e, id, c), id, {TagOf(c)})
    ensures GetComponent(AddComponent(e, id, c), TagOf(c), id) == Some(c)
  {
  }

  /** Such a rewrite keeps every entity's component types, unless it renames. */
  lemma RewriteKeepsShape(e: Ecs, id: Key, c: Component)
    requires Has(e, TagOf(c), id) && TagOf(c) != NameTag
    ensures SameShape(e, AddComponent(e, id, c))
  {
  }

  /** Allowing more types to change is a weaker promise. */
  lemma TouchesMore(a: Ecs, b: Ecs, id: Key, s1: set<Tag>, s2: set<Tag>)
    requires s1 <= s2 && OnlyTouches(a, b, id, s1)
    ensures OnlyTouches(a, b, id, s2)
  {
  }

  lemma ShapeTransitive(a: Ecs, b: Ecs, c: Ecs)
    requires SameShape(a, b) && SameShape(b, c)
    ensures SameShape(a, c)
  {
  }

  /** Two single-component rewrites of one entity touch those two types. */
  lemma TouchesTwo(a: Ecs, b: Ecs, c: Ecs, id: Key, t1: Tag, t2: Tag)
    requires OnlyTouches(a, b, id, {t1}) && OnlyTouches(b, c, id, {t2})
    ensures OnlyTouches(a, c, id, {t1, t2})
  {
  }

  /** Two stores with the same live ids, the same component types held by
      every key and the same names. */
  ghost predicate SameShape(a: Ecs, b: Ecs) {
    a.entityIds == b.entityIds
    && (forall t, k: Key :: Has(a, t, k) <==> Has(b, t, k))
    && (forall k: Key :: GetComponent(a, NameTag, k) == GetComponent(b, NameTag, k))
  }

  /** Adding a component under an id the store handed out keeps every stored
      entry behind its slot; for a live id the component is always stored. */
  lemma AddComponentIssued(e: Ecs, id: Key, c: Component)
    requires ComponentsIssued(e) && Issued(e.entityIds, id)
    ensures ComponentsIssued(AddComponent(e, id, c))
    ensures IsLive(e, id) ==> GetComponent(AddComponent(e, id, c), TagOf(c), id) == Some(c)
  {
    var t := TagOf(c);
    if IsLive(e, id) && t in e.componentMaps && id.index in e.componentMaps[t] {
      assert Issued(e.entityIds, Key(id.index, e.componentMaps[t][id.index].version));
    }
  }

  /** `remove_component`: the entity no longer holds a component of that type;
      nothing happens when no component of the type was ever added. */
  function RemoveComponent(e: Ecs, id: Key, tag: Tag): (r: Ecs)
    ensures r.entityIds == e.entityIds && r.deferred == e.deferred && r.deferredIds == e.deferredIds
    ensures !Has(r, tag, id)
    ensures tag !in e.componentMaps ==> r == e
    ensures forall t, k: Key :: (t != tag || k.index != id.index) ==> GetComponent(r, t, k) == GetComponent(e, t, k)
    ensures ComponentsIssued(e) ==> ComponentsIssued(r)
    ensures TagsMatch(e) ==> TagsMatch(r)
  {
    if tag in e.componentMaps then
      e.(componentMaps := e.componentMaps[tag := CmRemove(e.componentMaps[tag], id)])
    else e
  }

  // ---------------------------------------------------------------------
  // Queries
  // ---------------------------------------------------------------------

  /** The query types: `EntityId`, `&C`, `&mut C`, `Option<Q>`, `With<C>`,
      `Without<C>` and tuples. */
  datatype Query =
    | QEntityId
    | QRef(tag: Tag)
    | QMut(tag: Tag)
    | QOption(inner: Query)
    | QWith(tag: Tag)
    | QWithout(tag: Tag)
    | QTuple(items: seq<Query>)

  /** What a query yields for one entity. */
  datatype Item =
    | IId(id: Key)
    | IComponent(component: Component)
    | IOption(opt: Option<Item>)
    | IUnit
    | ITuple(items: seq<Item>)

  /** `Query::filter`. */
  predicate Filter(q: Query, id: Key, e: Ecs)
    decreases q
  {
    match q
    case QEntityId => true
    case QRef(t) => Has(e, t, id)
    case QMut(t) => Has(e, t, id)
    case QOption(_) => true
    case QWith(t) => Has(e, t, id)
    case QWithout(t) => !Has(e, t, id)
    case QTuple(qs) => forall i :: 0 <= i < |qs| ==> Filter(qs[i], id, e)
  }

  /** `Query::borrow`, called only once the filter has passed (it unwraps the
      components the filter checked). */
  function Borrow(q: Query, id: Key, e: Ecs): Item
    requires Filter(q, id, e)
    decreases q
  {
    match q
    case QEntityId => IId(id)
    case QRef(t) => IComponent(GetComponent(e, t, id).value)
    case QMut(t) => IComponent(GetComponent(e, t, id).value)
    case QOption(inner) => if Filter(inner, id, e) then IOption(Some(Borrow(inner, id, e))) else IOption(None)
    case QWith(_) => IUnit
    case QWithout(_) => IUnit
    case QTuple(qs) => ITuple(seq(|qs|, i requires 0 <= i < |qs| => Borrow(qs[i], id, e)))
  }

  /** The per-entity meaning of each query form. */
  lemma QueryForms(id: Key, e: Ecs, t: Tag, q: Query, qs: seq<Query>)
    ensures Filter(QEntityId, id, e) && Borrow(QEntityId, id, e) == IId(id)
    ensures Filter(QRef(t), id, e) <==> GetComponent(e, t, id).Some?
    ensures Filter(QRef(t), id, e) ==> Borrow(QRef(t), id, e) == IComponent(GetComponent(e, t, id).value)
    ensures Filter(QMut(t), id, e) <==> Filter(QRef(t), id, e)
    ensures Filter(QOption(q), id, e)
    ensures Borrow(QOption(q), id, e).opt.Some? <==> Filter(q, id, e)
    ensures Filter(QWith(t), id, e) <==> Has(e, t, id)
    ensures Filter(QWithout(t), id, e) <==> !Has(e, t, id)
    ensures Filter(QTuple([]), id, e)
    ensures Filter(QTuple(qs), id, e) <==> forall i :: 0 <= i < |qs| ==> Filter(qs[i], id, e)
    ensures Filter(QTuple(qs), id, e) ==> |Borrow(QTuple(qs), id, e).items| == |qs|
  {
  }

  /** Keys listed by strictly increasing slot index, as iteration lists them. */
  predicate IncreasingIndices(ks: seq<Key>) {
    forall j, k :: 0 <= j < k < |ks| ==> ks[j].index < ks[k].index
  }

  /** The tail of an increasing list is increasing and lies above its head. */
  lemma IncreasingTail(ks: seq<Key>)
    requires ks != []
    ensures IncreasingIndices(ks) ==> IncreasingIndices(ks[1..]) && forall k :: k in ks[1..] ==> ks[0].index < k.index
  {
  }

  /** The ids among `ks` that pass the filter of `q`, in order. */
  function FilterKeys(ks: seq<Key>, q: Query, e: Ecs): (r: seq<Key>)
    decreases |ks|
    ensures forall k :: k in r <==> k in ks && Filter(q, k, e)
    ensures IncreasingIndices(ks) ==> IncreasingIndices(r)
  {
    if ks == [] then []
    else
      var rest := FilterKeys(ks[1..], q, e);
      assert forall k :: k in ks <==> k == ks[0] || k in ks[1..];
      IncreasingTail(ks);
      if Filter(q, ks[0], e) then [ks[0]] + rest else rest
  }

  /** The live ids that pass the filter of `q`, in iteration order. */
  function Filtered(e: Ecs, q: Query): (r: seq<Key>)
    ensures forall k :: k in r <==> IsLive(e, k) && Filter(q, k, e)
    ensures IncreasingIndices(r)
  {
    FilterKeys(Keys(e.entityIds), q, e)
  }

  /** `query`: filter, then borrow each id that passed. */
  function RunQuery(e: Ecs, q: Query): (r: seq<Item>)
    ensures |r| == |Filtered(e, q)|
    ensures forall i :: 0 <= i < |r| ==> r[i] == Borrow(q, Filtered(e, q)[i], e)
  {
    var ids := Filtered(e, q);
    seq(|ids|, i requires 0 <= i < |ids| => Borrow(q, ids[i], e))
  }

  /** The keys of `ks` other than `except`, in order. */
  function DropKey(ks: seq<Key>, except: Key): (r: seq<Key>)
    decreases |ks|
    ensures forall k :: k in r <==> k in ks && k != except
    ensures IncreasingIndices(ks) ==> IncreasingIndices(r)
  {
    if ks == [] then []
    else
      var rest := DropKey(ks[1..], except);
      assert forall k :: k in ks <==> k == ks[0] || k in ks[1..];
      IncreasingTail(ks);
      if ks[0] == except then rest else [ks[0]] + rest
  }

  /** The ids `query_except` borrows: those of `query`, without one id. */
  function QueryExceptIds(e: Ecs, q: Query, except: Key): (r: seq<Key>)
    ensures forall k :: k in r <==> IsLive(e, k) && Filter(q, k, e) && k != except
    ensures IncreasingIndices(r)
  {
    DropKey(Filtered(e, q), except)
  }

  /** `query_except`. */
  function QueryExcept(e: Ecs, q: Query, except: Key): (r: seq<Item>)
    ensures |r| == |QueryExceptIds(e, q, except)|
    ensures forall i :: 0 <= i < |r| ==> r[i] == Borrow(q, QueryExceptIds(e, q, except)[i], e)
  {
    var ids := QueryExceptIds(e, q, except);
    seq(|ids|, i requires 0 <= i < |ids| => Borrow(q, ids[i], e))
  }

  /** `query_one_with_id`: the borrow of the id when it passes the filter.
      Whether the id is still live is not checked. */
  function QueryOneWithId(e: Ecs, q: Query, id: Key): (r: Option<Item>)
    ensures r.Some? <==> Filter(q, id, e)
    ensures r.Some? ==> r.value == Borrow(q, id, e)
  {
    if Filter(q, id, e) then Some(Borrow(q, id, e)) else None
  }

  /** The entity carries the name `name` and passes the filter of `q`. */
  predicate NamedMatch(e: Ecs, q: Query, name: string, k: Key) {
    GetComponent(e, NameTag, k) == Some(CName(name)) && Filter(q, k, e)
  }

  /** Position of the first id in `ks` that matches. */
  function FirstNamed(ks: seq<Key>, e: Ecs, q: Query, name: string): (r: Option<nat>)
    decreases |ks|
    ensures r.Some? ==> r.value < |ks| && NamedMatch(e, q, name, ks[r.value])
    ensures r.Some? ==> forall j :: 0 <= j < r.value ==> !NamedMatch(e, q, name, ks[j])
    ensures r.None? ==> forall j :: 0 <= j < |ks| ==> !NamedMatch(e, q, name, ks[j])
  {
    if ks == [] then None
    else if NamedMatch(e, q, name, ks[0]) then Some(0)
    else match FirstNamed(ks[1..], e, q, name)
      case None => None
      case Some(j) => Some(j + 1)
  }

  /** The id `query_one_with_name` settles on: the first live id, in iteration
      order, whose `Name` is `name` and which passes the filter of `q`. */
  function FindByName(e: Ecs, q: Query, name: string): (r: Option<Key>)
    ensures r.Some? ==> IsLive(e, r.value) && NamedMatch(e, q, name, r.value)
    ensures r.Some? ==> forall k :: IsLive(e, k) && NamedMatch(e, q, name, k) ==> r.value.index <= k.index
    ensures r.None? ==> forall k :: IsLive(e, k) ==> !NamedMatch(e, q, name, k)
  {
    var ks := Keys(e.entityIds);
    match FirstNamed(ks, e, q, name)
    case None => None
    case Some(i) =>
      assert forall k :: IsLive(e, k) ==> exists j :: 0 <= j < |ks| && ks[j] == k;
      Some(ks[i])
  }

  /** `query_one_with_name`. */
  function QueryOneWithName(e: Ecs, q: Query, name: string): (r: Option<Item>)
    ensures r.Some? <==> FindByName(e, q, name).Some?
    ensures r.Some? ==> r.value == Borrow(q, FindByName(e, q, name).value, e)
  {
    match FindByName(e, q, name)
    case None => None
    case Some(id) => Some(Borrow(q, id, e))
  }

  /** A removed entity drops out of every query, but a lookup by its old id
      still sees its components. */
  lemma RemovedEntityLeavesQueries(e: Ecs, id: Key, q: Query)
    requires WellFormed(e)
    ensures id !in Filtered(RemoveEntity(e, id), q)
    ensures QueryOneWithId(RemoveEntity(e, id), q, id).Some? <==> QueryOneWithId(e, q, id).Some?
  {
    var r := RemoveEntity(e, id);
    FilterDependsOnComponents(q, id, e, r);
  }

  /** Filters read only the component maps. */
  lemma {:induction false} FilterDependsOnComponents(q: Query, id: Key, a: Ecs, b: Ecs)
    requires a.componentMaps == b.componentMaps
    ensures Filter(q, id, a) <==> Filter(q, id, b)
    decreases q
  {
    match q
    case QTuple(qs) =>
      forall i | 0 <= i < |qs| ensures Filter(qs[i], id, a) <==> Filter(qs[i], id, b) {
        FilterDependsOnComponents(qs[i], id, a, b);
      }
    case QOption(inner) =>
    case _ =>
  }

  /** Holding the same component types and names everywhere, two stores with
      the same live ids resolve every name lookup alike. */
  lemma {:induction false} SameShapeSameLookups(a: Ecs, b: Ecs, q: Query, name: string)
    requires SameShape(a, b)
    ensures FindByName(a, q, name) == FindByName(b, q, name)
  {
    forall k: Key ensures Filter(q, k, a) <==> Filter(q, k, b) {
      FilterDependsOnHeldTypes(q, k, a, b);
    }
    FirstNamedAlike(Keys(a.entityIds), a, b, q, name);
  }

  /** Filters read only which component types an entity holds. */
  lemma {:induction false} FilterDependsOnHeldTypes(q: Query, id: Key, a: Ecs, b: Ecs)
    requires forall t :: Has(a, t, id) <==> Has(b, t, id)
    ensures Filter(q, id, a) <==> Filter(q, id, b)
    decreases q
  {
    match q
    case QTuple(qs) =>
      forall i | 0 <= i < |qs| ensures Filter(qs[i], id, a) <==> Filter(qs[i], id, b) {
        FilterDependsOnHeldTypes(qs[i], id, a, b);
      }
    case _ =>
  }

  lemma {:induction false} FirstNamedAlike(ks: seq<Key>, a: Ecs, b: Ecs, q: Query, name: string)
    requires forall k: Key :: Filter(q, k, a) <==> Filter(q, k, b)
    requires forall k: Key :: GetComponent(a, NameTag, k) == GetComponent(b, NameTag, k)
    ensures FirstNamed(ks, a, q, name) == FirstNamed(ks, b, q, name)
    decreases |ks|
  {
    if ks != [] {
      assert NamedMatch(a, q, name, ks[0]) <==> NamedMatch(b, q, name, ks[0]);
      FirstNamedAlike(ks[1..], a, b, q, name);
    }
  }

  // ---------------------------------------------------------------------
  // Deferred mutations
  // ---------------------------------------------------------------------

  /** Every queued `AddEntityLater` names a deferred id that is present, so
      recording the real id cannot fail. */
  ghost predicate DeferredWellFormed(e: Ecs) {
    forall i :: 0 <= i < |e.deferred| && e.deferred[i].AddEntityLater? ==>
      Contains(e.deferredIds, e.deferred[i].defId)
  }

  /** `add_entity_deferred`: reserve a deferred id and queue the creation. */
  function AddEntityDeferred(e: Ecs): (r: (Ecs, Key))
    requires Valid(e.deferredIds)
    ensures r.0.entityIds == e.entityIds && r.0.componentMaps == e.componentMaps
    ensures r.0.deferred == e.deferred + [AddEntityLater(r.1)]
    ensures Valid(r.0.deferredIds) && Get(r.0.deferredIds, r.1) == Some(None)
    ensures WellFormed(e) ==> WellFormed(r.0)
    ensures DeferredWellFormed(e) ==> DeferredWellFormed(r.0)
  {
    var (ids, d) := Insert(e.deferredIds, None);
    (e.(deferredIds := ids, deferred := e.deferred + [AddEntityLater(d)]), d)
  }

  /** `remove_entity_deferred`. */
  function RemoveEntityDeferred(e: Ecs, id: Key): (r: Ecs)
    ensures r == e.(deferred := e.deferred + [RemoveEntityLater(id)])
    ensures DeferredWellFormed(e) ==> DeferredWellFormed(r)
  {
    e.(deferred := e.deferred + [RemoveEntityLater(id)])
  }

  /** `add_component_deferred`, to a real or a deferred id. */
  function AddComponentDeferred(e: Ecs, target: Target, c: Component): (r: Ecs)
    ensures r == e.(deferred := e.deferred + [AddComponentLater(target, c)])
    ensures DeferredWellFormed(e) ==> DeferredWellFormed(r)
  {
    e.(deferred := e.deferred + [AddComponentLater(target, c)])
  }

  /** `remove_component_deferred`. */
  function RemoveComponentDeferred(e: Ecs, id: Key, tag: Tag): (r: Ecs)
    ensures r == e.(deferred := e.deferred + [RemoveComponentLater(id, tag)])
    ensures DeferredWellFormed(e) ==> DeferredWellFormed(r)
  {
    e.(deferred := e.deferred + [RemoveComponentLater(id, tag)])
  }

  /** Run one queued mutation. Creating an entity records its real id under
      the deferred id (the source unwraps that lookup, so the deferred id must
      still be live); a component for a deferred id whose entity does not exist
      yet, or whose deferred id was cleared, is dropped. Every other mutation
      does exactly what the direct call does. */
  function Apply(e: Ecs, m: Mutation): (r: Ecs)
    requires WellFormed(e)
    requires m.AddEntityLater? ==> Contains(e.deferredIds, m.defId)
    ensures WellFormed(r)
    ensures Keys(r.deferredIds) == Keys(e.deferredIds)
    ensures r.deferred == e.deferred
    ensures m.AddEntityLater? ==>
      var id := AddEntity(e).1;
      r.entityIds == AddEntity(e).0.entityIds && r.componentMaps == e.componentMaps
      && IsLive(r, id) && !IsLive(e, id)
      && Get(r.deferredIds, m.defId) == Some(Some(id))
      && forall d :: d != m.defId ==> Get(r.deferredIds, d) == Get(e.deferredIds, d)
    ensures m.RemoveEntityLater? ==> r == RemoveEntity(e, m.id)
    ensures m.AddComponentLater? && m.target.Real? ==> r == AddComponent(e, m.target.id, m.component)
    ensures m.AddComponentLater? && m.target.Deferred? ==>
      var bound := Get(e.deferredIds, m.target.defId);
      r == if bound.Some? && bound.value.Some? then AddComponent(e, bound.value.value, m.component) else e
    ensures m.RemoveComponentLater? ==> r == RemoveComponent(e, m.id, m.tag)
  {
    match m
    case AddEntityLater(d) =>
      var (e1, realId) := AddEntity(e);
      e1.(deferredIds := Set(e1.deferredIds, d, Some(realId)))
    case RemoveEntityLater(id) => RemoveEntity(e, id)
    case AddComponentLater(Real(id), c) => AddComponent(e, id, c)
    case AddComponentLater(Deferred(d), c) =>
      var realId := Get(e.deferredIds, d);
      if realId.Some? && realId.value.Some? then AddComponent(e, realId.value.value, c) else e
    case RemoveComponentLater(id, tag) => RemoveComponent(e, id, tag)
  }

  /** Every queued creation names a deferred id of `e`. */
  predicate CreationsBound(e: Ecs, ms: seq<Mutation>) {
    forall i :: 0 <= i < |ms| && ms[i].AddEntityLater? ==> Contains(e.deferredIds, ms[i].defId)
  }

  /** Run the queued mutations in order. */
  function ApplyAll(e: Ecs, ms: seq<Mutation>): (r: Ecs)
    requires WellFormed(e)
    requires CreationsBound(e, ms)
    ensures WellFormed(r)
    ensures Keys(r.deferredIds) == Keys(e.deferredIds)
    ensures forall k :: Contains(r.deferredIds, k) <==> Contains(e.deferredIds, k)
    ensures r.deferred == e.deferred
    decreases |ms|
  {
    if ms == [] then e
    else
      var e1 := Apply(e, ms[0]);
      assert forall k :: Contains(e1.deferredIds, k) <==> Contains(e.deferredIds, k) by {
        assert forall k :: k in Keys(e1.deferredIds) <==> k in Keys(e.deferredIds);
      }
      ApplyAll(e1, ms[1..])
  }

  /** Running two runs of mutations is running the first, then the second on
      what the first left. */
  lemma {:induction false} ApplyAllConcat(e: Ecs, a: seq<Mutation>, b: seq<Mutation>)
    requires WellFormed(e) && CreationsBound(e, a + b)
    ensures CreationsBound(e, a) && CreationsBound(ApplyAll(e, a), b)
    ensures ApplyAll(e, a + b) == ApplyAll(ApplyAll(e, a), b)
    decreases |a|
  {
    assert forall i :: 0 <= i < |a| ==> (a + b)[i] == a[i];
    assert forall i :: 0 <= i < |b| ==> (a + b)[|a| + i] == b[i];
    if a == [] {
      assert a + b == b;
    } else {
      assert (a + b)[0] == a[0] && (a + b)[1..] == a[1..] + b;
      var e1 := Apply(e, a[0]);
      assert forall k :: Contains(e1.deferredIds, k) <==> Contains(e.deferredIds, k) by {
        assert forall k :: k in Keys(e1.deferredIds) <==> k in Keys(e.deferredIds);
      }
      ApplyAllConcat(e1, a[1..], b);
    }
  }

  /** The mutation at the end of the queue runs last, on what the rest of
      the queue left. */
  lemma ApplyAllSnoc(e: Ecs, ms: seq<Mutation>, m: Mutation)
    requires WellFormed(e) && CreationsBound(e, ms + [m])
    ensures CreationsBound(e, ms)
    ensures m.AddEntityLater? ==> Contains(ApplyAll(e, ms).deferredIds, m.defId)
    ensures ApplyAll(e, ms + [m]) == Apply(ApplyAll(e, ms), m)
  {
    ApplyAllConcat(e, ms, [m]);
    var first := ApplyAll(e, ms);
    assert [m][0] == m && [m][1..] == [];
  }

  /** `flush_deferred_mutations`: take the queue, run it against the store,
      then clear the deferred ids. */
  function FlushDeferredMutations(e: Ecs): (r: Ecs)
    requires WellFormed(e) && DeferredWellFormed(e)
    ensures WellFormed(r) && DeferredWellFormed(r)
    ensures r.deferred == [] && forall k :: !Contains(r.deferredIds, k)
  {
    var applied := ApplyAll(e.(deferred := []), e.deferred);
    applied.(deferredIds := Clear(applied.deferredIds))
  }

  /** The flush runs the queue in the order it was filled: the entities and
      components after flushing a queue that ends in `m` are those of running
      `m` on what running the rest of the queue left. */
  lemma FlushRunsQueueInOrder(e: Ecs, m: Mutation)
    requires WellFormed(e) && DeferredWellFormed(e) && e.deferred != []
    requires m == e.deferred[|e.deferred| - 1]
    ensures var rest := e.deferred[..|e.deferred| - 1];
      var before := ApplyAll(e.(deferred := []), rest);
      var last := Apply(before, m);
      FlushDeferredMutations(e).entityIds == last.entityIds
      && FlushDeferredMutations(e).componentMaps == last.componentMaps
  {
    var rest := e.deferred[..|e.deferred| - 1];
    assert e.deferred == rest + [m];
    ApplyAllSnoc(e.(deferred := []), rest, m);
  }

  /** A component queued for a deferred id lands, at the flush, on the entity
      that the queued creation makes: the same id a direct `AddEntity` would
      have returned, live and holding the component. */
  lemma {:induction false} DeferredComponentLandsOnNewEntity(e: Ecs, c: Component)
    requires WellFormed(e) && ComponentsIssued(e) && e.deferred == []
    ensures var (e1, d) := AddEntityDeferred(e);
            var r := FlushDeferredMutations(AddComponentDeferred(e1, Deferred(d), c));
            var (direct, id) := AddEntity(e);
            r.entityIds == direct.entityIds && IsLive(r, id) && GetComponent(r, TagOf(c), id) == Some(c)
  {
    var (e1, d) := AddEntityDeferred(e);
    var e2 := AddComponentDeferred(e1, Deferred(d), c);
    var ms := e2.deferred;
    assert ms == [AddEntityLater(d), AddComponentLater(Deferred(d), c)];
    var s0 := e2.(deferred := []);
    var (a, id) := AddEntity(s0);
    var s1 := a.(deferredIds := Set(a.deferredIds, d, Some(id)));
    assert Apply(s0, ms[0]) == s1;
    assert Get(s1.deferredIds, d) == Some(Some(id));
    AddComponentIssued(s1, id, c);
    var s2 := AddComponent(s1, id, c);
    assert Apply(s1, ms[1]) == s2;
    assert ApplyAll(s1, ms[1..]) == ApplyAll(s2, []);
    assert ApplyAll(s0, ms) == s2;
  }

  /** Queued removals on real ids, flushed, act as the direct removals: the
      entity is gone and the component no longer held. */
  lemma {:induction false} DeferredRemovalsMatchDirect(e: Ecs, id: Key, tag: Tag)
    requires WellFormed(e) && e.deferred == []
    ensures var r := FlushDeferredMutations(RemoveEntityDeferred(RemoveComponentDeferred(e, id, tag), id));
            r.entityIds == RemoveEntity(RemoveComponent(e, id, tag), id).entityIds
            && r.componentMaps == RemoveComponent(e, id, tag).componentMaps
            && !IsLive(r, id) && !Has(r, tag, id)
  {
    var e2 := RemoveEntityDeferred(RemoveComponentDeferred(e, id, tag), id);
    var ms := e2.deferred;
    assert ms == [RemoveComponentLater(id, tag), RemoveEntityLater(id)];
    var s0 := e2.(deferred := []);
    var s1 := RemoveComponent(s0, id, tag);
    var s2 := RemoveEntity(s1, id);
    assert Apply(s0, ms[0]) == s1;
    assert Apply(s1, ms[1]) == s2;
    assert ApplyAll(s1, ms[1..]) == ApplyAll(s2, []);
    assert ApplyAll(s0, ms) == s2;
  }
}

=== FILE: entity_file.dfy ===
/** The JSON entity files of src/loader/loader.rs: loading a component by
    its serialized name, resolving which entity an element of the file
    describes, loading a whole file, and saving entities back to JSON.
    Deserializing and serializing each component type (`from_value` and
    `to_value`) are parameters, since they are derived serde code; reading
    the file is left out and the parsed value is the input. */
module EntityFile {
  import opened Wrappers
  import opened Json
  import opened SlotMap
  import opened Components
  import opened Ecs

  /** `from_value::<C>` for the component type of each tag. */
  type Decoder = (Tag, Json) -> Option<Component>

  /** `to_value` of a component. */
  type Encoder = Component -> Option<Json>

  /** `from_value::<EntityId>`. */
  type IdDecoder = Json -> Option<Key>

  /** Each decoder yields a component of the type it was asked for, as a
      typed `from_value::<C>` does. */
  ghost predicate Typed(decode: Decoder) {
    forall t, v :: decode(t, v).Some? ==> TagOf(decode(t, v).value) == t
  }

  // ---------------------------------------------------------------------
  // One component
  // ---------------------------------------------------------------------

  /** Whether `load_component_from_value` accepts a field: the id field, or a
      component name whose data deserializes. */
  predicate Accepted(name: string, data: Json, decode: Decoder) {
    name == "EntityId" || (name in ComponentNames && decode(TagNamed(name).value, data).Some?)
  }

  /** `load_component_from_value`: the sixteen component names add the
      deserialized component, `EntityId` is skipped, and any other name is an
      error. */
  function LoadComponent(e: Ecs, id: Key, name: string, data: Json, decode: Decoder): (r: Result<Ecs, string>)
    ensures r.Ok? <==> Accepted(name, data, decode)
    ensures name == "EntityId" ==> r == Ok(e)
    ensures name != "EntityId" && name !in ComponentNames ==> r == Err("Invalid JSON component name: " + name)
    ensures r.Ok? && name != "EntityId" ==>
      exists t :: TagName(t) == name && decode(t, data).Some? && r.value == AddComponent(e, id, decode(t, data).value)
  {
    match TagNamed(name)
    case Some(t) =>
      (match decode(t, data)
       case Some(c) => Ok(AddComponent(e, id, c))
       case None => Err("Invalid JSON component: " + name))
    case None =>
      if name == "EntityId" then Ok(e) else Err("Invalid JSON component name: " + name)
  }

  /** The components of one file element, in order, stopping at the first
      error; what was added before the error stays added. */
  function LoadComponents(e: Ecs, id: Key, fields: seq<(string, Json)>, decode: Decoder): (r: (Ecs, Option<string>))
    ensures r.0.entityIds == e.entityIds && r.0.deferred == e.deferred && r.0.deferredIds == e.deferredIds
    ensures r.1.None? <==> forall i :: 0 <= i < |fields| ==> Accepted(fields[i].0, fields[i].1, decode)
    ensures forall t, k: Key :: k.index != id.index ==> GetComponent(r.0, t, k) == GetComponent(e, t, k)
    ensures ComponentsIssued(e) && IsLive(e, id) ==> ComponentsIssued(r.0)
    decreases |fields|
  {
    if fields == [] then (e, None)
    else
      match LoadComponent(e, id, fields[0].0, fields[0].1, decode)
      case Err(msg) => (e, Some(msg))
      case Ok(e1) =>
        assert ComponentsIssued(e) && IsLive(e, id) ==> ComponentsIssued(e1) by {
          if ComponentsIssued(e) && IsLive(e, id) && fields[0].0 != "EntityId" {
            var t :| TagName(t) == fields[0].0 && decode(t, fields[0].1).Some? && e1 == AddComponent(e, id, decode(t, fields[0].1).value);
            AddComponentIssued(e, id, decode(t, fields[0].1).value);
          }
        }
        var r := LoadComponents(e1, id, fields[1..], decode);
        assert forall i :: 1 <= i < |fields| ==> fields[i] == fields[1..][i - 1];
        r
  }

  /** Loading stops at the first failing field: loading `a + b` is loading
      `a` and, when that succeeded, `b` on top of it. */
  lemma {:induction false} LoadComponentsAppend(e: Ecs, id: Key, a: seq<(string, Json)>, b: seq<(string, Json)>, decode: Decoder)
    ensures LoadComponents(e, id, a + b, decode) ==
      (var ra := LoadComponents(e, id, a, decode);
       if ra.1.Some? then ra else LoadComponents(ra.0, id, b, decode))
    decreases |a|
  {
    if a == [] {
      assert a + b == b;
    } else {
      assert (a + b)[0] == a[0] && (a + b)[1..] == a[1..] + b;
      match LoadComponent(e, id, a[0].0, a[0].1, decode)
      case Err(_) =>
      case Ok(e1) => LoadComponentsAppend(e1, id, a[1..], b, decode);
    }
  }

  // ---------------------------------------------------------------------
  // Which entity an element describes
  // ---------------------------------------------------------------------

  /** The element's `EntityId`, when it has one that deserializes. */
  function IdInFile(fields: seq<(string, Json)>, decodeId: IdDecoder): Option<Key> {
    match Lookup(fields, "EntityId")
    case Some(v) => decodeId(v)
    case None => None
  }

  /** The element's `Name`, when it is a string. */
  function NameInFile(fields: seq<(string, Json)>): Option<string> {
    match Lookup(fields, "Name")
    case Some(v) => AsString(v)
    case None => None
  }

  /** The id an element loads into: its own `EntityId`; else the first
      live entity already carrying its `Name`; else a new entity. */
  function ResolveId(e: Ecs, fields: seq<(string, Json)>, decodeId: IdDecoder): (r: (Ecs, Key))
    requires WellFormed(e)
    ensures WellFormed(r.0)
    ensures forall k :: IsLive(e, k) ==> IsLive(r.0, k)
    ensures forall k :: IsLive(r.0, k) && k != r.1 ==> IsLive(e, k)
    ensures forall t, k :: GetComponent(r.0, t, k) == GetComponent(e, t, k)
    ensures IdInFile(fields, decodeId).Some? ==> r == (e, IdInFile(fields, decodeId).value)
    ensures IdInFile(fields, decodeId).None? && NameInFile(fields).Some? && FindByName(e, QEntityId, NameInFile(fields).value).Some? ==>
      r.0 == e && r.1 == FindByName(e, QEntityId, NameInFile(fields).value).value && IsLive(e, r.1)
      && GetComponent(e, NameTag, r.1) == Some(CName(NameInFile(fields).value))
    ensures r.0 != e ==> r == AddEntity(e)
    ensures r.0 != e <==> (IdInFile(fields, decodeId).None?
      && (NameInFile(fields).None? || forall k :: IsLive(e, k) ==> GetComponent(e, NameTag, k) != Some(CName(NameInFile(fields).value))))
  {
    match IdInFile(fields, decodeId)
    case Some(id) => (e, id)
    case None =>
      var byName := match NameInFile(fields)
        case Some(n) => FindByName(e, QEntityId, n)
        case None => None;
      match byName
      case Some(id) => (e, id)
      case None =>
        var r := AddEntity(e);
        assert r.0 != e by {
          assert IsLive(r.0, r.1) && !IsLive(e, r.1);
        }
        r
  }

  // ---------------------------------------------------------------------
  // A whole file
  // ---------------------------------------------------------------------

  /** Whether an element of the file loads without error. */
  predicate ElementLoads(v: Json, decode: Decoder) {
    v.JObject? && forall i :: 0 <= i < |v.fields| ==> Accepted(v.fields[i].0, v.fields[i].1, decode)
  }

  /** The elements of the array in order; the first failing element ends the
      load, keeping everything done before (the error is logged). */
  function LoadElements(e: Ecs, items: seq<Json>, decode: Decoder, decodeId: IdDecoder): (r: (Ecs, Option<string>))
    requires WellFormed(e)
    ensures WellFormed(r.0)
    ensures forall k :: IsLive(e, k) ==> IsLive(r.0, k)
    ensures r.1.None? <==> forall i :: 0 <= i < |items| ==> ElementLoads(items[i], decode)
    decreases |items|
  {
    if items == [] then (e, None)
    else if !items[0].JObject? then (e, Some("array element not an object"))
    else
      var (e1, id) := ResolveId(e, items[0].fields, decodeId);
      var (e2, err) := LoadComponents(e1, id, items[0].fields, decode);
      AllLoadCons(items, decode);
      if err.Some? then (e2, err)
      else LoadElements(e2, items[1..], decode, decodeId)
  }

  lemma AllLoadCons(items: seq<Json>, decode: Decoder)
    requires items != []
    ensures (forall i :: 0 <= i < |items| ==> ElementLoads(items[i], decode)) <==>
      ElementLoads(items[0], decode) && forall i :: 0 <= i < |items[1..]| ==> ElementLoads(items[1..][i], decode)
  {
    assert forall i :: 1 <= i < |items| ==> items[i] == items[1..][i - 1];
  }

  /** `load_entities_from_file` on the parsed file: it must be an array of
      objects. */
  function LoadEntities(e: Ecs, file: Json, decode: Decoder, decodeId: IdDecoder): (r: (Ecs, Option<string>))
    requires WellFormed(e)
    ensures WellFormed(r.0)
    ensures forall k :: IsLive(e, k) ==> IsLive(r.0, k)
    ensures !file.JArray? ==> r == (e, Some("not an array"))
    ensures r.1.None? <==> file.JArray? && forall i :: 0 <= i < |file.items| ==> ElementLoads(file.items[i], decode)
  {
    if file.JArray? then LoadElements(e, file.items, decode, decodeId) else (e, Some("not an array"))
  }

  /** Elements load one after the other and a failing element ends the load:
      loading `a + b` is loading `a` and, when that succeeded, `b` on top. */
  lemma {:induction false} LoadElementsAppend(e: Ecs, a: seq<Json>, b: seq<Json>, decode: Decoder, decodeId: IdDecoder)
    requires WellFormed(e)
    ensures LoadElements(e, a + b, decode, decodeId) ==
      (var ra := LoadElements(e, a, decode, decodeId);
       if ra.1.Some? then ra else LoadElements(ra.0, b, decode, decodeId))
    decreases |a|
  {
    if a == [] {
      assert a + b == b;
    } else {
      assert (a + b)[0] == a[0] && (a + b)[1..] == a[1..] + b;
      if a[0].JObject? {
        var (e1, id) := ResolveId(e, a[0].fields, decodeId);
        var (e2, err) := LoadComponents(e1, id, a[0].fields, decode);
        if err.None? {
          LoadElementsAppend(e2, a[1..], b, decode, decodeId);
        }
      }
    }
  }

  /** A new entity that loads an element naming it, where no live entity
      had that name before, is the one the lookup by that name finds: a
      later element with the same name loads into it (see
      `FreshNameCreatesEntity` and `ResolveId`). */
  lemma NamedElementIsFoundAgain(e: Ecs, fields: seq<(string, Json)>, decode: Decoder, i: nat, n: string)
    requires WellFormed(e) && ComponentsIssued(e) && DistinctKeys(fields) && Typed(decode)
    requires i < |fields| && fields[i] == ("Name", JString(n))
    requires decode(NameTag, JString(n)) == Some(CName(n))
    requires forall k :: IsLive(e, k) ==> GetComponent(e, NameTag, k) != Some(CName(n))
    requires forall j :: 0 <= j < |fields| ==> Accepted(fields[j].0, fields[j].1, decode)
    ensures var (e1, id) := AddEntity(e);
            FindByName(LoadComponents(e1, id, fields, decode).0, QEntityId, n) == Some(id)
  {
    var (e1, id) := AddEntity(e);
    LoadNameSticks(e1, id, fields, decode, i, n);
    LoadedNameIsOnlyOne(e, e1, id, fields, decode, n);
  }

  /** An element without an id whose name no live entity carries gets a new
      entity. */
  lemma FreshNameCreatesEntity(e: Ecs, fields: seq<(string, Json)>, decodeId: IdDecoder, n: string)
    requires WellFormed(e)
    requires IdInFile(fields, decodeId).None? && Lookup(fields, "Name") == Some(JString(n))
    requires forall k :: IsLive(e, k) ==> GetComponent(e, NameTag, k) != Some(CName(n))
    ensures ResolveId(e, fields, decodeId) == AddEntity(e)
  {
    assert NameInFile(fields) == Some(n);
    assert ResolveId(e, fields, decodeId).0 != e;
  }

  /** After the new entity has loaded its name, it is the only live entity
      with that name. */
  lemma LoadedNameIsOnlyOne(e: Ecs, e1: Ecs, id: Key, fields: seq<(string, Json)>, decode: Decoder, n: string)
    requires WellFormed(e) && (e1, id) == AddEntity(e)
    requires forall k :: IsLive(e, k) ==> GetComponent(e, NameTag, k) != Some(CName(n))
    requires GetComponent(LoadComponents(e1, id, fields, decode).0, NameTag, id) == Some(CName(n))
    ensures FindByName(LoadComponents(e1, id, fields, decode).0, QEntityId, n) == Some(id)
  {
    var e2 := LoadComponents(e1, id, fields, decode).0;
    assert IsLive(e2, id);
    forall k | IsLive(e2, k) && k != id
      ensures GetComponent(e2, NameTag, k) != Some(CName(n))
    {
      assert IsLive(e1, k);
      assert IsLive(e, k);
      assert k.index != id.index;
      assert GetComponent(e2, NameTag, k) == GetComponent(e1, NameTag, k);
      assert e1.componentMaps == e.componentMaps;
    }
    OnlyOneNamed(e2, id, n);
  }

  /** When exactly one live entity carries a name, the lookup by that name
      finds it. */
  lemma OnlyOneNamed(e: Ecs, id: Key, n: string)
    requires IsLive(e, id) && GetComponent(e, NameTag, id) == Some(CName(n))
    requires forall k :: IsLive(e, k) && k != id ==> GetComponent(e, NameTag, k) != Some(CName(n))
    ensures FindByName(e, QEntityId, n) == Some(id)
  {
    assert NamedMatch(e, QEntityId, n, id);
  }

  /** In a load without errors of an object with distinct keys, a live id
      ends up with the component of its `Name` field. */
  lemma {:induction false} LoadNameSticks(e: Ecs, id: Key, fields: seq<(string, Json)>, decode: Decoder, i: nat, n: string)
    requires ComponentsIssued(e) && IsLive(e, id) && DistinctKeys(fields) && Typed(decode)
    requires i < |fields| && fields[i] == ("Name", JString(n))
    requires decode(NameTag, JString(n)) == Some(CName(n))
    requires forall j :: 0 <= j < |fields| ==> Accepted(fields[j].0, fields[j].1, decode)
    ensures GetComponent(LoadComponents(e, id, fields, decode).0, NameTag, id) == Some(CName(n))
    decreases |fields|
  {
    if i == 0 {
      NameFieldFirst(e, id, fields, decode, n);
    } else {
      var e1 := LoadComponent(e, id, fields[0].0, fields[0].1, decode).value;
      var rest := fields[1..];
      assert forall j :: 1 <= j < |fields| ==> fields[j] == rest[j - 1];
      assert LoadComponents(e, id, fields, decode) == LoadComponents(e1, id, rest, decode);
      LoadComponentIssued(e, id, fields[0].0, fields[0].1, decode);
      LoadNameSticks(e1, id, rest, decode, i - 1, n);
    }
  }

  /** The case of `LoadNameSticks` where the name is the first field. */
  lemma NameFieldFirst(e: Ecs, id: Key, fields: seq<(string, Json)>, decode: Decoder, n: string)
    requires ComponentsIssued(e) && IsLive(e, id) && DistinctKeys(fields) && Typed(decode)
    requires |fields| > 0 && fields[0] == ("Name", JString(n))
    requires decode(NameTag, JString(n)) == Some(CName(n))
    ensures GetComponent(LoadComponents(e, id, fields, decode).0, NameTag, id) == Some(CName(n))
  {
    assert TagNamed("Name") == Some(NameTag);
    var e1 := AddComponent(e, id, CName(n));
    assert LoadComponent(e, id, fields[0].0, fields[0].1, decode) == Ok(e1);
    var rest := fields[1..];
    assert LoadComponents(e, id, fields, decode) == LoadComponents(e1, id, rest, decode);
    AddComponentIssued(e, id, CName(n));
    assert forall j :: 0 <= j < |rest| ==> rest[j].0 != "Name" by {
      assert forall j :: 0 <= j < |rest| ==> rest[j] == fields[j + 1];
    }
    LoadKeepsName(e1, id, rest, decode);
  }

  /** An accepted field keeps every stored component issued. */
  lemma LoadComponentIssued(e: Ecs, id: Key, name: string, data: Json, decode: Decoder)
    requires ComponentsIssued(e) && IsLive(e, id) && Accepted(name, data, decode)
    ensures ComponentsIssued(LoadComponent(e, id, name, data, decode).value)
  {
    if name != "EntityId" {
      var t :| TagName(t) == name && decode(t, data).Some? && LoadComponent(e, id, name, data, decode).value == AddComponent(e, id, decode(t, data).value);
      AddComponentIssued(e, id, decode(t, data).value);
    }
  }

  /** Fields other than `Name` leave the `Name` component alone. */
  lemma {:induction false} LoadKeepsName(e: Ecs, id: Key, fields: seq<(string, Json)>, decode: Decoder)
    requires forall j :: 0 <= j < |fields| ==> fields[j].0 != "Name"
    requires Typed(decode)
    ensures GetComponent(LoadComponents(e, id, fields, decode).0, NameTag, id) == GetComponent(e, NameTag, id)
    decreases |fields|
  {
    if fields != [] {
      var rest := fields[1..];
      assert forall j :: 1 <= j < |fields| ==> fields[j] == rest[j - 1];
      match LoadComponent(e, id, fields[0].0, fields[0].1, decode)
      case Err(_) =>
      case Ok(e1) =>
        if fields[0].0 != "EntityId" {
          var t :| TagName(t) == fields[0].0 && decode(t, fields[0].1).Some? && e1 == AddComponent(e, id, decode(t, fields[0].1).value);
          assert t != NameTag;
        }
        LoadKeepsName(e1, id, rest, decode);
    }
  }

  // ---------------------------------------------------------------------
  // Saving
  // ---------------------------------------------------------------------

  /** The component types in the order `save_components_to_value` visits them. */
  const SaveOrder: seq<Tag> := [
    NameTag, PositionTag, VelocityTag, CollisionTag, SfxEmitterTag, SpriteCompTag,
    FacingTag, WalkingTag, CameraTag, AnimationCompTag, CharacterAnimsTag,
    DualStateAnimsTag, NamedAnimsTag, InteractionTriggerTag, CollisionTriggerTag,
    AreaTriggerTag]

  /** Every type is visited, and only once. */
  lemma SaveOrderComplete(t: Tag)
    ensures t in SaveOrder
  {
  }

  lemma SaveOrderDistinct()
    ensures forall a, b :: 0 <= a < b < |SaveOrder| ==> SaveOrder[a] != SaveOrder[b]
  {
    forall i | 0 <= i < |SaveOrder| ensures Position(SaveOrder[i]) == i {
    }
  }

  /** The place of each type in `SaveOrder`. */
  function Position(t: Tag): nat {
    match t
    case NameTag => 0
    case PositionTag => 1
    case VelocityTag => 2
    case CollisionTag => 3
    case SfxEmitterTag => 4
    case SpriteCompTag => 5
    case FacingTag => 6
    case WalkingTag => 7
    case CameraTag => 8
    case AnimationCompTag => 9
    case CharacterAnimsTag => 10
    case DualStateAnimsTag => 11
    case NamedAnimsTag => 12
    case InteractionTriggerTag => 13
    case CollisionTriggerTag => 14
    case AreaTriggerTag => 15
  }

  /** What `insert::<C>` writes for one type: the serialized component, when
      the entity has one and it serializes. */
  function Saved(e: Ecs, id: Key, t: Tag, encode: Encoder): Option<Json> {
    match GetComponent(e, t, id)
    case Some(c) => encode(c)
    case None => None
  }

  /** Different types have different names. */
  lemma TagNameInjective(a: Tag, b: Tag)
    ensures TagName(a) == TagName(b) ==> a == b
  {
    TagNameRoundTrip(a);
    TagNameRoundTrip(b);
  }

  /** The values saved for the given types, in order, each with its type. */
  function SaveTags(e: Ecs, id: Key, tags: seq<Tag>, encode: Encoder): (r: seq<(Tag, Json)>)
    ensures forall i :: 0 <= i < |r| ==> r[i].0 in tags && Saved(e, id, r[i].0, encode) == Some(r[i].1)
    ensures forall t :: t in tags && Saved(e, id, t, encode).Some? ==> exists i :: 0 <= i < |r| && r[i].0 == t
    decreases |tags|
  {
    if tags == [] then []
    else
      var rest := SaveTags(e, id, tags[1..], encode);
      assert forall t :: t in tags ==> t == tags[0] || t in tags[1..];
      match Saved(e, id, tags[0], encode)
      case Some(v) =>
        var r := [(tags[0], v)] + rest;
        assert forall i :: 0 <= i < |rest| ==> r[i + 1] == rest[i];
        forall t | t in tags && Saved(e, id, t, encode).Some? ensures exists i :: 0 <= i < |r| && r[i].0 == t {
          if t == tags[0] {
            assert r[0].0 == t;
          } else {
            var i :| 0 <= i < |rest| && rest[i].0 == t;
            assert r[i + 1].0 == t;
          }
        }
        r
      case None => rest
  }

  /** No type occurs twice among the saved pairs. */
  predicate DistinctTags(r: seq<(Tag, Json)>) {
    forall a, b :: 0 <= a < b < |r| ==> r[a].0 != r[b].0
  }

  /** Types visited once each are saved once each. */
  lemma {:induction false} SaveTagsDistinct(e: Ecs, id: Key, tags: seq<Tag>, encode: Encoder)
    requires forall a, b :: 0 <= a < b < |tags| ==> tags[a] != tags[b]
    ensures DistinctTags(SaveTags(e, id, tags, encode))
    decreases |tags|
  {
    if tags != [] {
      var tail := tags[1..];
      assert forall a, b :: 0 <= a < b < |tail| ==> tail[a] == tags[a + 1] && tail[b] == tags[b + 1];
      SaveTagsDistinct(e, id, tail, encode);
      assert tags[0] !in tail by {
        forall j | 0 <= j < |tail| ensures tail[j] != tags[0] {
          assert tail[j] == tags[j + 1];
        }
      }
      if Saved(e, id, tags[0], encode).Some? {
        ConsDistinct((tags[0], Saved(e, id, tags[0], encode).value), SaveTags(e, id, tail, encode));
      }
    }
  }

  lemma ConsDistinct(p: (Tag, Json), rest: seq<(Tag, Json)>)
    requires DistinctTags(rest) && forall i :: 0 <= i < |rest| ==> rest[i].0 != p.0
    ensures DistinctTags([p] + rest)
  {
    var r := [p] + rest;
    forall a, b | 0 <= a < b < |r| ensures r[a].0 != r[b].0 {
      assert r[b] == rest[b - 1];
      if a > 0 {
        assert r[a] == rest[a - 1];
      }
    }
  }


  /** The saved pairs under the types' names. */
  function Named(p: seq<(Tag, Json)>): (r: seq<(string, Json)>)
    ensures |r| == |p|
    ensures forall i :: 0 <= i < |p| ==> r[i] == (TagName(p[i].0), p[i].1)
  {
    seq(|p|, i requires 0 <= i < |p| => (TagName(p[i].0), p[i].1))
  }

  /** `save_components_to_value`: one field per component type the entity
      holds whose value serializes, under the type's name. */
  function SaveComponents(e: Ecs, id: Key, encode: Encoder): (r: seq<(string, Json)>)
    ensures DistinctKeys(r)
    ensures forall t :: Lookup(r, TagName(t)) == Saved(e, id, t, encode)
  {
    var p := SaveTags(e, id, SaveOrder, encode);
    SaveOrderDistinct();
    SaveTagsDistinct(e, id, SaveOrder, encode);
    var r := Named(p);
    forall a, b | 0 <= a < b < |r| ensures r[a].0 != r[b].0 {
      TagNameInjective(p[a].0, p[b].0);
    }
    forall t ensures Lookup(r, TagName(t)) == Saved(e, id, t, encode) {
      SaveOrderComplete(t);
      forall i | 0 <= i < |r| && r[i].0 == TagName(t) ensures p[i].0 == t {
        TagNameInjective(p[i].0, t);
      }
      if Saved(e, id, t, encode).Some? {
        var i :| 0 <= i < |p| && p[i].0 == t;
        LookupDistinct(r, i);
      }
    }
    r
  }

  /** `save_entities_to_value`: one element per live entity, in slot order. */
  function SaveEntities(e: Ecs, encode: Encoder): (r: seq<Json>)
    ensures |r| == |Keys(e.entityIds)|
  {
    SaveKeys(e, Keys(e.entityIds), encode)
  }

  /** Every live entity is saved. */
  lemma SaveEntitiesCoversLive(e: Ecs, encode: Encoder, k: Key)
    requires IsLive(e, k)
    ensures SaveEntity(e, k, encode) in SaveEntities(e, encode)
  {
    var ks := Keys(e.entityIds);
    assert k in ks;
    var i :| 0 <= i < |ks| && ks[i] == k;
    assert SaveEntities(e, encode)[i] == SaveEntity(e, k, encode);
  }

  /** Only live entities are saved. */
  lemma SaveEntitiesOnlyLive(e: Ecs, encode: Encoder, i: nat)
    requires i < |SaveEntities(e, encode)|
    ensures exists k :: IsLive(e, k) && SaveEntities(e, encode)[i] == SaveEntity(e, k, encode)
  {
    var ks := Keys(e.entityIds);
    assert ks[i] in ks;
    assert IsLive(e, ks[i]);
  }

  /** The saved objects of the given entities, in order. */
  function SaveKeys(e: Ecs, ks: seq<Key>, encode: Encoder): (r: seq<Json>)
    ensures |r| == |ks|
    ensures forall i :: 0 <= i < |ks| ==> r[i] == SaveEntity(e, ks[i], encode)
  {
    if ks == [] then [] else [SaveEntity(e, ks[0], encode)] + SaveKeys(e, ks[1..], encode)
  }

  /** One element of the saved array. */
  function SaveEntity(e: Ecs, k: Key, encode: Encoder): Json {
    JObject(SaveComponents(e, k, encode))
  }

  /** Writing back the component an entity already holds changes nothing. */
  lemma WriteBackSame(e: Ecs, id: Key, c: Component)
    requires GetComponent(e, TagOf(c), id) == Some(c)
    ensures AddComponent(e, id, c) == e
  {
    var t := TagOf(c);
    var cm: ComponentMap := e.componentMaps[t];
    assert cm[id.index] == Entry(id.version, c);
    assert CmInsert(cm, id, c) == cm;
    assert e.componentMaps[t := cm] == e.componentMaps;
  }

  /** Saving an entity's components and loading them back into it changes
      nothing, when every serialized component deserializes to itself. */
  lemma SaveThenLoadChangesNothing(e: Ecs, id: Key, encode: Encoder, decode: Decoder)
    requires TagsMatch(e)
    requires forall c :: encode(c).Some? ==> decode(TagOf(c), encode(c).value) == Some(c)
    ensures LoadComponents(e, id, SaveComponents(e, id, encode), decode) == (e, None)
  {
    LoadSavedPairs(e, id, SaveTags(e, id, SaveOrder, encode), encode, decode);
  }

  lemma {:induction false} LoadSavedPairs(e: Ecs, id: Key, p: seq<(Tag, Json)>, encode: Encoder, decode: Decoder)
    requires TagsMatch(e)
    requires forall c :: encode(c).Some? ==> decode(TagOf(c), encode(c).value) == Some(c)
    requires forall i :: 0 <= i < |p| ==> Saved(e, id, p[i].0, encode) == Some(p[i].1)
    ensures LoadComponents(e, id, Named(p), decode) == (e, None)
    decreases |p|
  {
    if p != [] {
      var fields := Named(p);
      assert fields[1..] == Named(p[1..]);
      LoadSavedPairs(e, id, p[1..], encode, decode);
      var (t, v) := p[0];
      var c := GetComponent(e, t, id).value;
      assert t in e.componentMaps && id.index in e.componentMaps[t];
      assert TagOf(c) == t;
      TagNameRoundTrip(t);
      assert decode(t, v) == Some(c);
      WriteBackSame(e, id, c);
      assert LoadComponent(e, id, TagName(t), v, decode) == Ok(e);
    }
  }
}

=== FILE: game.dfy ===
/** The game state scripts act on (`GameData` and `UiData` of src/main.rs as
    seen by the current script runtime) and the wait a script can install. */
module Game {
  import opened Wrappers
  import opened Ecs
  import StoryVars

  /** The message box on screen. */
  datatype MessageWindow = MessageWindow(message: string)

  /** `WaitCondition` of src/script/script.rs: wait for the message box to be
      closed, or until an absolute time on the clock. */
  datatype WaitCondition = Message | Time(until: int)

  /** Everything a script step may read or change. */
  datatype Host = Host(
    storyVars: StoryVars.Vars,
    ecs: Ecs,
    messageWindow: Option<MessageWindow>,
    playerMovementLocked: bool,
    running: bool)
}

=== FILE: geometry.dfy ===
/** Map-space geometry: two-component vectors, rectangles, axis-aligned
    bounding boxes with strict overlap, the push-out collision responses, and
    the conversions between map units (one unit per cell), cell coordinates and
    pixels. Rust's `f64` is modelled as `real`, so rounding is not modelled;
    `f64 as i32` saturates at the bounds of `i32`, which is written out. */
module Geometry {

  /** Pixels per cell edge (`CELL_SIZE`). */
  const CellSize: int := 16

  const I32Min: int := -0x8000_0000
  const I32Max: int := 0x7fff_ffff

  predicate InI32(n: int) {
    I32Min <= n <= I32Max
  }

  /** Rust's saturating float-to-`i32` cast applied to an integral value. */
  function SatI32(n: int): (r: int)
    ensures InI32(r)
    ensures InI32(n) ==> r == n
    ensures n < I32Min ==> r == I32Min
    ensures n > I32Max ==> r == I32Max
  {
    if n < I32Min then I32Min else if n > I32Max then I32Max else n
  }

  /** `x.floor() as i32`. */
  function FloorI32(x: real): int {
    SatI32(x.Floor)
  }

  /** The four facing directions; `Down` is the default. */
  datatype Direction = Up | Down | Left | Right

  const DefaultDirection: Direction := Down

  datatype Vec2 = Vec2(x: real, y: real)

  datatype CellPos = CellPos(x: int, y: int)

  function Add(a: Vec2, b: Vec2): Vec2 {
    Vec2(a.x + b.x, a.y + b.y)
  }

  function Sub(a: Vec2, b: Vec2): Vec2 {
    Vec2(a.x - b.x, a.y - b.y)
  }

  function Scale(a: Vec2, k: real): Vec2 {
    Vec2(a.x * k, a.y * k)
  }

  function Divide(a: Vec2, k: real): Vec2
    requires k != 0.0
  {
    Vec2(a.x / k, a.y / k)
  }

  /** Subtraction undoes addition and division undoes scaling. */
  lemma VectorInverses(a: Vec2, b: Vec2, k: real)
    requires k != 0.0
    ensures Sub(Add(a, b), b) == a
    ensures Add(Sub(a, b), b) == a
    ensures Divide(Scale(a, k), k) == a
  {
  }

  /** The displacement of `dist` map units in direction `d` (y grows
      downwards). */
  function Step(d: Direction, dist: real): Vec2 {
    match d
    case Up => Vec2(0.0, -dist)
    case Down => Vec2(0.0, dist)
    case Left => Vec2(-dist, 0.0)
    case Right => Vec2(dist, 0.0)
  }

  /** How far `to` lies ahead of `from` when facing `d`. */
  function Ahead(d: Direction, from: Vec2, to: Vec2): real {
    match d
    case Up => from.y - to.y
    case Down => to.y - from.y
    case Left => from.x - to.x
    case Right => to.x - from.x
  }

  /** How far `to` lies off the line through `from` along `d`. */
  function Aside(d: Direction, from: Vec2, to: Vec2): real {
    match d
    case Up => to.x - from.x
    case Down => to.x - from.x
    case Left => to.y - from.y
    case Right => to.y - from.y
  }

  /** A step of `dist` lands exactly `dist` ahead and on the line, and a
      point is fixed by how far ahead and aside it lies. */
  lemma StepIsAhead(d: Direction, p: Vec2, q: Vec2, dist: real)
    ensures Ahead(d, p, Add(p, Step(d, dist))) == dist && Aside(d, p, Add(p, Step(d, dist))) == 0.0
    ensures Ahead(d, p, q) == dist && Aside(d, p, q) == 0.0 <==> q == Add(p, Step(d, dist))
  {
  }

  /** A rectangle given by its top-left corner and its size. */
  datatype Rect = Rect(x: real, y: real, width: real, height: real) {
    function Left(): real { x }
    function Right(): real { x + width }
    function Top(): real { y }
    function Bottom(): real { y + height }
  }

  /** `Rect::new_from_center`: the rectangle of the given size centred on (x, y). */
  function RectFromCenter(x: real, y: real, width: real, height: real): (r: Rect)
    ensures (r.Left() + r.Right()) / 2.0 == x && (r.Top() + r.Bottom()) / 2.0 == y
    ensures r.Right() - r.Left() == width && r.Bottom() - r.Top() == height
  {
    Rect(x - width / 2.0, y - height / 2.0, width, height)
  }

  /** An axis-aligned box by its four edges; y grows downwards. */
  datatype Aabb = Aabb(top: real, bottom: real, left: real, right: real)

  /** `Aabb::new` / `AABB::from_pos_and_hitbox`: the box of the given size
      centred on a position. */
  function BoxAround(center: Vec2, size: Vec2): (r: Aabb)
    ensures Center(r) == center
    ensures r.right - r.left == size.x && r.bottom - r.top == size.y
  {
    Aabb(center.y - size.y / 2.0, center.y + size.y / 2.0, center.x - size.x / 2.0, center.x + size.x / 2.0)
  }

  /** Strict overlap: boxes that only touch do not intersect. */
  predicate Intersects(a: Aabb, b: Aabb) {
    a.top < b.bottom && a.bottom > b.top && a.left < b.right && a.right > b.left
  }

  /** Strict containment of a point. */
  predicate ContainsPoint(a: Aabb, p: Vec2) {
    a.top < p.y && a.bottom > p.y && a.left < p.x && a.right > p.x
  }

  function Center(a: Aabb): Vec2 {
    Vec2((a.left + a.right) / 2.0, (a.top + a.bottom) / 2.0)
  }

  function Max(a: real, b: real): real { if a < b then b else a }
  function Min(a: real, b: real): real { if a < b then a else b }

  /** A box with positive width and height. */
  predicate Proper(a: Aabb) {
    a.top < a.bottom && a.left < a.right
  }

  /** Overlap is symmetric, and two proper boxes overlap exactly when some
      point lies strictly inside both. */
  lemma IntersectsIffCommonPoint(a: Aabb, b: Aabb)
    ensures Intersects(a, b) == Intersects(b, a)
    ensures Proper(a) && Proper(b) ==>
      (Intersects(a, b) <==> exists p :: ContainsPoint(a, p) && ContainsPoint(b, p))
  {
    if Proper(a) && Proper(b) && Intersects(a, b) {
      var p := Vec2((Max(a.left, b.left) + Min(a.right, b.right)) / 2.0,
                    (Max(a.top, b.top) + Min(a.bottom, b.bottom)) / 2.0);
      assert ContainsPoint(a, p) && ContainsPoint(b, p);
    }
  }

  /** A box contains its own centre exactly when it has positive width and height. */
  lemma ContainsOwnCenter(a: Aabb)
    ensures ContainsPoint(a, Center(a)) <==> a.top < a.bottom && a.left < a.right
  {
  }

  /** `Aabb::resolve_collision`: push `self` out of `other` against the
      direction of travel, by the overlap depth plus 0.01, one axis at a time. */
  function ResolveAgainstVelocity(self: Aabb, other: Aabb, velocity: Vec2): (r: Aabb)
    ensures r.bottom - r.top == self.bottom - self.top && r.right - r.left == self.right - self.left
    ensures !Intersects(self, other) || velocity == Vec2(0.0, 0.0) ==> r == self
  {
    if !Intersects(self, other) then self
    else
      var a := if self.top < other.bottom && velocity.y < 0.0 then ShiftY(self, other.bottom - self.top + 0.01) else self;
      var b := if a.bottom > other.top && velocity.y > 0.0 then ShiftY(a, -(a.bottom - other.top + 0.01)) else a;
      var c := if b.left < other.right && velocity.x < 0.0 then ShiftX(b, other.right - b.left + 0.01) else b;
      if c.right > other.left && velocity.x > 0.0 then ShiftX(c, -(c.right - other.left + 0.01)) else c
  }

  function ShiftY(a: Aabb, d: real): Aabb {
    Aabb(a.top + d, a.bottom + d, a.left, a.right)
  }

  function ShiftX(a: Aabb, d: real): Aabb {
    Aabb(a.top, a.bottom, a.left + d, a.right + d)
  }

  /** A moving box that overlaps another is always separated from it, and the
      push on an axis opposes the velocity on that axis. */
  lemma ResolveAgainstVelocitySeparates(self: Aabb, other: Aabb, velocity: Vec2)
    requires Intersects(self, other) && velocity != Vec2(0.0, 0.0)
    ensures !Intersects(ResolveAgainstVelocity(self, other, velocity), other)
    ensures velocity.y < 0.0 ==> ResolveAgainstVelocity(self, other, velocity).top > self.top
    ensures velocity.y > 0.0 ==> ResolveAgainstVelocity(self, other, velocity).top < self.top
    ensures velocity.y == 0.0 ==> ResolveAgainstVelocity(self, other, velocity).top == self.top
    ensures velocity.x == 0.0 ==> ResolveAgainstVelocity(self, other, velocity).left == self.left
  {
  }

  /** `AABB::resolve_collision`: push `self` out of `other` on each axis where
      the box before the move lay entirely on one side of `other`. */
  function ResolveAgainstPrevious(self: Aabb, previous: Aabb, other: Aabb): (r: Aabb)
    ensures r.bottom - r.top == self.bottom - self.top && r.right - r.left == self.right - self.left
    ensures !Intersects(self, other) ==> r == self
  {
    if !Intersects(self, other) then self
    else
      var a := if self.top < other.bottom && previous.top > other.bottom then ShiftY(self, other.bottom - self.top + 0.01) else self;
      var b := if a.bottom > other.top && previous.bottom < other.top then ShiftY(a, -(a.bottom - other.top + 0.01)) else a;
      var c := if b.left < other.right && previous.left > other.right then ShiftX(b, other.right - b.left + 0.01) else b;
      if c.right > other.left && previous.right < other.left then ShiftX(c, -(c.right - other.left + 0.01)) else c
  }

  /** A box that was clear of `other` on some side before the move ends up
      clear of it; a box that already overlapped on both axes is not moved. */
  lemma ResolveAgainstPreviousSeparates(self: Aabb, previous: Aabb, other: Aabb)
    ensures (previous.bottom < other.top || previous.top > other.bottom
             || previous.right < other.left || previous.left > other.right)
            ==> !Intersects(ResolveAgainstPrevious(self, previous, other), other)
    ensures (other.top <= previous.bottom && previous.top <= other.bottom
             && other.left <= previous.right && previous.left <= other.right)
            ==> ResolveAgainstPrevious(self, previous, other) == self
  {
  }

  /** `to_cellpos` / `to_cell_units`: the cell containing a map position.
      The cell is always an `i32` cell; away from the `i32` bounds it is the
      unit square holding the position, and beyond them the cast saturates
      onto the boundary row or column. */
  function ToCellPos(p: Vec2): (r: CellPos)
    ensures CellInI32(r)
    ensures InI32(p.x.Floor) ==> r.x as real <= p.x < r.x as real + 1.0
    ensures InI32(p.y.Floor) ==> r.y as real <= p.y < r.y as real + 1.0
    ensures p.x < I32Min as real ==> r.x == I32Min
    ensures p.y < I32Min as real ==> r.y == I32Min
    ensures p.x >= I32Max as real + 1.0 ==> r.x == I32Max
    ensures p.y >= I32Max as real + 1.0 ==> r.y == I32Max
  {
    CellPos(FloorI32(p.x), FloorI32(p.y))
  }

  /** `to_worldpos` / `to_map_units_center`: the centre of a cell, half a
      unit along each axis from its corner, lying in the cell itself. */
  function CellCenter(c: CellPos): (r: Vec2)
    ensures Sub(r, CellCorner(c)) == Vec2(0.5, 0.5)
    ensures CellInI32(c) ==> ToCellPos(r) == c
  {
    if CellInI32(c) then
      FloorIsCell(c.x, c.x as real + 0.5);
      FloorIsCell(c.y, c.y as real + 0.5);
      Vec2(c.x as real + 0.5, c.y as real + 0.5)
    else
      Vec2(c.x as real + 0.5, c.y as real + 0.5)
  }

  /** `to_map_units`: the top-left corner of a cell, which lies in the cell
      and lands on the cell's first pixel, `CellSize` times the cell index
      (saturated to `i32`). */
  function CellCorner(c: CellPos): (r: Vec2)
    ensures CellInI32(c) ==> ToCellPos(r) == c
    ensures ToPixels(r) == CellPos(SatI32(CellSize * c.x), SatI32(CellSize * c.y))
  {
    FloorOfInteger(c.x);
    FloorOfInteger(c.y);
    FloorOfInteger(CellSize * c.x);
    FloorOfInteger(CellSize * c.y);
    Vec2(c.x as real, c.y as real)
  }

  /** `to_pixel_units`: the pixel holding a map position, which is the cell
      of the position scaled by `CellSize`. */
  function ToPixels(p: Vec2): (r: CellPos)
    ensures r == ToCellPos(Scale(p, CellSize as real))
    ensures InI32((p.x * CellSize as real).Floor) ==> r.x as real <= p.x * CellSize as real < r.x as real + 1.0
  {
    CellPos(FloorI32(p.x * CellSize as real), FloorI32(p.y * CellSize as real))
  }

  predicate CellInI32(c: CellPos) {
    InI32(c.x) && InI32(c.y)
  }

  /** Within `i32` range a cell's corner and centre lie in the cell itself, a
      position lies in a cell away from the `i32` bounds exactly when that is its
      cell, and positions beyond the bounds collapse onto the boundary cells. */
  lemma CellRoundTrip(c: CellPos, p: Vec2)
    requires CellInI32(c)
    ensures ToCellPos(CellCenter(c)) == c && ToCellPos(CellCorner(c)) == c
    ensures I32Min < c.x < I32Max && I32Min < c.y < I32Max ==>
      ((c.x as real <= p.x < c.x as real + 1.0 && c.y as real <= p.y < c.y as real + 1.0) <==> ToCellPos(p) == c)
    ensures p.x < I32Min as real ==> ToCellPos(p).x == I32Min
    ensures ToPixels(CellCorner(c)) == CellPos(SatI32(CellSize * c.x), SatI32(CellSize * c.y))
  {
    FloorIsCell(c.x, c.x as real + 0.5);
    FloorIsCell(c.y, c.y as real + 0.5);
    FloorIsCell(c.x, c.x as real);
    FloorIsCell(c.y, c.y as real);
    FloorIsCell(c.x, p.x);
    FloorIsCell(c.y, p.y);
    FloorOfInteger(CellSize * c.x);
    FloorOfInteger(CellSize * c.y);
  }

  lemma FloorOfInteger(n: int)
    ensures (n as real).Floor == n
  {
  }

  lemma FloorIsCell(n: int, x: real)
    requires InI32(n)
    ensures n as real <= x < n as real + 1.0 ==> FloorI32(x) == n
    ensures I32Min < n < I32Max && FloorI32(x) == n ==> n as real <= x < n as real + 1.0
  {
  }
}

=== FILE: grid.dfy ===
/** The cell grids of the engine: the `Array2D` tilemap of the first world
    model (src/world.rs, src/tilemap.rs), the LDtk-backed map of src/map.rs
    with its tile layers and collision shapes, and the movement of a walking
    entity against both (src/entity.rs). Casts between integer widths are
    written out: `as i32` from a wider integer keeps the low 32 bits, and
    `i32` arithmetic that overflows panics, as in a debug build. */
module Grid {
  import opened Wrappers
  import opened Geometry
  import Components

  const U32Modulus: int := 0x1_0000_0000

  /** `as i32` from a wider integer: the low 32 bits read as two's complement. */
  function WrapI32(n: int): (r: int)
    ensures InI32(r)
    ensures InI32(n) ==> r == n
    ensures n >= I32Min ==> r <= n
  {
    (n - I32Min) % U32Modulus + I32Min
  }

  /** `as u32` from a wider integer: the low 32 bits. */
  function WrapU32(n: int): (r: nat)
    ensures r < U32Modulus
    ensures 0 <= n < U32Modulus ==> r == n
  {
    n % U32Modulus
  }

  /** Rust's integer `/`, which rounds towards zero. */
  function TruncDiv(a: int, b: int): int
    requires b > 0
  {
    if a >= 0 then a / b else -((-a) / b)
  }

  /** An `i32` result in a debug build: the value, or the overflow panic. */
  function CheckedI32(n: int, op: string): (r: Result<int, string>)
    ensures r.Ok? <==> InI32(n)
    ensures r.Ok? ==> r.value == n
  {
    if InI32(n) then Ok(n) else Err("attempt to " + op + " with overflow")
  }

  lemma MulLe(a: int, b: int, c: nat)
    requires a <= b
    ensures a * c <= b * c
  {
  }

  // ---------------------------------------------------------------------
  // The tilemap of the first world model
  // ---------------------------------------------------------------------

  /** `Cell`: up to two tile ids and whether the cell can be walked on. */
  datatype Cell = Cell(tile1: Option<nat>, tile2: Option<nat>, passable: bool)

  /** `Array2D<Cell>`: `rows` rows of `cols` cells each, stored row after row. */
  datatype Tilemap = Tilemap(rows: nat, cols: nat, cells: seq<Cell>)

  predicate WellFormed(t: Tilemap) {
    |t.cells| == t.rows * t.cols
  }

  /** The storage position of row `y`, column `x` lies inside the storage,
      and the row and column can be read back from it. */
  lemma RowMajor(x: int, y: int, cols: nat, rows: nat)
    requires 0 <= x < cols && 0 <= y < rows
    ensures 0 <= y * cols + x < rows * cols
    ensures (y * cols + x) / cols == y && (y * cols + x) % cols == x
  {
    MulLe(y + 1, rows, cols);
    assert (y + 1) * cols == y * cols + cols;
    var i := y * cols + x;
    var q, m := i / cols, i % cols;
    assert i == q * cols + m && 0 <= m < cols;
    assert (q + 1) * cols == q * cols + cols;
    MulLtCancel(q, y + 1, cols);
    MulLtCancel(y, q + 1, cols);
  }

  lemma MulLtCancel(a: int, b: int, c: nat)
    ensures a * c < b * c ==> a < b
  {
    if a >= b {
      MulLe(b, a, c);
    }
  }

  /** `get_cell_at_cellpos` of src/world.rs and src/tilemap.rs: the cell at
      row `y`, column `x` when both lie inside the grid, whose dimensions are
      cast to `i32` for the comparison. */
  function GetCellAt(t: Tilemap, c: CellPos): (r: Option<Cell>)
    requires WellFormed(t)
    ensures r.Some? ==> 0 <= c.x < t.cols && 0 <= c.y < t.rows
    ensures t.cols <= I32Max && t.rows <= I32Max ==>
      (r.Some? <==> 0 <= c.x < t.cols && 0 <= c.y < t.rows)
  {
    if 0 <= c.x < WrapI32(t.cols) && 0 <= c.y < WrapI32(t.rows) then
      RowMajor(c.x, c.y, t.cols, t.rows);
      Some(t.cells[c.y * t.cols + c.x])
    else None
  }

  /** An in-bounds lookup reads the row-`y`, column-`x` entry of the grid,
      and different cells are read from different places in the storage. */
  lemma GetCellReadsOwnCell(t: Tilemap, a: CellPos, b: CellPos)
    requires WellFormed(t)
    requires GetCellAt(t, a).Some?
    ensures 0 <= a.y * t.cols + a.x < |t.cells|
    ensures GetCellAt(t, a).value == t.cells[a.y * t.cols + a.x]
    ensures GetCellAt(t, b).Some? && a != b ==> a.y * t.cols + a.x != b.y * t.cols + b.x
  {
    RowMajor(a.x, a.y, t.cols, t.rows);
    if GetCellAt(t, b).Some? {
      RowMajor(b.x, b.y, t.cols, t.rows);
    }
  }

  // ---------------------------------------------------------------------
  // The LDtk map
  // ---------------------------------------------------------------------

  /** The fields of an LDtk tile instance the map reads: its pixel position
      and its tile id. */
  datatype TileInstance = TileInstance(px: seq<int>, t: int)

  /** The fields of an LDtk layer instance the map reads. */
  datatype LayerInstance = LayerInstance(
    identifier: string,
    gridTiles: seq<TileInstance>,
    autoLayerTiles: seq<TileInstance>,
    tilesetRelPath: Option<string>,
    pxTotalOffsetX: int,
    pxTotalOffsetY: int,
    intGridCsv: seq<int>)

  /** The fields of an LDtk level the map reads. */
  datatype Level = Level(pxWid: int, pxHei: int, layerInstances: Option<seq<LayerInstance>>)

  /** `TileLayer`: one slot per cell, row after row; offsets are in cells. */
  datatype TileLayer = TileLayer(name: string, tilesetPath: string, tileIds: seq<Option<nat>>, xOffset: real, yOffset: real)

  /** `CellCollisionShape`. */
  datatype Shape = FullBox | LowerHalf | UpperHalf

  datatype Map = Map(width: int, height: int, tileLayers: seq<TileLayer>, collisions: seq<Option<Shape>>)

  /** `width_in_cells` / `height_in_cells`: a pixel length over the cell
      size, cast to `i32`. */
  function CellsOf(px: int): (r: int)
    ensures InI32(r)
    ensures 0 <= px < CellSize * (I32Max + 1) ==> r * CellSize <= px < (r + 1) * CellSize
  {
    WrapI32(TruncDiv(px, CellSize))
  }

  /** A layer with neither grid nor auto-layer tiles draws nothing and is skipped. */
  predicate Drawless(l: LayerInstance) {
    l.gridTiles == [] && l.autoLayerTiles == []
  }

  /** Where a tile lands in a layer of `n` slots: `px[0]/16 + (px[1]/16) * width`
      in `i32`, which must fall inside the layer. Indexing `px`, the `i32`
      arithmetic and the final `unwrap` can each panic. */
  function Slot(tile: TileInstance, width: int, n: nat): (r: Result<nat, string>)
    ensures r.Ok? ==> r.value < n && |tile.px| >= 2
  {
    if |tile.px| < 2 then Err("index out of bounds")
    else
      var col := WrapI32(TruncDiv(tile.px[0], CellSize));
      var row := WrapI32(TruncDiv(tile.px[1], CellSize));
      var rowStart :- CheckedI32(row * width, "multiply");
      var index :- CheckedI32(col + rowStart, "add");
      if 0 <= index < n then Ok(index as nat) else Err("called `Option::unwrap()` on a `None` value")
  }

  /** A tile whose pixel position lies in cell (`x`, `y`) of a map `width`
      cells wide lands in slot `y * width + x`. */
  lemma SlotOfCell(x: nat, y: nat, dx: nat, dy: nat, t: int, width: int, n: nat)
    requires dx < CellSize && dy < CellSize && x < width
    requires InI32(CellSize * x + dx) && InI32(CellSize * y + dy) && y * width + x < n <= I32Max
    ensures Slot(TileInstance([CellSize * x + dx, CellSize * y + dy], t), width, n) == Ok(y * width + x)
  {
    var px := [CellSize * x + dx, CellSize * y + dy];
    assert px[0] / CellSize == x && px[1] / CellSize == y;
    assert TruncDiv(px[0], CellSize) == x && TruncDiv(px[1], CellSize) == y;
    MulLe(0, x, width);
    assert InI32(y * width) by {
      MulLe(0, y, width);
    }
  }

  /** The id that the tiles write at slot `i` of a layer of `n` slots: that
      of the last tile landing there, if any. */
  function LastAt(tiles: seq<TileInstance>, width: int, n: nat, i: nat): Option<nat>
    decreases |tiles|
  {
    if tiles == [] then None
    else if Slot(tiles[|tiles| - 1], width, n) == Ok(i) then Some(WrapU32(tiles[|tiles| - 1].t))
    else LastAt(tiles[..|tiles| - 1], width, n, i)
  }

  /** The write loop of `Map::new` over one layer's tiles, in order: each
      tile's id, cast to `u32`, is stored in its slot; the first tile without
      a slot panics. */
  function Place(ids: seq<Option<nat>>, tiles: seq<TileInstance>, width: int): (r: Result<seq<Option<nat>>, string>)
    ensures r.Ok? <==> forall k :: 0 <= k < |tiles| ==> Slot(tiles[k], width, |ids|).Ok?
    ensures r.Ok? ==> |r.value| == |ids|
    ensures r.Ok? ==> forall i :: 0 <= i < |ids| ==>
      r.value[i] == (if LastAt(tiles, width, |ids|, i).Some? then LastAt(tiles, width, |ids|, i) else ids[i])
    decreases |tiles|
  {
    if tiles == [] then Ok(ids)
    else
      var init := tiles[..|tiles| - 1];
      var last := tiles[|tiles| - 1];
      assert forall k :: 0 <= k < |init| ==> init[k] == tiles[k];
      match Place(ids, init, width)
      case Err(e) => Err(e)
      case Ok(placed) =>
        match Slot(last, width, |ids|)
        case Err(e) => Err(e)
        case Ok(i) => Ok(placed[i := Some(WrapU32(last.t))])
  }

  /** Later tiles win: a slot written by an auto-layer tile shows the last
      such tile whatever the grid tiles wrote there, and a slot no
      auto-layer tile reaches shows the last grid tile. */
  lemma {:induction false} AutoTilesWin(grid: seq<TileInstance>, auto: seq<TileInstance>, width: int, n: nat, i: nat)
    ensures LastAt(auto, width, n, i).Some? ==> LastAt(grid + auto, width, n, i) == LastAt(auto, width, n, i)
    ensures LastAt(auto, width, n, i).None? ==> LastAt(grid + auto, width, n, i) == LastAt(grid, width, n, i)
    decreases |auto|
  {
    if auto == [] {
      assert grid + auto == grid;
    } else {
      var all := grid + auto;
      assert all[|all| - 1] == auto[|auto| - 1];
      assert all[..|all| - 1] == grid + auto[..|auto| - 1];
      AutoTilesWin(grid, auto[..|auto| - 1], width, n, i);
    }
  }

  /** One kept layer: one empty slot per cell, the grid tiles and then the
      auto-layer tiles placed, the tileset path unwrapped, and the pixel
      offsets turned into cells. */
  function BuildLayer(l: LayerInstance, width: int, height: int): (r: Result<TileLayer, string>)
    ensures r.Ok? ==> r.value.name == l.identifier && l.tilesetRelPath == Some(r.value.tilesetPath)
    ensures r.Ok? ==> |r.value.tileIds| == width * height
    ensures r.Ok? ==> forall i :: 0 <= i < |r.value.tileIds| ==>
      r.value.tileIds[i] == LastAt(l.gridTiles + l.autoLayerTiles, width, width * height, i)
    ensures r.Ok? ==> (r.value.xOffset * CellSize as real == l.pxTotalOffsetX as real
                       && r.value.yOffset * CellSize as real == l.pxTotalOffsetY as real)
  {
    var cells :- CheckedI32(width * height, "multiply");
    if cells < 0 then Err("capacity overflow")
    else
      var empty: seq<Option<nat>> := seq(cells, _ => None);
      var ids :- Place(empty, l.gridTiles + l.autoLayerTiles, width);
      if l.tilesetRelPath.None? then Err("called `Option::unwrap()` on a `None` value")
      else Ok(TileLayer(l.identifier, l.tilesetRelPath.value, ids,
                        l.pxTotalOffsetX as real / CellSize as real, l.pxTotalOffsetY as real / CellSize as real))
  }

  /** Two results in sequence: the first error, or both lists joined. */
  function Join(a: Result<seq<TileLayer>, string>, b: Result<seq<TileLayer>, string>): Result<seq<TileLayer>, string> {
    if a.Err? then a else if b.Err? then b else Ok(a.value + b.value)
  }

  lemma JoinAssociative(a: Result<seq<TileLayer>, string>, b: Result<seq<TileLayer>, string>, c: Result<seq<TileLayer>, string>)
    ensures Join(Join(a, b), c) == Join(a, Join(b, c))
  {
    if a.Ok? && b.Ok? && c.Ok? {
      assert (a.value + b.value) + c.value == a.value + (b.value + c.value);
    }
  }

  /** The layer loop of `Map::new`: the layers from last to first, skipping
      drawless ones; the first layer to panic ends the construction. */
  function BuildLayers(ls: seq<LayerInstance>, width: int, height: int): (r: Result<seq<TileLayer>, string>)
    ensures r.Ok? ==> |r.value| <= |ls|
    ensures (forall k :: 0 <= k < |ls| ==> Drawless(ls[k])) ==> r == Ok([])
    decreases |ls|
  {
    if ls == [] then Ok([])
    else
      var init := ls[..|ls| - 1];
      var last := ls[|ls| - 1];
      assert forall k :: 0 <= k < |init| ==> init[k] == ls[k];
      LayerStep(last, BuildLayers(init, width, height), width, height)
  }

  /** One turn of the layer loop: a drawless layer adds nothing, a panic ends
      the loop, and a built layer goes in front of those built before it. */
  function LayerStep(l: LayerInstance, built: Result<seq<TileLayer>, string>, width: int, height: int): Result<seq<TileLayer>, string> {
    if Drawless(l) then built
    else match BuildLayer(l, width, height)
      case Err(e) => Err(e)
      case Ok(t) => Join(Ok([t]), built)
  }

  /** A turn of the loop commutes with appending what later turns build. */
  lemma LayerStepJoin(l: LayerInstance, x: Result<seq<TileLayer>, string>, y: Result<seq<TileLayer>, string>, width: int, height: int)
    ensures LayerStep(l, Join(x, y), width, height) == Join(LayerStep(l, x, width, height), y)
  {
    if !Drawless(l) && BuildLayer(l, width, height).Ok? {
      JoinAssociative(Ok([BuildLayer(l, width, height).value]), x, y);
    }
  }

  /** A single layer gives its built layer unless it is drawless. */
  lemma BuildOneLayer(l: LayerInstance, width: int, height: int)
    ensures Drawless(l) ==> BuildLayers([l], width, height) == Ok([])
    ensures !Drawless(l) && BuildLayer(l, width, height).Err? ==> BuildLayers([l], width, height) == Err(BuildLayer(l, width, height).error)
    ensures !Drawless(l) && BuildLayer(l, width, height).Ok? ==> BuildLayers([l], width, height) == Ok([BuildLayer(l, width, height).value])
  {
    assert [l][..0] == [];
    assert BuildLayers([], width, height) == Ok([]);
    if !Drawless(l) && BuildLayer(l, width, height).Ok? {
      assert [BuildLayer(l, width, height).value] + [] == [BuildLayer(l, width, height).value];
    }
  }

  /** The layers come out in reverse: building `a + b` builds `b` first and
      then `a`, and the first panic met in that order is the one raised. */
  lemma {:induction false} BuildLayersReversed(a: seq<LayerInstance>, b: seq<LayerInstance>, width: int, height: int)
    ensures BuildLayers(a + b, width, height) == Join(BuildLayers(b, width, height), BuildLayers(a, width, height))
    decreases |b|
  {
    if b == [] {
      assert a + b == a;
      var ra := BuildLayers(a, width, height);
      if ra.Ok? {
        assert [] + ra.value == ra.value;
      }
    } else {
      var initB := b[..|b| - 1];
      var last := b[|b| - 1];
      assert b == initB + [last];
      assert a + b == (a + initB) + [last];
      BuildLayersReversed(a, initB, width, height);
      BuildLayersSnoc(a + initB, last, width, height);
      BuildLayersSnoc(initB, last, width, height);
      LayerStepJoin(last, BuildLayers(initB, width, height), BuildLayers(a, width, height), width, height);
    }
  }

  /** The loop's last turn handles the last layer. */
  lemma BuildLayersSnoc(init: seq<LayerInstance>, last: LayerInstance, width: int, height: int)
    ensures BuildLayers(init + [last], width, height) == LayerStep(last, BuildLayers(init, width, height), width, height)
  {
    var ls := init + [last];
    assert ls[..|ls| - 1] == init;
  }

  /** The first layer with the given identifier, if any. */
  function FindLayer(ls: seq<LayerInstance>, name: string): (r: Option<nat>)
    ensures r.Some? ==> r.value < |ls| && ls[r.value].identifier == name
                        && forall k :: 0 <= k < r.value ==> ls[k].identifier != name
    ensures r.None? <==> forall k :: 0 <= k < |ls| ==> ls[k].identifier != name
    decreases |ls|
  {
    if ls == [] then None
    else if ls[0].identifier == name then Some(0)
    else
      assert forall k :: 0 <= k < |ls[1..]| ==> ls[1..][k] == ls[k + 1];
      match FindLayer(ls[1..], name)
      case None => None
      case Some(k) => Some(k + 1)
  }

  /** The collision shape an integer-grid value stands for. */
  function ShapeOf(v: int): Option<Shape> {
    if v == 1 then Some(FullBox)
    else if v == 2 then Some(LowerHalf)
    else if v == 3 then Some(UpperHalf)
    else None
  }

  /** The integer-grid value an LDtk collision layer uses for each shape. */
  function ShapeCode(s: Shape): int {
    match s
    case FullBox => 1
    case LowerHalf => 2
    case UpperHalf => 3
  }

  /** The value of every shape reads back as that shape; exactly 1, 2 and 3
      read as a shape, and each as the shape whose value it is. */
  lemma ShapeCodesRoundTrip(v: int, s: Shape)
    ensures ShapeOf(ShapeCode(s)) == Some(s)
    ensures ShapeOf(v).Some? <==> 1 <= v <= 3
    ensures ShapeOf(v).Some? ==> ShapeCode(ShapeOf(v).value) == v
  {
  }

  /** The collision grid: one entry per integer-grid value. */
  function CollisionShapes(csv: seq<int>): (r: seq<Option<Shape>>)
    ensures |r| == |csv|
    ensures forall i :: 0 <= i < |r| ==> (r[i].Some? <==> 1 <= csv[i] <= 3)
    ensures forall i :: 0 <= i < |r| ==> r[i].Some? ==> ShapeCode(r[i].value) == csv[i]
  {
    seq(|csv|, i requires 0 <= i < |csv| => ShapeOf(csv[i]))
  }

  /** `Map::new`: the level must list its layers and must have a layer
      named `Collision`; every `unwrap` on the way is a panic. */
  function NewMap(level: Level): (r: Result<Map, string>)
    ensures r.Ok? <==> (level.layerInstances.Some?
      && BuildLayers(level.layerInstances.value, CellsOf(level.pxWid), CellsOf(level.pxHei)).Ok?
      && FindLayer(level.layerInstances.value, "Collision").Some?)
    ensures r.Ok? ==> r.value.width == CellsOf(level.pxWid) && r.value.height == CellsOf(level.pxHei)
    ensures r.Ok? ==> r.value.tileLayers == BuildLayers(level.layerInstances.value, r.value.width, r.value.height).value
    ensures r.Ok? ==>
      var ls := level.layerInstances.value;
      var csv := ls[FindLayer(ls, "Collision").value].intGridCsv;
      |r.value.collisions| == |csv|
      && forall i :: 0 <= i < |csv| ==> (r.value.collisions[i].Some? <==> 1 <= csv[i] <= 3)
  {
    var width := CellsOf(level.pxWid);
    var height := CellsOf(level.pxHei);
    if level.layerInstances.None? then Err("called `Option::unwrap()` on a `None` value")
    else
      var ls := level.layerInstances.value;
      var layers :- BuildLayers(ls, width, height);
      match FindLayer(ls, "Collision")
      case None => Err("called `Option::unwrap()` on a `None` value")
      case Some(k) => Ok(Map(width, height, layers, CollisionShapes(ls[k].intGridCsv)))
  }

  /** The box a collision shape occupies in cell `c`. */
  function ShapeBox(s: Shape, c: CellPos): (r: Aabb)
    ensures r.left == c.x as real && r.right == c.x as real + 1.0
    ensures c.y as real <= r.top < r.bottom <= c.y as real + 1.0
    ensures s == FullBox <==> r.bottom - r.top == 1.0
    ensures s == LowerHalf <==> r.top == c.y as real + 0.5
    ensures s == UpperHalf <==> r.bottom == c.y as real + 0.5
  {
    var y := c.y as real;
    match s
    case FullBox => Aabb(y, y + 1.0, c.x as real, c.x as real + 1.0)
    case LowerHalf => Aabb(y + 0.5, y + 1.0, c.x as real, c.x as real + 1.0)
    case UpperHalf => Aabb(y, y + 0.5, c.x as real, c.x as real + 1.0)
  }

  /** The two half boxes of a cell touch without overlapping, and together
      they span the full box. */
  lemma HalvesSplitTheCell(c: CellPos)
    ensures !Intersects(ShapeBox(LowerHalf, c), ShapeBox(UpperHalf, c))
    ensures ShapeBox(UpperHalf, c).bottom == ShapeBox(LowerHalf, c).top
    ensures ShapeBox(UpperHalf, c).top == ShapeBox(FullBox, c).top
    ensures ShapeBox(LowerHalf, c).bottom == ShapeBox(FullBox, c).bottom
  {
  }

  function BoxOf(o: Option<Shape>, c: CellPos): Option<Aabb> {
    match o
    case None => None
    case Some(s) => Some(ShapeBox(s, c))
  }

  /** `get_cell_collision_aabb` as written: the entry at `y * width + x` in
      `i32`, with no check that `x` lies inside a row; an index outside the
      grid (a negative one becomes huge as `usize`) gives no box. */
  function CollisionBoxAsWritten(m: Map, c: CellPos): (r: Result<Option<Aabb>, string>)
    ensures r.Ok? <==> InI32(c.y * m.width) && InI32(c.y * m.width + c.x)
    ensures r.Ok? && r.value.Some? ==>
      0 <= c.y * m.width + c.x < |m.collisions| && m.collisions[c.y * m.width + c.x].Some?
  {
    var rowStart :- CheckedI32(c.y * m.width, "multiply");
    var index :- CheckedI32(rowStart + c.x, "add");
    if 0 <= index < |m.collisions| then Ok(BoxOf(m.collisions[index], c)) else Ok(None)
  }

  /** `get_cell_collision_aabb` with the column and row checks of
      `get_cell_at_cellpos`: only a cell of the map has a box. */
  function CollisionBox(m: Map, c: CellPos): (r: Option<Aabb>)
    ensures r.Some? <==> 0 <= c.x < m.width && 0 <= c.y < m.height
                         && c.y * m.width + c.x < |m.collisions| && m.collisions[c.y * m.width + c.x].Some?
    ensures r.Some? ==> r.value == ShapeBox(m.collisions[c.y * m.width + c.x].value, c)
  {
    if 0 <= c.x < m.width && 0 <= c.y < m.height && c.y * m.width + c.x < |m.collisions| then
      MulLe(0, c.y, m.width);
      BoxOf(m.collisions[c.y * m.width + c.x], c)
    else None
  }

  /** Inside the map the code as written and the checked lookup agree. */
  lemma CollisionBoxAgreesInside(m: Map, c: CellPos)
    requires 0 <= c.x < m.width && 0 <= c.y < m.height && |m.collisions| <= I32Max
    ensures c.y * m.width + c.x < |m.collisions| ==> CollisionBoxAsWritten(m, c) == Ok(CollisionBox(m, c))
  {
    MulLe(0, c.y, m.width);
  }

  /** The missing column check: the cell just past the right edge of row
      `y` reads the collision of the first cell of row `y + 1`, so a shape
      there is reported in a cell that is not on the map at all. */
  lemma ColumnOverflowReadsNextRow(m: Map, y: int)
    requires 0 < m.width && 0 <= y && (y + 1) * m.width < |m.collisions| <= I32Max
    ensures CollisionBoxAsWritten(m, CellPos(m.width, y)) == Ok(BoxOf(m.collisions[(y + 1) * m.width], CellPos(m.width, y)))
    ensures CollisionBox(m, CellPos(m.width, y)) == None
  {
    assert (y + 1) * m.width == y * m.width + m.width;
    MulLe(0, y, m.width);
  }

  /** A map one cell wide and two high whose lower cell is solid: cell
      (1, 0), right of the map, gets a full box. */
  lemma NextRowCounterexample()
    ensures CollisionBoxAsWritten(Map(1, 2, [], [None, Some(FullBox)]), CellPos(1, 0))
            == Ok(Some(Aabb(0.0, 1.0, 1.0, 2.0)))
    ensures CollisionBox(Map(1, 2, [], [None, Some(FullBox)]), CellPos(1, 0)) == None
  {
  }

  // ---------------------------------------------------------------------
  // Entities walking on the tilemap
  // ---------------------------------------------------------------------

  /** `standing_cell`: the cell containing the position. */
  function StandingCell(p: Vec2): (r: CellPos)
    ensures InI32(p.x.Floor) && InI32(p.y.Floor) ==>
      r.x as real <= p.x < r.x as real + 1.0 && r.y as real <= p.y < r.y as real + 1.0
  {
    ToCellPos(p)
  }

  /** The next cell in a direction. */
  function Neighbour(c: CellPos, d: Direction): CellPos {
    match d
    case Up => CellPos(c.x, c.y - 1)
    case Down => CellPos(c.x, c.y + 1)
    case Left => CellPos(c.x - 1, c.y)
    case Right => CellPos(c.x + 1, c.y)
  }

  /** How far reaching lands in the next cell: within 0.6 of the edge the
      entity faces. */
  predicate NearEdge(p: Vec2, d: Direction) {
    match d
    case Up => p.y - p.y.Floor as real < 0.6
    case Down => p.y - p.y.Floor as real >= 0.4
    case Left => p.x - p.x.Floor as real < 0.6
    case Right => p.x - p.x.Floor as real >= 0.4
  }

  /** `facing_cell`: the cell 0.6 ahead of the position. Away from the
      `i32` bounds it is the next cell in the facing direction when the
      entity stands within 0.6 of that edge, and its own cell otherwise. */
  function FacingCell(p: Vec2, d: Direction): (r: CellPos)
    ensures CellInI32(r)
    ensures I32Min < p.x.Floor < I32Max && I32Min < p.y.Floor < I32Max ==>
      r == (if NearEdge(p, d) then Neighbour(StandingCell(p), d) else StandingCell(p))
  {
    ReachAhead(p, d);
    ToCellPos(Add(p, Step(d, 0.6)))
  }

  /** Reaching 0.6 ahead crosses into the next cell exactly near the edge. */
  lemma ReachAhead(p: Vec2, d: Direction)
    ensures I32Min < p.x.Floor < I32Max && I32Min < p.y.Floor < I32Max ==>
      ToCellPos(Add(p, Step(d, 0.6))) == (if NearEdge(p, d) then Neighbour(StandingCell(p), d) else StandingCell(p))
  {
    if I32Min < p.x.Floor < I32Max && I32Min < p.y.Floor < I32Max {
      var q := Add(p, Step(d, 0.6));
      var nx, ny := p.x.Floor, p.y.Floor;
      match d
      case Up =>
        if NearEdge(p, d) { FloorIsCell(ny - 1, q.y); } else { FloorIsCell(ny, q.y); }
      case Down =>
        if NearEdge(p, d) { FloorIsCell(ny + 1, q.y); } else { FloorIsCell(ny, q.y); }
      case Left =>
        if NearEdge(p, d) { FloorIsCell(nx - 1, q.x); } else { FloorIsCell(nx, q.x); }
      case Right =>
        if NearEdge(p, d) { FloorIsCell(nx + 1, q.x); } else { FloorIsCell(nx, q.x); }
    }
  }

  /** The nine cells around `c`, row by row. */
  function Neighbourhood(c: CellPos): (r: seq<CellPos>)
    ensures |r| == 9
    ensures forall q :: q in r <==> -1 <= q.x - c.x <= 1 && -1 <= q.y - c.y <= 1
  {
    [CellPos(c.x - 1, c.y - 1), CellPos(c.x, c.y - 1), CellPos(c.x + 1, c.y - 1),
     CellPos(c.x - 1, c.y), CellPos(c.x, c.y), CellPos(c.x + 1, c.y),
     CellPos(c.x - 1, c.y + 1), CellPos(c.x, c.y + 1), CellPos(c.x + 1, c.y + 1)]
  }

  /** The cell list of `walk_and_resolve_collisions`, built with `i32`
      arithmetic: `c.x - 1`, `c.y - 1`, `c.x + 1` and `c.y + 1` are first
      computed in that order, and the first that leaves the `i32` range
      panics. */
  function NineCells(c: CellPos): (r: Result<seq<CellPos>, string>)
    ensures r.Ok? <==> InI32(c.x - 1) && InI32(c.y - 1) && InI32(c.x + 1) && InI32(c.y + 1)
    ensures r.Err? ==> r.error == (if InI32(c.x - 1) && InI32(c.y - 1) then "attempt to add with overflow" else "attempt to subtract with overflow")
    ensures r.Ok? ==> |r.value| == 9
    ensures r.Ok? ==> forall q :: q in r.value <==> -1 <= q.x - c.x <= 1 && -1 <= q.y - c.y <= 1
  {
    var _ :- CheckedI32(c.x - 1, "subtract");
    var _ :- CheckedI32(c.y - 1, "subtract");
    var _ :- CheckedI32(c.x + 1, "add");
    var _ :- CheckedI32(c.y + 1, "add");
    Ok(Neighbourhood(c))
  }

  /** A cell of the tilemap that cannot be walked on. */
  predicate Blocked(t: Tilemap, c: CellPos)
    requires WellFormed(t)
  {
    GetCellAt(t, c).Some? && !GetCellAt(t, c).value.passable
  }

  /** The cell loop of `walk_and_resolve_collisions`: the box is pushed out
      of the unit box of every blocked cell, in order. */
  function ResolveCells(box: Aabb, before: Aabb, cells: seq<CellPos>, t: Tilemap): (r: Aabb)
    requires WellFormed(t)
    ensures r.bottom - r.top == box.bottom - box.top && r.right - r.left == box.right - box.left
    ensures (forall k :: 0 <= k < |cells| ==> !Blocked(t, cells[k])) ==> r == box
    decreases |cells|
  {
    if cells == [] then box
    else
      var box' := if Blocked(t, cells[0]) then ResolveAgainstPrevious(box, before, BoxAround(CellCenter(cells[0]), Vec2(1.0, 1.0))) else box;
      ResolveCells(box', before, cells[1..], t)
  }

  /** An entity of the first world model as a walker sees it. */
  datatype Body = Body(id: string, position: Option<Vec2>, collision: Option<Components.Collision>)

  /** Another entity the walker is pushed out of: not itself, placed, and solid. */
  predicate Stops(b: Body, self: string) {
    b.id != self && b.position.Some? && b.collision.Some? && b.collision.value.solid
  }

  /** The entity loop of `walk_and_resolve_collisions`. */
  function ResolveBodies(box: Aabb, before: Aabb, self: string, bodies: seq<Body>): (r: Aabb)
    ensures r.bottom - r.top == box.bottom - box.top && r.right - r.left == box.right - box.left
    ensures (forall k :: 0 <= k < |bodies| ==> !Stops(bodies[k], self)) ==> r == box
    decreases |bodies|
  {
    if bodies == [] then box
    else
      var b := bodies[0];
      var box' := if Stops(b, self) then ResolveAgainstPrevious(box, before, BoxAround(b.position.value, b.collision.value.hitbox)) else box;
      ResolveBodies(box', before, self, bodies[1..])
  }

  /** The entities that stop the walker, in order. */
  function Stoppers(bodies: seq<Body>, self: string): (r: seq<Body>)
    ensures forall b :: b in r <==> b in bodies && Stops(b, self)
    decreases |bodies|
  {
    if bodies == [] then []
    else (if Stops(bodies[0], self) then [bodies[0]] else []) + Stoppers(bodies[1..], self)
  }

  /** Entities that do not stop the walker, the walker among them, play no
      part in the resolution. */
  lemma {:induction false} OnlyStoppersCount(box: Aabb, before: Aabb, self: string, bodies: seq<Body>)
    ensures ResolveBodies(box, before, self, bodies) == ResolveBodies(box, before, self, Stoppers(bodies, self))
    decreases |bodies|
  {
    if bodies != [] {
      var b := bodies[0];
      var box' := if Stops(b, self) then ResolveAgainstPrevious(box, before, BoxAround(b.position.value, b.collision.value.hitbox)) else box;
      OnlyStoppersCount(box', before, self, bodies[1..]);
      var rest := Stoppers(bodies[1..], self);
      if Stops(b, self) {
        var s := [b] + rest;
        assert s[0] == b && s[1..] == rest;
      } else {
        assert Stoppers(bodies, self) == [] + rest;
        assert [] + rest == rest;
      }
    }
  }

  /** `walk_and_resolve_collisions`: the tentative position one `speed`
      ahead, its box pushed out of the blocked cells among the nine around
      it and then out of every other solid entity, each time against the
      box before the move; the new position is the centre of the result.
      Listing the nine cells panics when the tentative cell lies on the
      edge of the `i32` range. */
  function WalkAndResolve(self: string, pos: Vec2, w: Components.Walking, c: Components.Collision, t: Tilemap, bodies: seq<Body>): (r: Result<Vec2, string>)
    requires WellFormed(t)
    ensures r.Err? <==> NineCells(ToCellPos(Add(pos, Step(w.direction, w.speed)))).Err?
    ensures r.Err? ==> r.error == NineCells(ToCellPos(Add(pos, Step(w.direction, w.speed)))).error
  {
    var tentative := Add(pos, Step(w.direction, w.speed));
    var before := BoxAround(pos, c.hitbox);
    var cells :- NineCells(ToCellPos(tentative));
    var afterCells := ResolveCells(BoxAround(tentative, c.hitbox), before, cells, t);
    Ok(Center(ResolveBodies(afterCells, before, self, bodies)))
  }

  /** With nothing in the way the walker moves `speed` along its direction
      and nowhere else. */
  lemma FreeWalk(self: string, pos: Vec2, w: Components.Walking, c: Components.Collision, t: Tilemap, bodies: seq<Body>)
    requires WellFormed(t)
    requires var cells := NineCells(ToCellPos(Add(pos, Step(w.direction, w.speed))));
      cells.Ok? ==> forall q :: q in cells.value ==> !Blocked(t, q)
    requires forall k :: 0 <= k < |bodies| ==> !Stops(bodies[k], self)
    ensures var r := WalkAndResolve(self, pos, w, c, t, bodies);
      r.Ok? ==> (r.value == Add(pos, Step(w.direction, w.speed))
        && Ahead(w.direction, pos, r.value) == w.speed && Aside(w.direction, pos, r.value) == 0.0)
  {
    var tentative := Add(pos, Step(w.direction, w.speed));
    var before := BoxAround(pos, c.hitbox);
    var box := BoxAround(tentative, c.hitbox);
    var nine := NineCells(ToCellPos(tentative));
    if nine.Ok? {
      var cells := nine.value;
      forall k | 0 <= k < |cells| ensures !Blocked(t, cells[k]) {
        assert cells[k] in cells;
      }
      assert ResolveCells(box, before, cells, t) == box;
      assert ResolveBodies(box, before, self, bodies) == box;
      assert Center(box) == tentative;
      StepIsAhead(w.direction, pos, tentative, w.speed);
    }
  }

  /** The walker is resolved only against the entities that stop it: the
      walker itself, entities without a position and non-solid ones may be
      dropped from the world without changing where it ends up. */
  lemma WalkIgnoresNonStoppers(self: string, pos: Vec2, w: Components.Walking, c: Components.Collision, t: Tilemap, bodies: seq<Body>)
    requires WellFormed(t)
    ensures WalkAndResolve(self, pos, w, c, t, bodies) == WalkAndResolve(self, pos, w, c, t, Stoppers(bodies, self))
  {
    var tentative := Add(pos, Step(w.direction, w.speed));
    var before := BoxAround(pos, c.hitbox);
    var nine := NineCells(ToCellPos(tentative));
    if nine.Ok? {
      var afterCells := ResolveCells(BoxAround(tentative, c.hitbox), before, nine.value, t);
      OnlyStoppersCount(afterCells, before, self, bodies);
    }
  }
}

=== FILE: json.dfy ===
/** JSON values as the loaders see them after parsing (`serde_json::Value`),
    with the keyed lookup of an object and the decoders of the plain types
    the loaders read. An object's fields are kept in the object's iteration
    order; numbers are kept as exact reals. */
module Json {
  import opened Wrappers

  datatype Json =
    | JNull
    | JBool(b: bool)
    | JNumber(n: real)
    | JString(s: string)
    | JArray(items: seq<Json>)
    | JObject(fields: seq<(string, Json)>)

  /** Position of the first field named `key`. */
  function IndexOf(fields: seq<(string, Json)>, key: string): (r: Option<nat>)
    ensures r.Some? ==> r.value < |fields| && fields[r.value].0 == key
    ensures r.Some? ==> forall j :: 0 <= j < r.value ==> fields[j].0 != key
    ensures r.None? ==> forall j :: 0 <= j < |fields| ==> fields[j].0 != key
    decreases |fields|
  {
    if fields == [] then None
    else if fields[0].0 == key then Some(0)
    else match IndexOf(fields[1..], key)
      case None => None
      case Some(j) => Some(j + 1)
  }

  /** `Map::get`: the value stored under `key`. */
  function Lookup(fields: seq<(string, Json)>, key: string): (r: Option<Json>)
    ensures r.Some? <==> exists i :: 0 <= i < |fields| && fields[i].0 == key
    ensures r.Some? ==> (key, r.value) in fields
  {
    match IndexOf(fields, key)
    case None => None
    case Some(i) => Some(fields[i].1)
  }

  /** No key occurs twice, as in a `serde_json::Map`. */
  predicate DistinctKeys(fields: seq<(string, Json)>) {
    forall i, j :: 0 <= i < j < |fields| ==> fields[i].0 != fields[j].0
  }

  /** In an object whose keys are distinct, the value under a key is the one
      stored with it. */
  lemma LookupDistinct(fields: seq<(string, Json)>, i: nat)
    requires DistinctKeys(fields) && i < |fields|
    ensures Lookup(fields, fields[i].0) == Some(fields[i].1)
  {
    var k := IndexOf(fields, fields[i].0);
    assert k.Some?;
    assert !(k.value < i) && !(i < k.value);
  }

  /** `from_value::<String>`. */
  function AsString(j: Json): Option<string> {
    if j.JString? then Some(j.s) else None
  }

  /** `from_value::<bool>`. */
  function AsBool(j: Json): Option<bool> {
    if j.JBool? then Some(j.b) else None
  }

  /** `from_value::<f64>`: any number. */
  function AsReal(j: Json): Option<real> {
    if j.JNumber? then Some(j.n) else None
  }

  /** A whole number in the range of `u32`. */
  predicate IsU32(n: real) {
    n.Floor as real == n && 0.0 <= n < 4294967296.0
  }

  /** `from_value::<Vec<u32>>`: an array of whole numbers in range. */
  function AsU32List(j: Json): (r: Option<seq<nat>>)
    ensures r.Some? ==> j.JArray? && |r.value| == |j.items|
    ensures r.Some? ==> forall i :: 0 <= i < |r.value| ==> j.items[i] == JNumber(r.value[i] as real)
    ensures j.JArray? && (forall i :: 0 <= i < |j.items| ==> j.items[i].JNumber? && IsU32(j.items[i].n)) ==> r.Some?
  {
    if j.JArray? && forall i :: 0 <= i < |j.items| ==> j.items[i].JNumber? && IsU32(j.items[i].n) then
      Some(seq(|j.items|, i requires 0 <= i < |j.items| && j.items[i].JNumber? && IsU32(j.items[i].n) => j.items[i].n.Floor as nat))
    else None
  }
}

=== FILE: ldtk_entities.dfy ===
/** The LDtk entity loader of src/loader/ldtk_entities.rs: every entity
    instance of every level becomes an entity of the store, built from its
    position in the world and its custom fields according to its kind. An
    error while building one entity is logged under the entity's `iid` and
    loading goes on with the next; a panic ends the whole load. The LDtk
    project is reduced to the fields the loader reads; the text-to-JSON
    parser and serde's conversion of JSON into component records are
    parameters. */
module LdtkEntities {
  import opened Wrappers
  import opened Text
  import opened Json
  import opened SlotMap
  import opened Geometry
  import Grid
  import opened Components
  import opened Ecs
  import opened EntityFile

  // ---------------------------------------------------------------------
  // The project
  // ---------------------------------------------------------------------

  /** A custom field of an entity instance; LDtk writes `null` for an unset
      field. */
  datatype FieldInstance = FieldInstance(identifier: string, value: Option<Json>)

  /** The `EntityInstance` fields the loader reads: `px` is the pixel
      position in the level and `width`/`height` the size in pixels. */
  datatype EntityInstance = EntityInstance(
    identifier: string, iid: string, px: seq<int>, width: int, height: int, fields: seq<FieldInstance>)

  /** A level; `layers` is absent when levels are saved in separate files,
      and each layer is reduced to its entity instances. */
  datatype Level = Level(identifier: string, worldX: int, worldY: int, layers: Option<seq<seq<EntityInstance>>>)

  datatype World = World(identifier: string, levels: seq<Level>)

  datatype Project = Project(worlds: seq<World>)

  /** serde_json's `from_str::<Value>`: the JSON text a string holds. */
  type Parser = string -> Option<Json>

  /** What goes wrong while building one entity. serde's own messages are
      not modelled; only the field they concern is kept. */
  datatype LoadError =
    | BadField(field: string)
    | BadJson(field: string)
    | MissingField(field: string)
    | BadSourceName(name: string)
    | ComponentFailed(message: string)

  /** The text of the errors whose text the loader writes itself. */
  function Message(err: LoadError): Option<string> {
    match err
    case MissingField(f) => Some("missing required field: " + f)
    case BadSourceName(s) => Some("invalid script source name: " + s)
    case ComponentFailed(m) => Some(m)
    case _ => None
  }

  /** A logged line: a component that failed to load, or a whole entity. */
  datatype Log = ComponentLog(message: string) | EntityLog(iid: string, err: LoadError)

  /** The result of loading: the store as it stands, the lines logged, and
      the error that ended the current entity, if any; or a panic. */
  datatype EntityLoad = Loaded(ecs: Ecs, logs: seq<Log>, err: Option<LoadError>) | Panicked(reason: string)

  // ---------------------------------------------------------------------
  // Reading fields
  // ---------------------------------------------------------------------

  /** Position of the first field with the given identifier. */
  function FirstField(fields: seq<FieldInstance>, name: string): (r: Option<nat>)
    ensures r.Some? ==> r.value < |fields| && fields[r.value].identifier == name
    ensures r.Some? ==> forall j :: 0 <= j < r.value ==> fields[j].identifier != name
    ensures r.None? ==> forall j :: 0 <= j < |fields| ==> fields[j].identifier != name
    decreases |fields|
  {
    if fields == [] then None
    else if fields[0].identifier == name then Some(0)
    else match FirstField(fields[1..], name)
      case None => None
      case Some(j) => Some(j + 1)
  }

  /** The value of the first field with that identifier; a later field with
      the same identifier is never looked at, even when the first is null. */
  function FieldValue(fields: seq<FieldInstance>, name: string): (r: Option<Json>)
    ensures (forall i :: 0 <= i < |fields| ==> fields[i].identifier != name) ==> r.None?
    ensures forall i :: (0 <= i < |fields| && fields[i].identifier == name
      && (forall j :: 0 <= j < i ==> fields[j].identifier != name)) ==> r == fields[i].value
  {
    match FirstField(fields, name)
    case None => None
    case Some(i) =>
      assert forall i' :: (0 <= i' < |fields| && fields[i'].identifier == name
        && (forall j :: 0 <= j < i' ==> fields[j].identifier != name)) ==> i' == i;
      fields[i].value
  }

  /** `read_field`: nothing for an absent or null field, the deserialized
      value, or an error when it does not deserialize. */
  function ReadField<T>(ent: EntityInstance, field: string, decode: Json -> Option<T>): (r: Result<Option<T>, LoadError>)
    ensures r == Ok(None) <==> FieldValue(ent.fields, field).None?
    ensures r.Err? <==> FieldValue(ent.fields, field).Some? && decode(FieldValue(ent.fields, field).value).None?
    ensures r.Err? ==> r.error == BadField(field)
    ensures r.Ok? && r.value.Some? ==> Some(r.value.value) == decode(FieldValue(ent.fields, field).value)
  {
    match FieldValue(ent.fields, field)
    case None => Ok(None)
    case Some(v) =>
      match decode(v)
      case None => Err(BadField(field))
      case Some(x) => Ok(Some(x))
  }

  /** `read_json_field`: a string field whose text is parsed as JSON and then
      deserialized. */
  function ReadJsonField<T>(ent: EntityInstance, field: string, parse: Parser, decode: Json -> Option<T>): (r: Result<Option<T>, LoadError>)
    ensures ReadField(ent, field, AsString).Err? ==> r == Err(BadField(field))
    ensures ReadField(ent, field, AsString) == Ok(None) ==> r == Ok(None)
    ensures r.Ok? && r.value.Some? ==>
      exists s :: ReadField(ent, field, AsString) == Ok(Some(s)) && parse(s).Some? && decode(parse(s).value) == Some(r.value.value)
    ensures (exists s :: ReadField(ent, field, AsString) == Ok(Some(s)) && (parse(s).None? || decode(parse(s).value).None?)) ==>
      r == Err(BadJson(field))
  {
    match ReadField(ent, field, AsString)
    case Err(e) => Err(e)
    case Ok(None) => Ok(None)
    case Ok(Some(s)) =>
      match parse(s)
      case None => Err(BadJson(field))
      case Some(j) =>
        match decode(j)
        case None => Err(BadJson(field))
        case Some(x) => Ok(Some(x))
  }

  /** `read_field_required` and `read_json_field_required`: a missing field
      becomes an error naming it. */
  function Required<T>(read: Result<Option<T>, LoadError>, field: string): (r: Result<T, LoadError>)
    ensures read == Ok(None) ==> r == Err(MissingField(field))
    ensures r.Ok? <==> read.Ok? && read.value.Some?
    ensures r.Ok? ==> read == Ok(Some(r.value))
    ensures read.Err? ==> r == Err(read.error)
  {
    match read
    case Err(e) => Err(e)
    case Ok(None) => Err(MissingField(field))
    case Ok(Some(x)) => Ok(x)
  }

  /** `from_value::<Value>`: every JSON value deserializes. */
  function AsValue(j: Json): Option<Json> {
    Some(j)
  }

  // ---------------------------------------------------------------------
  // Position, script source, trigger, frames
  // ---------------------------------------------------------------------

  /** Whether the world has a level named `_world_map`. */
  predicate HasWorldMap(world: World) {
    exists i :: 0 <= i < |world.levels| && world.levels[i].identifier == "_world_map"
  }

  /** `add_position_component`: in a world with a `_world_map` level the
      position is on the world's map and offset by the level's place in the
      world; otherwise it is on the level's own map. A pixel position of
      fewer than two coordinates is an indexing panic. */
  function PositionOf(ent: EntityInstance, world: World, level: Level): (r: Result<Component, string>)
    ensures r.Ok? <==> |ent.px| >= 2
    ensures r.Ok? && HasWorldMap(world) ==>
      r.value == CPosition(WorldPos(world.identifier,
        Vec2((ent.px[0] + level.worldX) as real / 16.0, (ent.px[1] + level.worldY) as real / 16.0)))
    ensures r.Ok? && !HasWorldMap(world) ==>
      r.value == CPosition(WorldPos(level.identifier, Vec2(ent.px[0] as real / 16.0, ent.px[1] as real / 16.0)))
  {
    if |ent.px| < 2 then Err("index out of bounds")
    else if HasWorldMap(world) then
      Ok(CPosition(WorldPos(world.identifier,
        Vec2((ent.px[0] + level.worldX) as real / 16.0, (ent.px[1] + level.worldY) as real / 16.0))))
    else Ok(CPosition(WorldPos(level.identifier, Vec2(ent.px[0] as real / 16.0, ent.px[1] as real / 16.0))))
  }

  /** The position is the pixel position in cells: sixteen pixels to a cell,
      on either map. */
  lemma PositionInCells(ent: EntityInstance, world: World, level: Level)
    requires |ent.px| >= 2
    ensures var p := PositionOf(ent, world, level).value.position.mapPos;
      var (dx, dy) := if HasWorldMap(world) then (level.worldX, level.worldY) else (0, 0);
      p.x * 16.0 == (ent.px[0] + dx) as real && p.y * 16.0 == (ent.px[1] + dy) as real
  {
  }

  /** The script source of a simple-script entity: `external_source`
      `"file::label"` names the sub-script `label` of `data/file.lua`, and a
      source name without `::` is an error; without an external source the
      `source` field is the script text, empty when absent. */
  function ScriptSourceOf(ent: EntityInstance): (r: Result<ScriptSource, LoadError>)
    ensures ReadField(ent, "external_source", AsString).Err? ==> r == Err(BadField("external_source"))
    ensures forall s :: ReadField(ent, "external_source", AsString) == Ok(Some(s)) ==>
      (!Text.Contains(s, "::") <==> r == Err(BadSourceName(s)))
    ensures forall s :: ReadField(ent, "external_source", AsString) == Ok(Some(s)) && r.Ok? ==>
      exists f, l :: s == f + "::" + l && r.value == File("data/" + f + ".lua", Some(l))
    ensures ReadField(ent, "external_source", AsString) == Ok(None) ==>
      (match ReadField(ent, "source", AsString)
       case Err(e) => r == Err(e)
       case Ok(None) => r == Ok(String(""))
       case Ok(Some(text)) => r == Ok(String(text)))
  {
    match ReadField(ent, "external_source", AsString)
    case Err(e) => Err(e)
    case Ok(Some(s)) =>
      (match SplitOnce(s, "::")
       case None => Err(BadSourceName(s))
       case Some((f, l)) => Ok(File("data/" + f + ".lua", Some(l))))
    case Ok(None) =>
      match ReadField(ent, "source", AsString)
      case Err(e) => Err(e)
      case Ok(t) => Ok(String(t.GetOr("")))
  }

  /** Naming a sub-script as `file::label` comes back as that file and
      label, whenever the file part holds no `::` and does not end in `:`
      (the first `::` is where the name is cut). */
  lemma ExternalSourceRoundTrip(ent: EntityInstance, f: string, l: string)
    requires ReadField(ent, "external_source", AsString) == Ok(Some(f + "::" + l))
    requires !Text.Contains(f, "::") && (f == [] || f[|f| - 1] != ':')
    ensures ScriptSourceOf(ent) == Ok(File("data/" + f + ".lua", Some(l)))
  {
    CutAtFirstSeparator(f, l);
  }

  lemma CutAtFirstSeparator(f: string, l: string)
    requires !Text.Contains(f, "::") && (f == [] || f[|f| - 1] != ':')
    ensures SplitOnce(f + "::" + l, "::") == Some((f, l))
  {
    var s := f + "::" + l;
    assert OccursAt(s, "::", |f|);
    forall j: nat | j < |f| ensures !OccursAt(s, "::", j) {
      if j + 1 < |f| {
        assert s[j..j + 2] == f[j..j + 2];
        assert !OccursAt(f, "::", j);
      } else {
        assert s[j..j + 2][0] == s[j] == f[|f| - 1] != ':';
      }
    }
    var split := SplitOnce(s, "::");
    var (a, b) := split.value;
    assert OccursAt(s, "::", |a|);
    assert |a| == |f|;
    assert a == s[..|f|] == f;
    assert b == s[|f| + 2..] == l;
  }

  /** The trigger kinds an LDtk entity can name (the old script triggers,
      under their snake-case names). */
  datatype LdtkTrigger = Interaction | SoftCollision | HardCollision

  /** `from_value::<Trigger>`. */
  function AsTrigger(j: Json): (r: Option<LdtkTrigger>)
    ensures r == Some(Interaction) <==> j == JString("interaction")
    ensures r == Some(SoftCollision) <==> j == JString("soft_collision")
    ensures r == Some(HardCollision) <==> j == JString("hard_collision")
  {
    if j == JString("interaction") then Some(Interaction)
    else if j == JString("soft_collision") then Some(SoftCollision)
    else if j == JString("hard_collision") then Some(HardCollision)
    else None
  }

  /** The entity's size in cells. */
  function Hitbox(ent: EntityInstance): (r: Vec2)
    ensures r.x * 16.0 == ent.width as real && r.y * 16.0 == ent.height as real
  {
    Vec2(ent.width as real / 16.0, ent.height as real / 16.0)
  }

  /** The trigger component of a simple-script entity: an interaction
      trigger or an area trigger over the entity's size; any other trigger,
      or none, is not implemented and panics. */
  function TriggerComponent(t: Option<LdtkTrigger>, src: ScriptSource, ent: EntityInstance): (r: Result<Component, string>)
    ensures t == Some(Interaction) ==> r == Ok(CInteractionTrigger(InteractionTrigger(src, Hitbox(ent))))
    ensures t == Some(SoftCollision) ==> r == Ok(CAreaTrigger(AreaTrigger(src, Hitbox(ent))))
    ensures r.Err? <==> t.None? || t == Some(HardCollision)
  {
    match t
    case Some(Interaction) => Ok(CInteractionTrigger(InteractionTrigger(src, Hitbox(ent))))
    case Some(SoftCollision) => Ok(CAreaTrigger(AreaTrigger(src, Hitbox(ent))))
    case _ => Err("not yet implemented")
  }

  /** One frame of a strip animation: column `col` of a one-row sheet whose
      frames are `w` by `h` pixels, anchored at its middle. The width and
      height are cast to `u32` and `i32`; the multiplication is checked. */
  function StripFrame(sheet: string, col: nat, w: int, h: int): (r: Result<Sprite, string>)
    ensures r.Ok? <==> col * Grid.WrapU32(w) < Grid.U32Modulus
    ensures r.Ok? ==> r.value.spritesheet == sheet && r.value.rectX == col * r.value.rectW && r.value.rectY == 0
    ensures r.Ok? && 0 <= w < Grid.U32Modulus && 0 <= h < Grid.U32Modulus ==> r.value.rectW == w && r.value.rectH == h
    ensures r.Ok? && 0 <= w <= I32Max && 0 <= h <= I32Max ==> r.value.anchorX == w / 2 && r.value.anchorY == h / 2
  {
    var x := col * Grid.WrapU32(w);
    if x >= Grid.U32Modulus then Err("attempt to multiply with overflow")
    else Ok(Sprite(sheet, x, 0, Grid.WrapU32(w), Grid.WrapU32(h), Grid.TruncDiv(Grid.WrapI32(w), 2), Grid.TruncDiv(Grid.WrapI32(h), 2)))
  }

  /** The frames of a strip animation, one per column index, in order; a
      column whose offset overflows `u32` panics. */
  function StripFrames(sheet: string, cols: seq<nat>, w: int, h: int): (r: Result<seq<Sprite>, string>)
    ensures r.Ok? <==> forall i :: 0 <= i < |cols| ==> StripFrame(sheet, cols[i], w, h).Ok?
    ensures r.Ok? ==> |r.value| == |cols| && forall i :: 0 <= i < |cols| ==> Ok(r.value[i]) == StripFrame(sheet, cols[i], w, h)
    decreases |cols|
  {
    if cols == [] then Ok([])
    else
      match StripFrame(sheet, cols[0], w, h)
      case Err(p) => Err(p)
      case Ok(f) =>
        var rest := StripFrames(sheet, cols[1..], w, h);
        assert forall i :: 1 <= i < |cols| ==> cols[i] == cols[1..][i - 1];
        match rest
        case Err(p) => Err(p)
        case Ok(fs) => Ok([f] + fs)
  }

  /** A character frame: column and row of a sheet of 16 by 32 pixel cells,
      anchored at the feet. */
  function CharacterFrame(sheet: string, col: nat, row: nat): Sprite {
    Sprite(sheet, col * 16, row * 32, 16, 32, 8, 29)
  }

  function CharacterClip(sheet: string, cells: seq<(nat, nat)>): (r: AnimationClip)
    ensures r.secondsPerFrame == 0.2 && |r.frames| == |cells|
    ensures forall i :: 0 <= i < |cells| ==> r.frames[i] == CharacterFrame(sheet, cells[i].0, cells[i].1)
  {
    AnimationClip(seq(|cells|, i requires 0 <= i < |cells| => CharacterFrame(sheet, cells[i].0, cells[i].1)), 0.2)
  }

  /** The four walk cycles of a character sheet. */
  function CharacterAnimsOf(sheet: string): CharacterAnims {
    CharacterAnims(
      CharacterClip(sheet, [(6, 2), (1, 0), (9, 2), (1, 0)]),
      CharacterClip(sheet, [(18, 2), (3, 0), (21, 2), (3, 0)]),
      CharacterClip(sheet, [(12, 2), (2, 0), (15, 2), (2, 0)]),
      CharacterClip(sheet, [(0, 2), (0, 0), (3, 2), (0, 0)]))
  }

  /** Every walk cycle is four 16 by 32 frames, a fifth of a second each,
      that alternate between a stepping frame on row 2 and the standing
      frame on row 0, which is the same for the whole cycle. */
  lemma CharacterCyclesAlternate(sheet: string, d: Direction)
    ensures var c := ClipFacing(CharacterAnimsOf(sheet), d);
      |c.frames| == 4 && c.secondsPerFrame == 0.2
      && (forall i :: 0 <= i < 4 ==> c.frames[i].rectW == 16 && c.frames[i].rectH == 32 && c.frames[i].spritesheet == sheet)
      && c.frames[0].rectY == c.frames[2].rectY == 64 && c.frames[1].rectY == c.frames[3].rectY == 0
      && c.frames[1] == c.frames[3]
  {
  }

  // ---------------------------------------------------------------------
  // JSON components
  // ---------------------------------------------------------------------

  /** The components of the `json_components` object where a failing one is
      logged and skipped instead of ending the entity. */
  function LoadComponentsLogged(e: Ecs, id: Key, fields: seq<(string, Json)>, decode: Decoder): (r: (Ecs, seq<Log>))
    ensures r.0.entityIds == e.entityIds && r.0.deferred == e.deferred && r.0.deferredIds == e.deferredIds
    ensures |r.1| <= |fields|
    ensures r.1 == [] <==> forall i :: 0 <= i < |fields| ==> Accepted(fields[i].0, fields[i].1, decode)
    ensures forall t, k: Key :: k.index != id.index ==> GetComponent(r.0, t, k) == GetComponent(e, t, k)
    ensures ComponentsIssued(e) && IsLive(e, id) ==> ComponentsIssued(r.0)
    decreases |fields|
  {
    if fields == [] then (e, [])
    else
      var rest := fields[1..];
      assert forall i :: 1 <= i < |fields| ==> fields[i] == rest[i - 1];
      match LoadComponent(e, id, fields[0].0, fields[0].1, decode)
      case Err(msg) =>
        var (e1, logs) := LoadComponentsLogged(e, id, rest, decode);
        (e1, [ComponentLog(msg)] + logs)
      case Ok(e1) =>
        assert ComponentsIssued(e) && IsLive(e, id) ==> ComponentsIssued(e1) by {
          if ComponentsIssued(e) && IsLive(e, id) {
            LoadComponentIssued(e, id, fields[0].0, fields[0].1, decode);
          }
        }
        LoadComponentsLogged(e1, id, rest, decode)
  }

  /** When every component loads, logging instead of stopping makes no
      difference. */
  lemma {:induction false} LoggedAgreesWhenAllAccepted(e: Ecs, id: Key, fields: seq<(string, Json)>, decode: Decoder)
    requires forall i :: 0 <= i < |fields| ==> Accepted(fields[i].0, fields[i].1, decode)
    ensures LoadComponentsLogged(e, id, fields, decode) == (LoadComponents(e, id, fields, decode).0, [])
    decreases |fields|
  {
    if fields != [] {
      var rest := fields[1..];
      assert forall i :: 1 <= i < |fields| ==> fields[i] == rest[i - 1];
      var e1 := LoadComponent(e, id, fields[0].0, fields[0].1, decode).value;
      LoggedAgreesWhenAllAccepted(e1, id, rest, decode);
    }
  }

  /** One log line per rejected component, in order. */
  lemma {:induction false} LoggedCountsRejections(e: Ecs, id: Key, fields: seq<(string, Json)>, decode: Decoder)
    ensures |LoadComponentsLogged(e, id, fields, decode).1| == Rejected(fields, decode)
    decreases |fields|
  {
    if fields != [] {
      var rest := fields[1..];
      match LoadComponent(e, id, fields[0].0, fields[0].1, decode)
      case Err(_) => LoggedCountsRejections(e, id, rest, decode);
      case Ok(e1) => LoggedCountsRejections(e1, id, rest, decode);
    }
  }

  /** How many fields `load_component_from_value` rejects. */
  function Rejected(fields: seq<(string, Json)>, decode: Decoder): nat
    decreases |fields|
  {
    if fields == [] then 0
    else (if Accepted(fields[0].0, fields[0].1, decode) then 0 else 1) + Rejected(fields[1..], decode)
  }

  // ---------------------------------------------------------------------
  // Building one entity
  // ---------------------------------------------------------------------

  /** `r` differs from `e` at most in the components held in the slot of
      `id`. */
  ghost predicate OnlyAt(e: Ecs, r: Ecs, id: Key) {
    r.entityIds == e.entityIds && r.deferred == e.deferred && r.deferredIds == e.deferredIds
    && forall t, k: Key :: k.index != id.index ==> GetComponent(r, t, k) == GetComponent(e, t, k)
  }

  /** `add_component` on the entity being built. */
  function Put(e: Ecs, id: Key, c: Component): (r: Ecs)
    ensures OnlyAt(e, r, id)
    ensures ComponentsIssued(e) && IsLive(e, id) ==> ComponentsIssued(r) && GetComponent(r, TagOf(c), id) == Some(c)
  {
    var r := AddComponent(e, id, c);
    assert ComponentsIssued(e) && IsLive(e, id) ==> ComponentsIssued(r) && GetComponent(r, TagOf(c), id) == Some(c) by {
      if ComponentsIssued(e) && IsLive(e, id) {
        AddComponentIssued(e, id, c);
      }
    }
    r
  }

  /** Adding a component leaves the entity's other components alone. */
  lemma PutKeeps(e: Ecs, id: Key, c: Component, t: Tag)
    requires t != TagOf(c)
    ensures GetComponent(Put(e, id, c), t, id) == GetComponent(e, t, id)
  {
  }

  lemma OnlyAtTrans(a: Ecs, b: Ecs, c: Ecs, id: Key)
    requires OnlyAt(a, b, id) && OnlyAt(b, c, id)
    ensures OnlyAt(a, c, id)
  {
  }

  /** The five kinds of LDtk entity the loader builds. */
  datatype Kind = Generic | SimpleScript | SimpleAnim | DualStateAnim | Character

  function KindOf(identifier: string): (r: Option<Kind>)
    ensures r == Some(Generic) <==> identifier == "generic"
    ensures r == Some(SimpleScript) <==> identifier == "simple_script"
    ensures r == Some(SimpleAnim) <==> identifier == "simple_anim"
    ensures r == Some(DualStateAnim) <==> identifier == "dual_state_anim"
    ensures r == Some(Character) <==> identifier == "character"
  {
    if identifier == "generic" then Some(Generic)
    else if identifier == "simple_script" then Some(SimpleScript)
    else if identifier == "simple_anim" then Some(SimpleAnim)
    else if identifier == "dual_state_anim" then Some(DualStateAnim)
    else if identifier == "character" then Some(Character)
    else None
  }

  /** Part way through building an entity: going on with the store and the
      log so far, or already finished. */
  datatype Stage = Going(ecs: Ecs, logs: seq<Log>) | Finished(result: EntityLoad)

  /** What a finished or partial build may have done: only the new entity's
      components changed, and it ended with an error or a panic. */
  ghost predicate StageShape(e: Ecs, id: Key, r: Stage) {
    match r
    case Going(ecs, _) => OnlyAt(e, ecs, id) && (ComponentsIssued(e) && IsLive(e, id) ==> ComponentsIssued(ecs))
    case Finished(Loaded(ecs, _, err)) => OnlyAt(e, ecs, id) && err.Some?
    case Finished(Panicked(_)) => true
  }

  /** The `json_components` field: a plain JSON field for generic entities,
      a field holding JSON text for the others. */
  function JsonComponentsField(ent: EntityInstance, kind: Kind, parse: Parser): Result<Option<Json>, LoadError> {
    if kind == Generic then ReadField(ent, "json_components", AsValue)
    else ReadJsonField(ent, "json_components", parse, AsValue)
  }

  /** The steps every kind starts with: the position, the `name` field, and
      the components of the `json_components` object (anything but an
      object is ignored). Generic and script entities stop at the first
      component that fails; the others log it and go on. */
  function Prelude(e: Ecs, id: Key, ent: EntityInstance, world: World, level: Level, kind: Kind, decode: Decoder, parse: Parser): (r: Stage)
    ensures StageShape(e, id, r)
    ensures r.Finished? && r.result.Panicked? <==> |ent.px| < 2
    ensures r.Going? && (kind == Generic || kind == SimpleScript) ==> r.logs == []
  {
    match PositionOf(ent, world, level)
    case Err(p) => Finished(Panicked(p))
    case Ok(pos) =>
      var e1 := Put(e, id, pos);
      match ReadField(ent, "name", AsString)
      case Err(err) => Finished(Loaded(e1, [], Some(err)))
      case Ok(name) =>
        var e2 := if name.Some? then Put(e1, id, CName(name.value)) else e1;
        match JsonComponentsField(ent, kind, parse)
        case Err(err) => Finished(Loaded(e2, [], Some(err)))
        case Ok(Some(JObject(fields))) =>
          if kind == Generic || kind == SimpleScript then
            var (e3, err) := LoadComponents(e2, id, fields, decode);
            if err.Some? then Finished(Loaded(e3, [], Some(ComponentFailed(err.value)))) else Going(e3, [])
          else
            var (e3, logs) := LoadComponentsLogged(e2, id, fields, decode);
            Going(e3, logs)
        case Ok(_) => Going(e2, [])
  }

  /** A simple-script entity after the prelude: its script source and
      trigger. */
  function ScriptBody(e: Ecs, id: Key, logs: seq<Log>, ent: EntityInstance): (r: EntityLoad)
    ensures r.Loaded? ==> OnlyAt(e, r.ecs, id) && r.logs == logs
    ensures r.Panicked? <==> (ScriptSourceOf(ent).Ok? && ReadField(ent, "trigger", AsTrigger).Ok?
      && TriggerComponent(ReadField(ent, "trigger", AsTrigger).value, ScriptSourceOf(ent).value, ent).Err?)
    ensures r.Loaded? && r.err.None? ==> (ScriptSourceOf(ent).Ok? && ReadField(ent, "trigger", AsTrigger).Ok?
      && TriggerComponent(ReadField(ent, "trigger", AsTrigger).value, ScriptSourceOf(ent).value, ent).Ok?)
    ensures r.Loaded? && r.err.None? && ComponentsIssued(e) && IsLive(e, id) ==>
      (var c := TriggerComponent(ReadField(ent, "trigger", AsTrigger).value, ScriptSourceOf(ent).value, ent).value;
       GetComponent(r.ecs, TagOf(c), id) == Some(c))
  {
    match ScriptSourceOf(ent)
    case Err(err) => Loaded(e, logs, Some(err))
    case Ok(src) =>
      match ReadField(ent, "trigger", AsTrigger)
      case Err(err) => Loaded(e, logs, Some(err))
      case Ok(t) =>
        match TriggerComponent(t, src, ent)
        case Err(p) => Panicked(p)
        case Ok(c) => Loaded(Put(e, id, c), logs, None)
  }

  /** The required fields of a simple animation, read in order; the first
      that is missing or malformed is the error. */
  function AnimFields(ent: EntityInstance, parse: Parser): (r: Result<(string, seq<nat>, real, bool), LoadError>)
    ensures r.Ok? <==>
      Required(ReadField(ent, "spritesheet", AsString), "spritesheet").Ok?
      && Required(ReadJsonField(ent, "frames", parse, AsU32List), "frames").Ok?
      && Required(ReadField(ent, "seconds_per_frame", AsReal), "seconds_per_frame").Ok?
      && Required(ReadField(ent, "repeating", AsBool), "repeating").Ok?
    ensures r.Ok? ==> r.value.3 == Required(ReadField(ent, "repeating", AsBool), "repeating").value
    ensures r.Ok? ==> r.value.1 == Required(ReadJsonField(ent, "frames", parse, AsU32List), "frames").value
  {
    match Required(ReadField(ent, "spritesheet", AsString), "spritesheet")
    case Err(e) => Err(e)
    case Ok(sheet) =>
      match Required(ReadJsonField(ent, "frames", parse, AsU32List), "frames")
      case Err(e) => Err(e)
      case Ok(cols) =>
        match Required(ReadField(ent, "seconds_per_frame", AsReal), "seconds_per_frame")
        case Err(e) => Err(e)
        case Ok(spf) =>
          match Required(ReadField(ent, "repeating", AsBool), "repeating")
          case Err(e) => Err(e)
          case Ok(repeating) => Ok((sheet, cols, spf, repeating))
  }

  /** A simple-animation entity after the prelude: an optional visibility,
      then a strip animation that plays on repeat when `repeating` is set
      and is otherwise left stopped. */
  function SimpleAnimBody(e: Ecs, id: Key, logs: seq<Log>, ent: EntityInstance, parse: Parser): (r: EntityLoad)
    ensures r.Loaded? ==> OnlyAt(e, r.ecs, id) && r.logs == logs
    ensures ReadField(ent, "visible", AsBool).Err? ==> r == Loaded(e, logs, Some(ReadField(ent, "visible", AsBool).error))
    ensures r.Panicked? <==> (ReadField(ent, "visible", AsBool).Ok? && AnimFields(ent, parse).Ok?
      && SimpleAnimation(AnimFields(ent, parse).value, ent).Err?)
    ensures r.Loaded? && r.err.None? && ComponentsIssued(e) && IsLive(e, id) ==>
      (AnimFields(ent, parse).Ok? && SimpleAnimation(AnimFields(ent, parse).value, ent).Ok?
       && GetComponent(r.ecs, AnimationCompTag, id) == Some(CAnimationComp(SimpleAnimation(AnimFields(ent, parse).value, ent).value)))
  {
    match ReadField(ent, "visible", AsBool)
    case Err(err) => Loaded(e, logs, Some(err))
    case Ok(visible) =>
      var e1 := VisibleIfSet(e, id, visible);
      var r := SimpleAnimTail(e1, id, logs, AnimFields(ent, parse), ent);
      assert r.Loaded? ==> OnlyAt(e, r.ecs, id) by {
        if r.Loaded? {
          OnlyAtTrans(e, e1, r.ecs, id);
        }
      }
      r
  }

  /** Given the fields after `visible`: the frames cut from the strip and
      the animation component. */
  function SimpleAnimTail(e: Ecs, id: Key, logs: seq<Log>, fields: Result<(string, seq<nat>, real, bool), LoadError>, ent: EntityInstance): (r: EntityLoad)
    ensures r.Loaded? ==> OnlyAt(e, r.ecs, id) && r.logs == logs
    ensures fields.Err? ==> r == Loaded(e, logs, Some(fields.error))
    ensures r.Panicked? <==> fields.Ok? && SimpleAnimation(fields.value, ent).Err?
    ensures r.Loaded? && r.err.None? && ComponentsIssued(e) && IsLive(e, id) ==>
      (fields.Ok? && SimpleAnimation(fields.value, ent).Ok?
       && GetComponent(r.ecs, AnimationCompTag, id) == Some(CAnimationComp(SimpleAnimation(fields.value, ent).value)))
  {
    match fields
    case Err(err) => Loaded(e, logs, Some(err))
    case Ok(f) =>
      match SimpleAnimation(f, ent)
      case Err(p) => Panicked(p)
      case Ok(a) => Loaded(Put(e, id, CAnimationComp(a)), logs, None)
  }

  /** The strip animation over the entity's frames, or the panic of a frame
      offset that overflows. */
  function SimpleAnimation(f: (string, seq<nat>, real, bool), ent: EntityInstance): (r: Result<AnimationComp, string>)
    ensures r.Ok? <==> StripFrames(f.0, f.1, ent.width, ent.height).Ok?
    ensures r.Ok? ==> r.value == StripAnimation(StripFrames(f.0, f.1, ent.width, ent.height).value, f.2, f.3)
  {
    match StripFrames(f.0, f.1, ent.width, ent.height)
    case Err(p) => Err(p)
    case Ok(frames) => Ok(StripAnimation(frames, f.2, f.3))
  }

  function VisibleIfSet(e: Ecs, id: Key, visible: Option<bool>): (r: Ecs)
    ensures OnlyAt(e, r, id)
    ensures ComponentsIssued(e) && IsLive(e, id) ==> ComponentsIssued(r)
  {
    if visible.Some? then Put(e, id, CSpriteComp(DefaultSpriteComp.(visible := visible.value))) else e
  }

  /** The animation of a simple-animation entity: stopped, or playing on
      repeat. */
  function StripAnimation(frames: seq<Sprite>, spf: real, repeating: bool): (r: AnimationComp)
    ensures r.clip == AnimationClip(frames, spf) && r.elapsed == 0.0 && !r.forced
    ensures r.state == (if repeating then Playing else Stopped) && r.repeat == repeating
  {
    var a := DefaultAnimationComp.(clip := AnimationClip(frames, spf));
    if repeating then Start(a, true) else a
  }

  /** The required fields of a dual-state animation after `visible`, read in
      order. */
  function DualFields(ent: EntityInstance, parse: Parser): (r: Result<(string, seq<seq<nat>>, real), LoadError>)
    ensures r.Ok? ==> |r.value.1| == 4
  {
    match Required(ReadField(ent, "spritesheet", AsString), "spritesheet")
    case Err(e) => Err(e)
    case Ok(sheet) =>
      match Required(ReadJsonField(ent, "first_state", parse, AsU32List), "first_state")
      case Err(e) => Err(e)
      case Ok(a) =>
        match Required(ReadJsonField(ent, "first_to_second", parse, AsU32List), "first_to_second")
        case Err(e) => Err(e)
        case Ok(b) =>
          match Required(ReadJsonField(ent, "second_state", parse, AsU32List), "second_state")
          case Err(e) => Err(e)
          case Ok(c) =>
            match Required(ReadJsonField(ent, "second_to_first", parse, AsU32List), "second_to_first")
            case Err(e) => Err(e)
            case Ok(d) =>
              match Required(ReadField(ent, "seconds_per_frame", AsReal), "seconds_per_frame")
              case Err(e) => Err(e)
              case Ok(spf) => Ok((sheet, [a, b, c, d], spf))
  }

  /** The four clips of a dual-state animation. */
  function DualClips(sheet: string, cols: seq<seq<nat>>, spf: real, w: int, h: int): (r: Result<seq<AnimationClip>, string>)
    requires |cols| == 4
    ensures r.Ok? <==> forall i :: 0 <= i < 4 ==> StripFrames(sheet, cols[i], w, h).Ok?
    ensures r.Ok? ==> |r.value| == 4 && forall i :: 0 <= i < 4 ==> r.value[i] == AnimationClip(StripFrames(sheet, cols[i], w, h).value, spf)
  {
    var fs := seq(4, i requires 0 <= i < 4 => StripFrames(sheet, cols[i], w, h));
    assert forall i :: 0 <= i < 4 ==> fs[i] == StripFrames(sheet, cols[i], w, h);
    if forall i :: 0 <= i < 4 ==> fs[i].Ok? then
      Ok(seq(4, i requires 0 <= i < 4 && fs[i].Ok? => AnimationClip(fs[i].value, spf)))
    else Err("attempt to multiply with overflow")
  }

  /** The entity `id` of `ecs` holds what a dual-state build adds: the four
      clips in the first state, the animation started on repeat, and the
      sprite with the visibility read. */
  ghost predicate DualStateHeld(ecs: Ecs, id: Key, visible: Result<bool, LoadError>,
                                fields: Result<(string, seq<seq<nat>>, real), LoadError>, ent: EntityInstance)
  {
    visible.Ok? && fields.Ok? && |fields.value.1| == 4
    && var clips := DualClips(fields.value.0, fields.value.1, fields.value.2, ent.width, ent.height);
    clips.Ok?
    && GetComponent(ecs, DualStateAnimsTag, id)
       == Some(CDualStateAnims(DualStateAnims(First, clips.value[0], clips.value[1], clips.value[2], clips.value[3])))
    && GetComponent(ecs, AnimationCompTag, id) == Some(CAnimationComp(Start(DefaultAnimationComp, true)))
    && GetComponent(ecs, SpriteCompTag, id) == Some(CSpriteComp(DefaultSpriteComp.(visible := visible.value)))
  }

  /** A dual-state entity after the prelude: a required visibility, then the
      four clips in the first state, playing on repeat. */
  function DualStateBody(e: Ecs, id: Key, logs: seq<Log>, ent: EntityInstance, parse: Parser): (r: EntityLoad)
    ensures r.Loaded? ==> OnlyAt(e, r.ecs, id) && r.logs == logs
    ensures ReadField(ent, "visible", AsBool) == Ok(None) ==> r == Loaded(e, logs, Some(MissingField("visible")))
    ensures r.Panicked? <==>
      (Required(ReadField(ent, "visible", AsBool), "visible").Ok? && DualFields(ent, parse).Ok?
       && DualClips(DualFields(ent, parse).value.0, DualFields(ent, parse).value.1, DualFields(ent, parse).value.2, ent.width, ent.height).Err?)
    ensures r.Loaded? && r.err.None? ==> DualFields(ent, parse).Ok?
    ensures r.Loaded? && r.err.None? && ComponentsIssued(e) && IsLive(e, id) ==>
      DualStateHeld(r.ecs, id, Required(ReadField(ent, "visible", AsBool), "visible"), DualFields(ent, parse), ent)
  {
    DualStateWith(e, id, logs, Required(ReadField(ent, "visible", AsBool), "visible"), DualFields(ent, parse), ent)
  }

  /** The dual-state steps given the visibility read and the fields after
      it: the sprite first, then the clips. */
  function DualStateWith(e: Ecs, id: Key, logs: seq<Log>, visible: Result<bool, LoadError>,
                         fields: Result<(string, seq<seq<nat>>, real), LoadError>, ent: EntityInstance): (r: EntityLoad)
    requires fields.Ok? ==> |fields.value.1| == 4
    ensures r.Loaded? ==> OnlyAt(e, r.ecs, id) && r.logs == logs
    ensures visible.Err? ==> r == Loaded(e, logs, Some(visible.error))
    ensures r.Panicked? <==> visible.Ok? && fields.Ok? && DualClips(fields.value.0, fields.value.1, fields.value.2, ent.width, ent.height).Err?
    ensures r.Loaded? && r.err.None? ==> visible.Ok? && fields.Ok?
    ensures r.Loaded? && r.err.None? && ComponentsIssued(e) && IsLive(e, id) ==>
      DualStateHeld(r.ecs, id, visible, fields, ent)
  {
    match visible
    case Err(err) => Loaded(e, logs, Some(err))
    case Ok(v) =>
      var c := CSpriteComp(DefaultSpriteComp.(visible := v));
      SpriteThenTail(e, id, logs, c, fields, ent);
      DualStateTail(Put(e, id, c), id, logs, fields, ent)
  }

  /** The sprite put before the clips survives them, and the whole build
      touches only the slot of `id`. */
  lemma SpriteThenTail(e: Ecs, id: Key, logs: seq<Log>, c: Component,
                       fields: Result<(string, seq<seq<nat>>, real), LoadError>, ent: EntityInstance)
    requires fields.Ok? ==> |fields.value.1| == 4
    requires TagOf(c) == SpriteCompTag
    ensures var e1 := Put(e, id, c);
      var r := DualStateTail(e1, id, logs, fields, ent);
      (r.Loaded? ==> OnlyAt(e, r.ecs, id))
      && (ComponentsIssued(e) && IsLive(e, id) ==>
            ComponentsIssued(e1) && IsLive(e1, id)
            && (r.Loaded? ==> GetComponent(r.ecs, SpriteCompTag, id) == Some(c)))
  {
    var e1 := Put(e, id, c);
    var r := DualStateTail(e1, id, logs, fields, ent);
    if r.Loaded? {
      OnlyAtTrans(e, e1, r.ecs, id);
    }
  }

  /** Given the fields after `visible`: the four clips, or the panic of a
      frame offset that overflows. The sprite added before is kept. */
  function DualStateTail(e: Ecs, id: Key, logs: seq<Log>, fields: Result<(string, seq<seq<nat>>, real), LoadError>, ent: EntityInstance): (r: EntityLoad)
    requires fields.Ok? ==> |fields.value.1| == 4
    ensures r.Loaded? ==> OnlyAt(e, r.ecs, id) && r.logs == logs
    ensures fields.Err? ==> r == Loaded(e, logs, Some(fields.error))
    ensures r.Panicked? <==> fields.Ok? && DualClips(fields.value.0, fields.value.1, fields.value.2, ent.width, ent.height).Err?
    ensures r.Loaded? ==> GetComponent(r.ecs, SpriteCompTag, id) == GetComponent(e, SpriteCompTag, id)
    ensures r.Loaded? && r.err.None? && ComponentsIssued(e) && IsLive(e, id) ==>
      fields.Ok?
      && var clips := DualClips(fields.value.0, fields.value.1, fields.value.2, ent.width, ent.height);
      clips.Ok?
      && GetComponent(r.ecs, DualStateAnimsTag, id)
         == Some(CDualStateAnims(DualStateAnims(First, clips.value[0], clips.value[1], clips.value[2], clips.value[3])))
      && GetComponent(r.ecs, AnimationCompTag, id) == Some(CAnimationComp(Start(DefaultAnimationComp, true)))
  {
    match fields
    case Err(err) => Loaded(e, logs, Some(err))
    case Ok((sheet, cols, spf)) =>
      match DualClips(sheet, cols, spf, ent.width, ent.height)
      case Err(p) => Panicked(p)
      case Ok(clips) =>
        DualComponentsHeld(e, id, clips);
        Loaded(PutAll(e, id, DualComponents(clips)), logs, None)
  }

  /** After the dual-state components are added, the entity holds both and
      keeps its sprite. */
  lemma DualComponentsHeld(e: Ecs, id: Key, clips: seq<AnimationClip>)
    requires |clips| == 4
    ensures var r := PutAll(e, id, DualComponents(clips));
      GetComponent(r, SpriteCompTag, id) == GetComponent(e, SpriteCompTag, id)
      && (ComponentsIssued(e) && IsLive(e, id) ==>
            GetComponent(r, DualStateAnimsTag, id) == Some(DualComponents(clips)[0])
            && GetComponent(r, AnimationCompTag, id) == Some(DualComponents(clips)[1]))
  {
    var cs := DualComponents(clips);
    if ComponentsIssued(e) && IsLive(e, id) {
      PutAllHoldsEach(e, id, cs);
      assert TagOf(cs[0]) == DualStateAnimsTag && TagOf(cs[1]) == AnimationCompTag;
    }
    PutAllKeeps(e, id, cs, SpriteCompTag);
  }

  /** The dual-state clips in the first state, and the animation started on
      repeat. */
  function DualComponents(clips: seq<AnimationClip>): (r: seq<Component>)
    requires |clips| == 4
    ensures |r| == 2 && DistinctTags(r)
    ensures r[0] == CDualStateAnims(DualStateAnims(First, clips[0], clips[1], clips[2], clips[3]))
    ensures r[1] == CAnimationComp(Start(DefaultAnimationComp, true))
  {
    [CDualStateAnims(DualStateAnims(First, clips[0], clips[1], clips[2], clips[3])),
     CAnimationComp(Start(DefaultAnimationComp, true))]
  }

  /** The hitbox of a character: 14 by 6 pixels, solid. */
  const CharacterCollision: Collision := Collision(Vec2(14.0 / 16.0, 6.0 / 16.0), true)

  /** A character after the prelude: a solid collision box, then, given a
      spritesheet, the walk cycles and the components every character has. */
  function CharacterBody(e: Ecs, id: Key, logs: seq<Log>, ent: EntityInstance): (r: EntityLoad)
    ensures r.Loaded? && OnlyAt(e, r.ecs, id) && r.logs == logs
    ensures r.err.Some? <==> Required(ReadField(ent, "spritesheet", AsString), "spritesheet").Err?
    ensures ComponentsIssued(e) && IsLive(e, id) ==> GetComponent(r.ecs, CollisionTag, id) == Some(CCollision(CharacterCollision))
    ensures r.err.None? && ComponentsIssued(e) && IsLive(e, id) ==>
      CharacterHeld(r.ecs, id, CharacterAnimsOf(Required(ReadField(ent, "spritesheet", AsString), "spritesheet").value))
  {
    var c := CCollision(CharacterCollision);
    CollisionThenTail(e, id, logs, c, Required(ReadField(ent, "spritesheet", AsString), "spritesheet"));
    CharacterTail(Put(e, id, c), id, logs, Required(ReadField(ent, "spritesheet", AsString), "spritesheet"))
  }

  /** The entity `id` of `ecs` holds the five character components: a
      stopped animation, the walk cycles, a visible sprite, facing down and
      standing still. */
  ghost predicate CharacterHeld(ecs: Ecs, id: Key, anims: CharacterAnims) {
    GetComponent(ecs, AnimationCompTag, id) == Some(CAnimationComp(DefaultAnimationComp))
    && GetComponent(ecs, CharacterAnimsTag, id) == Some(CCharacterAnims(anims))
    && GetComponent(ecs, SpriteCompTag, id) == Some(CSpriteComp(DefaultSpriteComp))
    && GetComponent(ecs, FacingTag, id) == Some(CFacing(Down))
    && GetComponent(ecs, WalkingTag, id) == Some(CWalking(DefaultWalking))
  }

  /** Given the spritesheet read after the collision box: its error, or the
      five character components. */
  function CharacterTail(e: Ecs, id: Key, logs: seq<Log>, sheet: Result<string, LoadError>): (r: EntityLoad)
    ensures r.Loaded? && OnlyAt(e, r.ecs, id) && r.logs == logs
    ensures r.err.Some? <==> sheet.Err?
    ensures GetComponent(r.ecs, CollisionTag, id) == GetComponent(e, CollisionTag, id)
    ensures r.err.None? && ComponentsIssued(e) && IsLive(e, id) ==> CharacterHeld(r.ecs, id, CharacterAnimsOf(sheet.value))
  {
    match sheet
    case Err(err) => Loaded(e, logs, Some(err))
    case Ok(s) =>
      CharacterComponentsHeld(e, id, CharacterAnimsOf(s));
      Loaded(PutAll(e, id, CharacterComponents(CharacterAnimsOf(s))), logs, None)
  }

  /** The collision box put before the rest survives it, and the whole build
      touches only the slot of `id`. */
  lemma CollisionThenTail(e: Ecs, id: Key, logs: seq<Log>, c: Component, sheet: Result<string, LoadError>)
    requires TagOf(c) == CollisionTag
    ensures var e1 := Put(e, id, c);
      var r := CharacterTail(e1, id, logs, sheet);
      OnlyAt(e, r.ecs, id)
      && (ComponentsIssued(e) && IsLive(e, id) ==>
            ComponentsIssued(e1) && IsLive(e1, id) && GetComponent(r.ecs, CollisionTag, id) == Some(c))
  {
    var e1 := Put(e, id, c);
    OnlyAtTrans(e, e1, CharacterTail(e1, id, logs, sheet).ecs, id);
  }

  /** After the character components are added, the entity holds all five
      and keeps its collision box. */
  lemma CharacterComponentsHeld(e: Ecs, id: Key, anims: CharacterAnims)
    ensures var r := PutAll(e, id, CharacterComponents(anims));
      GetComponent(r, CollisionTag, id) == GetComponent(e, CollisionTag, id)
      && (ComponentsIssued(e) && IsLive(e, id) ==> CharacterHeld(r, id, anims))
  {
    var cs := CharacterComponents(anims);
    if ComponentsIssued(e) && IsLive(e, id) {
      PutAllHoldsEach(e, id, cs);
      assert TagOf(cs[0]) == AnimationCompTag && TagOf(cs[1]) == CharacterAnimsTag && TagOf(cs[2]) == SpriteCompTag;
      assert TagOf(cs[3]) == FacingTag && TagOf(cs[4]) == WalkingTag;
    }
    PutAllKeeps(e, id, cs, CollisionTag);
  }

  /** The walk cycles, a stopped animation, a visible sprite, facing down and
      standing still. */
  function CharacterComponents(anims: CharacterAnims): (r: seq<Component>)
    ensures |r| == 5 && DistinctTags(r)
    ensures r[0] == CAnimationComp(DefaultAnimationComp) && r[1] == CCharacterAnims(anims)
    ensures r[2] == CSpriteComp(DefaultSpriteComp) && r[3] == CFacing(Down) && r[4] == CWalking(DefaultWalking)
  {
    [CAnimationComp(DefaultAnimationComp), CCharacterAnims(anims), CSpriteComp(DefaultSpriteComp),
     CFacing(DefaultDirection), CWalking(DefaultWalking)]
  }

  // ---------------------------------------------------------------------
  // Several components in a row
  // ---------------------------------------------------------------------

  /** No two of the components are of the same type. */
  predicate DistinctTags(cs: seq<Component>) {
    forall i, j :: 0 <= i < j < |cs| ==> TagOf(cs[i]) != TagOf(cs[j])
  }

  /** The components added to the entity being built, one after the other. */
  function PutAll(e: Ecs, id: Key, cs: seq<Component>): (r: Ecs)
    ensures OnlyAt(e, r, id)
    ensures ComponentsIssued(e) && IsLive(e, id) ==> ComponentsIssued(r)
    decreases |cs|
  {
    if cs == [] then e
    else
      var e1 := Put(e, id, cs[0]);
      var r := PutAll(e1, id, cs[1..]);
      OnlyAtTrans(e, e1, r, id);
      r
  }

  /** After adding several components, the entity holds the last one of
      each type. */
  lemma {:induction false} PutAllHolds(e: Ecs, id: Key, cs: seq<Component>, i: nat)
    requires ComponentsIssued(e) && IsLive(e, id)
    requires i < |cs| && forall j :: i < j < |cs| ==> TagOf(cs[j]) != TagOf(cs[i])
    ensures GetComponent(PutAll(e, id, cs), TagOf(cs[i]), id) == Some(cs[i])
    decreases |cs|
  {
    var e1 := Put(e, id, cs[0]);
    if i == 0 {
      PutAllKeeps(e1, id, cs[1..], TagOf(cs[0]));
    } else {
      assert forall j :: i - 1 < j < |cs[1..]| ==> cs[1..][j] == cs[j + 1];
      PutAllHolds(e1, id, cs[1..], i - 1);
    }
  }

  /** Adding components of other types leaves a component alone. */
  lemma {:induction false} PutAllKeeps(e: Ecs, id: Key, cs: seq<Component>, t: Tag)
    requires forall j :: 0 <= j < |cs| ==> TagOf(cs[j]) != t
    ensures GetComponent(PutAll(e, id, cs), t, id) == GetComponent(e, t, id)
    decreases |cs|
  {
    if cs != [] {
      PutKeeps(e, id, cs[0], t);
      PutAllKeeps(Put(e, id, cs[0]), id, cs[1..], t);
    }
  }

  /** With components of distinct types, each one added is held. */
  lemma PutAllHoldsEach(e: Ecs, id: Key, cs: seq<Component>)
    requires ComponentsIssued(e) && IsLive(e, id) && DistinctTags(cs)
    ensures forall i :: 0 <= i < |cs| ==> GetComponent(PutAll(e, id, cs), TagOf(cs[i]), id) == Some(cs[i])
  {
    forall i | 0 <= i < |cs| ensures GetComponent(PutAll(e, id, cs), TagOf(cs[i]), id) == Some(cs[i]) {
      PutAllHolds(e, id, cs, i);
    }
  }

  // ---------------------------------------------------------------------
  // One entity
  // ---------------------------------------------------------------------

  /** What follows the prelude, by kind; generic entities have nothing more. */
  function Body(kind: Kind, e: Ecs, id: Key, logs: seq<Log>, ent: EntityInstance, parse: Parser): (r: EntityLoad)
    ensures r.Loaded? ==> OnlyAt(e, r.ecs, id) && r.logs == logs
    ensures r.Panicked? ==> kind == SimpleScript || kind == SimpleAnim || kind == DualStateAnim
  {
    match kind
    case Generic => Loaded(e, logs, None)
    case SimpleScript => ScriptBody(e, id, logs, ent)
    case SimpleAnim => SimpleAnimBody(e, id, logs, ent, parse)
    case DualStateAnim => DualStateBody(e, id, logs, ent, parse)
    case Character => CharacterBody(e, id, logs, ent)
  }

  /** One entity instance: ignored when its identifier names no kind;
      otherwise a fresh entity, then the prelude and the kind's own steps.
      Whatever was added before an error stays. */
  function LoadEntity(e: Ecs, ent: EntityInstance, world: World, level: Level, decode: Decoder, parse: Parser): (r: EntityLoad)
    requires WellFormed(e)
    ensures KindOf(ent.identifier).None? ==> r == Loaded(e, [], None)
    ensures r.Loaded? && KindOf(ent.identifier).Some? ==>
      (r.ecs.entityIds == AddEntity(e).0.entityIds && OnlyAt(AddEntity(e).0, r.ecs, AddEntity(e).1))
    ensures r.Loaded? ==> WellFormed(r.ecs) && r.ecs.deferred == e.deferred
    ensures r.Panicked? && |ent.px| >= 2 ==>
      KindOf(ent.identifier) in {Some(SimpleScript), Some(SimpleAnim), Some(DualStateAnim)}
  {
    match KindOf(ent.identifier)
    case None => Loaded(e, [], None)
    case Some(kind) =>
      var (e1, id) := AddEntity(e);
      match Prelude(e1, id, ent, world, level, kind, decode, parse)
      case Finished(r) => r
      case Going(e2, logs) =>
        var r := Body(kind, e2, id, logs, ent, parse);
        assert r.Loaded? ==> OnlyAt(e1, r.ecs, id) by {
          if r.Loaded? {
            OnlyAtTrans(e1, e2, r.ecs, id);
          }
        }
        r
  }

  /** The slot of a freshly added entity is not that of any live one. */
  lemma FreshSlot(e: Ecs, k: Key)
    requires WellFormed(e) && IsLive(e, k)
    ensures k.index != AddEntity(e).1.index
  {
    var (e1, id) := AddEntity(e);
    assert IsLive(e1, k) && IsLive(e1, id);
  }

  /** Loading an entity leaves every entity that was already live as it
      was. */
  lemma LoadEntityKeepsOthers(e: Ecs, ent: EntityInstance, world: World, level: Level, decode: Decoder, parse: Parser, t: Tag, k: Key)
    requires WellFormed(e) && IsLive(e, k)
    requires LoadEntity(e, ent, world, level, decode, parse).Loaded?
    ensures GetComponent(LoadEntity(e, ent, world, level, decode, parse).ecs, t, k) == GetComponent(e, t, k)
  {
    if KindOf(ent.identifier).Some? {
      FreshSlot(e, k);
    }
  }

  // ---------------------------------------------------------------------
  // Levels, worlds, the project
  // ---------------------------------------------------------------------

  /** The load so far: the store and the lines logged, or the panic that
      ended it. */
  datatype Outcome = Done(ecs: Ecs, logs: seq<Log>) | Aborted(reason: string)

  ghost predicate Sound(o: Outcome) {
    o.Done? ==> WellFormed(o.ecs)
  }

  /** One entity in the loop of `load_entities_from_ldtk`: its error, if
      any, is logged under its `iid` and the loop goes on; a panic ends the
      load. */
  function LoadOne(o: Outcome, ent: EntityInstance, world: World, level: Level, decode: Decoder, parse: Parser): (r: Outcome)
    requires Sound(o)
    ensures Sound(r)
    ensures o.Aborted? ==> r == o
    ensures KindOf(ent.identifier).None? ==> r == o
    ensures o.Done? && r.Done? ==> |r.logs| >= |o.logs| && r.logs[..|o.logs|] == o.logs
    ensures o.Done? ==> (r.Aborted? <==> LoadEntity(o.ecs, ent, world, level, decode, parse).Panicked?)
    ensures o.Done? && LoadEntity(o.ecs, ent, world, level, decode, parse).Loaded? ==>
      (var l := LoadEntity(o.ecs, ent, world, level, decode, parse);
       r.ecs == l.ecs && (l.err.Some? <==> |r.logs| == |o.logs| + |l.logs| + 1))
  {
    match o
    case Aborted(_) => o
    case Done(e, logs) => Record(e, logs, LoadEntity(e, ent, world, level, decode, parse), ent.iid)
  }

  /** The outcome of one entity's load, given what loading it gave. */
  function Record(e: Ecs, logs: seq<Log>, l: EntityLoad, iid: string): (r: Outcome)
    requires l.Loaded? ==> WellFormed(l.ecs)
    ensures Sound(r)
    ensures r.Aborted? <==> l.Panicked?
    ensures r.Done? ==> |r.logs| >= |logs| && r.logs[..|logs|] == logs
    ensures l.Loaded? ==> r.ecs == l.ecs && (l.err.Some? <==> |r.logs| == |logs| + |l.logs| + 1)
    ensures l == Loaded(e, [], None) ==> r == Done(e, logs)
  {
    match l
    case Panicked(p) => Aborted(p)
    case Loaded(e1, ls, err) =>
      var tail := ls + (if err.Some? then [EntityLog(iid, err.value)] else []);
      assert (logs + tail)[..|logs|] == logs;
      Done(e1, logs + tail)
  }

  /** The entity instances in order. */
  function LoadList(o: Outcome, ents: seq<EntityInstance>, world: World, level: Level, decode: Decoder, parse: Parser): (r: Outcome)
    requires Sound(o)
    ensures Sound(r)
    ensures o.Aborted? ==> r == o
    decreases |ents|
  {
    if ents == [] then o
    else LoadList(LoadOne(o, ents[0], world, level, decode, parse), ents[1..], world, level, decode, parse)
  }

  /** Loading two runs of entities one after the other is loading them
      joined: each entity is loaded against the store its predecessors
      left, whatever errors they logged. */
  lemma {:induction false} LoadListAppend(o: Outcome, a: seq<EntityInstance>, b: seq<EntityInstance>, world: World, level: Level, decode: Decoder, parse: Parser)
    requires Sound(o)
    ensures LoadList(o, a + b, world, level, decode, parse)
         == LoadList(LoadList(o, a, world, level, decode, parse), b, world, level, decode, parse)
    decreases |a|
  {
    if a != [] {
      var o1 := LoadOne(o, a[0], world, level, decode, parse);
      assert (a + b)[0] == a[0] && (a + b)[1..] == a[1..] + b;
      LoadListAppend(o1, a[1..], b, world, level, decode, parse);
    } else {
      assert a + b == b;
    }
  }

  /** The entity instances whose identifier names a kind. */
  function KnownOnly(ents: seq<EntityInstance>): (r: seq<EntityInstance>)
    ensures |r| <= |ents|
    ensures forall i :: 0 <= i < |r| ==> KindOf(r[i].identifier).Some? && r[i] in ents
    decreases |ents|
  {
    if ents == [] then []
    else (if KindOf(ents[0].identifier).Some? then [ents[0]] else []) + KnownOnly(ents[1..])
  }

  /** Entities of unknown kinds make no difference at all: not to the store,
      not to the log. */
  lemma {:induction false} UnknownEntitiesIgnored(o: Outcome, ents: seq<EntityInstance>, world: World, level: Level, decode: Decoder, parse: Parser)
    requires Sound(o)
    ensures LoadList(o, ents, world, level, decode, parse) == LoadList(o, KnownOnly(ents), world, level, decode, parse)
    decreases |ents|
  {
    if ents != [] {
      var o1 := LoadOne(o, ents[0], world, level, decode, parse);
      UnknownEntitiesIgnored(o1, ents[1..], world, level, decode, parse);
      if KindOf(ents[0].identifier).Some? {
        var k := [ents[0]] + KnownOnly(ents[1..]);
        assert k[0] == ents[0] && k[1..] == KnownOnly(ents[1..]);
      } else {
        assert KnownOnly(ents) == KnownOnly(ents[1..]);
      }
    }
  }

  /** A run of entities none of which names a kind changes nothing. */
  lemma UnknownOnlyChangesNothing(o: Outcome, ents: seq<EntityInstance>, world: World, level: Level, decode: Decoder, parse: Parser)
    requires Sound(o)
    requires forall i :: 0 <= i < |ents| ==> KindOf(ents[i].identifier).None?
    ensures LoadList(o, ents, world, level, decode, parse) == o
  {
    UnknownEntitiesIgnored(o, ents, world, level, decode, parse);
  }

  /** The entity instances of all layers, layer after layer. */
  function Flatten(layers: seq<seq<EntityInstance>>): (r: seq<EntityInstance>)
    ensures forall i, j :: 0 <= i < |layers| && 0 <= j < |layers[i]| ==> layers[i][j] in r
    ensures forall x :: x in r ==> exists i :: 0 <= i < |layers| && x in layers[i]
    decreases |layers|
  {
    if layers == [] then [] else layers[0] + Flatten(layers[1..])
  }

  /** A level: its layers must be stored in the project file, otherwise the
      load panics. */
  function LoadLevel(o: Outcome, world: World, level: Level, decode: Decoder, parse: Parser): (r: Outcome)
    requires Sound(o)
    ensures Sound(r)
    ensures o.Done? && level.layers.None? ==> r == Aborted("levels not saved separately")
    ensures level.layers.Some? ==> r == LoadList(o, Flatten(level.layers.value), world, level, decode, parse)
  {
    match o
    case Aborted(_) => o
    case Done(_, _) =>
      match level.layers
      case None => Aborted("levels not saved separately")
      case Some(layers) => LoadList(o, Flatten(layers), world, level, decode, parse)
  }

  function LoadLevels(o: Outcome, world: World, levels: seq<Level>, decode: Decoder, parse: Parser): (r: Outcome)
    requires Sound(o)
    ensures Sound(r)
    ensures o.Aborted? ==> r == o
    decreases |levels|
  {
    if levels == [] then o
    else LoadLevels(LoadLevel(o, world, levels[0], decode, parse), world, levels[1..], decode, parse)
  }

  function LoadWorlds(o: Outcome, worlds: seq<World>, decode: Decoder, parse: Parser): (r: Outcome)
    requires Sound(o)
    ensures Sound(r)
    ensures o.Aborted? ==> r == o
    decreases |worlds|
  {
    if worlds == [] then o
    else LoadWorlds(LoadLevels(o, worlds[0], worlds[0].levels, decode, parse), worlds[1..], decode, parse)
  }

  /** `load_entities_from_ldtk`: every level of every world, in order. */
  function LoadProject(e: Ecs, project: Project, decode: Decoder, parse: Parser): (r: Outcome)
    requires WellFormed(e)
    ensures r.Done? ==> WellFormed(r.ecs)
  {
    LoadWorlds(Done(e, []), project.worlds, decode, parse)
  }
}

=== FILE: legacy_callbacks.dfy ===
/** The host functions of the two older script runtimes: the `cb_*`
    functions of src/script.rs and the free functions of
    src/script/callback.rs. Both look an entity up by name and work on the
    components the lookup borrows; the lookup itself belongs to ECS versions
    that are not part of this model, so each callback here takes its result
    (`None` when no entity by that name has the components). */
module LegacyCallbacks {
  import opened Wrappers
  import opened Geometry
  import opened Components
  import StoryVars
  import SlotMap
  import Scheduler
  import Game
  import LegacyScript
  import Callbacks

  /** The errors the two files raise into Lua: `Error` of the script module
      next to src/script/callback.rs, and `ScriptError` of src/script.rs. */
  datatype CallbackError =
    | NoStoryVar(key: string) | NoEntity(what: string) | Generic(what: string)
    | InvalidStoryVar(storyVar: string) | InvalidEntity(entity: string)

  /** A callback returns, raises a Lua error, or panics the game. */
  datatype Call<T> = Returned(value: T) | Raised(error: CallbackError) | Panicked(message: string)

  /** The components a walk borrows: `(&Position, &mut Facing, &mut Walking)`. */
  datatype Mover = Mover(position: Vec2, facing: Direction, walking: Walking)

  // ---------------------------------------------------------------------
  // Story variables
  // ---------------------------------------------------------------------

  /** `get_story_var` (callback.rs) and `cb_get_storyvar` (script.rs): the
      value, or the file's missing-variable error. */
  function GetStoryVar(vars: StoryVars.Vars, key: string, missing: CallbackError): (r: Call<int>)
    ensures key in vars <==> r.Returned?
    ensures r.Returned? ==> r.value == vars[key]
    ensures r.Raised? ==> r.error == missing
    ensures !r.Panicked?
  {
    if key in vars then Returned(vars[key]) else Raised(missing)
  }

  /** `set_story_var` (callback.rs) and `cb_set_storyvar` (script.rs): insert
      or overwrite, never fail. */
  function SetStoryVar(vars: StoryVars.Vars, key: string, val: int): (r: Call<StoryVars.Vars>)
    ensures r.Returned?
    ensures r.value.Keys == vars.Keys + {key} && r.value[key] == val
    ensures forall k :: k in vars && k != key ==> r.value[k] == vars[k]
  {
    Returned(StoryVars.Insert(vars, key, val))
  }

  /** The older setters can create a variable; the current `set_story_var`
      cannot, and a read after it still fails. */
  lemma OlderSetCreatesNewerDoesNot(vars: StoryVars.Vars, key: string, val: int, missing: CallbackError)
    requires key !in vars
    ensures GetStoryVar(SetStoryVar(vars, key, val).value, key, missing) == Returned(val)
    ensures Callbacks.GetStoryVar(StoryVars.Set(vars, key, val), key).Err?
  {
  }

  // ---------------------------------------------------------------------
  // Walking
  // ---------------------------------------------------------------------

  /** Start a walk in `d` towards `dest`, facing that way. */
  function Heading(m: Mover, d: Direction, speed: real, dest: Vec2): Mover {
    m.(facing := d, walking := m.walking.(direction := d, speed := speed, destination := Some(dest)))
  }

  /** The shared body of every older `walk`: look up, parse the direction
      (what an unknown one does differs per file and is passed in), then
      head `distance` along it from the current position. */
  function WalkWith(found: Option<Mover>, direction: string, distance: real, speed: real,
                    notFound: CallbackError, badDirection: Call<Mover>): (r: Call<Mover>)
    requires !badDirection.Returned?
    ensures found.None? ==> r == Raised(notFound)
    ensures found.Some? && Callbacks.ParseDirection(direction).None? ==> r == badDirection
    ensures r.Returned? <==> found.Some? && Callbacks.ParseDirection(direction).Some?
    ensures r.Returned? ==>
      var m := found.value;
      var d := Callbacks.ParseDirection(direction).value;
      r.value.position == m.position && r.value.facing == d
      && r.value.walking.direction == d && r.value.walking.speed == speed
      && r.value.walking.destination.Some?
      && Ahead(d, m.position, r.value.walking.destination.value) == distance
      && Aside(d, m.position, r.value.walking.destination.value) == 0.0
  {
    match found
    case None => Raised(notFound)
    case Some(m) =>
      match Callbacks.ParseDirection(direction)
      case None => badDirection
      case Some(d) =>
        StepIsAhead(d, m.position, m.position, distance);
        Returned(Heading(m, d, speed, Add(m.position, Step(d, distance))))
  }

  /** The shared body of every older `walk_to`: the destination is `dest` on
      the axis of movement and the current coordinate on the other. */
  function WalkToWith(found: Option<Mover>, direction: string, dest: real, speed: real,
                      notFound: CallbackError, badDirection: Call<Mover>): (r: Call<Mover>)
    requires !badDirection.Returned?
    ensures found.None? ==> r == Raised(notFound)
    ensures found.Some? && Callbacks.ParseDirection(direction).None? ==> r == badDirection
    ensures r.Returned? <==> found.Some? && Callbacks.ParseDirection(direction).Some?
    ensures r.Returned? ==>
      var m := found.value;
      var d := Callbacks.ParseDirection(direction).value;
      r.value.position == m.position && r.value.facing == d
      && r.value.walking.direction == d && r.value.walking.speed == speed
      && r.value.walking.destination.Some?
      && Callbacks.AxisCoord(d, r.value.walking.destination.value) == dest
      && Aside(d, m.position, r.value.walking.destination.value) == 0.0
  {
    match found
    case None => Raised(notFound)
    case Some(m) =>
      match Callbacks.ParseDirection(direction)
      case None => badDirection
      case Some(d) =>
        var p := m.position;
        Returned(Heading(m, d, speed, if d == Up || d == Down then Vec2(p.x, dest) else Vec2(dest, p.y)))
  }

  function NotADirection(direction: string): string {
    direction + " is not a valid direction"
  }

  /** `walk` of callback.rs: an unknown direction is a `Generic` error. */
  function Walk(found: Option<Mover>, entity: string, direction: string, distance: real, speed: real): (r: Call<Mover>)
    ensures found.None? ==> r == Raised(NoEntity(entity))
    ensures found.Some? && Callbacks.ParseDirection(direction).None? ==> r == Raised(Generic(NotADirection(direction)))
    ensures !r.Panicked?
  {
    WalkWith(found, direction, distance, speed, NoEntity(entity), Raised(Generic(NotADirection(direction))))
  }

  /** `walk_to` of callback.rs: an unknown direction is reported as a
      `NoEntity` error. */
  function WalkTo(found: Option<Mover>, entity: string, direction: string, dest: real, speed: real): (r: Call<Mover>)
    ensures found.None? ==> r == Raised(NoEntity(entity))
    ensures found.Some? && Callbacks.ParseDirection(direction).None? ==> r == Raised(NoEntity(NotADirection(direction)))
    ensures !r.Panicked?
  {
    WalkToWith(found, direction, dest, speed, NoEntity(entity), Raised(NoEntity(NotADirection(direction))))
  }

  /** With the entity present and a direction that is not one of the four,
      `walk` and `walk_to` of callback.rs report different error kinds. */
  lemma BadDirectionErrorsDiffer(m: Mover, entity: string, direction: string, x: real, speed: real)
    requires Callbacks.ParseDirection(direction).None?
    ensures Walk(Some(m), entity, direction, x, speed).Raised?
    ensures Walk(Some(m), entity, direction, x, speed).error.Generic?
    ensures WalkTo(Some(m), entity, direction, x, speed).Raised?
    ensures WalkTo(Some(m), entity, direction, x, speed).error.NoEntity?
  {
  }

  /** `cb_walk` of src/script.rs: an unknown direction panics. */
  function CbWalk(found: Option<Mover>, entity: string, direction: string, distance: real, speed: real): (r: Call<Mover>)
    ensures found.None? ==> r == Raised(InvalidEntity(entity))
    ensures r.Panicked? <==> found.Some? && Callbacks.ParseDirection(direction).None?
  {
    WalkWith(found, direction, distance, speed, InvalidEntity(entity), Panicked(NotADirection(direction)))
  }

  /** `cb_walk_to` of src/script.rs: an unknown direction panics. */
  function CbWalkTo(found: Option<Mover>, entity: string, direction: string, dest: real, speed: real): (r: Call<Mover>)
    ensures found.None? ==> r == Raised(InvalidEntity(entity))
    ensures r.Panicked? <==> found.Some? && Callbacks.ParseDirection(direction).None?
  {
    WalkToWith(found, direction, dest, speed, InvalidEntity(entity), Panicked(NotADirection(direction)))
  }

  /** `is_entity_walking` (callback.rs) and `cb_is_entity_walking`
      (script.rs): true exactly while a destination is set. */
  function IsEntityWalking(found: Option<Walking>, notFound: CallbackError): (r: Call<bool>)
    ensures found.None? <==> r == Raised(notFound)
    ensures found.Some? ==> r == Returned(found.value.destination.Some?)
  {
    match found
    case None => Raised(notFound)
    case Some(w) => Returned(w.destination.Some?)
  }

  /** After any successful older walk the entity reports itself walking,
      so `wait_until_not_walking` keeps yielding until the walk ends. */
  lemma WalkedEntityIsWalking(found: Option<Mover>, direction: string, x: real, speed: real,
                              notFound: CallbackError, bad: Call<Mover>, missing: CallbackError)
    requires !bad.Returned?
    ensures var r := WalkWith(found, direction, x, speed, notFound, bad);
      r.Returned? ==> IsEntityWalking(Some(r.value.walking), missing) == Returned(true)
    ensures var r := WalkToWith(found, direction, x, speed, notFound, bad);
      r.Returned? ==> IsEntityWalking(Some(r.value.walking), missing) == Returned(true)
  {
  }

  // ---------------------------------------------------------------------
  // Animation (callback.rs, on the older `AnimationComponent`)
  // ---------------------------------------------------------------------

  /** The playback fields of the older animation component; its clip set is
      not touched by these callbacks. */
  datatype Playback = Playback(elapsed: real, playing: bool, repeat: bool)

  /** `play_object_animation`: playing, with the given repeat; elapsed time
      is kept. */
  function PlayObjectAnimation(found: Option<Playback>, entity: string, repeat: bool): (r: Call<Playback>)
    ensures found.None? <==> r == Raised(NoEntity(entity))
    ensures found.Some? ==> r.Returned? && r.value.playing && r.value.repeat == repeat && r.value.elapsed == found.value.elapsed
  {
    match found
    case None => Raised(NoEntity(entity))
    case Some(p) => Returned(p.(playing := true, repeat := repeat))
  }

  /** `stop_object_animation`: neither playing nor repeating. */
  function StopObjectAnimation(found: Option<Playback>, entity: string): (r: Call<Playback>)
    ensures found.None? <==> r == Raised(NoEntity(entity))
    ensures found.Some? ==> r.Returned? && !r.value.playing && !r.value.repeat && r.value.elapsed == found.value.elapsed
  {
    match found
    case None => Raised(NoEntity(entity))
    case Some(p) => Returned(p.(playing := false, repeat := false))
  }

  /** Stopping undoes whatever playing set up, and playing again after a
      stop gives the same result as playing directly. */
  lemma StopAfterPlay(p: Playback, entity: string, repeat: bool)
    ensures StopObjectAnimation(Some(PlayObjectAnimation(Some(p), entity, repeat).value), entity)
      == StopObjectAnimation(Some(p), entity)
    ensures PlayObjectAnimation(Some(StopObjectAnimation(Some(p), entity).value), entity, repeat)
      == PlayObjectAnimation(Some(p), entity, repeat)
  {
  }

  // ---------------------------------------------------------------------
  // Player and message box
  // ---------------------------------------------------------------------

  /** `lock_player_input` of callback.rs: always lock; halt the player only
      if it has a `Walking` (the id lookup does not check liveness). */
  function LockPlayerInput(found: Option<Walking>): (r: (bool, Option<Walking>))
    ensures r.0
    ensures r.1.Some? <==> found.Some?
    ensures found.Some? ==> r.1.value == found.value.(speed := 0.0)
  {
    (true, match found case None => None case Some(w) => Some(w.(speed := 0.0)))
  }

  /** `cb_lock_player_input` of src/script.rs: the same, but a player
      without `Walking` panics at the `unwrap`. */
  function CbLockPlayerInput(found: Option<Walking>): (r: Call<(bool, Walking)>)
    ensures r.Panicked? <==> found.None?
    ensures found.Some? ==> r == Returned((true, found.value.(speed := 0.0)))
  {
    match found
    case None => Panicked("unwrap on a player without Walking")
    case Some(w) => Returned((true, w.(speed := 0.0)))
  }

  /** `message` and `selection` of callback.rs: open the box for the calling
      script and make it wait for the box to close. This is the same box as
      `cb_message`/`cb_selection` of src/script.rs open, and the wait holds
      on every frame while a box is open and clears once none is. */
  function ShowMessage(text: string, isSelection: bool, script: SlotMap.Key): (r: (LegacyScript.Window, Game.WaitCondition))
    ensures r.0 == CbShowMessage(text, isSelection, script).0
    ensures forall box: Option<Game.MessageWindow>, now :: Scheduler.ClearWait(Some(r.1), box, now) == (if box.Some? then Some(r.1) else None)
  {
    (LegacyScript.Window(text, isSelection, script), Game.Message)
  }

  /** `cb_message` and `cb_selection` of src/script.rs: open a box showing
      the text, marked as a selection or not and owned by the calling
      script, and install a wait that blocks the script on every frame while
      a box is open and releases it once none is. */
  function CbShowMessage(text: string, isSelection: bool, script: SlotMap.Key): (r: (LegacyScript.Window, LegacyScript.Wait))
    ensures r.0.message == text && r.0.isSelection == isSelection && r.0.waitingScript == script
    ensures forall h: LegacyScript.Host, now :: LegacyScript.Blocks(Some(r.1), h, now) == LegacyScript.Done(h.messageWindow.Some?)
  {
    (LegacyScript.Window(text, isSelection, script), LegacyScript.Message)
  }

  /** A message and a selection differ only in `isSelection`, and the wait
      installed holds the script until the box is closed. */
  lemma MessageAndSelectionDiffer(text: string, script: SlotMap.Key, h: LegacyScript.Host, now: int)
    ensures ShowMessage(text, false, script).0 == ShowMessage(text, true, script).0.(isSelection := false)
    ensures ShowMessage(text, false, script).1 == ShowMessage(text, true, script).1
    ensures CbShowMessage(text, false, script).0 == CbShowMessage(text, true, script).0.(isSelection := false)
    ensures var (w, wait) := CbShowMessage(text, false, script);
      LegacyScript.Blocks(Some(wait), h.(messageWindow := Some(w)), now) == LegacyScript.Done(true)
      && LegacyScript.Blocks(Some(wait), h.(messageWindow := None), now) == LegacyScript.Done(false)
  {
  }
}

=== FILE: legacy_loaders.dfy ===
/** The two older LDtk loaders: src/loader.rs, which builds script,
    animation and character entities, and src/ecs/loader.rs, which builds
    only script entities. Both read fields without reporting errors (a
    malformed field reads as absent) and panic through `unwrap` on a
    required field that is missing. Each entity is modelled by the list of
    components attached to its fresh id, in the order they are added; the
    components that have a counterpart in the current component set are
    written as that component. Reading a script file is a parameter. */
module LegacyLoaders {
  import opened Wrappers
  import opened Text
  import opened Json
  import opened Geometry
  import opened Components
  import Grid
  import LegacyScript
  import ScriptText
  import LdtkEntities

  type EntityInstance = LdtkEntities.EntityInstance
  type Level = LdtkEntities.Level
  type World = LdtkEntities.World

  /** The panic of `Option::unwrap` on `None`. */
  const UnwrapNone := "called `Option::unwrap()` on a `None` value"

  // ---------------------------------------------------------------------
  // Reading fields
  // ---------------------------------------------------------------------

  /** `read_field_*`: the value of the first field with that identifier,
      when it is set and of the expected JSON kind; anything else reads as
      absent. */
  function FieldOf<T>(ent: EntityInstance, name: string, decode: Json -> Option<T>): (r: Option<T>)
    ensures r == (if LdtkEntities.ReadField(ent, name, decode).Ok? then LdtkEntities.ReadField(ent, name, decode).value else None)
  {
    match LdtkEntities.FieldValue(ent.fields, name)
    case None => None
    case Some(v) => decode(v)
  }

  /** `read_field_string`: the first field with the identifier, when its value
      is a JSON string. */
  function FieldString(ent: EntityInstance, name: string): (r: Option<string>)
    ensures r.Some? <==> LdtkEntities.FieldValue(ent.fields, name).Some? && LdtkEntities.FieldValue(ent.fields, name).value.JString?
    ensures r.Some? ==> LdtkEntities.FieldValue(ent.fields, name) == Some(JString(r.value))
  {
    FieldOf(ent, name, AsString)
  }

  /** `read_field_bool`: the first field with the identifier, when its value
      is a JSON boolean. */
  function FieldBool(ent: EntityInstance, name: string): (r: Option<bool>)
    ensures r.Some? <==> LdtkEntities.FieldValue(ent.fields, name).Some? && LdtkEntities.FieldValue(ent.fields, name).value.JBool?
    ensures r.Some? ==> LdtkEntities.FieldValue(ent.fields, name) == Some(JBool(r.value))
  {
    FieldOf(ent, name, AsBool)
  }

  /** `read_field_f64`: the first field with the identifier, when its value
      is a JSON number. */
  function FieldF64(ent: EntityInstance, name: string): (r: Option<real>)
    ensures r.Some? <==> LdtkEntities.FieldValue(ent.fields, name).Some? && LdtkEntities.FieldValue(ent.fields, name).value.JNumber?
    ensures r.Some? ==> LdtkEntities.FieldValue(ent.fields, name) == Some(JNumber(r.value))
  {
    FieldOf(ent, name, AsReal)
  }

  /** `Number::as_i64` followed by `as i32`: a whole number in the range of
      `i64`, cut to its low 32 bits. */
  function AsI32Cast(j: Json): (r: Option<int>)
    ensures r.Some? ==> InI32(r.value)
    ensures j.JNumber? && j.n.Floor as real == j.n && InI32(j.n.Floor) ==> r == Some(j.n.Floor)
  {
    if j.JNumber? && j.n.Floor as real == j.n && -0x8000_0000_0000_0000 <= j.n.Floor < 0x8000_0000_0000_0000 then
      Some(Grid.WrapI32(j.n.Floor))
    else None
  }

  /** `read_field_i32`: the first field with the identifier, when its value
      is a whole number in the `i64` range, cut with `as i32`. */
  function FieldI32(ent: EntityInstance, name: string): (r: Option<int>)
    ensures var v := LdtkEntities.FieldValue(ent.fields, name);
      r.Some? ==> (InI32(r.value) && v.Some? && v.value.JNumber?)
    ensures var v := LdtkEntities.FieldValue(ent.fields, name);
      (v.Some? && v.value.JNumber? && v.value.n.Floor as real == v.value.n && InI32(v.value.n.Floor))
      ==> r == Some(v.value.n.Floor)
  {
    FieldOf(ent, name, AsI32Cast)
  }

  /** `read_field_json`: a string field whose text parses and decodes; any
      failure on the way reads as absent. */
  function FieldJson<T>(ent: EntityInstance, name: string, parse: LdtkEntities.Parser, decode: Json -> Option<T>): (r: Option<T>)
    ensures r == (if LdtkEntities.ReadJsonField(ent, name, parse, decode).Ok? then LdtkEntities.ReadJsonField(ent, name, parse, decode).value else None)
  {
    match FieldString(ent, name)
    case None => None
    case Some(s) =>
      match parse(s)
      case None => None
      case Some(j) => decode(j)
  }

  /** `Vec<i32>` from JSON: an array of whole numbers in the range of `i32`. */
  function AsI32List(j: Json): (r: Option<seq<int>>)
    ensures r.Some? ==> j.JArray? && |r.value| == |j.items|
    ensures r.Some? ==> forall i :: 0 <= i < |r.value| ==> InI32(r.value[i]) && j.items[i] == JNumber(r.value[i] as real)
  {
    if j.JArray? && forall i :: 0 <= i < |j.items| ==> IsI32(j.items[i]) then
      Some(seq(|j.items|, i requires 0 <= i < |j.items| && IsI32(j.items[i]) => j.items[i].n.Floor))
    else None
  }

  predicate IsI32(j: Json) {
    j.JNumber? && j.n.Floor as real == j.n && InI32(j.n.Floor)
  }

  // ---------------------------------------------------------------------
  // Script classes
  // ---------------------------------------------------------------------

  /** The `ScriptClass` the loaders write: the script text, the trigger, the
      start and abort conditions and the story-variable writes. */
  datatype ClassRecord = ClassRecord(
    source: string,
    trigger: Option<LegacyScript.Trigger>,
    startCondition: Option<LegacyScript.Condition>,
    abortCondition: Option<LegacyScript.Condition>,
    setOnStart: Option<(string, int)>,
    setOnFinish: Option<(string, int)>)

  /** serde's conversions of JSON into a condition and into a story-variable
      write. */
  datatype Decoders = Decoders(condition: Json -> Option<LegacyScript.Condition>, write: Json -> Option<(string, int)>)

  /** The contents of a file by path; `None` when it cannot be read. */
  type Files = string -> Option<string>

  /** The trigger names the loaders know; any other name is no trigger. */
  function TriggerNamed(s: string): (r: Option<LegacyScript.Trigger>)
    ensures r.Some? ==> r.value == LegacyScript.Interaction || r.value == LegacyScript.SoftCollision
    ensures r.Some? <==> s == "interaction" || s == "soft_collision"
  {
    if s == "interaction" then Some(LegacyScript.Interaction)
    else if s == "soft_collision" then Some(LegacyScript.SoftCollision)
    else None
  }

  /** The names the old loaders know mean what they mean to the current
      loader; the current loader's third name, `hard_collision`, is no
      trigger here. */
  lemma TriggerNamesAgree(s: string)
    ensures TriggerNamed(s) == Some(LegacyScript.Interaction) <==> LdtkEntities.AsTrigger(JString(s)) == Some(LdtkEntities.Interaction)
    ensures TriggerNamed(s) == Some(LegacyScript.SoftCollision) <==> LdtkEntities.AsTrigger(JString(s)) == Some(LdtkEntities.SoftCollision)
    ensures LdtkEntities.AsTrigger(JString(s)) == Some(LdtkEntities.HardCollision) ==> TriggerNamed(s).None?
  {
  }

  /** The `trigger` field of a script entity: "interaction" and
      "soft_collision" name the two triggers, anything else, a missing field
      included, is no trigger. */
  function TriggerField(ent: EntityInstance): (r: Option<LegacyScript.Trigger>)
    ensures r == Some(LegacyScript.Interaction) <==> FieldString(ent, "trigger") == Some("interaction")
    ensures r == Some(LegacyScript.SoftCollision) <==> FieldString(ent, "trigger") == Some("soft_collision")
    ensures r.Some? ==> r.value == LegacyScript.Interaction || r.value == LegacyScript.SoftCollision
  {
    match FieldString(ent, "trigger")
    case None => None
    case Some(s) => TriggerNamed(s)
  }

  /** The script text: `external_source` names a file and a sub-script
      label, cut at the first `sep`, and the sub-script is read from
      `assets/<file>.lua`; without it the `source` field is the text. A
      name without the separator, an unreadable file and a missing text all
      panic. */
  function SourceOf(ent: EntityInstance, files: Files, sep: string): (r: Result<string, string>)
    ensures FieldString(ent, "external_source").None? ==>
      r == (if FieldString(ent, "source").Some? then Ok(FieldString(ent, "source").value) else Err(UnwrapNone))
    ensures FieldString(ent, "external_source").Some? && !Text.Contains(FieldString(ent, "external_source").value, sep) ==>
      r == Err(UnwrapNone)
    ensures FieldString(ent, "external_source").Some? && r.Ok? ==>
      exists f, l :: FieldString(ent, "external_source").value == f + sep + l && files("assets/" + f + ".lua").Some?
        && ScriptText.SubScript(files("assets/" + f + ".lua").value, l) == r
  {
    match FieldString(ent, "external_source")
    case Some(s) =>
      (match SplitOnce(s, sep)
       case None => Err(UnwrapNone)
       case Some((f, l)) =>
         match files("assets/" + f + ".lua")
         case None => Err(UnwrapNone)
         case Some(text) => ScriptText.SubScript(text, l))
    case None =>
      match FieldString(ent, "source")
      case Some(text) => Ok(text)
      case None => Err(UnwrapNone)
  }

  /** The script class of a script entity. */
  function ClassOf(ent: EntityInstance, files: Files, sep: string, parse: LdtkEntities.Parser, dec: Decoders): (r: Result<ClassRecord, string>)
    ensures r.Ok? <==> SourceOf(ent, files, sep).Ok?
    ensures r.Ok? ==> r.value.source == SourceOf(ent, files, sep).value && r.value.trigger == TriggerField(ent)
    ensures r.Ok? ==> r.value.startCondition == FieldJson(ent, "start_condition", parse, dec.condition)
    ensures r.Ok? ==> r.value.abortCondition == FieldJson(ent, "abort_condition", parse, dec.condition)
    ensures r.Ok? ==> r.value.setOnStart == FieldJson(ent, "set_on_start", parse, dec.write)
    ensures r.Ok? ==> r.value.setOnFinish == FieldJson(ent, "set_on_finish", parse, dec.write)
  {
    match SourceOf(ent, files, sep)
    case Err(p) => Err(p)
    case Ok(source) =>
      Ok(ClassRecord(source, TriggerField(ent),
        FieldJson(ent, "start_condition", parse, dec.condition), FieldJson(ent, "abort_condition", parse, dec.condition),
        FieldJson(ent, "set_on_start", parse, dec.write), FieldJson(ent, "set_on_finish", parse, dec.write)))
  }

  // ---------------------------------------------------------------------
  // What an entity is given
  // ---------------------------------------------------------------------

  /** A sprite of the old renderer: a signed `i32` offset into the sheet. */
  datatype LegacySprite = LegacySprite(spritesheet: string, rectX: int, rectY: int, rectW: nat, rectH: nat, anchorX: int, anchorY: int)

  datatype LegacyClip = LegacyClip(frames: seq<LegacySprite>, secondsPerFrame: real)

  /** A component attached to an entity. `Comp` is one the current
      component set also has; `LegacyAnim` is a default animation with the
      clip, started on repeat when `started`; `MapPosition` is a position on
      a map known by its id. */
  datatype Part =
    | Comp(c: Component)
    | Scripts(classes: seq<ClassRecord>)
    | Interaction(hitbox: Vec2)
    | LegacyAnim(clip: LegacyClip, started: bool)
    | LegacyDualAnims(first: LegacyClip, firstToSecond: LegacyClip, second: LegacyClip, secondToFirst: LegacyClip)
    | MapPosition(mapId: nat, pos: Vec2)

  function NamePart(ent: EntityInstance): (r: seq<Part>)
    ensures FieldString(ent, "name").Some? ==> r == [Comp(CName(FieldString(ent, "name").value))]
    ensures FieldString(ent, "name").None? ==> r == []
    ensures |r| <= 1 && forall i :: 0 <= i < |r| ==> r[i].Comp? && r[i].c.CName?
  {
    match FieldString(ent, "name")
    case Some(n) => [Comp(CName(n))]
    case None => []
  }

  /** `load_simple_script_entity` of src/loader.rs: position, name, the
      script class, and a non-solid collision box for a soft-collision
      trigger or an interaction box for an interaction trigger. */
  function SimpleScriptParts(ent: EntityInstance, world: World, level: Level, files: Files, parse: LdtkEntities.Parser, dec: Decoders): (r: Result<seq<Part>, string>)
    ensures r.Ok? <==> |ent.px| >= 2 && ClassOf(ent, files, "::", parse, dec).Ok?
    ensures r.Ok? ==> |r.value| >= 2 && r.value[0] == Comp(LdtkEntities.PositionOf(ent, world, level).value)
    ensures r.Ok? ==> Scripts([ClassOf(ent, files, "::", parse, dec).value]) in r.value
    ensures r.Ok? ==> (Comp(CCollision(Collision(LdtkEntities.Hitbox(ent), false))) in r.value
                       <==> TriggerField(ent) == Some(LegacyScript.SoftCollision))
    ensures r.Ok? ==> (Interaction(LdtkEntities.Hitbox(ent)) in r.value
                       <==> TriggerField(ent) == Some(LegacyScript.Interaction))
  {
    match LdtkEntities.PositionOf(ent, world, level)
    case Err(p) => Err(p)
    case Ok(pos) =>
      match ClassOf(ent, files, "::", parse, dec)
      case Err(p) => Err(p)
      case Ok(c) => Ok(ScriptAssembly(pos, NamePart(ent), c, LdtkEntities.Hitbox(ent)))
  }

  /** The components of a simple-script entity in the order they are added. */
  function ScriptAssembly(pos: Component, names: seq<Part>, c: ClassRecord, hitbox: Vec2): (r: seq<Part>)
    requires forall i :: 0 <= i < |names| ==> names[i].Comp? && names[i].c.CName?
    ensures |r| >= 2 && r[0] == Comp(pos) && Scripts([c]) in r
    ensures Comp(CCollision(Collision(hitbox, false))) in r <==> pos == CCollision(Collision(hitbox, false)) || c.trigger == Some(LegacyScript.SoftCollision)
    ensures Interaction(hitbox) in r <==> c.trigger == Some(LegacyScript.Interaction)
  {
    var head := [Comp(pos)] + names + [Scripts([c])];
    var collision := if c.trigger == Some(LegacyScript.SoftCollision) then [Comp(CCollision(Collision(hitbox, false)))] else [];
    var interaction := if c.trigger == Some(LegacyScript.Interaction) then [Interaction(hitbox)] else [];
    assert forall i :: 0 <= i < |head| ==> !head[i].Interaction? && (head[i] == Comp(CCollision(Collision(hitbox, false))) ==> i == 0);
    head + collision + interaction
  }

  /** One frame of an old strip animation: `col * (w as i32)` is an `i32`
      multiplication that panics on overflow, and may be negative. */
  function LegacyFrame(sheet: string, col: int, w: int, h: int): (r: Result<LegacySprite, string>)
    ensures r.Ok? <==> InI32(col * Grid.WrapI32(w))
    ensures r.Ok? ==> r.value.rectX == col * Grid.WrapI32(w) && r.value.rectY == 0 && r.value.spritesheet == sheet
  {
    match Grid.CheckedI32(col * Grid.WrapI32(w), "multiply")
    case Err(p) => Err(p)
    case Ok(x) => Ok(LegacySprite(sheet, x, 0, Grid.WrapU32(w), Grid.WrapU32(h), Grid.TruncDiv(Grid.WrapI32(w), 2), Grid.TruncDiv(Grid.WrapI32(h), 2)))
  }

  /** For a column and a frame size the current loader also accepts, the
      old frame is the same rectangle with the same anchor. */
  lemma LegacyFrameAgrees(sheet: string, col: nat, w: nat, h: nat)
    requires w <= I32Max && h <= I32Max && col * w <= I32Max
    ensures LegacyFrame(sheet, col, w, h).Ok? && LdtkEntities.StripFrame(sheet, col, w, h).Ok?
    ensures var a := LegacyFrame(sheet, col, w, h).value;
      var b := LdtkEntities.StripFrame(sheet, col, w, h).value;
      a.rectX == b.rectX && a.rectY == b.rectY && a.rectW == b.rectW && a.rectH == b.rectH
      && a.anchorX == b.anchorX && a.anchorY == b.anchorY
  {
    assert Grid.WrapI32(w) == w && Grid.WrapU32(w) == w;
  }

  function LegacyFrames(sheet: string, cols: seq<int>, w: int, h: int): (r: Result<seq<LegacySprite>, string>)
    ensures r.Ok? <==> forall i :: 0 <= i < |cols| ==> LegacyFrame(sheet, cols[i], w, h).Ok?
    ensures r.Ok? ==> |r.value| == |cols| && forall i :: 0 <= i < |cols| ==> Ok(r.value[i]) == LegacyFrame(sheet, cols[i], w, h)
    decreases |cols|
  {
    if cols == [] then Ok([])
    else
      match LegacyFrame(sheet, cols[0], w, h)
      case Err(p) => Err(p)
      case Ok(f) =>
        var rest := LegacyFrames(sheet, cols[1..], w, h);
        assert forall i :: 1 <= i < |cols| ==> cols[i] == cols[1..][i - 1];
        match rest
        case Err(p) => Err(p)
        case Ok(fs) => Ok([f] + fs)
  }

  /** A required field: a missing one panics. */
  function Unwrap<T>(o: Option<T>): (r: Result<T, string>)
    ensures r.Ok? <==> o.Some?
    ensures r.Ok? ==> r.value == o.value
    ensures r.Err? ==> r.error == UnwrapNone
  {
    match o
    case Some(v) => Ok(v)
    case None => Err(UnwrapNone)
  }

  /** The required fields of an old simple animation, in the order they
      are unwrapped. */
  function AnimFields(ent: EntityInstance, parse: LdtkEntities.Parser): (r: Result<(bool, string, seq<int>, real, bool), string>)
    ensures r.Ok? <==> (FieldBool(ent, "visible").Some? && FieldString(ent, "spritesheet").Some?
      && FieldJson(ent, "frames", parse, AsI32List).Some? && FieldF64(ent, "seconds_per_frame").Some?
      && FieldBool(ent, "repeating").Some?)
    ensures r.Ok? ==> r.value == (FieldBool(ent, "visible").value, FieldString(ent, "spritesheet").value,
      FieldJson(ent, "frames", parse, AsI32List).value, FieldF64(ent, "seconds_per_frame").value, FieldBool(ent, "repeating").value)
  {
    match Unwrap(FieldBool(ent, "visible"))
    case Err(p) => Err(p)
    case Ok(visible) =>
      match Unwrap(FieldString(ent, "spritesheet"))
      case Err(p) => Err(p)
      case Ok(sheet) =>
        match Unwrap(FieldJson(ent, "frames", parse, AsI32List))
        case Err(p) => Err(p)
        case Ok(cols) =>
          match Unwrap(FieldF64(ent, "seconds_per_frame"))
          case Err(p) => Err(p)
          case Ok(spf) =>
            match Unwrap(FieldBool(ent, "repeating"))
            case Err(p) => Err(p)
            case Ok(repeating) => Ok((visible, sheet, cols, spf, repeating))
  }

  /** `load_simple_animation_entity`: position, name, a sprite with the
      required visibility, and the strip animation, started on repeat when
      `repeating` is set. */
  function SimpleAnimParts(ent: EntityInstance, world: World, level: Level, parse: LdtkEntities.Parser): (r: Result<seq<Part>, string>)
    ensures r.Ok? <==> (|ent.px| >= 2 && AnimFields(ent, parse).Ok?
      && LegacyFrames(AnimFields(ent, parse).value.1, AnimFields(ent, parse).value.2, ent.width, ent.height).Ok?)
    ensures r.Ok? ==> |r.value| >= 3 && r.value[0] == Comp(LdtkEntities.PositionOf(ent, world, level).value)
    ensures r.Ok? ==> (var f := AnimFields(ent, parse).value;
      r.value[|r.value| - 2..] == [Comp(CSpriteComp(DefaultSpriteComp.(visible := f.0))),
        LegacyAnim(LegacyClip(LegacyFrames(f.1, f.2, ent.width, ent.height).value, f.3), f.4)])
  {
    AnimAssembly(LdtkEntities.PositionOf(ent, world, level), NamePart(ent), AnimFields(ent, parse), ent.width, ent.height)
  }

  /** The components of a simple animation from its position, its name and
      its required fields, as read. */
  function AnimAssembly(pos: Result<Component, string>, names: seq<Part>, fields: Result<(bool, string, seq<int>, real, bool), string>, w: int, h: int): (r: Result<seq<Part>, string>)
    ensures r.Ok? <==> pos.Ok? && fields.Ok? && LegacyFrames(fields.value.1, fields.value.2, w, h).Ok?
    ensures r.Ok? ==> |r.value| >= 3 && r.value[0] == Comp(pos.value)
    ensures r.Ok? ==> (var f := fields.value;
      r.value[|r.value| - 2..] == [Comp(CSpriteComp(DefaultSpriteComp.(visible := f.0))),
        LegacyAnim(LegacyClip(LegacyFrames(f.1, f.2, w, h).value, f.3), f.4)])
  {
    match pos
    case Err(p) => Err(p)
    case Ok(position) =>
      match fields
      case Err(p) => Err(p)
      case Ok((visible, sheet, cols, spf, repeating)) =>
        match LegacyFrames(sheet, cols, w, h)
        case Err(p) => Err(p)
        case Ok(frames) =>
          var tail := [Comp(CSpriteComp(DefaultSpriteComp.(visible := visible))), LegacyAnim(LegacyClip(frames, spf), repeating)];
          var r := [Comp(position)] + names + tail;
          assert r[|r| - 2..] == tail;
          Ok(r)
  }

  /** The required fields of an old dual-state animation after `visible`. */
  function DualFields(ent: EntityInstance, parse: LdtkEntities.Parser): (r: Result<(string, seq<seq<int>>, real), string>)
    ensures r.Ok? ==> |r.value.1| == 4
    ensures r.Ok? <==> (FieldString(ent, "spritesheet").Some?
      && FieldJson(ent, "first_state", parse, AsI32List).Some? && FieldJson(ent, "first_to_second", parse, AsI32List).Some?
      && FieldJson(ent, "second_state", parse, AsI32List).Some? && FieldJson(ent, "second_to_first", parse, AsI32List).Some?
      && FieldF64(ent, "seconds_per_frame").Some?)
  {
    match Unwrap(FieldString(ent, "spritesheet"))
    case Err(p) => Err(p)
    case Ok(sheet) =>
      match Unwrap(FieldJson(ent, "first_state", parse, AsI32List))
      case Err(p) => Err(p)
      case Ok(a) =>
        match Unwrap(FieldJson(ent, "first_to_second", parse, AsI32List))
        case Err(p) => Err(p)
        case Ok(b) =>
          match Unwrap(FieldJson(ent, "second_state", parse, AsI32List))
          case Err(p) => Err(p)
          case Ok(c) =>
            match Unwrap(FieldJson(ent, "second_to_first", parse, AsI32List))
            case Err(p) => Err(p)
            case Ok(d) =>
              match Unwrap(FieldF64(ent, "seconds_per_frame"))
              case Err(p) => Err(p)
              case Ok(spf) => Ok((sheet, [a, b, c, d], spf))
  }

  /** `load_dual_state_animation_entity`: position, name, a sprite with the
      required visibility, the four clips in the first state, and a default
      animation started on repeat. */
  function DualParts(ent: EntityInstance, world: World, level: Level, parse: LdtkEntities.Parser): (r: Result<seq<Part>, string>)
    ensures r.Ok? ==> |ent.px| >= 2 && FieldBool(ent, "visible").Some? && DualFields(ent, parse).Ok?
    ensures r.Ok? ==> |r.value| >= 4 && r.value[0] == Comp(LdtkEntities.PositionOf(ent, world, level).value)
    ensures r.Ok? ==> r.value[|r.value| - 3] == Comp(CSpriteComp(DefaultSpriteComp.(visible := FieldBool(ent, "visible").value)))
    ensures r.Ok? ==> r.value[|r.value| - 2].LegacyDualAnims? && r.value[|r.value| - 1] == LegacyAnim(LegacyClip([], 0.0), true)
    ensures r.Ok? <==> (|ent.px| >= 2 && FieldBool(ent, "visible").Some? && DualFields(ent, parse).Ok?
      && DualClips(DualFields(ent, parse).value.0, DualFields(ent, parse).value.1, DualFields(ent, parse).value.2, ent.width, ent.height).Ok?)
    ensures r.Ok? ==> (r.value[|r.value| - 2]
      == DualClips(DualFields(ent, parse).value.0, DualFields(ent, parse).value.1, DualFields(ent, parse).value.2, ent.width, ent.height).value)
    ensures r.Ok? ==> r.value[1..|r.value| - 3] == NamePart(ent)
  {
    DualAssembly(LdtkEntities.PositionOf(ent, world, level), NamePart(ent), Unwrap(FieldBool(ent, "visible")), DualFields(ent, parse), ent.width, ent.height)
  }

  function DualAssembly(pos: Result<Component, string>, names: seq<Part>, visible: Result<bool, string>, fields: Result<(string, seq<seq<int>>, real), string>, w: int, h: int): (r: Result<seq<Part>, string>)
    requires fields.Ok? ==> |fields.value.1| == 4
    ensures r.Ok? ==> pos.Ok? && visible.Ok? && fields.Ok?
    ensures r.Ok? ==> |r.value| >= 4 && r.value[0] == Comp(pos.value)
    ensures r.Ok? ==> r.value[|r.value| - 3] == Comp(CSpriteComp(DefaultSpriteComp.(visible := visible.value)))
    ensures r.Ok? ==> r.value[|r.value| - 2].LegacyDualAnims? && r.value[|r.value| - 1] == LegacyAnim(LegacyClip([], 0.0), true)
    ensures r.Ok? <==> (pos.Ok? && visible.Ok? && fields.Ok?
      && DualClips(fields.value.0, fields.value.1, fields.value.2, w, h).Ok?)
    ensures r.Ok? ==> r.value[|r.value| - 2] == DualClips(fields.value.0, fields.value.1, fields.value.2, w, h).value
    ensures r.Ok? ==> r.value[1..|r.value| - 3] == names
    ensures r.Err? && pos.Err? ==> r.error == pos.error
  {
    match pos
    case Err(p) => Err(p)
    case Ok(position) =>
      match visible
      case Err(p) => Err(p)
      case Ok(v) =>
        match fields
        case Err(p) => Err(p)
        case Ok((sheet, cols, spf)) =>
          match DualClips(sheet, cols, spf, w, h)
          case Err(p) => Err(p)
          case Ok(d) =>
            Ok([Comp(position)] + names + [Comp(CSpriteComp(DefaultSpriteComp.(visible := v))), d, LegacyAnim(LegacyClip([], 0.0), true)])
  }

  /** The four clips, cut from the strip in the order the fields are
      named. */
  function DualClips(sheet: string, cols: seq<seq<int>>, spf: real, w: int, h: int): (r: Result<Part, string>)
    requires |cols| == 4
    ensures r.Ok? <==> forall i :: 0 <= i < 4 ==> LegacyFrames(sheet, cols[i], w, h).Ok?
    ensures r.Ok? ==> r.value == LegacyDualAnims(
      LegacyClip(LegacyFrames(sheet, cols[0], w, h).value, spf), LegacyClip(LegacyFrames(sheet, cols[1], w, h).value, spf),
      LegacyClip(LegacyFrames(sheet, cols[2], w, h).value, spf), LegacyClip(LegacyFrames(sheet, cols[3], w, h).value, spf))
  {
    match LegacyFrames(sheet, cols[0], w, h)
    case Err(p) => Err(p)
    case Ok(a) =>
      match LegacyFrames(sheet, cols[1], w, h)
      case Err(p) => Err(p)
      case Ok(b) =>
        match LegacyFrames(sheet, cols[2], w, h)
        case Err(p) => Err(p)
        case Ok(c) =>
          match LegacyFrames(sheet, cols[3], w, h)
          case Err(p) => Err(p)
          case Ok(d) => Ok(LegacyDualAnims(LegacyClip(a, spf), LegacyClip(b, spf), LegacyClip(c, spf), LegacyClip(d, spf)))
  }

  /** `load_character_entity`: position, a solid 14 by 6 pixel collision
      box, name, and, given the required spritesheet, the same walk cycles
      and standing components the current loader gives a character. */
  function CharacterParts(ent: EntityInstance, world: World, level: Level): (r: Result<seq<Part>, string>)
    ensures r.Ok? <==> |ent.px| >= 2 && FieldString(ent, "spritesheet").Some?
    ensures r.Ok? ==> |r.value| >= 7
    ensures r.Ok? ==> r.value[..2] == [Comp(LdtkEntities.PositionOf(ent, world, level).value), Comp(CCollision(LdtkEntities.CharacterCollision))]
    ensures r.Ok? ==> r.value[|r.value| - 5..] == AsParts(LdtkEntities.CharacterComponents(LdtkEntities.CharacterAnimsOf(FieldString(ent, "spritesheet").value)))
  {
    CharacterAssembly(LdtkEntities.PositionOf(ent, world, level), NamePart(ent), CharacterTail(Unwrap(FieldString(ent, "spritesheet"))))
  }

  /** The walk cycles and standing components of a character drawn from
      the given spritesheet. */
  function CharacterTail(sheet: Result<string, string>): (r: Result<seq<Part>, string>)
    ensures r.Ok? <==> sheet.Ok?
    ensures r.Ok? ==> |r.value| == 5 && r.value == AsParts(LdtkEntities.CharacterComponents(LdtkEntities.CharacterAnimsOf(sheet.value)))
  {
    match sheet
    case Err(p) => Err(p)
    case Ok(s) => Ok(AsParts(LdtkEntities.CharacterComponents(LdtkEntities.CharacterAnimsOf(s))))
  }

  function CharacterAssembly(pos: Result<Component, string>, names: seq<Part>, tail: Result<seq<Part>, string>): (r: Result<seq<Part>, string>)
    requires tail.Ok? ==> |tail.value| == 5
    ensures r.Ok? <==> pos.Ok? && tail.Ok?
    ensures r.Ok? ==> |r.value| >= 7
    ensures r.Ok? ==> r.value[..2] == [Comp(pos.value), Comp(CCollision(LdtkEntities.CharacterCollision))]
    ensures r.Ok? ==> r.value[|r.value| - 5..] == tail.value
  {
    match pos
    case Err(p) => Err(p)
    case Ok(position) =>
      match tail
      case Err(p) => Err(p)
      case Ok(t) =>
        var head := [Comp(position), Comp(CCollision(LdtkEntities.CharacterCollision))] + names;
        assert (head + t)[|head + t| - 5..] == t;
        assert (head + t)[..2] == head[..2];
        Ok(head + t)
  }

  function AsParts(cs: seq<Component>): (r: seq<Part>)
    ensures |r| == |cs| && forall i :: 0 <= i < |cs| ==> r[i] == Comp(cs[i])
  {
    seq(|cs|, i requires 0 <= i < |cs| => Comp(cs[i]))
  }

  /** The entity kinds of src/loader.rs; any other identifier, `generic`
      included, is ignored. */
  function LoaderParts(world: World, level: Level, ent: EntityInstance, files: Files, parse: LdtkEntities.Parser, dec: Decoders): (r: Option<Result<seq<Part>, string>>)
    ensures r.None? <==> ent.identifier !in {"simple_script", "simple_anim", "dual_state_anim", "character"}
  {
    if ent.identifier == "simple_script" then Some(SimpleScriptParts(ent, world, level, files, parse, dec))
    else if ent.identifier == "simple_anim" then Some(SimpleAnimParts(ent, world, level, parse))
    else if ent.identifier == "dual_state_anim" then Some(DualParts(ent, world, level, parse))
    else if ent.identifier == "character" then Some(CharacterParts(ent, world, level))
    else None
  }

  // ---------------------------------------------------------------------
  // The loader of src/ecs/loader.rs
  // ---------------------------------------------------------------------

  /** `load_script_entity`: a position on a map known by id (the world's
      map for the `overworld` world, with the level's offset; the level's
      own map otherwise), a non-solid collision box the size of the entity,
      name, and the script class, whose external source is cut at the first
      single `:`. */
  function ScriptEntityParts(world: World, level: Level, ent: EntityInstance, mapIdOf: string -> nat, files: Files, parse: LdtkEntities.Parser, dec: Decoders): (r: Result<seq<Part>, string>)
    ensures r.Ok? <==> |ent.px| >= 2 && ClassOf(ent, files, ":", parse, dec).Ok?
    ensures r.Ok? ==> |r.value| >= 3
    ensures r.Ok? && world.identifier == "overworld" ==>
      r.value[0] == MapPosition(mapIdOf(world.identifier),
        Vec2((ent.px[0] + level.worldX) as real / 16.0, (ent.px[1] + level.worldY) as real / 16.0))
    ensures r.Ok? && world.identifier != "overworld" ==>
      r.value[0] == MapPosition(mapIdOf(level.identifier), Vec2(ent.px[0] as real / 16.0, ent.px[1] as real / 16.0))
    ensures r.Ok? ==> r.value[1] == Comp(CCollision(Collision(LdtkEntities.Hitbox(ent), false)))
    ensures r.Ok? ==> r.value[|r.value| - 1] == Scripts([ClassOf(ent, files, ":", parse, dec).value])
  {
    if |ent.px| < 2 then Err("index out of bounds")
    else
      var pos := if world.identifier == "overworld" then
          MapPosition(mapIdOf(world.identifier), Vec2((ent.px[0] + level.worldX) as real / 16.0, (ent.px[1] + level.worldY) as real / 16.0))
        else MapPosition(mapIdOf(level.identifier), Vec2(ent.px[0] as real / 16.0, ent.px[1] as real / 16.0));
      match ClassOf(ent, files, ":", parse, dec)
      case Err(p) => Err(p)
      case Ok(c) =>
        Ok([pos, Comp(CCollision(Collision(LdtkEntities.Hitbox(ent), false)))] + NamePart(ent) + [Scripts([c])])
  }

  /** Only `script` entities are loaded. */
  function EcsLoaderParts(world: World, level: Level, ent: EntityInstance, mapIdOf: string -> nat, files: Files, parse: LdtkEntities.Parser, dec: Decoders): (r: Option<Result<seq<Part>, string>>)
    ensures r.None? <==> ent.identifier != "script"
    ensures r.Some? ==> r.value == ScriptEntityParts(world, level, ent, mapIdOf, files, parse, dec)
  {
    if ent.identifier == "script" then Some(ScriptEntityParts(world, level, ent, mapIdOf, files, parse, dec)) else None
  }

  /** A `file::label` name, cut at the first single `:` as src/ecs/loader.rs
      does, leaves a `:` in front of the label, where the `::` cut of
      src/loader.rs gives the label itself. */
  lemma ColonCutKeepsColon(f: string, l: string)
    requires !Text.Contains(f, ":")
    ensures SplitOnce(f + "::" + l, ":") == Some((f, ":" + l))
    ensures SplitOnce(f + "::" + l, "::") == Some((f, l))
  {
    var s := f + "::" + l;
    assert s == f + ":" + (":" + l);
    assert OccursAt(s, ":", |f|);
    forall j: nat | j < |f| ensures !OccursAt(s, ":", j) {
      assert s[j..j + 1] == f[j..j + 1];
      assert !OccursAt(f, ":", j);
    }
    var (a, b) := SplitOnce(s, ":").value;
    assert OccursAt(s, ":", |a|);
    assert |a| == |f|;
    assert a == s[..|f|] == f;
    assert b == s[|f| + 1..] == ":" + l;
    assert !Text.Contains(f, "::") by {
      forall j: nat | j + 2 <= |f| ensures !OccursAt(f, "::", j) {
        assert !OccursAt(f, ":", j);
        assert f[j..j + 1] == f[j..j + 2][..1];
      }
    }
    assert f == [] || f[|f| - 1] != ':' by {
      if f != [] {
        assert !OccursAt(f, ":", |f| - 1);
        assert f[|f| - 1..|f|] == [f[|f| - 1]];
      }
    }
    LdtkEntities.CutAtFirstSeparator(f, l);
  }

  // ---------------------------------------------------------------------
  // The whole project
  // ---------------------------------------------------------------------

  /** What a loader makes of one entity instance: nothing, a panic, or the
      components of a new entity. */
  type Plan = (World, Level, EntityInstance) -> Option<Result<seq<Part>, string>>

  /** The entities a run of instances creates, in order; the first panic
      ends the load. */
  function PartsOfAll(world: World, level: Level, ents: seq<EntityInstance>, plan: Plan): (r: Result<seq<seq<Part>>, string>)
    ensures r.Ok? ==> |r.value| <= |ents|
    decreases |ents|
  {
    if ents == [] then Ok([])
    else
      match plan(world, level, ents[0])
      case None => PartsOfAll(world, level, ents[1..], plan)
      case Some(Err(p)) => Err(p)
      case Some(Ok(ps)) =>
        match PartsOfAll(world, level, ents[1..], plan)
        case Err(p) => Err(p)
        case Ok(pss) => Ok([ps] + pss)
  }

  /** Joining two results: the first panic wins. */
  function Join<T>(a: Result<seq<T>, string>, b: Result<seq<T>, string>): (r: Result<seq<T>, string>)
    ensures r.Ok? <==> a.Ok? && b.Ok?
    ensures r.Ok? ==> r.value == a.value + b.value
    ensures a.Err? ==> r == a
  {
    match a
    case Err(p) => Err(p)
    case Ok(x) =>
      match b
      case Err(p) => Err(p)
      case Ok(y) => Ok(x + y)
  }

  /** Two runs of instances give the entities of each, in order. */
  lemma {:induction false} PartsOfAllAppend(world: World, level: Level, a: seq<EntityInstance>, b: seq<EntityInstance>, plan: Plan)
    ensures PartsOfAll(world, level, a + b, plan) == Join(PartsOfAll(world, level, a, plan), PartsOfAll(world, level, b, plan))
    decreases |a|
  {
    if a == [] {
      assert a + b == b;
      var tail := PartsOfAll(world, level, b, plan);
      if tail.Ok? {
        assert [] + tail.value == tail.value;
      }
    } else {
      assert (a + b)[0] == a[0] && (a + b)[1..] == a[1..] + b;
      PartsOfAllAppend(world, level, a[1..], b, plan);
      var rest := PartsOfAll(world, level, a[1..], plan);
      var tail := PartsOfAll(world, level, b, plan);
      match plan(world, level, a[0])
      case None =>
      case Some(Err(p)) =>
      case Some(Ok(ps)) =>
        if rest.Ok? && tail.Ok? {
          assert [ps] + (rest.value + tail.value) == ([ps] + rest.value) + tail.value;
        }
    }
  }

  /** The instances a plan does something with. */
  function Known(world: World, level: Level, ents: seq<EntityInstance>, plan: Plan): (r: seq<EntityInstance>)
    ensures |r| <= |ents|
    ensures forall i :: 0 <= i < |r| ==> r[i] in ents && plan(world, level, r[i]).Some?
    decreases |ents|
  {
    if ents == [] then []
    else (if plan(world, level, ents[0]).Some? then [ents[0]] else []) + Known(world, level, ents[1..], plan)
  }

  /** Ignored instances make no difference, and without a panic there is
      one entity per instance the plan does not ignore. */
  lemma {:induction false} IgnoredInstancesDropOut(world: World, level: Level, ents: seq<EntityInstance>, plan: Plan)
    ensures PartsOfAll(world, level, ents, plan) == PartsOfAll(world, level, Known(world, level, ents, plan), plan)
    ensures PartsOfAll(world, level, ents, plan).Ok? ==> |PartsOfAll(world, level, ents, plan).value| == |Known(world, level, ents, plan)|
    decreases |ents|
  {
    if ents != [] {
      IgnoredInstancesDropOut(world, level, ents[1..], plan);
      var k := Known(world, level, ents, plan);
      if plan(world, level, ents[0]).Some? {
        assert k[0] == ents[0] && k[1..] == Known(world, level, ents[1..], plan);
      } else {
        assert k == Known(world, level, ents[1..], plan);
      }
    }
  }

  /** A level: its layers must be in the project file (`unwrap`); the
      entity instances of all its layers, layer after layer. */
  function LevelParts(world: World, level: Level, plan: Plan): (r: Result<seq<seq<Part>>, string>)
    ensures level.layers.None? ==> r == Err(UnwrapNone)
    ensures level.layers.Some? ==> r == PartsOfAll(world, level, LdtkEntities.Flatten(level.layers.value), plan)
  {
    match level.layers
    case None => Err(UnwrapNone)
    case Some(layers) => PartsOfAll(world, level, LdtkEntities.Flatten(layers), plan)
  }

  /** The levels of a world, in order: the first panic among them ends the
      load, otherwise the entities of every level, level by level. */
  function LevelsParts(world: World, levels: seq<Level>, plan: Plan): (r: Result<seq<seq<Part>>, string>)
    decreases |levels|
    ensures r.Ok? <==> forall i :: 0 <= i < |levels| ==> LevelParts(world, levels[i], plan).Ok?
    ensures r.Err? ==> exists i :: (0 <= i < |levels| && LevelParts(world, levels[i], plan) == r
      && forall j :: 0 <= j < i ==> LevelParts(world, levels[j], plan).Ok?)
  {
    if levels == [] then Ok([])
    else
      var head := LevelParts(world, levels[0], plan);
      var rest := LevelsParts(world, levels[1..], plan);
      assert forall i :: 1 <= i < |levels| ==> levels[i] == levels[1..][i - 1];
      if head.Ok? && rest.Err? then
        var i :| 0 <= i < |levels[1..]| && LevelParts(world, levels[1..][i], plan) == rest
          && forall j :: 0 <= j < i ==> LevelParts(world, levels[1..][j], plan).Ok?;
        assert LevelParts(world, levels[i + 1], plan) == rest;
        Join(head, rest)
      else
        Join(head, rest)
  }

  /** The worlds of a project, in order: the first panic among them ends the
      load, otherwise the entities of every world, world by world. */
  function WorldsParts(worlds: seq<World>, plan: Plan): (r: Result<seq<seq<Part>>, string>)
    decreases |worlds|
    ensures r.Ok? <==> forall i :: 0 <= i < |worlds| ==> LevelsParts(worlds[i], worlds[i].levels, plan).Ok?
  {
    if worlds == [] then Ok([])
    else
      Join(LevelsParts(worlds[0], worlds[0].levels, plan), WorldsParts(worlds[1..], plan))
  }

  /** A panicking load panics as its first panicking world. */
  lemma {:induction false} WorldsPanicIsFirst(worlds: seq<World>, plan: Plan)
    ensures var r := WorldsParts(worlds, plan);
      r.Err? ==> exists i :: (0 <= i < |worlds| && LevelsParts(worlds[i], worlds[i].levels, plan) == r
        && forall j :: 0 <= j < i ==> LevelsParts(worlds[j], worlds[j].levels, plan).Ok?)
    decreases |worlds|
  {
    if worlds != [] {
      var head := LevelsParts(worlds[0], worlds[0].levels, plan);
      var rest := WorldsParts(worlds[1..], plan);
      if head.Err? {
        assert LevelsParts(worlds[0], worlds[0].levels, plan) == WorldsParts(worlds, plan);
      } else if rest.Err? {
        WorldsPanicIsFirst(worlds[1..], plan);
        var i :| 0 <= i < |worlds[1..]| && LevelsParts(worlds[1..][i], worlds[1..][i].levels, plan) == rest
          && forall j :: 0 <= j < i ==> LevelsParts(worlds[1..][j], worlds[1..][j].levels, plan).Ok?;
        assert worlds[i + 1] == worlds[1..][i];
        assert forall j :: 1 <= j < i + 1 ==> worlds[j] == worlds[1..][j - 1];
        assert LevelsParts(worlds[i + 1], worlds[i + 1].levels, plan) == WorldsParts(worlds, plan);
      }
    }
  }

  /** Chaining results is associative. */
  lemma JoinAssociative<T>(a: Result<seq<T>, string>, b: Result<seq<T>, string>, c: Result<seq<T>, string>)
    ensures Join(Join(a, b), c) == Join(a, Join(b, c))
  {
    if a.Ok? && b.Ok? && c.Ok? {
      assert (a.value + b.value) + c.value == a.value + (b.value + c.value);
    }
  }

  /** Loading two runs of levels is loading the first and, unless it panicked,
      then the second; a single level loads as itself. */
  lemma {:induction false} LevelsPartsAppend(world: World, a: seq<Level>, b: seq<Level>, plan: Plan)
    ensures LevelsParts(world, a + b, plan) == Join(LevelsParts(world, a, plan), LevelsParts(world, b, plan))
    decreases |a|
  {
    if a == [] {
      assert a + b == b;
      var rb := LevelsParts(world, b, plan);
      assert rb.Ok? ==> [] + rb.value == rb.value;
    } else {
      assert (a + b)[0] == a[0];
      assert (a + b)[1..] == a[1..] + b;
      LevelsPartsAppend(world, a[1..], b, plan);
      JoinAssociative(LevelParts(world, a[0], plan), LevelsParts(world, a[1..], plan), LevelsParts(world, b, plan));
    }
  }

  /** A single level loads as itself. */
  lemma LevelsPartsOne(world: World, level: Level, plan: Plan)
    ensures LevelsParts(world, [level], plan) == LevelParts(world, level, plan)
  {
    assert [level][1..] == [];
    var r := LevelParts(world, level, plan);
    assert r.Ok? ==> r.value + [] == r.value;
  }

  /** What src/loader.rs does with one entity instance. */
  function LoaderPlan(files: Files, parse: LdtkEntities.Parser, dec: Decoders): Plan {
    (w, l, e) => LoaderParts(w, l, e, files, parse, dec)
  }

  /** What src/ecs/loader.rs does with one entity instance. */
  function ScriptLoaderPlan(mapIdOf: string -> nat, files: Files, parse: LdtkEntities.Parser, dec: Decoders): Plan {
    (w, l, e) => EcsLoaderParts(w, l, e, mapIdOf, files, parse, dec)
  }

  /** `load_entities_from_ldtk` of src/loader.rs: every level of every world,
      in order; the load completes exactly when no level panics (a level
      whose layers are not in the project file panics on `unwrap`). */
  function LoadProject(project: LdtkEntities.Project, files: Files, parse: LdtkEntities.Parser, dec: Decoders): (r: Result<seq<seq<Part>>, string>)
    ensures r.Ok? <==> forall i, j :: 0 <= i < |project.worlds| && 0 <= j < |project.worlds[i].levels| ==>
      LevelParts(project.worlds[i], project.worlds[i].levels[j], LoaderPlan(files, parse, dec)).Ok?
  {
    WorldsParts(project.worlds, LoaderPlan(files, parse, dec))
  }

  /** `load_entities_from_ldtk` of src/ecs/loader.rs: the same walk over
      every level of every world, loading only `script` instances. */
  function LoadScriptProject(project: LdtkEntities.Project, mapIdOf: string -> nat, files: Files, parse: LdtkEntities.Parser, dec: Decoders): (r: Result<seq<seq<Part>>, string>)
    ensures r.Ok? <==> forall i, j :: 0 <= i < |project.worlds| && 0 <= j < |project.worlds[i].levels| ==>
      LevelParts(project.worlds[i], project.worlds[i].levels[j], ScriptLoaderPlan(mapIdOf, files, parse, dec)).Ok?
  {
    WorldsParts(project.worlds, ScriptLoaderPlan(mapIdOf, files, parse, dec))
  }

  /** Of a level of src/ecs/loader.rs, only the `script` instances become
      entities, one each. */
  lemma OnlyScriptsLoaded(world: World, level: Level, mapIdOf: string -> nat, files: Files, parse: LdtkEntities.Parser, dec: Decoders)
    requires level.layers.Some?
    requires LevelParts(world, level, (w, l, e) => EcsLoaderParts(w, l, e, mapIdOf, files, parse, dec)).Ok?
    ensures var plan: Plan := (w, l, e) => EcsLoaderParts(w, l, e, mapIdOf, files, parse, dec);
      var ents := LdtkEntities.Flatten(level.layers.value);
      |LevelParts(world, level, plan).value| == |Known(world, level, ents, plan)|
      && forall i :: 0 <= i < |Known(world, level, ents, plan)| ==> Known(world, level, ents, plan)[i].identifier == "script"
  {
    var plan: Plan := (w, l, e) => EcsLoaderParts(w, l, e, mapIdOf, files, parse, dec);
    IgnoredInstancesDropOut(world, level, LdtkEntities.Flatten(level.layers.value), plan);
  }
}

=== FILE: legacy_script.dfy ===
/** The first script runtime (src/script.rs): script classes carry a trigger
    and story-variable start and abort conditions; an instance runs as a Lua
    coroutine whose wait may also be on a story variable. Any Lua error, and
    any read of a story variable the store lacks, panics the game. */
module LegacyScript {
  import opened Wrappers
  import SlotMap
  import opened Vm
  import StoryVars

  /** `ScriptTrigger`; `None` is spelled `NoTrigger` here. */
  datatype Trigger = Interaction | SoftCollision | HardCollision | Auto | NoTrigger

  /** `ScriptCondition`: a story variable must hold a value. */
  datatype Condition = Condition(storyVar: string, value: int)

  /** `ScriptClass`. */
  datatype ScriptClass = ScriptClass(
    source: string,
    trigger: Trigger,
    startCondition: Option<Condition>,
    abortCondition: Option<Condition>,
    name: Option<string>)

  /** `WaitCondition` of this runtime. */
  datatype Wait = Time(until: int) | Message | StoryVar(key: string, value: int)

  /** The message box of this runtime: it remembers which instance waits on it. */
  datatype Window = Window(message: string, isSelection: bool, waitingScript: SlotMap.Key)

  /** The part of the game an instance update reads besides its own state. */
  datatype Host = Host(storyVars: StoryVars.Vars, messageWindow: Option<Window>)

  datatype Instance = Instance(scriptClass: ScriptClass, thread: Thread, finished: bool, wait: Option<Wait>)

  /** A step either completes or brings the whole game down. */
  datatype Outcome<T> = Done(value: T) | Panicked(reason: string)

  /** `ScriptInstance::new`: not finished, not waiting. */
  function NewInstance(c: ScriptClass, thread: Thread): (r: Instance)
    ensures r.scriptClass == c && !r.finished && r.wait.None?
  {
    Instance(c, thread, false, None)
  }

  /** `HashMap::get(..).unwrap()` on the story variables. */
  function ReadVar(vars: StoryVars.Vars, key: string): (r: Outcome<int>)
    ensures r.Done? <==> key in vars
    ensures r.Done? ==> r.value == vars[key]
  {
    if key in vars then Done(vars[key]) else Panicked("unwrap on a missing story var")
  }

  /** Whether a condition holds; reading a missing variable panics. */
  function Holds(c: Condition, vars: StoryVars.Vars): (r: Outcome<bool>)
    ensures r.Done? <==> c.storyVar in vars
    ensures r.Done? ==> (r.value <==> vars[c.storyVar] == c.value)
  {
    match ReadVar(vars, c.storyVar)
    case Done(v) => Done(v == c.value)
    case Panicked(why) => Panicked(why)
  }

  /** Whether a wait still holds the instance back at time `now`. */
  function Blocks(w: Option<Wait>, h: Host, now: int): (r: Outcome<bool>)
    ensures w.None? ==> r == Done(false)
    ensures w.Some? && w.value.Time? ==> r == Done(w.value.until > now)
    ensures w.Some? && w.value.Message? ==> r == Done(h.messageWindow.Some?)
    ensures w.Some? && w.value.StoryVar? ==>
      (r.Done? <==> w.value.key in h.storyVars)
      && (r.Done? ==> (r.value <==> h.storyVars[w.value.key] != w.value.value))
  {
    match w
    case None => Done(false)
    case Some(Time(until)) => Done(until > now)
    case Some(Message) => Done(h.messageWindow.Some?)
    case Some(StoryVar(key, value)) =>
      match ReadVar(h.storyVars, key)
      case Done(v) => Done(v != value)
      case Panicked(why) => Panicked(why)
  }

  /** `ScriptInstance::update`: an abort condition that holds finishes the
      instance without resuming it; a wait that still blocks skips it;
      otherwise the wait is cleared, the coroutine resumed once, and the
      instance is finished when its thread can no longer be resumed. A Lua
      error panics. */
  function Step(i: Instance, h: Host, now: int, resume: (Thread, Host) -> Resumed<Host, Wait>): (r: Outcome<(Instance, Host)>)
    ensures i.scriptClass.abortCondition.Some? && Holds(i.scriptClass.abortCondition.value, h.storyVars).Panicked? ==> r.Panicked?
    ensures i.scriptClass.abortCondition.Some? && Holds(i.scriptClass.abortCondition.value, h.storyVars) == Done(true) ==>
      r == Done((i.(finished := true), h))
    ensures (i.scriptClass.abortCondition.None? || Holds(i.scriptClass.abortCondition.value, h.storyVars) == Done(false)) ==>
      (Blocks(i.wait, h, now).Panicked? ==> r.Panicked?)
      && (Blocks(i.wait, h, now) == Done(true) ==> r == Done((i, h)))
      && (Blocks(i.wait, h, now) == Done(false) ==>
            var res := resume(i.thread, h);
            (r.Panicked? <==> res.thread.status == Error)
            && (r.Done? ==> r.value.1 == res.host && r.value.0.thread == res.thread && r.value.0.wait == res.wait
                            && (r.value.0.finished <==> res.thread.status == Unresumable)))
  {
    var aborted :=
      match i.scriptClass.abortCondition
      case None => Done(false)
      case Some(c) => Holds(c, h.storyVars);
    match aborted
    case Panicked(why) => Panicked(why)
    case Done(true) => Done((i.(finished := true), h))
    case Done(false) =>
      match Blocks(i.wait, h, now)
      case Panicked(why) => Panicked(why)
      case Done(true) => Done((i, h))
      case Done(false) =>
        var res := resume(i.thread, h);
        if res.thread.status == Error then Panicked("lua error")
        else Done((i.(thread := res.thread, wait := res.wait, finished := Finished(res.thread)), res.host))
  }

  /** An abort condition that holds ends the instance before anything else
      is looked at: no resume, no change to the host. */
  lemma AbortWins(i: Instance, h: Host, now: int, resume: (Thread, Host) -> Resumed<Host, Wait>)
    requires i.scriptClass.abortCondition.Some?
    requires Holds(i.scriptClass.abortCondition.value, h.storyVars) == Done(true)
    ensures Step(i, h, now, resume) == Done((i.(finished := true), h))
  {
  }

  /** A wait that still blocks leaves instance and host as they were. */
  lemma BlockedIsSkipped(i: Instance, h: Host, now: int, resume: (Thread, Host) -> Resumed<Host, Wait>)
    requires i.scriptClass.abortCondition.None? || Holds(i.scriptClass.abortCondition.value, h.storyVars) == Done(false)
    requires Blocks(i.wait, h, now) == Done(true)
    ensures Step(i, h, now, resume) == Done((i, h))
  {
  }

  /** When the instance does run, the wait it had is gone before the resume
      (the resume sees none and installs its own), and afterwards the
      instance is finished exactly when its thread returned. */
  lemma ResumedInstance(i: Instance, h: Host, now: int, resume: (Thread, Host) -> Resumed<Host, Wait>)
    requires i.scriptClass.abortCondition.None? || Holds(i.scriptClass.abortCondition.value, h.storyVars) == Done(false)
    requires Blocks(i.wait, h, now) == Done(false)
    ensures var res := resume(i.thread, h);
      Step(i, h, now, resume).Panicked? <==> res.thread.status == Error
    ensures Step(i, h, now, resume).Done? ==>
      var (i', h') := Step(i, h, now, resume).value;
      var res := resume(i.thread, h);
      i'.wait == res.wait && h' == res.host && (i'.finished <==> res.thread.status == Unresumable)
  {
  }

  /** A story-variable wait blocks until the variable holds its value. */
  lemma StoryVarWaitReleases(key: string, value: int, h: Host, now: int)
    requires key in h.storyVars
    ensures Blocks(Some(StoryVar(key, value)), h, now) == Done(h.storyVars[key] != value)
  {
  }

  // ---------------------------------------------------------------------
  // Picking scripts to start
  // ---------------------------------------------------------------------

  /** A script class qualifies for a trigger when the triggers are equal and
      its start condition is absent or holds. */
  function Qualifies(s: ScriptClass, t: Trigger, vars: StoryVars.Vars): (r: Outcome<bool>)
    ensures s.trigger != t ==> r == Done(false)
    ensures s.trigger == t && s.startCondition.None? ==> r == Done(true)
    ensures s.trigger == t && s.startCondition.Some? ==> r == Holds(s.startCondition.value, vars)
  {
    if s.trigger != t then Done(false)
    else match s.startCondition
      case None => Done(true)
      case Some(c) => Holds(c, vars)
  }

  /** `filter_scripts_by_trigger_and_condition`. */
  function FilterScripts(scripts: seq<ScriptClass>, t: Trigger, vars: StoryVars.Vars): (r: Outcome<seq<ScriptClass>>)
    ensures r.Done? <==> forall j :: 0 <= j < |scripts| ==> Qualifies(scripts[j], t, vars).Done?
    decreases |scripts|
  {
    if scripts == [] then Done([])
    else
      var q := Qualifies(scripts[0], t, vars);
      var rest := FilterScripts(scripts[1..], t, vars);
      assert forall j :: 0 <= j < |scripts[1..]| ==> scripts[1..][j] == scripts[j + 1];
      KeepIf(q, scripts[0], rest)
  }

  /** The filter keeps exactly the qualifying classes. */
  lemma {:induction false} FilterScriptsKeeps(scripts: seq<ScriptClass>, t: Trigger, vars: StoryVars.Vars, s: ScriptClass)
    requires FilterScripts(scripts, t, vars).Done?
    ensures s in FilterScripts(scripts, t, vars).value <==> s in scripts && Qualifies(s, t, vars) == Done(true)
    decreases |scripts|
  {
    if scripts != [] {
      FilterScriptsCons(scripts, t, vars);
      FilterScriptsKeeps(scripts[1..], t, vars, s);
      assert s in scripts <==> s == scripts[0] || s in scripts[1..] by {
        assert scripts == [scripts[0]] + scripts[1..];
      }
    }
  }

  /** One turn of the filter: the class's own verdict is met first. */
  function KeepIf(q: Outcome<bool>, s: ScriptClass, rest: Outcome<seq<ScriptClass>>): Outcome<seq<ScriptClass>> {
    if q.Panicked? then Panicked(q.reason)
    else if rest.Panicked? then Panicked(rest.reason)
    else Done((if q.value then [s] else []) + rest.value)
  }

  /** The filter's first turn. */
  lemma FilterScriptsCons(scripts: seq<ScriptClass>, t: Trigger, vars: StoryVars.Vars)
    requires scripts != []
    ensures FilterScripts(scripts, t, vars) == KeepIf(Qualifies(scripts[0], t, vars), scripts[0], FilterScripts(scripts[1..], t, vars))
  {
  }

  /** The filter keeps input order: filtering a concatenation concatenates
      the filtered parts. */
  lemma {:induction false} FilterScriptsConcat(a: seq<ScriptClass>, b: seq<ScriptClass>, t: Trigger, vars: StoryVars.Vars)
    requires FilterScripts(a, t, vars).Done? && FilterScripts(b, t, vars).Done?
    ensures FilterScripts(a + b, t, vars) == Done(FilterScripts(a, t, vars).value + FilterScripts(b, t, vars).value)
    decreases |a|
  {
    var fb := FilterScripts(b, t, vars).value;
    if a == [] {
      assert a + b == b;
      assert FilterScripts(a, t, vars) == Done([]);
      assert [] + fb == fb;
    } else {
      var ab := a + b;
      assert ab[0] == a[0] && ab[1..] == a[1..] + b;
      FilterScriptsCons(a, t, vars);
      FilterScriptsCons(ab, t, vars);
      FilterScriptsConcat(a[1..], b, t, vars);
      KeepIfAppend(Qualifies(a[0], t, vars), a[0], FilterScripts(a[1..], t, vars).value, fb);
    }
  }

  /** A turn of the filter commutes with appending later results. */
  lemma KeepIfAppend(q: Outcome<bool>, s: ScriptClass, x: seq<ScriptClass>, y: seq<ScriptClass>)
    requires q.Done?
    ensures KeepIf(q, s, Done(x + y)) == Done(KeepIf(q, s, Done(x)).value + y)
  {
    var head := if q.value then [s] else [];
    assert head + (x + y) == (head + x) + y;
  }

  /** A single script is kept exactly when it qualifies. */
  lemma FilterOne(s: ScriptClass, t: Trigger, vars: StoryVars.Vars)
    requires Qualifies(s, t, vars).Done?
    ensures FilterScripts([s], t, vars) == Done(if Qualifies(s, t, vars).value then [s] else [])
  {
    assert [s][1..] == [];
    assert FilterScripts([], t, vars) == Done([]);
    var head: seq<ScriptClass> := if Qualifies(s, t, vars).value then [s] else [];
    assert head + [] == head;
  }
}

=== FILE: named_ecs.dfy ===
/** The older entity store of src/ecs.rs and its near duplicate
    src/new_ecs.rs: entities keyed by a name, each holding at most one
    component of each type. A query names a list of component types; an
    entity passes the filter when it holds all of them, and borrowing the
    components of an entity that lacks one panics. The store's iteration
    order is part of the state, since the source iterates a hash map. */
module NamedEcs {
  import opened Wrappers
  import opened Components

  /** The panic of `Option::unwrap` on `None`. */
  const UnwrapNone := "called `Option::unwrap()` on a `None` value"

  /** An entity: one component per component type. */
  type Entity = map<Tag, Component>

  /** Every component is stored under its own type. */
  predicate Typed(en: Entity) {
    forall t :: t in en ==> TagOf(en[t]) == t
  }

  /** `add_component`: insert, replacing a component of the same type. */
  function AddComponent(en: Entity, c: Component): (r: Entity)
    ensures TagOf(c) in r && r[TagOf(c)] == c
    ensures forall j :: j != TagOf(c) ==> (j in r <==> j in en)
    ensures forall j :: j != TagOf(c) && j in en ==> r[j] == en[j]
    ensures Typed(en) ==> Typed(r)
  {
    en[TagOf(c) := c]
  }

  /** `remove_component`: drop the component of that type, if any. */
  function RemoveComponent(en: Entity, k: Tag): (r: Entity)
    ensures k !in r
    ensures forall j :: j != k ==> (j in r <==> j in en)
    ensures forall j :: j != k && j in en ==> r[j] == en[j]
    ensures Typed(en) ==> Typed(r)
  {
    map j | j in en && j != k :: en[j]
  }

  /** Removing a component undoes adding it, whatever was there before the
      add. */
  lemma RemoveUndoesAdd(en: Entity, c: Component)
    ensures RemoveComponent(AddComponent(en, c), TagOf(c)) == RemoveComponent(en, TagOf(c))
    ensures TagOf(c) !in en ==> RemoveComponent(AddComponent(en, c), TagOf(c)) == en
  {
    var k := TagOf(c);
    var a := RemoveComponent(AddComponent(en, c), k);
    var b := RemoveComponent(en, k);
    assert forall j :: j in a <==> j in b;
    if k !in en {
      assert forall j :: j in a <==> j in en;
    }
  }

  /** Adding twice under one type keeps the second. */
  lemma AddTwiceKeepsSecond(en: Entity, c: Component, d: Component)
    requires TagOf(d) == TagOf(c)
    ensures AddComponent(AddComponent(en, c), d) == AddComponent(en, d)
  {
    var a := AddComponent(AddComponent(en, c), d);
    var b := AddComponent(en, d);
    assert forall j :: j in a <==> j in b;
  }

  /** The filter of a query: the entity holds a component of every type. */
  predicate Holds(en: Entity, q: seq<Tag>) {
    forall i :: 0 <= i < |q| ==> q[i] in en
  }

  /** `get_components` of one entity: the components of the queried types,
      in the query's order; the first missing one panics. */
  function Borrow(en: Entity, q: seq<Tag>): (r: Result<seq<Component>, string>)
    ensures r.Ok? <==> Holds(en, q)
    ensures r.Err? ==> r.error == UnwrapNone
    ensures r.Ok? ==> |r.value| == |q| && forall i :: 0 <= i < |q| ==> r.value[i] == en[q[i]]
    decreases |q|
  {
    if q == [] then Ok([])
    else if q[0] !in en then Err(UnwrapNone)
    else
      match Borrow(en, q[1..])
      case Err(p) => Err(p)
      case Ok(vs) =>
        assert forall i :: 1 <= i < |q| ==> q[i] == q[1..][i - 1];
        Ok([en[q[0]]] + vs)
  }

  /** The store: entities by name, and the order the map iterates them in. */
  datatype Store = Store(entities: map<string, Entity>, order: seq<string>)

  predicate Distinct(ids: seq<string>) {
    forall i, j :: 0 <= i < j < |ids| ==> ids[i] != ids[j]
  }

  /** The iteration order lists every entity once. */
  ghost predicate Valid(s: Store) {
    Distinct(s.order) && forall id :: id in s.entities <==> id in s.order
  }

  /** `filter_entities`: the names, in iteration order, of the entities
      that pass the query's filter. */
  function Filter(order: seq<string>, ents: map<string, Entity>, q: seq<Tag>): (r: seq<string>)
    ensures |r| <= |order|
    ensures forall i :: 0 <= i < |r| ==> r[i] in ents && Holds(ents[r[i]], q)
    decreases |order|
  {
    if order == [] then []
    else if order[0] in ents && Holds(ents[order[0]], q) then [order[0]] + Filter(order[1..], ents, q)
    else Filter(order[1..], ents, q)
  }

  function FilterEntities(s: Store, q: seq<Tag>): (r: seq<string>)
    ensures forall i :: 0 <= i < |r| ==> r[i] in s.entities && Holds(s.entities[r[i]], q)
  {
    Filter(s.order, s.entities, q)
  }

  /** The filter keeps exactly the listed entities that hold every queried
      type. */
  lemma {:induction false} FilterMembers(order: seq<string>, ents: map<string, Entity>, q: seq<Tag>, id: string)
    ensures id in Filter(order, ents, q) <==> id in order && id in ents && Holds(ents[id], q)
    decreases |order|
  {
    if order != [] {
      FilterMembers(order[1..], ents, q, id);
      assert id in order <==> id == order[0] || id in order[1..] by {
        assert order == [order[0]] + order[1..];
      }
    }
  }

  /** The filter lists an entity at most once. */
  lemma {:induction false} FilterDistinct(order: seq<string>, ents: map<string, Entity>, q: seq<Tag>)
    requires Distinct(order)
    ensures Distinct(Filter(order, ents, q))
    decreases |order|
  {
    if order != [] {
      assert Distinct(order[1..]) by {
        assert forall i :: 1 <= i < |order| ==> order[1..][i - 1] == order[i];
      }
      FilterDistinct(order[1..], ents, q);
      var rest := Filter(order[1..], ents, q);
      assert order[0] !in order[1..];
      FilterMembers(order[1..], ents, q, order[0]);
      var r := [order[0]] + rest;
      assert forall i :: 1 <= i < |r| ==> r[i] == rest[i - 1];
    }
  }

  /** A store's filter keeps exactly the entities passing the query. */
  lemma FilterEntitiesExactly(s: Store, q: seq<Tag>, id: string)
    requires Valid(s)
    ensures id in FilterEntities(s, q) <==> id in s.entities && Holds(s.entities[id], q)
    ensures Distinct(FilterEntities(s, q))
  {
    FilterMembers(s.order, s.entities, q, id);
    FilterDistinct(s.order, s.entities, q);
  }

  /** A tuple query filters like its first part followed by its second. */
  lemma {:induction false} FilterConcat(order: seq<string>, ents: map<string, Entity>, q1: seq<Tag>, q2: seq<Tag>)
    ensures Filter(order, ents, q1 + q2) == Filter(Filter(order, ents, q1), ents, q2)
    decreases |order|
  {
    if order != [] {
      FilterConcat(order[1..], ents, q1, q2);
      var id := order[0];
      if id in ents {
        assert Holds(ents[id], q1 + q2) <==> Holds(ents[id], q1) && Holds(ents[id], q2) by {
          var q := q1 + q2;
          assert forall i :: 0 <= i < |q1| ==> q[i] == q1[i];
          assert forall i :: 0 <= i < |q2| ==> q[|q1| + i] == q2[i];
        }
      }
    }
  }

  /** The empty query passes every entity. */
  lemma {:induction false} EmptyQueryKeepsAll(order: seq<string>, ents: map<string, Entity>)
    requires forall i :: 0 <= i < |order| ==> order[i] in ents
    ensures Filter(order, ents, []) == order
    decreases |order|
  {
    if order != [] {
      EmptyQueryKeepsAll(order[1..], ents);
    }
  }

  /** `query`: filter, then borrow each passing entity's components; the
      borrow never finds a component missing, so `query` does not panic on
      that account. One result per passing entity, in the same order. */
  function Query(s: Store, q: seq<Tag>): (r: seq<seq<Component>>)
    ensures |r| == |FilterEntities(s, q)|
    ensures forall i :: 0 <= i < |r| ==> Ok(r[i]) == Borrow(s.entities[FilterEntities(s, q)[i]], q)
  {
    var ids := FilterEntities(s, q);
    seq(|ids|, i requires 0 <= i < |ids| => Borrow(s.entities[ids[i]], q).value)
  }

  /** `query_one`: nothing for an unknown name; otherwise the entity's
      components, which panics if one is missing. */
  function QueryOne(s: Store, id: string, q: seq<Tag>): (r: Option<Result<seq<Component>, string>>)
    ensures r.None? <==> id !in s.entities
    ensures r.Some? ==> (r.value.Err? <==> !Holds(s.entities[id], q))
    ensures r.Some? && r.value.Ok? ==> |r.value.value| == |q| && forall i :: 0 <= i < |q| ==> r.value.value[i] == s.entities[id][q[i]]
  {
    if id in s.entities then Some(Borrow(s.entities[id], q)) else None
  }

  /** `query_one` on a passing entity gives what `query` gives for it. */
  lemma QueryOneAgreesWithQuery(s: Store, q: seq<Tag>, i: nat)
    requires i < |FilterEntities(s, q)|
    ensures QueryOne(s, FilterEntities(s, q)[i], q) == Some(Ok(Query(s, q)[i]))
  {
  }
}

=== FILE: prototype.dfy ===
/** The unfinished single-Lua-state runtime (src/script_new.rs). It reads only
    the `@script` name from the header, resumes instances inside one shared
    scope so that the first Lua error ends the loop for the frame, and keeps
    only resumable instances afterwards. Its time-wait check is reversed
    compared with src/script/script.rs; both the code as written and the
    corrected check are modelled here. */
module Prototype {
  import opened Wrappers
  import SlotMap
  import opened Vm
  import opened Game
  import opened Text
  import opened ScriptText
  import Scheduler
  import LegacyScript

  datatype Instance = Instance(thread: Thread, name: Option<string>, wait: Option<WaitCondition>)

  /** One resume with the single-script callbacks bound: only the message box
      is reachable from this runtime. */
  type Resume = (Thread, Option<MessageWindow>) -> Resumed<Option<MessageWindow>, WaitCondition>

  // ---------------------------------------------------------------------
  // Starting
  // ---------------------------------------------------------------------

  /** The name loop of `start_script`: every header line is split at its first
      space, and one without a space panics at the `unwrap`; `@script` sets
      the name, anything else is ignored. */
  function HeaderName(name: Option<string>, lines: seq<string>): (r: LegacyScript.Outcome<Option<string>>)
    requires forall k :: 0 <= k < |lines| ==> IsAnnotation(lines[k])
    ensures r.Panicked? <==> exists k :: 0 <= k < |lines| && ParseAnnotation(lines[k]).1.None?
    decreases |lines|
  {
    if lines == [] then LegacyScript.Done(name)
    else
      var (key, val) := ParseAnnotation(lines[0]);
      assert forall k :: 0 <= k < |lines[1..]| ==> lines[1..][k] == lines[k + 1];
      if val.None? then LegacyScript.Panicked("annotation without a space")
      else
        var rest := HeaderName(if key == "@script" then val else name, lines[1..]);
        assert rest.Panicked? <==> exists k :: 0 < k < |lines| && ParseAnnotation(lines[k]).1.None? by {
          if rest.Panicked? {
            var k :| 0 <= k < |lines[1..]| && ParseAnnotation(lines[1..][k]).1.None?;
            assert ParseAnnotation(lines[k + 1]).1.None?;
          }
        }
        rest
  }

  /** When the header has a space on every line, the prototype reads the same
      name as `extract_metadata` of the current runtime. */
  lemma {:induction false} HeaderNameAgrees(m: Metadata, lines: seq<string>)
    requires forall k :: 0 <= k < |lines| ==> IsAnnotation(lines[k])
    requires HeaderName(m.name, lines).Done?
    ensures HeaderName(m.name, lines).value == ApplyAll(m, lines).name
    decreases |lines|
  {
    if lines != [] {
      var (key, val) := ParseAnnotation(lines[0]);
      var m' := ApplyAnnotation(m, lines[0]);
      assert m'.name == (if key == "@script" then val else m.name);
      HeaderNameAgrees(m', lines[1..]);
    }
  }

  /** `start_script`: read the name, then compile; a compile error is
      dropped and nothing is started. */
  function StartScript(ins: SlotMap.SlotMap<Instance>, source: string, compile: string -> Option<Thread>): (r: LegacyScript.Outcome<SlotMap.SlotMap<Instance>>)
    requires SlotMap.Valid(ins)
    ensures r.Panicked? <==> HeaderName(None, LeadingAnnotations(Lines(source))).Panicked?
    ensures r.Done? ==> SlotMap.Valid(r.value)
    ensures r.Done? && compile(source).None? ==> r.value == ins
    ensures r.Done? && compile(source).Some? ==>
      exists k :: !SlotMap.Contains(ins, k)
        && SlotMap.Get(r.value, k) == Some(Instance(compile(source).value, ExtractMetadata(source).name, None))
        && forall k' :: k' != k ==> SlotMap.Get(r.value, k') == SlotMap.Get(ins, k')
  {
    var lines := LeadingAnnotations(Lines(source));
    match HeaderName(None, lines)
    case Panicked(why) => LegacyScript.Panicked(why)
    case Done(name) =>
      HeaderNameAgrees(NoMetadata, lines);
      match compile(source)
      case None => LegacyScript.Done(ins)
      case Some(t) =>
        var (r, k) := SlotMap.Insert(ins, Instance(t, name, None));
        LegacyScript.Done(r)
  }

  // ---------------------------------------------------------------------
  // Updating
  // ---------------------------------------------------------------------

  /** The wait check as written: a `Time` wait clears while its deadline is
      still in the future. */
  function ClearWaitAsWritten(w: Option<WaitCondition>, window: Option<MessageWindow>, now: int): (r: Option<WaitCondition>)
    ensures r.Some? ==> r == w
    ensures r.None? <==> w.None? || (w.value.Time? && w.value.until > now) || (w.value.Message? && window.None?)
  {
    match w
    case Some(Time(until)) => if until > now then None else w
    case Some(Message) => if window.None? then None else w
    case None => None
  }

  /** A wait check: what is left of a wait given the message box and the
      current time. */
  type Clear = (Option<WaitCondition>, Option<MessageWindow>, int) -> Option<WaitCondition>

  /** Where the instance loop stands: the instances, the message box, and
      whether a resume has raised, which ends the shared scope with an error
      that `update` only logs. */
  datatype Sweep = Sweep(instances: SlotMap.SlotMap<Instance>, window: Option<MessageWindow>, raised: bool)

  /** One turn of the instance loop at key `k`: an absent key or an instance
      still waiting is passed over (keeping what is left of its wait); any
      other instance is resumed once, and the resume raising is reported. */
  function Visit(ins: SlotMap.SlotMap<Instance>, k: SlotMap.Key, window: Option<MessageWindow>, now: int,
                 resume: Resume, clear: Clear): (r: Sweep)
    requires SlotMap.Valid(ins)
    ensures SlotMap.Valid(r.instances)
    ensures forall k' :: SlotMap.Contains(r.instances, k') <==> SlotMap.Contains(ins, k')
    ensures forall k' :: k' != k ==> SlotMap.Get(r.instances, k') == SlotMap.Get(ins, k')
    ensures r.raised <==> (SlotMap.Get(ins, k).Some? && clear(SlotMap.Get(ins, k).value.wait, window, now).None?
                           && resume(SlotMap.Get(ins, k).value.thread, window).thread.status == Error)
    ensures SlotMap.Get(ins, k).None? || clear(SlotMap.Get(ins, k).value.wait, window, now).Some? ==> r.window == window
    ensures SlotMap.Get(ins, k).Some? && clear(SlotMap.Get(ins, k).value.wait, window, now).None? ==>
      var res := resume(SlotMap.Get(ins, k).value.thread, window);
      r.window == res.host && SlotMap.Get(r.instances, k) == Some(SlotMap.Get(ins, k).value.(thread := res.thread, wait := res.wait))
  {
    match SlotMap.Get(ins, k)
    case None => Sweep(ins, window, false)
    case Some(i) =>
      var w := clear(i.wait, window, now);
      if w.Some? then Sweep(SlotMap.Set(ins, k, i.(wait := w)), window, false)
      else
        var res := resume(i.thread, window);
        Sweep(SlotMap.Set(ins, k, i.(thread := res.thread, wait := res.wait)), res.host, res.thread.status == Error)
  }

  /** The instance loop over `ks`: visit each key in turn, threading the
      message box; the first resume that raises ends the loop, leaving the
      rest of the instances untouched this frame. `clear` is the wait
      check. */
  function StepAll(ins: SlotMap.SlotMap<Instance>, ks: seq<SlotMap.Key>, window: Option<MessageWindow>, now: int,
                   resume: Resume, clear: Clear): (r: Sweep)
    requires SlotMap.Valid(ins)
    ensures SlotMap.Valid(r.instances)
    ensures forall k :: SlotMap.Contains(r.instances, k) <==> SlotMap.Contains(ins, k)
    ensures forall k :: k !in ks ==> SlotMap.Get(r.instances, k) == SlotMap.Get(ins, k)
    ensures ks != [] && Visit(ins, ks[0], window, now, resume, clear).raised ==> r == Visit(ins, ks[0], window, now, resume, clear)
    decreases |ks|
  {
    if ks == [] then Sweep(ins, window, false)
    else
      var v := Visit(ins, ks[0], window, now, resume, clear);
      if v.raised then v
      else StepAll(v.instances, ks[1..], v.window, now, resume, clear)
  }

  /** Visiting two runs of keys is visiting the first run and, unless a
      resume in it raised, then the second from where the first left off. */
  lemma {:induction false} StepAllConcat(ins: SlotMap.SlotMap<Instance>, a: seq<SlotMap.Key>, b: seq<SlotMap.Key>,
                                         window: Option<MessageWindow>, now: int, resume: Resume, clear: Clear)
    requires SlotMap.Valid(ins)
    ensures var first := StepAll(ins, a, window, now, resume, clear);
      StepAll(ins, a + b, window, now, resume, clear)
        == if first.raised then first else StepAll(first.instances, b, first.window, now, resume, clear)
    decreases |a|
  {
    if a == [] {
      assert a + b == b;
    } else {
      assert (a + b)[0] == a[0] && (a + b)[1..] == a[1..] + b;
      var v := Visit(ins, a[0], window, now, resume, clear);
      if !v.raised {
        StepAllConcat(v.instances, a[1..], b, v.window, now, resume, clear);
      }
    }
  }

  /** The loop reaches the key at position `j` with the instances and the
      message box the earlier keys left, unless a resume among those raised;
      the visit there decides what the loop has done once it is past `j`. */
  lemma StepAllPrefix(ins: SlotMap.SlotMap<Instance>, ks: seq<SlotMap.Key>, j: nat,
                      window: Option<MessageWindow>, now: int, resume: Resume, clear: Clear)
    requires SlotMap.Valid(ins) && j < |ks|
    ensures var before := StepAll(ins, ks[..j], window, now, resume, clear);
      StepAll(ins, ks[..j + 1], window, now, resume, clear)
        == if before.raised then before else Visit(before.instances, ks[j], before.window, now, resume, clear)
  {
    assert ks[..j + 1] == ks[..j] + [ks[j]];
    StepAllConcat(ins, ks[..j], [ks[j]], window, now, resume, clear);
    assert [ks[j]][1..] == [];
  }

  /** The early exit: once the resume at position `j` has raised, the loop
      ends there. The message box is the one that resume left, and every
      instance after position `j` is exactly as it was before the loop. */
  lemma StepAllStopsAtRaise(ins: SlotMap.SlotMap<Instance>, ks: seq<SlotMap.Key>, j: nat,
                            window: Option<MessageWindow>, now: int, resume: Resume, clear: Clear)
    requires SlotMap.Valid(ins) && SlotMap.DistinctIndices(ks) && j < |ks|
    requires StepAll(ins, ks[..j + 1], window, now, resume, clear).raised
    ensures var upTo := StepAll(ins, ks[..j + 1], window, now, resume, clear);
      StepAll(ins, ks, window, now, resume, clear) == upTo
    ensures forall n :: j < n < |ks| ==>
      SlotMap.Get(StepAll(ins, ks, window, now, resume, clear).instances, ks[n]) == SlotMap.Get(ins, ks[n])
  {
    StepAllEndsAtRaise(ins, ks, j, window, now, resume, clear);
    var upTo := StepAll(ins, ks[..j + 1], window, now, resume, clear);
    forall n | j < n < |ks| ensures SlotMap.Get(upTo.instances, ks[n]) == SlotMap.Get(ins, ks[n]) {
      LaterKeyNotBefore(ks, j, n);
    }
  }

  /** Once a resume has raised, the keys after it change nothing. */
  lemma StepAllEndsAtRaise(ins: SlotMap.SlotMap<Instance>, ks: seq<SlotMap.Key>, j: nat,
                           window: Option<MessageWindow>, now: int, resume: Resume, clear: Clear)
    requires SlotMap.Valid(ins) && j < |ks|
    requires StepAll(ins, ks[..j + 1], window, now, resume, clear).raised
    ensures StepAll(ins, ks, window, now, resume, clear) == StepAll(ins, ks[..j + 1], window, now, resume, clear)
  {
    CutKeys(ks, j + 1);
    StepAllConcat(ins, ks[..j + 1], ks[j + 1..], window, now, resume, clear);
  }

  /** A key list is its keys before a position followed by the rest. */
  lemma CutKeys(ks: seq<SlotMap.Key>, i: nat)
    requires i <= |ks|
    ensures ks == ks[..i] + ks[i..]
  {
  }

  /** A key of a list naming distinct slots is not among the keys up to an
      earlier position. */
  lemma LaterKeyNotBefore(ks: seq<SlotMap.Key>, j: nat, n: nat)
    requires SlotMap.DistinctIndices(ks) && j < n < |ks|
    ensures ks[n] !in ks[..j + 1]
  {
    SlotMap.KeyOccursOnce(ks, n);
    assert ks[..j + 1] == ks[..n][..j + 1];
  }

  /** `update` with a given wait check: the loop, whose error is only
      logged, then `retain` of the resumable instances. */
  function UpdateWith(ins: SlotMap.SlotMap<Instance>, window: Option<MessageWindow>, now: int, resume: Resume,
                      clear: Clear): (r: (SlotMap.SlotMap<Instance>, Option<MessageWindow>))
    requires SlotMap.Valid(ins)
    ensures SlotMap.Valid(r.0)
    ensures forall k :: SlotMap.Get(r.0, k).Some? ==> SlotMap.Get(r.0, k).value.thread.status == Resumable
    ensures var swept := StepAll(ins, SlotMap.Keys(ins), window, now, resume, clear);
      r.1 == swept.window
      && (forall k :: SlotMap.Get(r.0, k)
            == (if SlotMap.Get(swept.instances, k).Some? && SlotMap.Get(swept.instances, k).value.thread.status == Resumable
                then SlotMap.Get(swept.instances, k) else None))
  {
    var swept := StepAll(ins, SlotMap.Keys(ins), window, now, resume, clear);
    (SlotMap.Retain(swept.instances, (i: Instance) => i.thread.status == Resumable), swept.window)
  }

  /** `update` as written. */
  function UpdateAsWritten(ins: SlotMap.SlotMap<Instance>, window: Option<MessageWindow>, now: int, resume: Resume): (r: (SlotMap.SlotMap<Instance>, Option<MessageWindow>))
    requires SlotMap.Valid(ins)
    ensures SlotMap.Valid(r.0)
    ensures forall k :: SlotMap.Get(r.0, k).Some? ==> SlotMap.Get(r.0, k).value.thread.status == Resumable
    ensures var swept := StepAll(ins, SlotMap.Keys(ins), window, now, resume, ClearWaitAsWritten);
      r.1 == swept.window
      && (forall k :: SlotMap.Get(r.0, k)
            == (if SlotMap.Get(swept.instances, k).Some? && SlotMap.Get(swept.instances, k).value.thread.status == Resumable
                then SlotMap.Get(swept.instances, k) else None))
  {
    UpdateWith(ins, window, now, resume, ClearWaitAsWritten)
  }

  /** `update` with the deadline check of src/script/script.rs. */
  function Update(ins: SlotMap.SlotMap<Instance>, window: Option<MessageWindow>, now: int, resume: Resume): (r: (SlotMap.SlotMap<Instance>, Option<MessageWindow>))
    requires SlotMap.Valid(ins)
    ensures SlotMap.Valid(r.0)
    ensures forall k :: SlotMap.Get(r.0, k).Some? ==> SlotMap.Get(r.0, k).value.thread.status == Resumable
    ensures var swept := StepAll(ins, SlotMap.Keys(ins), window, now, resume, Scheduler.ClearWait);
      r.1 == swept.window
      && (forall k :: SlotMap.Get(r.0, k)
            == (if SlotMap.Get(swept.instances, k).Some? && SlotMap.Get(swept.instances, k).value.thread.status == Resumable
                then SlotMap.Get(swept.instances, k) else None))
  {
    UpdateWith(ins, window, now, resume, Scheduler.ClearWait)
  }

  /** The reversed check: a script that asked to sleep until a future time
      is resumed at once, and once its deadline has passed it can never be
      resumed again. */
  lemma TimeWaitReversed(until: int, now: int, later: int, window: Option<MessageWindow>)
    requires now < until <= later
    ensures ClearWaitAsWritten(Some(Time(until)), window, now).None?
    ensures ClearWaitAsWritten(Some(Time(until)), window, later) == Some(Time(until))
  {
  }

  /** The corrected check sleeps until the deadline has strictly passed and
      then releases. */
  lemma TimeWaitCorrected(until: int, now: int, later: int, window: Option<MessageWindow>)
    requires now <= until < later
    ensures Scheduler.ClearWait(Some(Time(until)), window, now) == Some(Time(until))
    ensures Scheduler.ClearWait(Some(Time(until)), window, later).None?
  {
  }

  /** Message waits are handled alike by the two checks; time waits agree
      on no instant at all except where neither deadline side applies. */
  lemma ChecksCompared(w: Option<WaitCondition>, window: Option<MessageWindow>, now: int)
    ensures w.None? || w.value.Message? ==> ClearWaitAsWritten(w, window, now) == Scheduler.ClearWait(w, window, now)
    ensures w.Some? && w.value.Time? && w.value.until != now ==>
      (ClearWaitAsWritten(w, window, now).None? <==> Scheduler.ClearWait(w, window, now).Some?)
  {
  }

  /** The current runtime's check against the first runtime's: they agree
      on message waits, and on time waits except at the exact deadline,
      where the first runtime already resumes. */
  lemma CurrentAgreesWithLegacy(until: int, h: LegacyScript.Host, window: Option<MessageWindow>, now: int)
    requires h.messageWindow.Some? <==> window.Some?
    ensures LegacyScript.Blocks(Some(LegacyScript.Message), h, now).value <==> Scheduler.ClearWait(Some(Message), window, now).Some?
    ensures until != now ==>
      (LegacyScript.Blocks(Some(LegacyScript.Time(until)), h, now).value <==> Scheduler.ClearWait(Some(Time(until)), window, now).Some?)
    ensures LegacyScript.Blocks(Some(LegacyScript.Time(now)), h, now) == LegacyScript.Done(false)
    ensures Scheduler.ClearWait(Some(Time(now)), window, now) == Some(Time(now))
  {
  }
}

=== FILE: scheduler.dfy ===
/** The current script runtime (src/script/script.rs): a FIFO queue of
    sources waiting to start and a slot map of running instances. Each frame
    the queue is drained through the start gate, every instance whose wait
    has cleared is resumed once in slot order, and every instance whose
    thread can no longer be resumed is dropped. */
module Scheduler {
  import opened Wrappers
  import SlotMap
  import opened Vm
  import opened Game
  import opened ScriptText

  datatype Instance = Instance(thread: Thread, source: string, name: Option<string>, wait: Option<WaitCondition>)

  datatype Manager = Manager(instances: SlotMap.SlotMap<Instance>, startQueue: seq<string>)

  /** The parts of the engine this module calls but does not model: loading
      a source into a fresh Lua state (with its prelude), the boolean
      expression evaluator behind start conditions, and one resume of a
      thread with the callbacks bound to the host. */
  datatype Oracles = Oracles(
    compile: string -> Option<Thread>,
    evalBool: string -> Result<bool, string>,
    resume: (Thread, Host) -> Resumed<Host, WaitCondition>)

  ghost predicate Valid(m: Manager) {
    SlotMap.Valid(m.instances)
  }

  /** `ScriptManager::new`. */
  function New(): (r: Manager)
    ensures Valid(r) && SlotMap.Keys(r.instances) == [] && r.startQueue == []
  {
    Manager(SlotMap.Empty(), [])
  }

  /** `queue_script`: the source goes to the back of the queue; no instance
      exists until the next `update` drains it. */
  function QueueScript(m: Manager, source: string): (r: Manager)
    ensures r.instances == m.instances
    ensures |r.startQueue| == |m.startQueue| + 1
    ensures r.startQueue[..|m.startQueue|] == m.startQueue && r.startQueue[|m.startQueue|..] == [source]
  {
    m.(startQueue := m.startQueue + [source])
  }

  // ---------------------------------------------------------------------
  // Starting
  // ---------------------------------------------------------------------

  /** Some running instance carries `name`. */
  predicate NameRunning(ins: SlotMap.SlotMap<Instance>, name: string) {
    exists v :: v in SlotMap.Values(ins) && v.name == Some(name)
  }

  lemma RunningIfStored(ins: SlotMap.SlotMap<Instance>, k: SlotMap.Key, name: string)
    requires SlotMap.Get(ins, k).Some? && SlotMap.Get(ins, k).value.name == Some(name)
    ensures NameRunning(ins, name)
  {
    var ks := SlotMap.Keys(ins);
    assert k in ks;
    var j :| 0 <= j < |ks| && ks[j] == k;
    assert SlotMap.Values(ins)[j] == SlotMap.Get(ins, k).value;
  }

  lemma StoredIfRunning(ins: SlotMap.SlotMap<Instance>, name: string)
    requires NameRunning(ins, name)
    ensures exists k :: SlotMap.Get(ins, k).Some? && SlotMap.Get(ins, k).value.name == Some(name)
  {
    var vs := SlotMap.Values(ins);
    var j :| 0 <= j < |vs| && vs[j].name == Some(name);
    assert SlotMap.Get(ins, SlotMap.Keys(ins)[j]) == Some(vs[j]);
  }

  /** The start condition lets the script start: absent, or evaluated to
      `true`. A condition that fails to evaluate blocks, like `false`. */
  function ConditionAllows(md: Metadata, vars: map<string, int>, evalBool: string -> Result<bool, string>): (r: bool)
    ensures md.startCondition.None? ==> r
    ensures md.startCondition.Some? ==> (r <==> EvaluateCondition(md.startCondition.value, vars, evalBool) == Ok(true))
  {
    match md.startCondition
    case None => true
    case Some(c) => EvaluateCondition(c, vars, evalBool) == Ok(true)
  }

  /** The exclusivity rule: an `@exclusive` script is held back while an
      instance of the same name runs. Without a name nothing holds it back. */
  predicate ExclusiveBlocks(md: Metadata, ins: SlotMap.SlotMap<Instance>) {
    md.exclusive && md.name.Some? && NameRunning(ins, md.name.value)
  }

  /** `start_script`: gate on the start condition, then on exclusivity, then
      compile; only if all three pass is a new instance inserted, named after
      the `@script` annotation and waiting on nothing. */
  function StartScript(ins: SlotMap.SlotMap<Instance>, source: string, vars: map<string, int>, o: Oracles): (r: SlotMap.SlotMap<Instance>)
    requires SlotMap.Valid(ins)
    ensures SlotMap.Valid(r)
    ensures forall k :: SlotMap.Contains(ins, k) ==> SlotMap.Get(r, k) == SlotMap.Get(ins, k)
    ensures var md := ExtractMetadata(source);
      !ConditionAllows(md, vars, o.evalBool) || ExclusiveBlocks(md, ins) || o.compile(source).None? ==> r == ins
    ensures var md := ExtractMetadata(source);
      ConditionAllows(md, vars, o.evalBool) && !ExclusiveBlocks(md, ins) && o.compile(source).Some? ==>
        exists k :: !SlotMap.Contains(ins, k)
          && SlotMap.Get(r, k) == Some(Instance(o.compile(source).value, source, md.name, None))
          && forall k' :: k' != k ==> SlotMap.Get(r, k') == SlotMap.Get(ins, k')
  {
    var md := ExtractMetadata(source);
    if !ConditionAllows(md, vars, o.evalBool) then ins
    else if ExclusiveBlocks(md, ins) then ins
    else match o.compile(source)
      case None => ins
      case Some(t) =>
        var (r, k) := SlotMap.Insert(ins, Instance(t, source, md.name, None));
        r
  }

  /** Draining the queue: start each source in order. */
  function StartAll(ins: SlotMap.SlotMap<Instance>, queue: seq<string>, vars: map<string, int>, o: Oracles): (r: SlotMap.SlotMap<Instance>)
    requires SlotMap.Valid(ins)
    ensures SlotMap.Valid(r)
    ensures forall k :: SlotMap.Contains(ins, k) ==> SlotMap.Get(r, k) == SlotMap.Get(ins, k)
    ensures forall k :: SlotMap.Contains(r, k) && !SlotMap.Contains(ins, k) ==> SlotMap.Get(r, k).value.wait.None?
    decreases |queue|
  {
    if queue == [] then ins
    else StartAll(StartScript(ins, queue[0], vars, o), queue[1..], vars, o)
  }

  /** Draining two queued batches is draining the first, then the second:
      sources start strictly in the order they were queued. */
  lemma {:induction false} StartAllConcat(ins: SlotMap.SlotMap<Instance>, q1: seq<string>, q2: seq<string>, vars: map<string, int>, o: Oracles)
    requires SlotMap.Valid(ins)
    ensures StartAll(ins, q1 + q2, vars, o) == StartAll(StartAll(ins, q1, vars, o), q2, vars, o)
    decreases |q1|
  {
    if q1 != [] {
      assert (q1 + q2)[0] == q1[0] && (q1 + q2)[1..] == q1[1..] + q2;
      StartAllConcat(StartScript(ins, q1[0], vars, o), q1[1..], q2, vars, o);
    } else {
      assert q1 + q2 == q2;
    }
  }

  /** A queued source is started after everything queued before it. */
  lemma QueuedLastStartsLast(m: Manager, source: string, vars: map<string, int>, o: Oracles)
    requires Valid(m)
    ensures StartAll(m.instances, QueueScript(m, source).startQueue, vars, o)
      == StartScript(StartAll(m.instances, m.startQueue, vars, o), source, vars, o)
  {
    StartAllConcat(m.instances, m.startQueue, [source], vars, o);
  }

  /** Starting an exclusive named script a second time has no effect, so a
      queue holding it twice creates at most one instance. */
  lemma ExclusiveStartsOnce(ins: SlotMap.SlotMap<Instance>, source: string, vars: map<string, int>, o: Oracles)
    requires SlotMap.Valid(ins)
    requires ExtractMetadata(source).exclusive && ExtractMetadata(source).name.Some?
    ensures var once := StartScript(ins, source, vars, o);
      StartScript(once, source, vars, o) == once
  {
    var md := ExtractMetadata(source);
    var once := StartScript(ins, source, vars, o);
    if once != ins {
      var k :| !SlotMap.Contains(ins, k)
          && SlotMap.Get(once, k) == Some(Instance(o.compile(source).value, source, md.name, None));
      RunningIfStored(once, k, md.name.value);
    }
  }

  /** An exclusive script with no name is still started: exclusivity needs a
      name to compare. */
  lemma UnnamedExclusiveStarts(ins: SlotMap.SlotMap<Instance>, source: string, vars: map<string, int>, o: Oracles)
    requires SlotMap.Valid(ins)
    requires ExtractMetadata(source).name.None?
    requires ConditionAllows(ExtractMetadata(source), vars, o.evalBool) && o.compile(source).Some?
    ensures SlotMap.Len(StartScript(ins, source, vars, o)) == SlotMap.Len(ins) + 1
  {
    var md := ExtractMetadata(source);
    var r := StartScript(ins, source, vars, o);
    var k :| !SlotMap.Contains(ins, k)
          && SlotMap.Get(r, k) == Some(Instance(o.compile(source).value, source, md.name, None))
          && forall k' :: k' != k ==> SlotMap.Get(r, k') == SlotMap.Get(ins, k');
    SlotMap.KeysAddOne(ins, r, k);
  }

  /** A start condition naming a story variable the store lacks never lets
      the script start, whatever the evaluator would have said. */
  lemma MissingConditionVarBlocksStart(ins: SlotMap.SlotMap<Instance>, source: string, vars: map<string, int>, o: Oracles)
    requires SlotMap.Valid(ins)
    requires ExtractMetadata(source).startCondition.Some?
    requires MissingKey(ExtractMetadata(source).startCondition.value, vars)
    ensures StartScript(ins, source, vars, o) == ins
  {
    SubstitutionFailsIffMissingKey(ExtractMetadata(source).startCondition.value, vars);
  }

  // ---------------------------------------------------------------------
  // Updating
  // ---------------------------------------------------------------------

  /** The wait left after this frame's check: a deadline strictly in the
      past, or a message wait with no box open, clears. */
  function ClearWait(w: Option<WaitCondition>, window: Option<MessageWindow>, now: int): (r: Option<WaitCondition>)
    ensures r.Some? ==> r == w
    ensures r.None? <==> w.None? || (w.value.Time? && w.value.until < now) || (w.value.Message? && window.None?)
  {
    match w
    case Some(Time(until)) => if until < now then None else w
    case Some(Message) => if window.None? then None else w
    case None => None
  }

  /** A deadline not yet strictly passed. */
  predicate TimeBlocked(w: Option<WaitCondition>, now: int) {
    w.Some? && w.value.Time? && now <= w.value.until
  }

  /** `ScriptInstance::update`: clear the wait if it is satisfied; if a wait
      remains, do nothing; otherwise resume the thread once with the
      callbacks bound. A resume error ends up in the thread's status and is
      not propagated. */
  function Step(i: Instance, h: Host, now: int, o: Oracles): (r: (Instance, Host))
    ensures ClearWait(i.wait, h.messageWindow, now).Some? ==> r == (i, h)
    ensures ClearWait(i.wait, h.messageWindow, now).None? ==>
      var res := o.resume(i.thread, h);
      r.0 == i.(thread := res.thread, wait := res.wait) && r.1 == res.host
  {
    if ClearWait(i.wait, h.messageWindow, now).Some? then (i, h)
    else
      var res := o.resume(i.thread, h);
      (i.(thread := res.thread, wait := res.wait), res.host)
  }

  /** A deadline that has not passed keeps the instance asleep whatever the
      host looks like. */
  lemma TimeBlockedSleeps(i: Instance, h: Host, now: int, o: Oracles)
    requires TimeBlocked(i.wait, now)
    ensures Step(i, h, now, o) == (i, h)
  {
  }

  /** The instance loop of `update`: visit `ks` in order, stepping each live
      instance and threading the host from one to the next. */
  function StepAll(ins: SlotMap.SlotMap<Instance>, ks: seq<SlotMap.Key>, h: Host, now: int, o: Oracles): (r: (SlotMap.SlotMap<Instance>, Host))
    requires SlotMap.Valid(ins)
    ensures SlotMap.Valid(r.0)
    ensures forall k :: SlotMap.Contains(r.0, k) <==> SlotMap.Contains(ins, k)
    ensures forall k :: k !in ks ==> SlotMap.Get(r.0, k) == SlotMap.Get(ins, k)
    ensures forall k :: SlotMap.Get(ins, k).Some? && TimeBlocked(SlotMap.Get(ins, k).value.wait, now) ==>
      SlotMap.Get(r.0, k) == SlotMap.Get(ins, k)
    decreases |ks|
  {
    if ks == [] then (ins, h)
    else match SlotMap.Get(ins, ks[0])
      case None => StepAll(ins, ks[1..], h, now, o)
      case Some(i) =>
        var (i', h') := Step(i, h, now, o);
        StepAll(SlotMap.Set(ins, ks[0], i'), ks[1..], h', now, o)
  }

  /** Visiting two runs of keys is visiting the first run, then the second
      from where the first left the instances and the host. */
  lemma {:induction false} StepAllConcat(ins: SlotMap.SlotMap<Instance>, a: seq<SlotMap.Key>, b: seq<SlotMap.Key>, h: Host, now: int, o: Oracles)
    requires SlotMap.Valid(ins)
    ensures var first := StepAll(ins, a, h, now, o);
      StepAll(ins, a + b, h, now, o) == StepAll(first.0, b, first.1, now, o)
    decreases |a|
  {
    if a == [] {
      assert a + b == b;
    } else {
      assert (a + b)[0] == a[0] && (a + b)[1..] == a[1..] + b;
      match SlotMap.Get(ins, a[0])
      case None =>
        StepAllConcat(ins, a[1..], b, h, now, o);
      case Some(i) =>
        var (i', h') := Step(i, h, now, o);
        StepAllConcat(SlotMap.Set(ins, a[0], i'), a[1..], b, h', now, o);
    }
  }

  /** The loop steps the live instance at position `j` exactly once, with
      the host left by the instances visited before it, and hands the host
      that step leaves on to the instance after it. */
  lemma StepAllStepsEachOnce(ins: SlotMap.SlotMap<Instance>, ks: seq<SlotMap.Key>, j: nat, h: Host, now: int, o: Oracles)
    requires SlotMap.Valid(ins) && SlotMap.DistinctIndices(ks)
    requires j < |ks| && SlotMap.Get(ins, ks[j]).Some?
    ensures var before := StepAll(ins, ks[..j], h, now, o);
      var stepped := Step(SlotMap.Get(ins, ks[j]).value, before.1, now, o);
      SlotMap.Get(StepAll(ins, ks, h, now, o).0, ks[j]) == Some(stepped.0)
      && StepAll(ins, ks[..j + 1], h, now, o).1 == stepped.1
  {
    SlotMap.KeyOccursOnce(ks, j);
    var before := StepAll(ins, ks[..j], h, now, o);
    assert ks == ks[..j] + ks[j..];
    StepAllConcat(ins, ks[..j], ks[j..], h, now, o);
    assert ks[..j + 1] == ks[..j] + [ks[j]];
    StepAllConcat(ins, ks[..j], [ks[j]], h, now, o);
    StepAtFreshKey(before.0, ks[j..], before.1, now, o);
    assert [ks[j]][1..] == [];
  }

  /** The first key of a run that does not come back later keeps the value
      its own step gave it. */
  lemma StepAtFreshKey(ins: SlotMap.SlotMap<Instance>, ks: seq<SlotMap.Key>, h: Host, now: int, o: Oracles)
    requires SlotMap.Valid(ins) && ks != [] && ks[0] !in ks[1..] && SlotMap.Get(ins, ks[0]).Some?
    ensures SlotMap.Get(StepAll(ins, ks, h, now, o).0, ks[0]) == Some(Step(SlotMap.Get(ins, ks[0]).value, h, now, o).0)
  {
    var (i', h') := Step(SlotMap.Get(ins, ks[0]).value, h, now, o);
    assert SlotMap.Get(SlotMap.Set(ins, ks[0], i'), ks[0]) == Some(i');
  }

  /** `ScriptManager::update`: start everything queued, step every instance
      in slot order, then keep only the instances whose thread can still be
      resumed. */
  function Update(m: Manager, h: Host, now: int, o: Oracles): (r: (Manager, Host))
    requires Valid(m)
    ensures Valid(r.0)
    ensures r.0.startQueue == []
    ensures forall k :: SlotMap.Get(r.0.instances, k).Some? ==> SlotMap.Get(r.0.instances, k).value.thread.status == Resumable
    ensures forall k :: (SlotMap.Get(m.instances, k).Some? && SlotMap.Get(m.instances, k).value.thread.status == Resumable
      && TimeBlocked(SlotMap.Get(m.instances, k).value.wait, now)) ==> SlotMap.Get(r.0.instances, k) == SlotMap.Get(m.instances, k)
    ensures var started := StartAll(m.instances, m.startQueue, h.storyVars, o);
      var stepped := StepAll(started, SlotMap.Keys(started), h, now, o);
      r.1 == stepped.1
      && (forall k :: SlotMap.Get(r.0.instances, k)
            == (if SlotMap.Get(stepped.0, k).Some? && SlotMap.Get(stepped.0, k).value.thread.status == Resumable
                then SlotMap.Get(stepped.0, k) else None))
  {
    var started := StartAll(m.instances, m.startQueue, h.storyVars, o);
    var (stepped, h') := StepAll(started, SlotMap.Keys(started), h, now, o);
    (Manager(SlotMap.Retain(stepped, (i: Instance) => i.thread.status == Resumable), []), h')
  }

  /** Within one `update` the whole queue is started, in queue order, before
      any instance is resumed: the instance in the `j`-th live slot after the
      starts, old or just started, is stepped once with the host left by the
      slots before it, and kept exactly when its thread is still resumable. */
  lemma UpdateStartsThenSteps(m: Manager, h: Host, now: int, o: Oracles, j: nat)
    requires Valid(m)
    requires j < |SlotMap.Keys(StartAll(m.instances, m.startQueue, h.storyVars, o))|
    ensures var started := StartAll(m.instances, m.startQueue, h.storyVars, o);
      var ks := SlotMap.Keys(started);
      var stepped := Step(SlotMap.Get(started, ks[j]).value, StepAll(started, ks[..j], h, now, o).1, now, o).0;
      SlotMap.Get(Update(m, h, now, o).0.instances, ks[j]) == (if stepped.thread.status == Resumable then Some(stepped) else None)
  {
    var started := StartAll(m.instances, m.startQueue, h.storyVars, o);
    StepAllStepsEachOnce(started, SlotMap.Keys(started), j, h, now, o);
  }

  /** An instance started by this `update` waits on nothing, so it gets its
      first resume in the same frame, with the host the earlier slots left. */
  lemma StartedResumedSameFrame(m: Manager, h: Host, now: int, o: Oracles, j: nat)
    requires Valid(m)
    requires var started := StartAll(m.instances, m.startQueue, h.storyVars, o);
      j < |SlotMap.Keys(started)| && !SlotMap.Contains(m.instances, SlotMap.Keys(started)[j])
    ensures var started := StartAll(m.instances, m.startQueue, h.storyVars, o);
      var ks := SlotMap.Keys(started);
      var i := SlotMap.Get(started, ks[j]).value;
      var res := o.resume(i.thread, StepAll(started, ks[..j], h, now, o).1);
      SlotMap.Get(Update(m, h, now, o).0.instances, ks[j])
        == (if res.thread.status == Resumable then Some(i.(thread := res.thread, wait := res.wait)) else None)
  {
    UpdateStartsThenSteps(m, h, now, o, j);
  }
}

=== FILE: script_text.dfy ===
/** Text handling around Lua scripts: the `---@` annotation header, cutting one
    named script out of a multi-script file, cutting a `--# label` sub-script,
    and the `{story_var}` substitution that precedes evaluation of a start
    condition (built on the fallible regex replacement helper). */
module ScriptText {
  import opened Wrappers
  import opened Text

  // ---------------------------------------------------------------------------
  // Annotation header (`extract_metadata`)
  // ---------------------------------------------------------------------------

  datatype Metadata = Metadata(name: Option<string>, exclusive: bool, startCondition: Option<string>)

  const NoMetadata: Metadata := Metadata(None, false, None)

  predicate IsAnnotation(line: string) {
    "---" <= line
  }

  /** The leading run of lines that start with `---`. */
  function LeadingAnnotations(lines: seq<string>): (r: seq<string>)
    ensures r <= lines
    ensures forall k :: 0 <= k < |r| ==> IsAnnotation(r[k])
    ensures |r| < |lines| ==> !IsAnnotation(lines[|r|])
  {
    if lines == [] || !IsAnnotation(lines[0]) then [] else [lines[0]] + LeadingAnnotations(lines[1..])
  }

  /** An annotation split into its name and optional argument at the first space. */
  function ParseAnnotation(line: string): (string, Option<string>)
    requires IsAnnotation(line)
  {
    SplitFirstSpace(line[3..])
  }

  /** The effect of one annotation line on the metadata. */
  function ApplyAnnotation(m: Metadata, line: string): Metadata
    requires IsAnnotation(line)
  {
    match ParseAnnotation(line)
    case ("@script", Some(v)) => m.(name := Some(v))
    case ("@exclusive", _) => m.(exclusive := true)
    case ("@start_condition", Some(v)) => m.(startCondition := Some(v))
    case _ => m
  }

  function ApplyAll(m: Metadata, lines: seq<string>): Metadata
    requires forall k :: 0 <= k < |lines| ==> IsAnnotation(lines[k])
    decreases |lines|
  {
    if lines == [] then m else ApplyAll(ApplyAnnotation(m, lines[0]), lines[1..])
  }

  /** `extract_metadata`: only the leading `---` lines count; the name is the
      argument of the last `@script` line that has one, the start condition
      that of the last `@start_condition` line, and the script is exclusive
      when any `@exclusive` line appears. */
  function ExtractMetadata(source: string): (r: Metadata)
    ensures var lines := LeadingAnnotations(Lines(source));
      r.name == LastArgument(lines, "@script")
      && r.startCondition == LastArgument(lines, "@start_condition")
      && r.exclusive == HasAnnotation(lines, "@exclusive")
  {
    ApplyAllMatchesReference(NoMetadata, LeadingAnnotations(Lines(source)));
    ApplyAll(NoMetadata, LeadingAnnotations(Lines(source)))
  }

  /** Reference reading: the argument of the LAST annotation named `key` that
      has an argument. */
  function LastArgument(lines: seq<string>, key: string): Option<string>
    requires forall k :: 0 <= k < |lines| ==> IsAnnotation(lines[k])
  {
    if lines == [] then None
    else
      var p := ParseAnnotation(lines[|lines| - 1]);
      if p.0 == key && p.1.Some? then p.1 else LastArgument(lines[..|lines| - 1], key)
  }

  /** Reference reading: some annotation is named `key`. */
  predicate HasAnnotation(lines: seq<string>, key: string)
    requires forall k :: 0 <= k < |lines| ==> IsAnnotation(lines[k])
  {
    exists k :: 0 <= k < |lines| && ParseAnnotation(lines[k]).0 == key
  }

  /** Folding the header line by line gives: the last `@script` argument as the
      name, the last `@start_condition` argument as the condition, and
      exclusivity as soon as any `@exclusive` line appears, with or without an
      argument; every other line has no effect. */
  lemma {:induction false} ApplyAllMatchesReference(m: Metadata, lines: seq<string>)
    requires forall k :: 0 <= k < |lines| ==> IsAnnotation(lines[k])
    ensures ApplyAll(m, lines).name == (if LastArgument(lines, "@script").Some? then LastArgument(lines, "@script") else m.name)
    ensures ApplyAll(m, lines).startCondition
         == (if LastArgument(lines, "@start_condition").Some? then LastArgument(lines, "@start_condition") else m.startCondition)
    ensures ApplyAll(m, lines).exclusive == (m.exclusive || HasAnnotation(lines, "@exclusive"))
    decreases |lines|
  {
    if lines != [] {
      var n := |lines| - 1;
      var init := lines[..n];
      ApplyAllSnoc(m, init, lines[n]);
      assert init + [lines[n]] == lines;
      ApplyAllMatchesReference(m, init);
      ApplyAnnotationFields(ApplyAll(m, init), lines[n]);
      HasAnnotationSnoc(init, lines[n], "@exclusive");
    }
  }

  /** An annotation occurs in a header extended by one line iff it occurs in
      the header or is that line. */
  lemma HasAnnotationSnoc(init: seq<string>, last: string, key: string)
    requires forall k :: 0 <= k < |init| ==> IsAnnotation(init[k])
    requires IsAnnotation(last)
    ensures HasAnnotation(init + [last], key) <==> HasAnnotation(init, key) || ParseAnnotation(last).0 == key
  {
    var lines := init + [last];
    if HasAnnotation(lines, key) {
      var k :| 0 <= k < |lines| && ParseAnnotation(lines[k]).0 == key;
      if k < |init| {
        assert init[k] == lines[k];
      }
    }
    if HasAnnotation(init, key) {
      var k :| 0 <= k < |init| && ParseAnnotation(init[k]).0 == key;
      assert lines[k] == init[k];
    }
    assert lines[|init|] == last;
  }

  lemma ApplyAnnotationFields(m: Metadata, line: string)
    requires IsAnnotation(line)
    ensures var p := ParseAnnotation(line);
      && ApplyAnnotation(m, line).name == (if p.0 == "@script" && p.1.Some? then p.1 else m.name)
      && ApplyAnnotation(m, line).startCondition == (if p.0 == "@start_condition" && p.1.Some? then p.1 else m.startCondition)
      && ApplyAnnotation(m, line).exclusive == (m.exclusive || p.0 == "@exclusive")
  {
  }

  lemma {:induction false} ApplyAllSnoc(m: Metadata, init: seq<string>, last: string)
    requires forall k :: 0 <= k < |init| ==> IsAnnotation(init[k])
    requires IsAnnotation(last)
    ensures ApplyAll(m, init + [last]) == ApplyAnnotation(ApplyAll(m, init), last)
    decreases |init|
  {
    if init != [] {
      assert (init + [last])[1..] == init[1..] + [last];
      ApplyAllSnoc(ApplyAnnotation(m, init[0]), init[1..], last);
    }
  }

  /** The metadata of a script is read from its leading annotation lines only,
      as the reference readings describe. */
  lemma ExtractMetadataSpec(source: string)
    ensures var lines := LeadingAnnotations(Lines(source));
      ExtractMetadata(source).name == LastArgument(lines, "@script")
      && ExtractMetadata(source).startCondition == LastArgument(lines, "@start_condition")
      && ExtractMetadata(source).exclusive == HasAnnotation(lines, "@exclusive")
  {
    ApplyAllMatchesReference(NoMetadata, LeadingAnnotations(Lines(source)));
  }

  // ---------------------------------------------------------------------------
  // Named scripts in a multi-script file (`read_script_from_file`)
  // ---------------------------------------------------------------------------

  const HeaderTag: string := "---@script"

  function HeaderLine(name: string, crlf: bool): string {
    HeaderTag + " " + name + (if crlf then "\r\n" else "\n")
  }

  /** Where the script's header starts: a CRLF-terminated header is preferred,
      wherever it is, over an LF-terminated one. */
  function HeaderStart(contents: string, name: string): (r: Option<nat>)
    ensures r.Some? ==> OccursAt(contents, HeaderLine(name, true), r.value) || OccursAt(contents, HeaderLine(name, false), r.value)
    ensures r.None? <==> !Contains(contents, HeaderLine(name, true)) && !Contains(contents, HeaderLine(name, false))
  {
    match Find(contents, HeaderLine(name, true))
    case Some(i) => Some(i)
    case None => Find(contents, HeaderLine(name, false))
  }

  lemma HeaderFits(contents: string, name: string, start: nat)
    requires HeaderStart(contents, name) == Some(start)
    ensures start + |HeaderTag| < |contents|
    ensures contents[start..start + |HeaderTag|] == HeaderTag
  {
    var h := if OccursAt(contents, HeaderLine(name, true), start) then HeaderLine(name, true) else HeaderLine(name, false);
    assert contents[start..start + |h|] == h;
    assert |h| > |HeaderTag| && h[..|HeaderTag|] == HeaderTag;
    assert contents[start..start + |HeaderTag|] == contents[start..start + |h|][..|HeaderTag|];
  }

  /** Where the next header after the one at `start` begins, or the end of
      the file. */
  function NextHeader(contents: string, start: nat): (r: nat)
    ensures start + 1 <= |contents| ==> start < r
    ensures r <= |contents|
    ensures r < |contents| ==> OccursAt(contents, HeaderTag, r)
    ensures forall j: nat :: start < j < r ==> !OccursAt(contents, HeaderTag, j)
  {
    match FindFrom(contents, HeaderTag, start + 1)
    case Some(p) => p
    case None => |contents|
  }

  /** The header tag cannot overlap itself: two occurrences are at least its
      length apart. */
  lemma HeaderTagNoSelfOverlap(s: string, i: nat, j: nat)
    requires OccursAt(s, HeaderTag, i) && i < j < i + |HeaderTag|
    ensures !OccursAt(s, HeaderTag, j)
  {
    assert s[i..i + |HeaderTag|] == HeaderTag;
    if j + |HeaderTag| <= |s| {
      if j <= i + 3 {
        var t := i + 3 - j;
        assert s[j..j + |HeaderTag|][t] == s[i + 3] == '@' != HeaderTag[t];
      } else {
        assert s[j..j + |HeaderTag|][0] == s[j] == HeaderTag[j - i] != HeaderTag[0];
      }
    }
  }

  /** The end index `read_script_from_file` computes, as written. */
  function EndAsWritten(contents: string, start: nat): (r: nat)
    requires start < |contents|
    ensures r == (if NextHeader(contents, start) < |contents| then NextHeader(contents, start) - 1 else |contents|)
  {
    match FindFrom(contents, HeaderTag, start + 1)
    case Some(p) => p - 1
    case None => |contents|
  }

  /** `read_script_from_file` on the file's contents, as written: the end index
      adds the start offset to a position found in the text after `start + 1`,
      so it stops one byte short of the next header. That byte offset falls
      inside a character, and the slice panics, when the character before the
      next header takes more than one byte. */
  function ReadScriptAsWritten(contents: string, name: string): (r: Result<string, string>)
    ensures HeaderStart(contents, name).None? ==> r.Err?
    ensures HeaderStart(contents, name).Some? ==> r == SliceAsWritten(contents, HeaderStart(contents, name).value)
  {
    match HeaderStart(contents, name)
    case None => Err("no script `" + name + "` in file")
    case Some(start) =>
      HeaderFits(contents, name, start);
      SliceAsWritten(contents, start)
  }

  /** The slice `read_script_from_file` takes from a header at `start`, as
      written: it panics exactly when the character before the next header
      takes more than one byte; otherwise it is the file from `start` to the
      as-written end with the trailing blank removed. */
  function SliceAsWritten(contents: string, start: nat): (r: Result<string, string>)
    requires start < |contents|
    ensures var p := NextHeader(contents, start);
      r.Err? <==> p < |contents| && !IsOneByte(contents[p - 1])
    ensures r.Ok? ==> var end := EndAsWritten(contents, start);
      start + |r.value| <= end <= |contents|
      && contents[start..start + |r.value|] == r.value
      && (|r.value| > 0 ==> !IsWhitespace(r.value[|r.value| - 1]))
      && forall k :: start + |r.value| <= k < end ==> IsWhitespace(contents[k])
  {
    var end := EndAsWritten(contents, start);
    if end < |contents| && !IsOneByte(contents[end]) then Err("panic: byte index is not a char boundary")
    else
      TrimmedTailIsBlank(contents, start, end);
      Ok(TrimEnd(contents[start..end]))
  }

  /** The script text as evidently intended: from its header up to the next
      `---@script` (or the end of the file), with trailing whitespace removed.
      Only whitespace lies between the end of the result and the next
      header. */
  function ReadScript(contents: string, name: string): (r: Result<string, string>)
    ensures r.Err? <==> HeaderStart(contents, name).None?
    ensures r.Ok? ==> HeaderTag <= r.value
    ensures r.Ok? ==> forall j: nat :: 0 < j ==> !OccursAt(r.value, HeaderTag, j)
    ensures r.Ok? ==> var start := HeaderStart(contents, name).value;
      start + |r.value| <= |contents| && contents[start..start + |r.value|] == r.value
    ensures r.Ok? ==> var start := HeaderStart(contents, name).value;
      var end := NextHeader(contents, start);
      start + |r.value| <= end
      && !IsWhitespace(r.value[|r.value| - 1])
      && forall k :: start + |r.value| <= k < end ==> IsWhitespace(contents[k])
  {
    match HeaderStart(contents, name)
    case None => Err("no script `" + name + "` in file")
    case Some(start) =>
      HeaderFits(contents, name, start);
      var end := NextHeader(contents, start);
      assert start + |HeaderTag| <= end by {
        assert OccursAt(contents, HeaderTag, start);
        if end < start + |HeaderTag| {
          HeaderTagNoSelfOverlap(contents, start, end);
        }
      }
      ScriptSliceFacts(contents, start, end);
      TrimmedTailIsBlank(contents, start, end);
      Ok(TrimEnd(contents[start..end]))
  }

  /** The trimmed slice of the file from `start` to `end` is the file from
      `start` on, and what the trim removes is blank. */
  lemma TrimmedTailIsBlank(contents: string, start: nat, end: nat)
    requires start <= end <= |contents|
    ensures var t := TrimEnd(contents[start..end]);
      start + |t| <= end && contents[start..start + |t|] == t
      && forall k :: start + |t| <= k < end ==> IsWhitespace(contents[k])
  {
    var body := contents[start..end];
    var t := TrimEnd(body);
    assert contents[start..start + |t|] == body[..|t|];
    forall k | start + |t| <= k < end ensures IsWhitespace(contents[k]) {
      assert contents[k] == body[k - start];
    }
  }

  /** The trimmed slice from a header to the next one starts with the header
      tag, contains no other header, and is a slice of the file. */
  lemma ScriptSliceFacts(contents: string, start: nat, end: nat)
    requires OccursAt(contents, HeaderTag, start)
    requires start + |HeaderTag| <= end <= |contents|
    requires forall j: nat :: start < j < end ==> !OccursAt(contents, HeaderTag, j)
    ensures var t := TrimEnd(contents[start..end]);
      && HeaderTag <= t
      && (forall j: nat :: 0 < j ==> !OccursAt(t, HeaderTag, j))
      && start + |t| <= |contents| && contents[start..start + |t|] == t
  {
    var body := contents[start..end];
    var t := TrimEnd(body);
    assert body[..|HeaderTag|] == HeaderTag;
    assert !IsWhitespace(body[|HeaderTag| - 1]) by {
      assert body[|HeaderTag| - 1] == HeaderTag[|HeaderTag| - 1] == 't';
    }
    TrimEndKeepsNonBlank(body, |HeaderTag| - 1);
    assert t[..|HeaderTag|] == body[..|HeaderTag|];
    SliceHasNoOtherHeader(contents, start, end, t);
  }

  /** A prefix of the text from one header to the next holds no header but
      the first. */
  lemma SliceHasNoOtherHeader(contents: string, start: nat, end: nat, t: string)
    requires start <= end <= |contents| && t <= contents[start..end]
    requires forall j: nat :: start < j < end ==> !OccursAt(contents, HeaderTag, j)
    ensures forall j: nat :: 0 < j ==> !OccursAt(t, HeaderTag, j)
    ensures start + |t| <= |contents| && contents[start..start + |t|] == t
  {
    assert forall k :: 0 <= k < |t| ==> t[k] == contents[start + k];
    forall j: nat | 0 < j ensures !OccursAt(t, HeaderTag, j) {
      if j + |HeaderTag| <= |t| {
        assert t[j..j + |HeaderTag|] == contents[start + j..start + j + |HeaderTag|];
        assert !OccursAt(contents, HeaderTag, start + j);
      }
    }
  }

  lemma TrimEndKeepsNonBlank(s: string, i: nat)
    requires i < |s| && !IsWhitespace(s[i])
    ensures i < |TrimEnd(s)|
  {
  }

  /** The two readings differ whenever another header follows and the
      character just before it is not whitespace: the as-written reading loses
      that character. */
  lemma ReadScriptOffByOne(contents: string, name: string)
    requires HeaderStart(contents, name).Some?
    requires var start := HeaderStart(contents, name).value;
      var p := NextHeader(contents, start);
      p < |contents| && !IsWhitespace(contents[p - 1])
    ensures ReadScriptAsWritten(contents, name) != ReadScript(contents, name)
  {
    var start := HeaderStart(contents, name).value;
    HeaderFits(contents, name, start);
    var p := NextHeader(contents, start);
    var good := contents[start..p];
    var bad := contents[start..p - 1];
    assert TrimEnd(good) == good;
    assert |TrimEnd(bad)| <= |bad| < |good|;
    assert ReadScript(contents, name) == Ok(good);
  }

  /** Where the character before the next header takes more than one byte,
      the as-written end index splits it and the read panics, while the
      intended reading succeeds. */
  lemma ReadScriptSplitsChar(contents: string, name: string)
    requires HeaderStart(contents, name).Some?
    requires var start := HeaderStart(contents, name).value;
      var p := NextHeader(contents, start);
      0 < p < |contents| && !IsOneByte(contents[p - 1])
    ensures ReadScriptAsWritten(contents, name).Err?
    ensures ReadScript(contents, name).Ok?
  {
  }

  // ---------------------------------------------------------------------------
  // `--# label` sub-scripts (`get_sub_script`)
  // ---------------------------------------------------------------------------

  /** `get_sub_script`: the text between the first `--# label` and the next
      `--#`; either search failing is a panic of the source (`unwrap`). */
  function SubScript(full: string, subName: string): (r: Result<string, string>)
    ensures r.Ok? ==> !Contains(r.value, "--#")
  {
    match SplitOnce(full, "--# " + subName)
    case None => Err("panic: no sub-script label")
    case Some((before, after)) =>
      match SplitOnce(after, "--#")
      case None => Err("panic: sub-script not terminated")
      case Some((between, rest)) =>
        SplitOnceHeadClear(after, "--#");
        Ok(between)
  }

  /** A sub-script found is the text that starts right after the first
      occurrence of its label and runs up to a `--#`. */
  lemma SubScriptSlice(full: string, subName: string)
    requires SubScript(full, subName).Ok?
    ensures var header := "--# " + subName; var r := SubScript(full, subName).value;
      Find(full, header).Some? && var i := Find(full, header).value + |header|;
      i + |r| + 3 <= |full| && full[i..i + |r|] == r && OccursAt(full, "--#", i + |r|)
  {
    var header := "--# " + subName;
    var k := Find(full, header).value;
    var i := k + |header|;
    var after := SplitOnce(full, header).value.1;
    assert after == full[i..];
    var m := Find(after, "--#").value;
    var r := SubScript(full, subName).value;
    assert r == after[..m];
    assert after[m..m + 3] == full[i + m..i + m + 3];
  }

  /** A sub-script is found exactly when its label occurs and a later `--#`
      closes it. */
  lemma SubScriptFound(full: string, subName: string)
    ensures SubScript(full, subName).Ok? <==>
      (Contains(full, "--# " + subName) && Contains(SplitOnce(full, "--# " + subName).value.1, "--#"))
  {
  }

  // ---------------------------------------------------------------------------
  // Fallible replace-all (`try_replace_all`) and the `{key}` pattern
  // ---------------------------------------------------------------------------

  /** A match of the pattern: the characters `[start, end)`. */
  datatype Span = Span(start: nat, end: nat)

  /** Matches in the order the regex engine reports them: within the text,
      non-overlapping and left to right, none before `from`. */
  predicate OrderedSpans(s: string, spans: seq<Span>, from: nat)
    decreases |spans|
  {
    spans == [] || (from <= spans[0].start <= spans[0].end <= |s| && OrderedSpans(s, spans[1..], spans[0].end))
  }

  /** The text of the `k`-th match. */
  function MatchText(s: string, spans: seq<Span>, k: nat): string
    requires k < |spans|
  {
    if spans[k].start <= spans[k].end <= |s| then s[spans[k].start..spans[k].end] else ""
  }

  /** The first match whose replacement fails, if any. */
  function FirstFailure(s: string, spans: seq<Span>, repl: string -> Result<string, string>): (r: Option<nat>)
    ensures r.Some? ==> r.value < |spans| && repl(MatchText(s, spans, r.value)).Err?
    ensures r.Some? ==> forall j :: 0 <= j < r.value ==> repl(MatchText(s, spans, j)).Ok?
    ensures r.None? ==> forall j :: 0 <= j < |spans| ==> repl(MatchText(s, spans, j)).Ok?
    decreases |spans|
  {
    if spans == [] then None
    else if repl(MatchText(s, spans, 0)).Err? then Some(0)
    else
      var rest := FirstFailure(s, spans[1..], repl);
      assert forall j :: 1 <= j < |spans| ==> MatchText(s, spans, j) == MatchText(s, spans[1..], j - 1);
      if rest.Some? then Some(rest.value + 1) else None
  }

  /** `try_replace_all` from position `last`: copy the text between matches
      verbatim and put the callback's text in place of each match; the first
      callback error is the result. */
  function ReplaceFrom(s: string, spans: seq<Span>, repl: string -> Result<string, string>, last: nat): (r: Result<string, string>)
    requires last <= |s| && OrderedSpans(s, spans, last)
    decreases |spans|
    ensures r.Err? <==> FirstFailure(s, spans, repl).Some?
    ensures r.Err? ==> repl(MatchText(s, spans, FirstFailure(s, spans, repl).value)) == Err(r.error)
  {
    if spans == [] then Ok(s[last..])
    else
      var m := spans[0];
      match repl(s[m.start..m.end])
      case Err(e) => Err(e)
      case Ok(t) =>
        var rest := ReplaceFrom(s, spans[1..], repl, m.end);
        assert rest.Err? ==> (MatchText(s, spans, FirstFailure(s, spans[1..], repl).value + 1)
          == MatchText(s, spans[1..], FirstFailure(s, spans[1..], repl).value));
        if rest.Err? then Err(rest.error) else Ok(s[last..m.start] + t + rest.value)
  }

  /** `try_replace_all` over the whole text. */
  function TryReplaceAll(s: string, spans: seq<Span>, repl: string -> Result<string, string>): (r: Result<string, string>)
    requires OrderedSpans(s, spans, 0)
    ensures r.Err? <==> FirstFailure(s, spans, repl).Some?
    ensures r.Err? ==> repl(MatchText(s, spans, FirstFailure(s, spans, repl).value)) == Err(r.error)
    ensures r.Ok? ==> r.value == Weave(Gaps(s, spans, 0), Replacements(s, spans, repl))
  {
    if FirstFailure(s, spans, repl).None? then
      ReplaceFromWeaves(s, spans, repl, 0);
      ReplaceFrom(s, spans, repl, 0)
    else
      ReplaceFrom(s, spans, repl, 0)
  }

  /** Text outside the matches is kept verbatim and in order: replacing every
      match by its own text gives back the input, and so does having no
      matches at all. */
  lemma {:induction false} ReplaceWithSelfIsIdentity(s: string, spans: seq<Span>, repl: string -> Result<string, string>, last: nat)
    requires last <= |s| && OrderedSpans(s, spans, last)
    requires forall k :: 0 <= k < |spans| ==> repl(MatchText(s, spans, k)) == Ok(MatchText(s, spans, k))
    ensures ReplaceFrom(s, spans, repl, last) == Ok(s[last..])
    ensures ReplaceFrom(s, [], repl, last) == Ok(s[last..])
    decreases |spans|
  {
    if spans != [] {
      var m := spans[0];
      var tail := spans[1..];
      assert forall k :: 0 <= k < |tail| ==> MatchText(s, tail, k) == MatchText(s, spans, k + 1);
      ReplaceWithSelfIsIdentity(s, tail, repl, m.end);
      assert MatchText(s, spans, 0) == s[m.start..m.end];
      assert s[last..] == s[last..m.start] + s[m.start..m.end] + s[m.end..];
    }
  }

  /** The `k`-th stretch of text the matches leave: from `last` to the first
      match, between consecutive matches, and from the last match to the
      end. */
  function Gap(s: string, spans: seq<Span>, last: nat, k: nat): string
    requires k <= |spans|
  {
    var a := if k == 0 then last else spans[k - 1].end;
    var b := if k == |spans| then |s| else spans[k].start;
    if a <= b <= |s| then s[a..b] else ""
  }

  /** All the stretches the matches leave, in order. */
  function Gaps(s: string, spans: seq<Span>, last: nat): (r: seq<string>)
    ensures |r| == |spans| + 1
    ensures forall k :: 0 <= k <= |spans| ==> r[k] == Gap(s, spans, last, k)
  {
    seq(|spans| + 1, k requires 0 <= k <= |spans| => Gap(s, spans, last, k))
  }

  /** The callback's text for every match, when none fails. */
  function Replacements(s: string, spans: seq<Span>, repl: string -> Result<string, string>): (r: seq<string>)
    requires FirstFailure(s, spans, repl).None?
    ensures |r| == |spans|
    ensures forall k :: 0 <= k < |spans| ==> repl(MatchText(s, spans, k)) == Ok(r[k])
  {
    seq(|spans|, k requires 0 <= k < |spans| && repl(MatchText(s, spans, k)).Ok? => repl(MatchText(s, spans, k)).value)
  }

  /** Stretches and replacements alternated: the first stretch, the first
      replacement, the second stretch, and so on, ending with the last
      stretch. */
  function Weave(gaps: seq<string>, outs: seq<string>): string
    requires |gaps| == |outs| + 1
    decreases |outs|
  {
    if outs == [] then gaps[0] else gaps[0] + outs[0] + Weave(gaps[1..], outs[1..])
  }

  /** The text `try_replace_all` builds when no callback fails: the text the
      matches leave, kept in order, with each match replaced by its
      callback's text. */
  lemma {:induction false} ReplaceFromWeaves(s: string, spans: seq<Span>, repl: string -> Result<string, string>, last: nat)
    requires last <= |s| && OrderedSpans(s, spans, last)
    requires FirstFailure(s, spans, repl).None?
    ensures ReplaceFrom(s, spans, repl, last) == Ok(Weave(Gaps(s, spans, last), Replacements(s, spans, repl)))
    decreases |spans|
  {
    if spans == [] {
      assert Gaps(s, spans, last)[0] == s[last..];
    } else {
      var m := spans[0];
      var tail := spans[1..];
      assert MatchText(s, spans, 0) == s[m.start..m.end];
      assert FirstFailure(s, tail, repl).None?;
      ReplaceFromWeaves(s, tail, repl, m.end);
      GapsShift(s, spans, last);
      ReplacementsShift(s, spans, repl);
    }
  }

  /** Past the first match, the stretches are those the later matches leave
      from its end. */
  lemma GapsShift(s: string, spans: seq<Span>, last: nat)
    requires spans != [] && last <= spans[0].start <= spans[0].end <= |s|
    ensures Gaps(s, spans, last)[0] == s[last..spans[0].start]
    ensures Gaps(s, spans, last)[1..] == Gaps(s, spans[1..], spans[0].end)
  {
    var g, h := Gaps(s, spans, last), Gaps(s, spans[1..], spans[0].end);
    forall k | 0 <= k < |h| ensures g[1..][k] == h[k] {
      assert g[k + 1] == Gap(s, spans, last, k + 1);
    }
  }

  /** Past the first match, the replacements are those of the later
      matches. */
  lemma ReplacementsShift(s: string, spans: seq<Span>, repl: string -> Result<string, string>)
    requires spans != [] && FirstFailure(s, spans, repl).None?
    ensures FirstFailure(s, spans[1..], repl).None?
    ensures Replacements(s, spans, repl)[1..] == Replacements(s, spans[1..], repl)
  {
    var r, t := Replacements(s, spans, repl), Replacements(s, spans[1..], repl);
    forall k | 0 <= k < |t| ensures r[1..][k] == t[k] {
      assert MatchText(s, spans, k + 1) == MatchText(s, spans[1..], k);
    }
  }

  /** A delimiter of the `{key}` pattern. */
  predicate IsBrace(c: char) {
    c == '{' || c == '}'
  }

  /** Position of the first brace after position `i`, if any. */
  function NextBrace(s: string, i: nat): (r: Option<nat>)
    decreases |s| - i
    ensures r.Some? ==> i < r.value < |s| && IsBrace(s[r.value])
    ensures r.Some? ==> forall k :: i < k < r.value ==> !IsBrace(s[k])
    ensures r.None? ==> forall k :: i < k < |s| ==> !IsBrace(s[k])
  {
    if i + 1 >= |s| then None
    else if IsBrace(s[i + 1]) then Some(i + 1)
    else NextBrace(s, i + 1)
  }

  /** A `{key}` placeholder occupies `[i, j]`: an opening brace at `i` whose
      next brace, at `j`, is a closing one. */
  predicate IsPlaceholder(s: string, i: nat, j: nat) {
    i < |s| && s[i] == '{' && NextBrace(s, i) == Some(j) && s[j] == '}'
  }

  /** The placeholder reading spelled out: braces at both ends, none between. */
  lemma PlaceholderMeaning(s: string, i: nat, j: nat)
    ensures IsPlaceholder(s, i, j) <==>
      (i < j < |s| && s[i] == '{' && s[j] == '}' && forall k :: i < k < j ==> !IsBrace(s[k]))
  {
    if i < j < |s| && s[i] == '{' && s[j] == '}' && forall k :: i < k < j ==> !IsBrace(s[k]) {
      var nb := NextBrace(s, i);
      assert nb.Some? by {
        assert IsBrace(s[j]);
      }
      assert nb.value == j by {
        assert !(nb.value < j);
        assert !(j < nb.value);
      }
    }
  }

  /** `\{([^{}]*)\}` at position `i`: the match ends just after the closing brace. */
  function BraceMatchAt(s: string, i: nat): (r: Option<nat>)
    ensures r.Some? ==> i < r.value <= |s| && IsPlaceholder(s, i, r.value - 1)
  {
    if i >= |s| || s[i] != '{' then None
    else match NextBrace(s, i)
      case Some(j) => if s[j] == '}' then Some(j + 1) else None
      case None => None
  }

  /** The leftmost-first, non-overlapping matches of `\{([^{}]*)\}` from `from`. */
  function BraceSpans(s: string, from: nat): (r: seq<Span>)
    decreases |s| - from
    ensures OrderedSpans(s, r, from)
    ensures forall k :: 0 <= k < |r| ==> from <= r[k].start && BraceMatchAt(s, r[k].start) == Some(r[k].end)
  {
    if from >= |s| then []
    else match BraceMatchAt(s, from)
      case Some(e) =>
        var rest := BraceSpans(s, e);
        var r := [Span(from, e)] + rest;
        assert r[1..] == rest;
        assert forall k :: 1 <= k < |r| ==> r[k] == rest[k - 1];
        r
      case None => BraceSpans(s, from + 1)
  }

  /** Every placeholder at or after `from` is found. */
  lemma {:induction false} BraceSpansComplete(s: string, from: nat, i: nat, j: nat)
    requires from <= i && IsPlaceholder(s, i, j)
    ensures Span(i, j + 1) in BraceSpans(s, from)
    decreases |s| - from
  {
    if from < i {
      match BraceMatchAt(s, from)
      case Some(e) =>
        var nb := NextBrace(s, from).value;
        assert nb <= i by {
          assert IsBrace(s[i]);
        }
        assert e == nb + 1;
        BraceSpansComplete(s, e, i, j);
      case None =>
        BraceSpansComplete(s, from + 1, i, j);
    }
  }

  /** Text without braces has no placeholders. */
  lemma {:induction false} NoBracesNoSpans(s: string, from: nat)
    requires forall k :: 0 <= k < |s| ==> !IsBrace(s[k])
    ensures BraceSpans(s, from) == []
    decreases |s| - from
  {
    if from < |s| {
      NoBracesNoSpans(s, from + 1);
    }
  }

  /** The story-variable lookup used for each placeholder: the key is the text
      between the braces; a missing key is an error. */
  function LookupKey(vars: map<string, int>, m: string): (r: Result<string, string>)
    ensures |m| >= 2 ==> (r.Ok? <==> m[1..|m| - 1] in vars)
    ensures |m| >= 2 && r.Ok? ==> r.value == IntToString(vars[m[1..|m| - 1]])
    ensures |m| >= 2 && r.Err? ==> r.error == "no story var `" + m[1..|m| - 1] + "`"
  {
    if |m| < 2 then Err("no story var")
    else
      var key := m[1..|m| - 1];
      if key in vars then Ok(IntToString(vars[key])) else Err("no story var `" + key + "`")
  }

  /** The substitution step of `evaluate_story_var_condition`. */
  function SubstituteStoryVars(expr: string, vars: map<string, int>): (r: Result<string, string>)
    ensures (forall k :: 0 <= k < |expr| ==> !IsBrace(expr[k])) ==> r == Ok(expr)
    ensures r.Ok? <==> FirstFailure(expr, BraceSpans(expr, 0), m => LookupKey(vars, m)).None?
    ensures r.Ok? ==> r.value == Weave(Gaps(expr, BraceSpans(expr, 0), 0), Replacements(expr, BraceSpans(expr, 0), m => LookupKey(vars, m)))
    ensures r.Err? ==> exists key :: key !in vars && r.error == "no story var `" + key + "`"
  {
    var spans := BraceSpans(expr, 0);
    var r := TryReplaceAll(expr, spans, m => LookupKey(vars, m));
    assert (forall k :: 0 <= k < |expr| ==> !IsBrace(expr[k])) ==> spans == [] by {
      if forall k :: 0 <= k < |expr| ==> !IsBrace(expr[k]) {
        NoBracesNoSpans(expr, 0);
      }
    }
    assert spans == [] ==> r == Ok(expr[0..]) && expr[0..] == expr;
    if r.Err? then
      var k := FirstFailure(expr, spans, m => LookupKey(vars, m)).value;
      SpanIsPlaceholder(expr, k);
      var m := MatchText(expr, spans, k);
      assert |m| >= 2 && m[1..|m| - 1] !in vars && r.error == "no story var `" + m[1..|m| - 1] + "`";
      r
    else
      r
  }

  /** Some `{key}` placeholder of the expression names a key the store lacks. */
  ghost predicate MissingKey(expr: string, vars: map<string, int>) {
    exists i: nat, j: nat :: IsPlaceholder(expr, i, j) && expr[i + 1..j] !in vars
  }

  /** The lookup of the match `[i, j]` fails exactly when the text strictly
      between its ends is not a key of the store. */
  lemma LookupOfMatch(vars: map<string, int>, s: string, i: nat, j: nat)
    requires i < j < |s|
    ensures LookupKey(vars, s[i..j + 1]).Err? <==> s[i + 1..j] !in vars
  {
    var m := s[i..j + 1];
    assert |m| == j - i + 1;
    assert forall k :: 1 <= k < |m| - 1 ==> m[k] == s[i + k];
    assert m[1..|m| - 1] == s[i + 1..j];
  }

  /** A failing replacement is always reported. */
  lemma FailureIsFound(s: string, spans: seq<Span>, repl: string -> Result<string, string>, k: nat)
    requires k < |spans| && repl(MatchText(s, spans, k)).Err?
    ensures FirstFailure(s, spans, repl).Some? && FirstFailure(s, spans, repl).value <= k
  {
  }

  /** The placeholder behind the `k`-th match of the substitution. */
  lemma SpanIsPlaceholder(expr: string, k: nat)
    requires k < |BraceSpans(expr, 0)|
    ensures var sp := BraceSpans(expr, 0)[k];
      (sp.start < sp.end && IsPlaceholder(expr, sp.start, sp.end - 1)
       && MatchText(expr, BraceSpans(expr, 0), k) == expr[sp.start..sp.end])
  {
    var sp := BraceSpans(expr, 0)[k];
    assert BraceMatchAt(expr, sp.start) == Some(sp.end);
  }

  /** Substitution fails only on a placeholder whose key the store lacks. */
  lemma SubstitutionErrorMeansMissingKey(expr: string, vars: map<string, int>)
    requires SubstituteStoryVars(expr, vars).Err?
    ensures MissingKey(expr, vars)
  {
    var k := FirstFailure(expr, BraceSpans(expr, 0), m => LookupKey(vars, m)).value;
    FailedLookupIsMissingKey(expr, vars, k);
  }

  /** A failing lookup sits on a placeholder whose key the store lacks. */
  lemma FailedLookupIsMissingKey(expr: string, vars: map<string, int>, k: nat)
    requires k < |BraceSpans(expr, 0)| && LookupKey(vars, MatchText(expr, BraceSpans(expr, 0), k)).Err?
    ensures MissingKey(expr, vars)
  {
    SpanIsPlaceholder(expr, k);
    var sp := BraceSpans(expr, 0)[k];
    var i, j := sp.start, sp.end - 1;
    PlaceholderMeaning(expr, i, j);
    assert expr[sp.start..sp.end] == expr[i..j + 1];
    LookupOfMatch(vars, expr, i, j);
    MissingKeyAt(expr, vars, i, j);
  }

  /** A placeholder with a missing key is a witness of `MissingKey`. */
  lemma MissingKeyAt(expr: string, vars: map<string, int>, i: nat, j: nat)
    requires IsPlaceholder(expr, i, j) && i < j && expr[i + 1..j] !in vars
    ensures MissingKey(expr, vars)
  {
  }

  /** A placeholder whose key the store lacks makes substitution fail. */
  lemma MissingKeyMeansSubstitutionError(expr: string, vars: map<string, int>)
    requires MissingKey(expr, vars)
    ensures SubstituteStoryVars(expr, vars).Err?
  {
    var k := MissingKeySpan(expr, vars);
    LookupFailureFails(expr, vars, k);
  }

  /** The match that covers a placeholder with a missing key. */
  lemma MissingKeySpan(expr: string, vars: map<string, int>) returns (k: nat)
    requires MissingKey(expr, vars)
    ensures k < |BraceSpans(expr, 0)| && LookupKey(vars, MatchText(expr, BraceSpans(expr, 0), k)).Err?
  {
    var spans := BraceSpans(expr, 0);
    var i: nat, j: nat :| IsPlaceholder(expr, i, j) && expr[i + 1..j] !in vars;
    BraceSpansComplete(expr, 0, i, j);
    k :| 0 <= k < |spans| && spans[k] == Span(i, j + 1);
    assert MatchText(expr, spans, k) == expr[i..j + 1];
    PlaceholderMeaning(expr, i, j);
    LookupOfMatch(vars, expr, i, j);
  }

  /** One failing lookup makes the whole substitution fail. */
  lemma LookupFailureFails(expr: string, vars: map<string, int>, k: nat)
    requires k < |BraceSpans(expr, 0)| && LookupKey(vars, MatchText(expr, BraceSpans(expr, 0), k)).Err?
    ensures SubstituteStoryVars(expr, vars).Err?
  {
    FailureIsFound(expr, BraceSpans(expr, 0), m => LookupKey(vars, m), k);
  }

  /** Substitution fails exactly when some placeholder names a missing key,
      and an expression without braces is passed through unchanged. */
  lemma SubstitutionFailsIffMissingKey(expr: string, vars: map<string, int>)
    ensures SubstituteStoryVars(expr, vars).Err? <==> MissingKey(expr, vars)
    ensures (forall k :: 0 <= k < |expr| ==> !IsBrace(expr[k])) ==> SubstituteStoryVars(expr, vars) == Ok(expr)
  {
    if SubstituteStoryVars(expr, vars).Err? {
      SubstitutionErrorMeansMissingKey(expr, vars);
    }
    if MissingKey(expr, vars) {
      MissingKeyMeansSubstitutionError(expr, vars);
    }
    if forall k :: 0 <= k < |expr| ==> !IsBrace(expr[k]) {
      NoBracesNoSpans(expr, 0);
      ReplaceWithSelfIsIdentity(expr, [], m => LookupKey(vars, m), 0);
    }
  }

  /** An expression with one `{key}` placeholder whose key is in the store
      becomes the expression with the key's value written in decimal in
      place of the placeholder. */
  lemma SubstituteOnePlaceholder(pre: string, key: string, post: string, vars: map<string, int>)
    requires forall k :: 0 <= k < |pre| ==> !IsBrace(pre[k])
    requires forall k :: 0 <= k < |key| ==> !IsBrace(key[k])
    requires forall k :: 0 <= k < |post| ==> !IsBrace(post[k])
    requires key in vars
    ensures SubstituteStoryVars(pre + "{" + key + "}" + post, vars) == Ok(pre + IntToString(vars[key]) + post)
  {
    var e := pre + "{" + key + "}" + post;
    var i, j := |pre|, |pre| + |key| + 1;
    OnlyPlaceholder(pre, key, post);
    var sp := Span(i, j + 1);
    var repl := m => LookupKey(vars, m);
    var value := IntToString(vars[key]);
    assert BraceSpans(e, 0) == [sp];
    assert e[sp.start..sp.end] == "{" + key + "}";
    assert ("{" + key + "}")[1..|key| + 1] == key;
    assert repl(e[sp.start..sp.end]) == Ok(value);
    assert e[0..i] == pre && e[j + 1..] == post;
    assert [sp][1..] == [];
    assert ReplaceFrom(e, [], repl, j + 1) == Ok(post);
    assert ReplaceFrom(e, [sp], repl, 0) == Ok(pre + value + post);
  }

  /** The braces around `key` are the only match in the expression. */
  lemma OnlyPlaceholder(pre: string, key: string, post: string)
    requires forall k :: 0 <= k < |pre| ==> !IsBrace(pre[k])
    requires forall k :: 0 <= k < |key| ==> !IsBrace(key[k])
    requires forall k :: 0 <= k < |post| ==> !IsBrace(post[k])
    ensures var e := pre + "{" + key + "}" + post;
      BraceSpans(e, 0) == [Span(|pre|, |pre| + |key| + 2)]
  {
    var e := pre + "{" + key + "}" + post;
    var i, j := |pre|, |pre| + |key| + 1;
    assert forall k :: 0 <= k < |e| && IsBrace(e[k]) ==> k == i || k == j;
    assert e[i] == '{' && e[j] == '}';
    PlaceholderMeaning(e, i, j);
    BraceSpansComplete(e, 0, i, j);
    var spans := BraceSpans(e, 0);
    forall n | 0 <= n < |spans| ensures spans[n] == Span(i, j + 1) {
      SpanIsPlaceholder(e, n);
      PlaceholderMeaning(e, spans[n].start, spans[n].end - 1);
    }
    SecondAfterFirst(e, spans, 0);
  }

  /** Ordered matches do not overlap: the second starts where the first ends
      or later. */
  lemma SecondAfterFirst(s: string, spans: seq<Span>, from: nat)
    requires OrderedSpans(s, spans, from)
    ensures |spans| >= 2 ==> spans[1].start >= spans[0].end
  {
    if |spans| >= 2 {
      assert OrderedSpans(s, spans[1..], spans[0].end);
      assert spans[1..][0] == spans[1];
    }
  }

  /** `evaluate_story_var_condition`: substitute, then hand the text to the
      boolean expression evaluator, which is a parameter of the model. */
  function EvaluateCondition(expr: string, vars: map<string, int>, evalBool: string -> Result<bool, string>): (r: Result<bool, string>)
    ensures SubstituteStoryVars(expr, vars).Err? ==> r.Err?
    ensures SubstituteStoryVars(expr, vars).Ok? ==> r == evalBool(SubstituteStoryVars(expr, vars).value)
  {
    match SubstituteStoryVars(expr, vars)
    case Err(e) => Err(e)
    case Ok(text) => evalBool(text)
  }
}

=== FILE: slotmap.dfy ===
/** The `slotmap` container that stores both the running script instances and
    the live entity ids. Values live in a vector of slots; a removed slot goes on
    the front of a free list and is the first one reused; every slot carries a
    version that is bumped on insertion and removal, so a key (index, version)
    stops being valid once its value is removed. Iteration visits occupied slots
    in index order, which fixes the order in which scripts are resumed and
    entities are queried. */
module SlotMap {
  import opened Wrappers

  datatype Key = Key(index: nat, version: nat)

  datatype Slot<T> = Slot(version: nat, value: Option<T>)

  datatype SlotMap<T> = SlotMap(slots: seq<Slot<T>>, freeList: seq<nat>)

  /** An empty map (`SlotMap::with_key`). */
  function Empty<T>(): (m: SlotMap<T>)
    ensures Valid(m) && Keys(m) == []
  {
    SlotMap([], [])
  }

  /** Occupied slots have odd versions, vacant ones even; the free list names
      distinct vacant slots. */
  ghost predicate Valid<T>(m: SlotMap<T>) {
    (forall i :: 0 <= i < |m.slots| ==> (m.slots[i].value.Some? <==> m.slots[i].version % 2 == 1))
    && (forall j :: 0 <= j < |m.freeList| ==> m.freeList[j] < |m.slots| && m.slots[m.freeList[j]].value.None?)
    && (forall j, k :: 0 <= j < k < |m.freeList| ==> m.freeList[j] != m.freeList[k])
  }

  /** `contains_key`: the slot exists, is occupied and has the key's version. */
  predicate Contains<T>(m: SlotMap<T>, k: Key) {
    k.index < |m.slots| && m.slots[k.index].value.Some? && m.slots[k.index].version == k.version
  }

  /** `get`. */
  function Get<T>(m: SlotMap<T>, k: Key): (r: Option<T>)
    ensures r.Some? <==> Contains(m, k)
  {
    if Contains(m, k) then m.slots[k.index].value else None
  }

  /** Keys of the occupied slots from index `i` on, in index order. */
  function KeysFrom<T>(slots: seq<Slot<T>>, i: nat): (r: seq<Key>)
    requires i <= |slots|
    decreases |slots| - i
    ensures forall j :: 0 <= j < |r| ==>
      (i <= r[j].index < |slots| && slots[r[j].index].value.Some? && slots[r[j].index].version == r[j].version)
    ensures forall j, k :: 0 <= j < k < |r| ==> r[j].index < r[k].index
    ensures forall n :: i <= n < |slots| && slots[n].value.Some? ==> Key(n, slots[n].version) in r
  {
    if i == |slots| then []
    else if slots[i].value.Some? then [Key(i, slots[i].version)] + KeysFrom(slots, i + 1)
    else KeysFrom(slots, i + 1)
  }

  /** Iteration order: the keys of all occupied slots by increasing index. */
  function Keys<T>(m: SlotMap<T>): (r: seq<Key>)
    ensures forall k :: k in r <==> Contains(m, k)
    ensures forall j, k :: 0 <= j < k < |r| ==> r[j].index < r[k].index
  {
    KeysFrom(m.slots, 0)
  }

  /** Slots are never dropped and versions never go back. */
  predicate Grows<T>(m: SlotMap<T>, m': SlotMap<T>) {
    |m.slots| <= |m'.slots| && forall i :: 0 <= i < |m.slots| ==> m.slots[i].version <= m'.slots[i].version
  }

  /** A key this map could have handed out: its slot exists and has reached
      the key's version. */
  predicate Issued<T>(m: SlotMap<T>, k: Key) {
    k.index < |m.slots| && k.version <= m.slots[k.index].version
  }

  /** Number of stored values (`len`). */
  function Len<T>(m: SlotMap<T>): nat {
    |Keys(m)|
  }

  /** `insert`: reuse the slot at the head of the free list, or append one. */
  function Insert<T>(m: SlotMap<T>, v: T): (r: (SlotMap<T>, Key))
    requires Valid(m)
    ensures Valid(r.0)
    ensures !Contains(m, r.1) && Get(r.0, r.1) == Some(v)
    ensures forall k :: k != r.1 ==> Get(r.0, k) == Get(m, k)
    ensures Grows(m, r.0) && Issued(r.0, r.1)
    ensures r.1.index < |m.slots| ==> m.slots[r.1.index].version < r.1.version
    ensures r.1.index >= |m.slots| ==> r.1.index == |m.slots|
  {
    if |m.freeList| > 0 then
      var i := m.freeList[0];
      var s := Slot(m.slots[i].version + 1, Some(v));
      var m' := SlotMap(m.slots[i := s], m.freeList[1..]);
      assert Valid(m') by {
        forall j | 0 <= j < |m'.freeList|
          ensures m'.freeList[j] < |m'.slots| && m'.slots[m'.freeList[j]].value.None?
        {
          assert m'.freeList[j] == m.freeList[j + 1] != i;
        }
      }
      (m', Key(i, s.version))
    else
      var s := Slot(1, Some(v));
      (SlotMap(m.slots + [s], m.freeList), Key(|m.slots|, 1))
  }

  /** `remove`: vacate the key's slot and push it on the free list. */
  function Remove<T>(m: SlotMap<T>, k: Key): (r: SlotMap<T>)
    requires Valid(m)
    ensures Valid(r)
    ensures !Contains(r, k)
    ensures forall k': Key :: k' != k ==> Get(r, k') == Get(m, k')
    ensures !Contains(m, k) ==> r == m
    ensures Grows(m, r)
  {
    if Contains(m, k) then
      var r := SlotMap(m.slots[k.index := Slot(k.version + 1, None)], [k.index] + m.freeList);
      assert k.index !in m.freeList;
      r
    else m
  }

  /** `get_mut` followed by an assignment: replace the value under a live key. */
  function Set<T>(m: SlotMap<T>, k: Key, v: T): (r: SlotMap<T>)
    requires Valid(m)
    ensures Valid(r) && Keys(r) == Keys(m) && Grows(m, r)
    ensures Contains(m, k) ==> Get(r, k) == Some(v)
    ensures forall k' :: k' != k ==> Get(r, k') == Get(m, k')
  {
    if Contains(m, k) then
      var r := SlotMap(m.slots[k.index := Slot(k.version, Some(v))], m.freeList);
      KeysFromUnchanged(m.slots, r.slots, 0);
      r
    else m
  }

  /** Keys depend only on which slots are occupied and their versions. */
  lemma {:induction false} KeysFromUnchanged<T>(a: seq<Slot<T>>, b: seq<Slot<T>>, i: nat)
    requires i <= |a| == |b|
    requires forall n :: i <= n < |a| ==> a[n].version == b[n].version && a[n].value.Some? == b[n].value.Some?
    decreases |a| - i
    ensures KeysFrom(a, i) == KeysFrom(b, i)
  {
    if i < |a| {
      KeysFromUnchanged(a, b, i + 1);
    }
  }

  /** The keys name pairwise distinct slots. */
  predicate DistinctIndices(ks: seq<Key>) {
    forall j, k :: 0 <= j < k < |ks| ==> ks[j].index != ks[k].index
  }

  /** A key of a list naming distinct slots occurs only at its own position. */
  lemma KeyOccursOnce(ks: seq<Key>, j: nat)
    requires DistinctIndices(ks) && j < |ks|
    ensures ks[j] !in ks[..j] && ks[j] !in ks[j + 1..]
  {
    forall a | 0 <= a < j ensures ks[..j][a] != ks[j] {
      assert ks[a].index != ks[j].index;
    }
    forall a | j < a < |ks| ensures ks[a] != ks[j] {
      assert ks[j].index != ks[a].index;
    }
  }

  /** What `retain` leaves under key `k`: the old value unless `k` was visited
      and its value failed `keep`. */
  function Kept<T>(m: SlotMap<T>, ks: seq<Key>, keep: T -> bool, k: Key): Option<T> {
    if k in ks && Get(m, k).Some? && !keep(Get(m, k).value) then None else Get(m, k)
  }

  /** `retain`: visit the keys in `ks` (iteration order) and remove those whose
      value fails `keep`. */
  function RetainKeys<T>(m: SlotMap<T>, ks: seq<Key>, keep: T -> bool): (r: SlotMap<T>)
    requires Valid(m) && DistinctIndices(ks)
    decreases |ks|
    ensures Valid(r)
    ensures forall k :: Get(r, k) == Kept(m, ks, keep, k)
  {
    if ks == [] then m
    else
      var k := ks[0];
      var m' := if Contains(m, k) && !keep(m.slots[k.index].value.value) then Remove(m, k) else m;
      var r := RetainKeys(m', ks[1..], keep);
      assert forall k' :: Get(r, k') == Kept(m, ks, keep, k') by {
        forall k' ensures Get(r, k') == Kept(m, ks, keep, k') {
          if k' == k {
            assert k !in ks[1..] by {
              forall j | 0 <= j < |ks[1..]| ensures ks[1..][j] != k {
                assert ks[1..][j] == ks[j + 1];
              }
            }
          } else {
            assert k' in ks <==> k' in ks[1..];
          }
        }
      }
      r
  }

  /** `retain` over the whole map: a key keeps its value exactly when it was
      live and its value passes `keep`. */
  function Retain<T>(m: SlotMap<T>, keep: T -> bool): (r: SlotMap<T>)
    requires Valid(m)
    ensures Valid(r)
    ensures forall k :: Get(r, k) == (if Get(m, k).Some? && keep(Get(m, k).value) then Get(m, k) else None)
  {
    var ks := Keys(m);
    var r := RetainKeys(m, ks, keep);
    assert forall k :: Get(m, k).Some? ==> k in ks;
    r
  }

  /** Values in iteration order. */
  function Values<T>(m: SlotMap<T>): (r: seq<T>)
    ensures |r| == |Keys(m)|
    ensures forall j :: 0 <= j < |r| ==> Get(m, Keys(m)[j]) == Some(r[j])
  {
    var ks := Keys(m);
    seq(|ks|, j requires 0 <= j < |ks| => m.slots[ks[j].index].value.value)
  }

  /** `clear`: every value is removed. */
  function Clear<T>(m: SlotMap<T>): (r: SlotMap<T>)
    requires Valid(m)
    ensures Valid(r) && forall k :: !Contains(r, k)
  {
    var r := Retain(m, (_: T) => false);
    assert forall k :: !Contains(r, k) by {
      forall k ensures !Contains(r, k) {
        assert Get(r, k) == None;
      }
    }
    r
  }

  /** One more live key means one more entry in iteration order. */
  lemma KeysAddOne<T>(a: SlotMap<T>, b: SlotMap<T>, k: Key)
    requires !Contains(a, k) && Contains(b, k)
    requires forall k' :: k' != k ==> Contains(b, k') == Contains(a, k')
    ensures Len(b) == Len(a) + 1
  {
    var sa := LiveSet(a);
    var sb := LiveSet(b);
    assert sb == sa + {k};
    assert k !in sa;
  }

  /** The live keys as a set; its size is the number of stored values. */
  function LiveSet<T>(m: SlotMap<T>): (r: set<Key>)
    ensures forall x :: x in r <==> Contains(m, x)
    ensures |r| == Len(m)
  {
    var ks := Keys(m);
    DistinctCard(ks);
    set x | x in ks
  }

  /** Keys in iteration order are distinct, so they count their set. */
  lemma {:induction false} DistinctCard(ks: seq<Key>)
    requires forall j, k :: 0 <= j < k < |ks| ==> ks[j].index < ks[k].index
    ensures |set x | x in ks| == |ks|
  {
    if ks != [] {
      DistinctCard(ks[1..]);
      assert (set x | x in ks) == (set x | x in ks[1..]) + {ks[0]};
      assert ks[0] !in ks[1..];
    }
  }
}

=== FILE: storyvars.dfy ===
/** The story-variable store: named `i32` counters that scripts read, write
    and test in start conditions. Three write disciplines coexist in the
    engine: `StoryVars::set` (src/misc.rs) only overwrites an existing key,
    while the older callbacks and the data loader insert. */
module StoryVars {
  import opened Wrappers

  type Vars = map<string, int>

  /** `StoryVars::get`: the value, or nothing for an unknown key (the source
      logs that case). */
  function Get(vars: Vars, key: string): (r: Option<int>)
    ensures r.Some? <==> key in vars
    ensures r.Some? ==> r.value == vars[key]
  {
    if key in vars then Some(vars[key]) else None
  }

  /** `StoryVars::set`: overwrite an existing key; an unknown key is left
      unknown. */
  function Set(vars: Vars, key: string, val: int): (r: Vars)
    ensures r.Keys == vars.Keys
    ensures key in vars ==> r[key] == val
    ensures forall k :: k in vars && k != key ==> r[k] == vars[k]
  {
    if key in vars then vars[key := val] else vars
  }

  /** `HashMap::insert`, as the older callbacks and the data loader write:
      create or overwrite. */
  function Insert(vars: Vars, key: string, val: int): (r: Vars)
    ensures r.Keys == vars.Keys + {key}
    ensures r[key] == val
    ensures forall k :: k in vars && k != key ==> r[k] == vars[k]
  {
    vars[key := val]
  }

  /** Reading back a write: `Set` is seen only for keys that already
      existed, `Insert` always; the two agree exactly on existing keys. */
  lemma SetAndInsertAgreeOnExistingKeys(vars: Vars, key: string, val: int)
    ensures Get(Set(vars, key, val), key) == (if key in vars then Some(val) else None)
    ensures Get(Insert(vars, key, val), key) == Some(val)
    ensures key in vars <==> Set(vars, key, val) == Insert(vars, key, val)
    ensures key !in vars ==> Set(vars, key, val) == vars
  {
    if key !in vars {
      assert key in Insert(vars, key, val).Keys;
    }
  }

  /** Writes to one key never disturb another. */
  lemma WritesAreLocal(vars: Vars, key: string, other: string, val: int)
    requires other != key
    ensures Get(Set(vars, key, val), other) == Get(vars, other)
    ensures Get(Insert(vars, key, val), other) == Get(vars, other)
  {
  }
}

=== FILE: systems.dfy ===
/** The per-frame rules of src/update.rs: which scripts a frame starts and
    queues, how walking ends, the character and dual-state animation state
    machines, frame selection, and the camera. The rules that loop over a
    query are written per entity on component values; the trigger rules,
    which read several entities at once, are written over the store. */
module Systems {
  import opened Wrappers
  import opened SlotMap
  import opened Geometry
  import opened Components
  import opened Ecs
  import Scheduler
  import Game
  import opened Vm

  /** `PLAYER_ENTITY_NAME`. */
  const PlayerName: string := "player"

  // ---------------------------------------------------------------------
  // Triggers
  // ---------------------------------------------------------------------

  function AreaTriggerOf(e: Ecs, id: Key): Option<AreaTrigger> {
    match GetComponent(e, AreaTriggerTag, id) case Some(CAreaTrigger(a)) => Some(a) case _ => None
  }

  function CollisionTriggerOf(e: Ecs, id: Key): Option<CollisionTrigger> {
    match GetComponent(e, CollisionTriggerTag, id) case Some(CCollisionTrigger(c)) => Some(c) case _ => None
  }

  /** The query `(&Position, &Collision)` looked up by the player's name. */
  const PlayerQuery: Query := QTuple([QRef(PositionTag), QRef(CollisionTag)])

  /** The player's id, box and map, if there is a player with a position
      and a collision. */
  function Player(e: Ecs): (r: Option<(Key, Aabb, string, bool)>)
    ensures r.Some? ==> FindByName(e, PlayerQuery, PlayerName) == Some(r.value.0)
    ensures r.Some? ==> PositionOf(e, r.value.0).Some? && CollisionOf(e, r.value.0).Some?
    ensures r.Some? ==>
      var p := PositionOf(e, r.value.0).value;
      var c := CollisionOf(e, r.value.0).value;
      r.value.1 == BoxAround(p.mapPos, c.hitbox) && r.value.2 == p.mapName && r.value.3 == c.solid
    ensures FindByName(e, PlayerQuery, PlayerName).None? ==> r.None?
  {
    match FindByName(e, PlayerQuery, PlayerName)
    case None => None
    case Some(id) =>
      match (PositionOf(e, id), CollisionOf(e, id))
      case (Some(p), Some(c)) => Some((id, BoxAround(p.mapPos, c.hitbox), p.mapName, c.solid))
      case _ => None
  }

  /** An area trigger on the player's map whose box overlaps the player's. */
  predicate AreaHit(e: Ecs, id: Key, box: Aabb, mapName: string) {
    PositionOf(e, id).Some? && AreaTriggerOf(e, id).Some?
    && PositionOf(e, id).value.mapName == mapName
    && Intersects(BoxAround(PositionOf(e, id).value.mapPos, AreaTriggerOf(e, id).value.hitbox), box)
  }

  /** The sources the area triggers among `ids` queue, in order; a source
      that cannot be read is logged and skipped. */
  function AreaSources(e: Ecs, ids: seq<Key>, box: Aabb, mapName: string, files: map<string, string>): (r: seq<string>)
    decreases |ids|
    ensures |r| <= |ids|
    ensures forall s :: s in r <==>
      exists id :: id in ids && AreaHit(e, id, box, mapName) && GetSource(AreaTriggerOf(e, id).value.scriptSource, files) == Ok(s)
  {
    if ids == [] then []
    else
      var rest := AreaSources(e, ids[1..], box, mapName, files);
      assert forall id :: id in ids <==> id == ids[0] || id in ids[1..];
      AreaSourceOf(e, ids[0], box, mapName, files) + rest
  }

  /** What one id queues: its source when it is a hit whose source reads. */
  function AreaSourceOf(e: Ecs, id: Key, box: Aabb, mapName: string, files: map<string, string>): seq<string> {
    if AreaHit(e, id, box, mapName) && GetSource(AreaTriggerOf(e, id).value.scriptSource, files).Ok? then
      [GetSource(AreaTriggerOf(e, id).value.scriptSource, files).value]
    else []
  }

  /** One id queues its own source once when it is a hit whose source
      reads, and nothing otherwise. */
  lemma AreaSourcesOne(e: Ecs, id: Key, box: Aabb, mapName: string, files: map<string, string>)
    ensures AreaSources(e, [id], box, mapName, files)
      == if AreaHit(e, id, box, mapName) && GetSource(AreaTriggerOf(e, id).value.scriptSource, files).Ok?
         then [GetSource(AreaTriggerOf(e, id).value.scriptSource, files).value] else []
  {
    assert [id][1..] == [];
  }

  /** The sources of two runs of ids are those of the first run followed by
      those of the second: ids queue in the order they are visited, and
      nothing is merged or dropped across ids. */
  lemma {:induction false} AreaSourcesConcat(e: Ecs, a: seq<Key>, b: seq<Key>, box: Aabb, mapName: string, files: map<string, string>)
    ensures AreaSources(e, a + b, box, mapName, files) == AreaSources(e, a, box, mapName, files) + AreaSources(e, b, box, mapName, files)
    decreases |a|
  {
    if a == [] {
      assert a + b == b;
    } else {
      assert (a + b)[0] == a[0] && (a + b)[1..] == a[1..] + b;
      AreaSourcesConcat(e, a[1..], b, box, mapName, files);
      var head := AreaSourceOf(e, a[0], box, mapName, files);
      calc {
        AreaSources(e, a + b, box, mapName, files);
        head + AreaSources(e, a[1..] + b, box, mapName, files);
        head + (AreaSources(e, a[1..], box, mapName, files) + AreaSources(e, b, box, mapName, files));
        (head + AreaSources(e, a[1..], box, mapName, files)) + AreaSources(e, b, box, mapName, files);
      }
    }
  }

  const AreaQuery: Query := QTuple([QRef(PositionTag), QRef(AreaTriggerTag)])

  /** `start_area_trigger_scripts`: with no player nothing is queued;
      otherwise every live area trigger overlapping the player on the
      player's map queues its source, on every frame of overlap. */
  function AreaTriggerQueue(e: Ecs, files: map<string, string>): (r: seq<string>)
    ensures Player(e).None? ==> r == []
    ensures Player(e).Some? ==>
      forall s :: s in r <==>
        exists id :: (IsLive(e, id) && Filter(AreaQuery, id, e)
          && AreaHit(e, id, Player(e).value.1, Player(e).value.2)
          && GetSource(AreaTriggerOf(e, id).value.scriptSource, files) == Ok(s))
    ensures Player(e).Some? ==> r == AreaSources(e, Filtered(e, AreaQuery), Player(e).value.1, Player(e).value.2, files)
  {
    match Player(e)
    case None => []
    case Some((_, box, mapName, _)) => AreaSources(e, Filtered(e, AreaQuery), box, mapName, files)
  }

  /** A solid entity on the player's map, with a collision trigger, whose
      box overlaps the player's. */
  predicate CollisionHit(e: Ecs, id: Key, box: Aabb, mapName: string) {
    PositionOf(e, id).Some? && CollisionOf(e, id).Some? && CollisionTriggerOf(e, id).Some?
    && PositionOf(e, id).value.mapName == mapName && CollisionOf(e, id).value.solid
    && Intersects(box, BoxAround(PositionOf(e, id).value.mapPos, CollisionOf(e, id).value.hitbox))
  }

  function CollisionSources(e: Ecs, ids: seq<Key>, box: Aabb, mapName: string, files: map<string, string>): (r: seq<string>)
    decreases |ids|
    ensures |r| <= |ids|
    ensures forall s :: s in r <==>
      exists id :: (id in ids && CollisionHit(e, id, box, mapName)
        && GetSource(CollisionTriggerOf(e, id).value.scriptSource, files) == Ok(s))
  {
    if ids == [] then []
    else
      var rest := CollisionSources(e, ids[1..], box, mapName, files);
      assert forall id :: id in ids <==> id == ids[0] || id in ids[1..];
      CollisionSourceOf(e, ids[0], box, mapName, files) + rest
  }

  /** What one id queues: its source when it is a hit whose source reads. */
  function CollisionSourceOf(e: Ecs, id: Key, box: Aabb, mapName: string, files: map<string, string>): seq<string> {
    if CollisionHit(e, id, box, mapName) && GetSource(CollisionTriggerOf(e, id).value.scriptSource, files).Ok? then
      [GetSource(CollisionTriggerOf(e, id).value.scriptSource, files).value]
    else []
  }

  /** One id queues its own source once when it is a hit whose source
      reads, and nothing otherwise. */
  lemma CollisionSourcesOne(e: Ecs, id: Key, box: Aabb, mapName: string, files: map<string, string>)
    ensures CollisionSources(e, [id], box, mapName, files)
      == if CollisionHit(e, id, box, mapName) && GetSource(CollisionTriggerOf(e, id).value.scriptSource, files).Ok?
         then [GetSource(CollisionTriggerOf(e, id).value.scriptSource, files).value] else []
  {
    assert [id][1..] == [];
  }

  /** The sources of two runs of ids are those of the first run followed by
      those of the second. */
  lemma {:induction false} CollisionSourcesConcat(e: Ecs, a: seq<Key>, b: seq<Key>, box: Aabb, mapName: string, files: map<string, string>)
    ensures CollisionSources(e, a + b, box, mapName, files) == CollisionSources(e, a, box, mapName, files) + CollisionSources(e, b, box, mapName, files)
    decreases |a|
  {
    if a == [] {
      assert a + b == b;
    } else {
      assert (a + b)[0] == a[0] && (a + b)[1..] == a[1..] + b;
      CollisionSourcesConcat(e, a[1..], b, box, mapName, files);
      var head := CollisionSourceOf(e, a[0], box, mapName, files);
      calc {
        CollisionSources(e, a + b, box, mapName, files);
        head + CollisionSources(e, a[1..] + b, box, mapName, files);
        head + (CollisionSources(e, a[1..], box, mapName, files) + CollisionSources(e, b, box, mapName, files));
        (head + CollisionSources(e, a[1..], box, mapName, files)) + CollisionSources(e, b, box, mapName, files);
      }
    }
  }

  const CollisionQuery: Query := QTuple([QRef(PositionTag), QRef(CollisionTag), QRef(CollisionTriggerTag)])

  /** `start_collision_trigger_scripts`: only a solid player triggers, and
      only solid entities other than the player, on the same map, whose
      boxes overlap the player's. */
  function CollisionTriggerQueue(e: Ecs, files: map<string, string>): (r: seq<string>)
    ensures Player(e).None? || !Player(e).value.3 ==> r == []
    ensures Player(e).Some? && Player(e).value.3 ==>
      forall s :: s in r <==>
        exists id :: (IsLive(e, id) && Filter(CollisionQuery, id, e) && id != Player(e).value.0
          && CollisionHit(e, id, Player(e).value.1, Player(e).value.2)
          && GetSource(CollisionTriggerOf(e, id).value.scriptSource, files) == Ok(s))
    ensures Player(e).Some? && Player(e).value.3 ==>
      r == CollisionSources(e, QueryExceptIds(e, CollisionQuery, Player(e).value.0), Player(e).value.1, Player(e).value.2, files)
  {
    match Player(e)
    case None => []
    case Some((id, box, mapName, solid)) =>
      if !solid then [] else CollisionSources(e, QueryExceptIds(e, CollisionQuery, id), box, mapName, files)
  }

  /** The scripting part of `update`: auto scripts are started directly,
      area triggers are queued and the scheduler runs (starting the queue
      and resuming instances); `move` stands for the velocity and position
      rules in between; collision triggers are queued last. */
  function FrameScripts(m: Scheduler.Manager, h: Game.Host, autoScripts: seq<string>, files: map<string, string>,
                        now: int, o: Scheduler.Oracles, move: Ecs -> Ecs): (r: (Scheduler.Manager, Game.Host))
    requires Scheduler.Valid(m)
    ensures Scheduler.Valid(r.0)
    ensures forall k :: Get(r.0.instances, k).Some? ==> Get(r.0.instances, k).value.thread.status == Resumable
  {
    var started := m.(instances := Scheduler.StartAll(m.instances, autoScripts, h.storyVars, o));
    var queued := started.(startQueue := started.startQueue + AreaTriggerQueue(h.ecs, files));
    var (m', h') := Scheduler.Update(queued, h, now, o);
    var moved := h'.(ecs := move(h'.ecs));
    (m'.(startQueue := m'.startQueue + CollisionTriggerQueue(moved.ecs, files)), moved)
  }

  /** Area triggers are started within the frame that queued them, while
      collision-triggered scripts are still queued at the end of the frame
      and start in the next frame's scheduler run. */
  lemma CollisionScriptsWaitForNextFrame(m: Scheduler.Manager, h: Game.Host, autoScripts: seq<string>, files: map<string, string>,
                                         now: int, o: Scheduler.Oracles, move: Ecs -> Ecs)
    requires Scheduler.Valid(m)
    ensures var (m', h') := FrameScripts(m, h, autoScripts, files, now, o, move);
      m'.startQueue == CollisionTriggerQueue(h'.ecs, files)
  {
  }

  // ---------------------------------------------------------------------
  // Walking
  // ---------------------------------------------------------------------

  /** The velocity of `set_velocity_from_walking`: `speed` per frame along
      the walking direction. */
  function VelocityFromWalking(w: Walking): (v: Vec2)
    ensures forall p: Vec2 :: Ahead(w.direction, p, Add(p, v)) == w.speed && Aside(w.direction, p, Add(p, v)) == 0.0
  {
    match w.direction
    case Up => Vec2(0.0, -w.speed)
    case Down => Vec2(0.0, w.speed)
    case Left => Vec2(-w.speed, 0.0)
    case Right => Vec2(w.speed, 0.0)
  }

  /** The comparison of `end_walking_if_destination_reached`. */
  predicate PassedDestination(d: Direction, pos: Vec2, destination: Vec2) {
    match d
    case Up => pos.y < destination.y
    case Down => pos.y > destination.y
    case Left => pos.x < destination.x
    case Right => pos.x > destination.x
  }

  /** Passing means lying strictly beyond the destination in the walking
      direction; reaching it exactly is not enough. */
  lemma PassedMeansStrictlyAhead(d: Direction, pos: Vec2, destination: Vec2)
    ensures PassedDestination(d, pos, destination) <==> Ahead(d, destination, pos) > 0.0
  {
  }

  /** `end_walking_if_destination_reached` for one entity. */
  function EndWalking(pos: Vec2, w: Walking): (r: (Vec2, Walking))
    ensures w.destination.None? || Ahead(w.direction, w.destination.value, pos) <= 0.0 ==> r == (pos, w)
    ensures w.destination.Some? && Ahead(w.direction, w.destination.value, pos) > 0.0 ==>
      r.0 == w.destination.value && r.1.speed == 0.0 && r.1.destination.None? && r.1.direction == w.direction
  {
    PassedMeansStrictlyAhead(w.direction, pos, if w.destination.Some? then w.destination.value else pos);
    match w.destination
    case Some(destination) =>
      if PassedDestination(w.direction, pos, destination) then (destination, w.(speed := 0.0, destination := None))
      else (pos, w)
    case None => (pos, w)
  }

  /** Ending a walk is idempotent: a second pass changes nothing. */
  lemma EndWalkingIdempotent(pos: Vec2, w: Walking)
    ensures EndWalking(EndWalking(pos, w).0, EndWalking(pos, w).1) == EndWalking(pos, w)
  {
  }

  /** A walker that started at `start` toward a destination `dist` ahead,
      and has moved along its line to `pos`, stops exactly at the
      destination once it has overshot it, and keeps walking before. */
  lemma WalkEndsAtDestination(start: Vec2, pos: Vec2, w: Walking, dist: real)
    requires w.destination == Some(Add(start, Step(w.direction, dist)))
    requires Aside(w.direction, start, pos) == 0.0
    ensures Ahead(w.direction, start, pos) > dist ==> EndWalking(pos, w) == (w.destination.value, w.(speed := 0.0, destination := None))
    ensures Ahead(w.direction, start, pos) <= dist ==> EndWalking(pos, w) == (pos, w)
  {
    StepIsAhead(w.direction, start, pos, dist);
  }

  /** `stop_player_movement_when_message_window_open`: while a message is
      open, the player's own movement stops, but a scripted walk (one with
      a destination) goes on. */
  function StopPlayerForMessage(windowOpen: bool, w: Walking): (r: Walking)
    ensures r.direction == w.direction && r.destination == w.destination
    ensures windowOpen && w.destination.None? ==> r.speed == 0.0
    ensures !windowOpen || w.destination.Some? ==> r == w
  {
    if windowOpen && w.destination.None? then w.(speed := 0.0) else w
  }

  /** Resolution against several boxes, one after another (the loops of
      `resolve_collisions_with_tiles` and `resolve_collisions_with_entities`). */
  function ResolveAll(box: Aabb, others: seq<Aabb>, velocity: Vec2): (r: Aabb)
    decreases |others|
    ensures r.bottom - r.top == box.bottom - box.top && r.right - r.left == box.right - box.left
    ensures (forall i :: 0 <= i < |others| ==> !Intersects(box, others[i])) ==> r == box
    ensures velocity == Vec2(0.0, 0.0) ==> r == box
  {
    if others == [] then box
    else ResolveAll(ResolveAgainstVelocity(box, others[0], velocity), others[1..], velocity)
  }

  /** `resolve_collisions_with_entities` for one entity: a non-solid entity
      is not moved; a solid one is pushed out of the solid boxes on its own
      map, and its new position is the centre of the pushed box. */
  function ResolveWithEntities(pos: WorldPos, c: Collision, velocity: Vec2, others: seq<(WorldPos, Collision)>): (r: WorldPos)
    ensures r.mapName == pos.mapName
    ensures !c.solid || velocity == Vec2(0.0, 0.0) ==> r == pos
  {
    if !c.solid then pos
    else
      var boxes := SolidBoxesOn(pos.mapName, others);
      pos.(mapPos := Center(ResolveAll(BoxAround(pos.mapPos, c.hitbox), boxes, velocity)))
  }

  /** The boxes of the solid entities on map `mapName`, in order. */
  function SolidBoxesOn(mapName: string, others: seq<(WorldPos, Collision)>): (r: seq<Aabb>)
    decreases |others|
    ensures |r| <= |others|
    ensures forall b :: b in r <==>
      exists i :: (0 <= i < |others| && others[i].0.mapName == mapName && others[i].1.solid
        && b == BoxAround(others[i].0.mapPos, others[i].1.hitbox))
  {
    if others == [] then []
    else
      var rest := SolidBoxesOn(mapName, others[1..]);
      assert forall i :: 0 < i < |others| ==> others[i] == others[1..][i - 1];
      if others[0].0.mapName == mapName && others[0].1.solid then [BoxAround(others[0].0.mapPos, others[0].1.hitbox)] + rest
      else rest
  }

  // ---------------------------------------------------------------------
  // Animation
  // ---------------------------------------------------------------------

  /** `update_character_animations` for one entity: a forced animation is
      left alone; otherwise the clip follows the facing, a moving character
      starts its walk cycle if stopped, and a still one stops. */
  function CharacterAnimation(a: AnimationComp, anims: CharacterAnims, facing: Direction, w: Walking): (r: AnimationComp)
    ensures a.forced ==> r == a
    ensures !a.forced ==> r.clip == ClipFacing(anims, facing)
    ensures !a.forced ==> (r.state == Stopped <==> w.speed <= 0.0)
    ensures !a.forced && w.speed > 0.0 && a.state != Stopped ==> r == a.(clip := r.clip)
    ensures !a.forced && w.speed > 0.0 && a.state == Stopped ==> r.elapsed == 0.0 && r.repeat
  {
    if a.forced then a
    else
      var b := a.(clip := ClipFacing(anims, facing));
      if w.speed > 0.0 then (if b.state == Stopped then Start(b, true) else b)
      else Stop(b)
  }

  /** Running the character rule twice is the same as running it once. */
  lemma CharacterAnimationIdempotent(a: AnimationComp, anims: CharacterAnims, facing: Direction, w: Walking)
    ensures CharacterAnimation(CharacterAnimation(a, anims, facing, w), anims, facing, w) == CharacterAnimation(a, anims, facing, w)
  {
  }

  /** `update_dual_state_animations` for one entity: a finished transition
      moves on to the state it leads to and starts that state's loop; the
      clip is then set from the (possibly new) state. */
  function DualStateAnimation(a: AnimationComp, d: DualStateAnims): (r: (AnimationComp, DualStateAnims))
    ensures a.forced ==> r == (a, d)
    ensures !a.forced ==> r.0.clip == ClipOfState(r.1)
    ensures !a.forced && a.state == Stopped && d.dualState == FirstToSecond ==>
      r.1 == d.(dualState := Second) && r.0.state == Playing && r.0.repeat && r.0.elapsed == 0.0
    ensures !a.forced && a.state == Stopped && d.dualState == SecondToFirst ==>
      r.1 == d.(dualState := First) && r.0.state == Playing && r.0.repeat && r.0.elapsed == 0.0
    ensures a.state != Stopped || d.dualState == First || d.dualState == Second ==> r.1 == d && r.0.state == a.state
  {
    if a.forced then (a, d)
    else
      var (a', d') :=
        match (d.dualState, a.state)
        case (FirstToSecond, Stopped) => (Start(a, true), d.(dualState := Second))
        case (SecondToFirst, Stopped) => (Start(a, true), d.(dualState := First))
        case _ => (a, d);
      (a'.(clip := ClipOfState(d')), d')
  }

  /** Running the dual-state rule twice is the same as running it once: a
      state it moves to is a resting state, and the restarted animation is
      playing. */
  lemma DualStateAnimationIdempotent(a: AnimationComp, d: DualStateAnims)
    ensures var (a', d') := DualStateAnimation(a, d); DualStateAnimation(a', d') == (a', d')
  {
  }

  /** A switch requested by a script (`FirstToSecond` with the animation
      started once, see the script callback) ends in `Second` once its
      transition has stopped playing. */
  lemma TransitionSettles(a: AnimationComp, d: DualStateAnims)
    requires !a.forced && a.state == Stopped && d.dualState == FirstToSecond
    ensures DualStateAnimation(a, d).1.dualState == Second
    ensures DualStateAnimation(a, d).0.clip == d.second
  {
  }

  function Abs(x: real): real {
    if x < 0.0 then -x else x
  }

  /** Rust's `%` on `f64` for a non-negative dividend and a non-zero
      divisor: the remainder takes the sign of the dividend, so it is the
      dividend less a whole number of divisors, below the divisor's size. */
  function FMod(x: real, d: real): (r: real)
    requires x >= 0.0 && d != 0.0
    ensures 0.0 <= r < Abs(d)
    ensures IsWhole((x - r) / Abs(d))
  {
    var m := Abs(d);
    var q := (x / m).Floor as real;
    FloorBounds(x, m);
    MulDivCancel(m, q);
    assert x - (x - m * q) == m * q;
    x - m * q
  }

  /** `y` is an integer. */
  predicate IsWhole(y: real) {
    y.Floor as real == y
  }

  /** The whole part of `x / m` times `m` is at most `x`, and less than `m`
      below it. */
  lemma FloorBounds(x: real, m: real)
    requires x >= 0.0 && m > 0.0
    ensures 0.0 <= x - m * ((x / m).Floor as real) < m
  {
    var q := (x / m).Floor as real;
    assert q <= x / m < q + 1.0;
    DivMul(x, m);
    MulMonotone(m, q, x / m);
    MulStrict(m, x / m, q + 1.0);
    assert m * (q + 1.0) == m * q + m;
    assert x < m * (q + 1.0);
  }

  lemma DivMul(a: real, b: real)
    requires b != 0.0
    ensures b * (a / b) == a
  {
  }

  lemma MulDivCancel(m: real, q: real)
    requires m != 0.0
    ensures (m * q) / m == q
  {
  }

  /** The remainder is the only value in range that differs from the
      dividend by a whole number of divisors. */
  lemma {:induction false} FModUnique(x: real, d: real, k: int, y: real)
    requires x >= 0.0 && d != 0.0
    requires 0.0 <= y < Abs(d) && x == (k as real) * Abs(d) + y
    ensures FMod(x, d) == y
  {
    var m := Abs(d);
    assert x / m == (k as real) + y / m;
    assert 0.0 <= y / m < 1.0 by {
      DivBelowOne(y, m);
    }
    assert (x / m).Floor == k;
  }

  lemma DivBelowOne(y: real, m: real)
    requires 0.0 <= y < m
    ensures 0.0 <= y / m < 1.0
  {
  }

  lemma MulMonotone(m: real, a: real, b: real)
    requires m > 0.0 && a <= b
    ensures m * a <= m * b
  {
  }

  lemma MulStrict(m: real, a: real, b: real)
    requires m > 0.0 && a < b
    ensures m * a < m * b
  {
  }

  /** `as usize` on a float: truncation toward zero, saturating at the
      bounds, with negative values going to 0. */
  function FloorToUsize(x: real): (r: nat)
    ensures x >= 0.0 && x < (UsizeBound as real) ==> r == x.Floor
    ensures x < 1.0 ==> r == 0
  {
    if x < 0.0 then 0 else if x.Floor >= UsizeBound then UsizeBound - 1 else x.Floor
  }

  const UsizeBound: nat := 0x1_0000_0000_0000_0000

  /** The frame shown by `play_animations_and_set_sprites`: the last frame
      when the animation has finished or is stopped, otherwise the frame
      the elapsed time falls in, looping over the clip. A clip with zero
      or negative seconds per frame makes the quotient NaN or negative,
      which casts to 0. */
  function FrameIndex(elapsed: real, secondsPerFrame: real, len: nat, finished: bool, stopped: bool): (r: nat)
    requires elapsed >= 0.0 && 0 < len <= UsizeBound
    ensures r < len
    ensures finished || stopped ==> r == len - 1
    ensures !finished && !stopped && secondsPerFrame > 0.0 ==>
      var rem := FMod(elapsed, secondsPerFrame * (len as real));
      r == (rem / secondsPerFrame).Floor
      && (r as real) * secondsPerFrame <= rem < (r as real + 1.0) * secondsPerFrame
    ensures !finished && !stopped && secondsPerFrame <= 0.0 ==> r == 0
  {
    if finished || stopped then len - 1
    else if secondsPerFrame == 0.0 then 0
    else
      var duration := secondsPerFrame * (len as real);
      var x := FMod(elapsed, duration) / secondsPerFrame;
      if secondsPerFrame > 0.0 then
        PositiveProduct(secondsPerFrame, len as real);
        FrameOfRemainder(FMod(elapsed, duration), secondsPerFrame, len);
        FloorToUsize(x)
      else
        DivNonPositive(FMod(elapsed, duration), secondsPerFrame);
        FloorToUsize(x)
  }

  /** The whole part of a remainder below the clip's duration, counted in
      frames, is a frame of the clip whose time span holds the remainder. */
  lemma FrameOfRemainder(rem: real, spf: real, len: nat)
    requires spf > 0.0 && 0.0 <= rem < spf * (len as real)
    ensures 0 <= (rem / spf).Floor < len
    ensures ((rem / spf).Floor as real) * spf <= rem < ((rem / spf).Floor as real + 1.0) * spf
  {
    var x := rem / spf;
    var f := x.Floor as real;
    DivMul(rem, spf);
    assert spf * x == rem;
    assert x < len as real by {
      if x >= len as real {
        MulMonotone(spf, len as real, x);
        assert false;
      }
    }
    assert f <= x < f + 1.0;
    MulMonotone(spf, f, x);
    assert spf * f <= rem;
    MulStrict(spf, x, f + 1.0);
    assert rem < spf * (f + 1.0);
    MulCommutes(f + 1.0, spf);
    MulCommutes(f, spf);
  }

  lemma MulCommutes(a: real, b: real)
    ensures a * b == b * a
  {
  }

  lemma PositiveProduct(a: real, b: real)
    ensures a > 0.0 && b > 0.0 ==> a * b > 0.0
  {
  }

  lemma DivNonPositive(a: real, b: real)
    requires a >= 0.0 && b < 0.0
    ensures a / b <= 0.0
  {
    DivMul(a, b);
  }

  /** The animation after a frame of `delta` seconds: only a playing one
      advances. */
  function Advance(a: AnimationComp, delta: real): (r: AnimationComp)
    ensures r.(elapsed := a.elapsed) == a
    ensures a.state == Playing ==> r.elapsed - a.elapsed == delta
    ensures a.state != Playing ==> r == a
  {
    if a.state == Playing then a.(elapsed := a.elapsed + delta) else a
  }

  /** Two frames advance an animation as one frame of their total length. */
  lemma AdvanceTwice(a: AnimationComp, d1: real, d2: real)
    ensures Advance(Advance(a, d1), d2) == Advance(a, d1 + d2)
  {
  }

  /** A non-repeating animation has run past the end of its clip. */
  predicate Finished(a: AnimationComp) {
    a.elapsed > a.clip.secondsPerFrame * (|a.clip.frames| as real) && !a.repeat
  }

  /** `play_animations_and_set_sprites` for one entity over a frame of
      `delta` seconds: an empty clip is skipped; a playing animation
      advances; the sprite is set to the selected frame; a non-repeating
      animation that has run past its clip is stopped. */
  function PlayAnimation(a: AnimationComp, s: SpriteComp, delta: real): (r: (AnimationComp, SpriteComp))
    requires a.elapsed >= 0.0 && delta >= 0.0 && |a.clip.frames| <= UsizeBound
    ensures a.clip.frames == [] ==> r == (a, s)
    ensures a.clip.frames != [] ==> r.1.sprite.Some? && r.1.sprite.value in a.clip.frames
    ensures a.clip.frames != [] ==> r.0.elapsed == Advance(a, delta).elapsed
    ensures a.clip.frames != [] ==>
      r.1.sprite == Some(a.clip.frames[FrameIndex(Advance(a, delta).elapsed, a.clip.secondsPerFrame, |a.clip.frames|,
                                                  Finished(Advance(a, delta)), a.state == Stopped)])
    ensures a.clip.frames != [] ==> r.0.state == (if Finished(Advance(a, delta)) then Stopped else a.state)
    ensures r.0.elapsed >= 0.0 && r.0.clip == a.clip && r.0.repeat == a.repeat
    ensures r.1.forcedSprite == s.forcedSprite && r.1.visible == s.visible
  {
    var frames := a.clip.frames;
    if frames == [] then (a, s)
    else
      var a1 := Advance(a, delta);
      var i := FrameIndex(a1.elapsed, a.clip.secondsPerFrame, |frames|, Finished(a1), a1.state == Stopped);
      (if Finished(a1) then Stop(a1) else a1, s.(sprite := Some(frames[i])))
  }

  /** A non-repeating animation shows its last frame once it has run past
      its clip, including in the frame where playing carries it past, and
      is stopped from then on. */
  lemma FinishedShowsLastFrame(a: AnimationComp, s: SpriteComp, delta: real)
    requires a.elapsed >= 0.0 && delta >= 0.0 && |a.clip.frames| <= UsizeBound
    requires a.clip.frames != [] && !a.repeat
    requires (if a.state == Playing then a.elapsed + delta else a.elapsed) > a.clip.secondsPerFrame * (|a.clip.frames| as real)
    ensures PlayAnimation(a, s, delta).1.sprite == Some(a.clip.frames[|a.clip.frames| - 1])
    ensures PlayAnimation(a, s, delta).0.state == Stopped
  {
    assert Finished(Advance(a, delta));
  }

  // ---------------------------------------------------------------------
  // Camera
  // ---------------------------------------------------------------------

  /** `f64::clamp`, which panics when the lower bound exceeds the upper. */
  function Clamp(x: real, lo: real, hi: real): (r: Option<real>)
    ensures r.Some? <==> lo <= hi
    ensures r.Some? ==> lo <= r.value <= hi
    ensures r.Some? && lo <= x <= hi ==> r.value == x
  {
    if lo > hi then None else Some(if x < lo then lo else if x > hi then hi else x)
  }

  /** The clamping of `update_camera`: only when the map is at least as
      large as the camera's view on both axes, which is exactly what keeps
      `clamp` from panicking. */
  function ClampCamera(p: Vec2, size: Vec2, bounds: Rect): (r: Vec2)
    ensures !(bounds.width >= size.x && bounds.height >= size.y) ==> r == p
    ensures bounds.width >= size.x && bounds.height >= size.y ==>
      bounds.Left() <= r.x - size.x / 2.0 && r.x + size.x / 2.0 <= bounds.Right()
      && bounds.Top() <= r.y - size.y / 2.0 && r.y + size.y / 2.0 <= bounds.Bottom()
    ensures (bounds.width >= size.x && bounds.height >= size.y
             && bounds.Left() <= p.x - size.x / 2.0 && p.x + size.x / 2.0 <= bounds.Right()
             && bounds.Top() <= p.y - size.y / 2.0 && p.y + size.y / 2.0 <= bounds.Bottom()) ==> r == p
  {
    if bounds.width >= size.x && bounds.height >= size.y then
      var x := Clamp(p.x, bounds.Left() + size.x / 2.0, bounds.Right() - size.x / 2.0);
      var y := Clamp(p.y, bounds.Top() + size.y / 2.0, bounds.Bottom() - size.y / 2.0);
      Vec2(x.value, y.value)
    else p
  }

  /** The first entity, in query order, carrying the target name. */
  function FindTarget(others: seq<(WorldPos, string)>, target: string): (r: Option<WorldPos>)
    decreases |others|
    ensures r.Some? <==> exists i :: 0 <= i < |others| && others[i].1 == target
    ensures r.Some? ==>
      exists i :: (0 <= i < |others| && others[i].1 == target && others[i].0 == r.value
        && forall j :: 0 <= j < i ==> others[j].1 != target)
  {
    if others == [] then None
    else if others[0].1 == target then Some(others[0].0)
    else
      var r := FindTarget(others[1..], target);
      assert forall i :: 0 < i < |others| ==> others[i] == others[1..][i - 1];
      if r.Some? then
        var i :| 0 <= i < |others[1..]| && others[1..][i].1 == target && others[1..][i].0 == r.value
          && forall j :: 0 <= j < i ==> others[1..][j].1 != target;
        assert others[i + 1].1 == target && others[i + 1].0 == r.value;
        r
      else r
  }

  /** `update_camera`: the camera moves to its target's position (map
      included) when the target is found among the other named entities,
      then is clamped to the bounds of its map when asked to and the map is
      known; an unknown map leaves the position as it is. */
  function UpdateCamera(pos: WorldPos, cam: Camera, others: seq<(WorldPos, string)>, maps: map<string, Rect>): (r: WorldPos)
    ensures var followed := if cam.targetEntity.Some? && FindTarget(others, cam.targetEntity.value).Some?
                            then FindTarget(others, cam.targetEntity.value).value else pos;
      r.mapName == followed.mapName
      && (cam.clampToMap && followed.mapName in maps ==> r.mapPos == ClampCamera(followed.mapPos, cam.size, maps[followed.mapName]))
      && (!cam.clampToMap || followed.mapName !in maps ==> r == followed)
  {
    var followed :=
      match cam.targetEntity
      case Some(t) => (match FindTarget(others, t) case Some(p) => p case None => pos)
      case None => pos;
    if cam.clampToMap && followed.mapName in maps then
      followed.(mapPos := ClampCamera(followed.mapPos, cam.size, maps[followed.mapName]))
    else followed
  }
}

=== FILE: text.dfy ===
/** String primitives of Rust's `str` that the game's script handling relies on:
    substring search, `split_once`, `lines`, `trim_end`, and the decimal
    rendering of integers. Strings are sequences of characters; indices are
    character positions rather than UTF-8 byte offsets. A boundary found by
    a search, or one just past an ASCII character, is a character boundary
    in both readings and gives the same slice. A byte offset computed any
    other way can fall inside a multi-byte character, where Rust's slicing
    panics; the one such offset the game computes, the end index of
    `read_script_from_file`, carries that check explicitly (`IsOneByte`). */
module Text {
  import opened Wrappers

  /** `pat` occurs in `s` starting at position `i`. */
  predicate OccursAt(s: string, pat: string, i: nat) {
    i + |pat| <= |s| && s[i..i + |pat|] == pat
  }

  /** `pat` occurs somewhere in `s`. */
  predicate Contains(s: string, pat: string) {
    exists i: nat :: i <= |s| && OccursAt(s, pat, i)
  }

  /** First occurrence of `pat` at or after `from` (Rust's `str::find` on a suffix). */
  function FindFrom(s: string, pat: string, from: nat): (r: Option<nat>)
    decreases |s| - from
    ensures r.Some? ==> from <= r.value && OccursAt(s, pat, r.value)
    ensures r.Some? ==> forall j: nat :: from <= j < r.value ==> !OccursAt(s, pat, j)
    ensures r.None? ==> forall j: nat :: from <= j ==> !OccursAt(s, pat, j)
  {
    if from + |pat| > |s| then None
    else if s[from..from + |pat|] == pat then Some(from)
    else FindFrom(s, pat, from + 1)
  }

  /** First occurrence of `pat` in `s` (Rust's `str::find`). */
  function Find(s: string, pat: string): (r: Option<nat>)
    ensures r.Some? ==> OccursAt(s, pat, r.value)
    ensures r.Some? ==> forall j: nat :: j < r.value ==> !OccursAt(s, pat, j)
    ensures r.None? <==> !Contains(s, pat)
  {
    FindFrom(s, pat, 0)
  }

  /** Rust's `str::split_once`: the text before and after the first `pat`. */
  function SplitOnce(s: string, pat: string): (r: Option<(string, string)>)
    ensures r.Some? ==> s == r.value.0 + pat + r.value.1
    ensures r.Some? ==> forall j: nat :: j < |r.value.0| ==> !OccursAt(s, pat, j)
    ensures r.None? <==> !Contains(s, pat)
  {
    match Find(s, pat)
    case None => None
    case Some(i) =>
      assert s == s[..i] + pat + s[i + |pat|..];
      Some((s[..i], s[i + |pat|..]))
  }

  /** The text before the first `pat` holds no `pat` of its own. */
  lemma SplitOnceHeadClear(s: string, pat: string)
    requires |pat| > 0 && SplitOnce(s, pat).Some?
    ensures !Contains(SplitOnce(s, pat).value.0, pat)
  {
    var (a, b) := SplitOnce(s, pat).value;
    assert a == s[..|a|];
    forall j: nat | j <= |a| ensures !OccursAt(a, pat, j) {
      if OccursAt(a, pat, j) {
        assert j < |a|;
        assert s[j..j + |pat|] == a[j..j + |pat|];
        assert OccursAt(s, pat, j);
      }
    }
  }

  /** Rust's `str::splitn(2, ' ')` read as a pair: the text up to the first
      space, and the remainder after it if there was a space. */
  function SplitFirstSpace(s: string): (r: (string, Option<string>))
    ensures r.1.Some? ==> s == r.0 + " " + r.1.value
    ensures r.1.None? ==> r.0 == s && ' ' !in s
    ensures ' ' !in r.0
  {
    match SplitOnce(s, " ")
    case Some((a, b)) =>
      assert forall j :: 0 <= j < |a| ==> s[j] == a[j] && !OccursAt(s, " ", j);
      (a, Some(b))
    case None =>
      assert forall j :: 0 <= j < |s| ==> OccursAt(s, " ", j) == (s[j] == ' ');
      (s, None)
  }

  /** Characters Rust's `char::is_whitespace` accepts (Unicode White_Space). */
  predicate IsWhitespace(c: char) {
    c == ' ' || c == '\t' || c == '\n' || c == '\r' || c == '\U{000B}' || c == '\U{000C}'
    || c == '\U{0085}' || c == '\U{00A0}' || c == '\U{1680}'
    || ('\U{2000}' <= c <= '\U{200A}')
    || c == '\U{2028}' || c == '\U{2029}' || c == '\U{202F}' || c == '\U{205F}' || c == '\U{3000}'
  }

  /** `c` takes a single byte in UTF-8. The byte offset just before a
      character is a character boundary exactly when the character before
      it is such a one-byte character. */
  predicate IsOneByte(c: char) {
    c < '\U{0080}'
  }

  /** Rust's `str::trim_end`: the longest prefix not ending in whitespace. */
  function TrimEnd(s: string): (r: string)
    ensures r <= s
    ensures |r| > 0 ==> !IsWhitespace(r[|r| - 1])
    ensures forall i :: |r| <= i < |s| ==> IsWhitespace(s[i])
  {
    if |s| > 0 && IsWhitespace(s[|s| - 1]) then TrimEnd(s[..|s| - 1]) else s
  }

  /** The position of the first `'\n'` in `s`, or `|s|` when there is none. */
  function LineEnd(s: string): (r: nat)
    ensures r <= |s|
    ensures r < |s| ==> s[r] == '\n'
    ensures '\n' !in s[..r]
  {
    if |s| == 0 || s[0] == '\n' then 0 else 1 + LineEnd(s[1..])
  }

  /** Rust's `str::lines`: split at `\n`, drop one `\r` before each `\n`, and
      yield no empty line after a final line ending. */
  function Lines(s: string): (r: seq<string>)
    decreases |s|
    ensures s == [] <==> r == []
    ensures forall k :: 0 <= k < |r| ==> '\n' !in r[k]
  {
    if s == [] then []
    else
      var e := LineEnd(s);
      var line := if e < |s| && e > 0 && s[e - 1] == '\r' then s[..e - 1] else s[..e];
      assert '\n' !in line by {
        assert forall c :: c in line ==> c in s[..e];
      }
      [line] + (if e < |s| then Lines(s[e + 1..]) else [])
  }

  /** Lines put back together with a `'\n'` between each two. */
  function JoinLines(ls: seq<string>): string
    decreases |ls|
  {
    if |ls| == 0 then "" else if |ls| == 1 then ls[0] else ls[0] + "\n" + JoinLines(ls[1..])
  }

  /** The first line ending of `x + "\n" + rest` is the one after `x` when `x`
      holds none. */
  lemma {:induction false} LineEndAfter(x: string, rest: string)
    requires '\n' !in x
    ensures LineEnd(x + "\n" + rest) == |x|
    decreases |x|
  {
    var s := x + "\n" + rest;
    if x != [] {
      assert s[0] == x[0];
      assert x[0] in x;
      assert s[1..] == x[1..] + "\n" + rest;
      assert '\n' !in x[1..] by {
        assert forall c :: c in x[1..] ==> c in x;
      }
      LineEndAfter(x[1..], rest);
    }
  }

  /** A line without a final carriage return, then a line break, then the
      rest: the first line is `x` and the others are the rest's lines. */
  lemma LinesCons(x: string, rest: string)
    requires '\n' !in x && (|x| == 0 || x[|x| - 1] != '\r')
    ensures Lines(x + "\n" + rest) == [x] + Lines(rest)
  {
    var s := x + "\n" + rest;
    LineEndAfter(x, rest);
    assert s[..|x|] == x;
    assert s[|x| + 1..] == rest;
  }

  /** A non-empty text without line break or final carriage return is one
      line. */
  lemma LinesSingle(x: string)
    requires |x| > 0 && '\n' !in x && x[|x| - 1] != '\r'
    ensures Lines(x) == [x]
  {
    assert LineEnd(x) == |x|;
    assert x[..|x|] == x;
  }

  /** Splitting a text without carriage returns or a final line ending and
      joining the lines with `'\n'` gives the text back: every character
      lands in exactly one line, in order, and each break is one `'\n'`. */
  lemma {:induction false} LinesJoinBack(s: string)
    requires '\r' !in s
    requires |s| > 0 ==> s[|s| - 1] != '\n'
    ensures JoinLines(Lines(s)) == s
    decreases |s|
  {
    if s != [] {
      var e := LineEnd(s);
      if e == |s| {
        assert s[..e] == s;
        LinesSingle(s);
      } else {
        var x, rest := s[..e], s[e + 1..];
        assert s == x + "\n" + rest;
        assert forall c :: c in x ==> c in s;
        assert forall c :: c in rest ==> c in s;
        assert rest != [] && rest[|rest| - 1] == s[|s| - 1];
        LinesCons(x, rest);
        LinesJoinBack(rest);
        var ls := [x] + Lines(rest);
        assert ls[1..] == Lines(rest);
      }
    }
  }

  /** The other way round: joining lines that hold no line break or carriage
      return, the last one not empty, and splitting again gives the lines
      back. */
  lemma {:induction false} LinesOfJoin(ls: seq<string>)
    requires |ls| > 0 && |ls[|ls| - 1]| > 0
    requires forall k :: 0 <= k < |ls| ==> '\n' !in ls[k] && '\r' !in ls[k]
    ensures Lines(JoinLines(ls)) == ls
    decreases |ls|
  {
    var x := ls[0];
    assert '\n' !in x && '\r' !in x;
    assert |x| > 0 ==> x[|x| - 1] in x;
    if |ls| == 1 {
      LinesSingle(x);
    } else {
      var tail := ls[1..];
      assert tail[|tail| - 1] == ls[|ls| - 1];
      assert forall k :: 0 <= k < |tail| ==> tail[k] == ls[k + 1];
      LinesOfJoin(tail);
      assert JoinLines(ls) == x + "\n" + JoinLines(tail);
      LinesCons(x, JoinLines(tail));
    }
  }

  /** Decimal digits of a natural number, most significant first. */
  function NatToString(n: nat): (r: string)
    decreases n
    ensures |r| > 0
    ensures forall i :: 0 <= i < |r| ==> '0' <= r[i] <= '9'
  {
    if n < 10 then [DigitChar(n)] else NatToString(n / 10) + [DigitChar(n % 10)]
  }

  function DigitChar(d: nat): (c: char)
    requires d < 10
    ensures '0' <= c <= '9'
  {
    ['0', '1', '2', '3', '4', '5', '6', '7', '8', '9'][d]
  }

  /** Rust's `to_string` on a signed integer: an optional minus sign and digits. */
  function IntToString(n: int): (r: string)
    ensures n >= 0 ==> r == NatToString(n)
    ensures n < 0 ==> r == "-" + NatToString(-n)
  {
    if n >= 0 then NatToString(n) else "-" + NatToString(-n)
  }

  /** Value of a string of decimal digits: the partner of `NatToString`. */
  function DigitsValue(s: string): (r: nat)
    requires forall i :: 0 <= i < |s| ==> '0' <= s[i] <= '9'
  {
    if s == [] then 0 else 10 * DigitsValue(s[..|s| - 1]) + ((s[|s| - 1] as int) - ('0' as int))
  }

  /** Rendering a number and reading the digits back gives the number. */
  lemma {:induction false} NatToStringRoundTrip(n: nat)
    ensures DigitsValue(NatToString(n)) == n
  {
    var r := NatToString(n);
    if n < 10 {
      assert r[..|r| - 1] == [];
      assert DigitsValue(r) == (DigitChar(n) as int) - ('0' as int);
    } else {
      NatToStringRoundTrip(n / 10);
      assert r[..|r| - 1] == NatToString(n / 10);
      assert (DigitChar(n % 10) as int) - ('0' as int) == n % 10;
    }
  }

  /** A rendered integer never contains the brace characters that delimit
      substitution placeholders. */
  lemma IntToStringHasNoBraces(n: int)
    ensures '{' !in IntToString(n) && '}' !in IntToString(n)
  {
  }
}

=== FILE: vm.dfy ===
/** The Lua side of scripting, as far as the Rust host can observe it. The VM
    itself is not modelled: a thread is an opaque handle plus the status the
    host reads after resuming it, and compiling and resuming are parameters
    (oracles) of the operations that use them. */
module Vm {
  import opened Wrappers

  /** `ThreadStatus` of the Lua bindings. */
  datatype ThreadStatus = Resumable | Unresumable | Error

  /** A coroutine: `handle` stands for its VM-side state. */
  datatype Thread = Thread(handle: nat, status: ThreadStatus)

  /** What one resume of a thread leaves behind: the thread (its status now
      says whether it yielded, returned or raised), the host state the
      callbacks it made produced, and the wait a blocking callback installed. */
  datatype Resumed<H, W> = Resumed(thread: Thread, host: H, wait: Option<W>)

  /** A thread has finished when it can no longer be resumed, by returning
      or by raising. */
  predicate Finished(t: Thread) {
    t.status != Resumable
  }
}

=== FILE: wrappers.dfy ===
/** Failure-compatible wrappers shared by every module of the model: an optional
    value, and a result that carries either a value or an error. */
module Wrappers {

  /** A value that may be absent (Rust's `Option`). */
  datatype Option<+T> = None | Some(value: T) {

    predicate IsFailure() {
      None?
    }

    function PropagateFailure<U>(): Option<U>
      requires None?
    {
      None
    }

    function Extract(): T
      requires Some?
    {
      value
    }

    /** The value, or `default` when absent (Rust's `unwrap_or`). */
    function GetOr(default: T): T {
      match this
      case Some(v) => v
      case None => default
    }
  }

  /** A value or an error (Rust's `Result`). */
  datatype Result<+T, +E> = Ok(value: T) | Err(error: E) {

    predicate IsFailure() {
      Err?
    }

    function PropagateFailure<U>(): Result<U, E>
      requires Err?
    {
      Err(error)
    }

    function Extract(): T
      requires Ok?
    {
      value
    }
  }
}
